=== FILE: README.md ===
# InjectStack in Dafny

InjectStack is a PHP gateway in the style of Rack. An adapter turns what a
transport delivers into an environment array (`$env`) and calls an
application with it. The application returns `array(status, headers, body)`,
and the adapter turns that triple back into bytes. Middleware wraps the
application, and endpoints dispatch to further applications. The repository
holds two generations of the code: `Inject\Stack` under `src/php/Inject/Stack`
and the older `InjectStack` under `src/php/InjectStack`. Where they differ,
both are modelled.

This project models the deterministic core of both generations:

- **HTTP/1.1 adapters** (`http_socket.dfy`, `event_loop.dfy`):
  - request-head parsing and its 400/414/501/505 answers;
  - promotion of Content-Length and Content-Type into the env;
  - response framing, with Content-Length injection and the chunked transfer coding of section 4.1 of RFC 7230;
  - the event loop's per-read classification, its keep-alive decision and its table of clients.
- **Mongrel2 adapters** (`mongrel2.dfy`, `mongrel2_legacy.dfy`): decoding of the `uuid connid path len:header,len:body,` envelope, the env built from it, and reply framing.
- **Worker supervisors** (`daemon.dfy`, `daemon_legacy.dfy`):
  - the slot table from slot to pid;
  - the shared liveness bytes and the hang sweep;
  - respawning in the same slot;
  - kill and reload fan-out.
- **Helpers and endpoints**:
  - the status-text table and method check (`util.dfy`);
  - the Lint validator (`lint.dfy`);
  - host, port and URL derivation (`request.dfy`);
  - longest-prefix routing (`urlmap.dfy`);
  - the two cascade rules (`cascade.dfy`);
  - middleware-chain construction (`builder.dfy`).
- **Sessions**:
  - the session middleware in both variants, and its Bucket (`session.dfy`);
  - the SessionInvalidator (`session_invalidator.dfy`);
  - the in-process ArrayStorage (`session_storage.dfy`);
  - the Mongrel2 cookie id handler (`session_cookie.dfy`).

`php.dfy` models the PHP 8 semantics the code leans on:
- `empty()`, under which "0" is empty;
- arrays as ordered key/value sequences, where `$a[k] = v` replaces or appends;
- string functions;
- the `(int)` cast of a string: leading whitespace, a sign, digits with an optional fraction and exponent, truncated toward zero and saturated to the 64-bit range.

`gateway.dfy` holds the env, the response triple and the application type.

Each PHP class whose methods update fields becomes a Dafny class with those
fields. Each of its methods is proved against a function that states what
the call computes, and the lemmas about those functions state what the code
promises. Sockets, streams, the clock, random numbers, process ids and
shared memory become inputs: lists of reads, an oracle for each draw, a
recorded log of writes and signals.

## Model

| member | source | states |
|---|---|---|
| Php.IntCast | src/php/InjectStack/Middleware/Lint.php:183 | `(int)` of a string is always within PHP_INT_MIN..PHP_INT_MAX |
| Php.IntCastNonNumeric | src/php/InjectStack/Adapter/Mongrel2.php:177-179 | A string that starts with neither whitespace, a sign, a digit nor '.' casts to 0 |
| Php.IntCastStops | src/php/InjectStack/Adapter/Mongrel2.php:168-170 | Digits followed by a character that cannot continue a number cast to the value of the digits |
| Php.IntCastDropsFraction | src/php/InjectStack/Middleware/Lint.php:183 | A fraction is dropped: digits, '.' and digits cast to the value of the digits before the '.' |
| Php.IntCastExponent | src/php/Inject/Stack/Adapter/HTTPSocketEventLoop.php:172 | An exponent scales the digits before it by that power of ten, saturated to the 64-bit range |
| Php.IntCastThousand | src/php/Inject/Stack/Adapter/HTTPSocketEventLoop.php:172 | "1e3" casts to 1000 |
| Php.IntCastSaturates | src/php/Inject/Stack/Adapter/HTTPSocketEventLoop.php:172 | Digits beyond PHP_INT_MAX cast to PHP_INT_MAX |
| Util.AdapterErrorTexts | src/php/InjectStack/Util.php:36-79 | The table maps 400, 414, 501, 505, 200 and 404 to "Bad Request", "Request-URI Too Long", "Not Implemented", "HTTP Version Not Supported", "OK" and "Not Found", and has no entry for 306 or 0 |
| Util.AdapterErrorPhrases | src/php/InjectStack/Util.php:36-79 | The phrases of the codes the adapters send on their own contain only characters that section 3.1.2 of RFC 7230 allows in a reason phrase, so no CR or LF |
| Util.AcceptedMethodsJoined | src/php/InjectStack/Util.php:20-29 | All methods but the last, joined by ", ", spell "CONNECT, DELETE, GET, HEAD, OPTIONS, POST, PUT" |
| Util.AcceptedMethodsTextSpelled | src/php/InjectStack/Util.php:110 | The list in the error message reads "CONNECT, DELETE, GET, HEAD, OPTIONS, POST, PUT and TRACE" |
| Util.CheckRequestMethod | src/php/InjectStack/Util.php:105-126 | Succeeds exactly when the upper-cased method is one of the eight listed, and then returns the upper-cased method; otherwise fails with the message chosen by the post-override flag |
| Util.CheckRequestMethodIgnoresCase | src/php/InjectStack/Util.php:107 | Lower-casing the input first changes nothing in the outcome |
| Util.CheckRequestMethodIdempotent | src/php/InjectStack/Util.php:105-126 | An accepted method, checked again with either flag, is accepted unchanged |
| Util.PostOverrideOnlyChangesMessage | src/php/InjectStack/Util.php:112-122 | The post-override flag never changes whether the method is accepted, nor the accepted value |
| Gateway.StreamContents | src/php/Inject/Stack/Adapter/HTTPSocket.php:196 | stream_get_contents() under PHP 8: a length below -1 throws a ValueError (None) and any other length reads a prefix of the remaining input, all of it for -1, else exactly the requested length or all there is |
| Gateway.Promote | src/php/Inject/Stack/Adapter/HTTPSocket.php:178-197 | Promotion throws exactly when the content type is a form type and the length it reads with (CONTENT_LENGTH once promoted, else the fallback) is below -1. Otherwise: a non-empty HTTP_CONTENT_LENGTH is removed and CONTENT_LENGTH holds its integer value, else CONTENT_LENGTH is kept; a non-empty HTTP_CONTENT_TYPE moves to CONTENT_TYPE; a form type sets inject.post to the parse of the body read with that length, and any other type leaves inject.post untouched; every other key keeps its value and none is added |
| Gateway.PromoteKeeps | src/php/Inject/Stack/Adapter/HTTPSocketEventLoop.php:169-188 | A promotion that does not throw reads the same for every key outside the five it may touch |
| Gateway.NegativeLengthRaises | src/php/Inject/Stack/Adapter/HTTPSocket.php:178-197 | A form request whose Content-Length header casts below -1 throws before the handler is called, and one whose Content-Length casts to a positive integer does not |
| Gateway.HeaderKey | src/php/Inject/Stack/Adapter/HTTPSocket.php:288 | A header name becomes "HTTP_" followed by as many characters, none of them '-' or a lower-case letter |
| HttpSocket.Configure | src/php/Inject/Stack/Adapter/HTTPSocket.php:94-110 | default_env holds every built-in key and every given key, a given value winning; a non-empty method list replaces the default one, an empty one keeps it |
| HttpSocket.Server.constructor | src/php/Inject/Stack/Adapter/HTTPSocket.php:94-110 | The server starts with the configuration above, running, with nothing written |
| HttpSocket.NameEnd | src/php/Inject/Stack/Adapter/HTTPSocket.php:282-286 | A header line is refused exactly when it has no ':' or starts with one; otherwise the name ends at the first ':' |
| HttpSocket.SplitTarget | src/php/Inject/Stack/Adapter/HTTPSocket.php:293 | The path and the query put back together around '?' give the request target; without '?' the path is the whole target |
| HttpSocket.RequestEnv | src/php/Inject/Stack/Adapter/HTTPSocket.php:293-299 | REQUEST_METHOD, REQUEST_URI and HTTP_VERSION are the three fields, PATH_INFO the path, QUERY_STRING the query or '' when it is empty, and every other key is kept |
| HttpSocket.ParseRequestHeader | src/php/Inject/Stack/Adapter/HTTPSocket.php:238-302 | A head that does not parse is answered with 400, 501 or 505 and nothing else |
| HttpSocket.ParseRequestHeaderOutcome | src/php/Inject/Stack/Adapter/HTTPSocket.php:240-266 | 400 when there is no CRLF or the request line does not have exactly three space-separated fields; then 501 exactly when the method is not allowed; then 505 exactly when the version is not "HTTP/1.1"; otherwise it parses exactly when every header line does |
| HttpSocket.ParsedEnvContents | src/php/Inject/Stack/Adapter/HTTPSocket.php:268-301 | A parsed env is the request line's entries over the folded header lines over default_env, with an allowed method and version "HTTP/1.1" |
| HttpSocket.HeaderStepFails | src/php/Inject/Stack/Adapter/HTTPSocket.php:272-291 | One header line fails exactly when it is neither folded nor has a ':' after its first character |
| HttpSocket.FoldRejectsIff | src/php/Inject/Stack/Adapter/HTTPSocket.php:272-291 | The header loop returns 400 exactly when some line is bad |
| HttpSocket.FoldSnoc | src/php/Inject/Stack/Adapter/HTTPSocket.php:272-291 | Reading one more line is one more step on the env and last key the earlier lines left |
| HttpSocket.LastHeaderWins | src/php/Inject/Stack/Adapter/HTTPSocket.php:288-290 | The last header line with a name leaves its left-trimmed value under that name's key, whatever came before |
| HttpSocket.HeaderLineStep | src/php/Inject/Stack/Adapter/HTTPSocket.php:282-290 | A `name:value` line stores the value, with leading blanks trimmed, under HTTP_ plus the upper-cased name and makes that key the last one |
| HttpSocket.ContinuationAppends | src/php/Inject/Stack/Adapter/HTTPSocket.php:275-280 | A line starting with a space or tab is appended, left-trimmed and with no separator, to the value of the last key |
| HttpSocket.GetRemote | src/php/Inject/Stack/Adapter/HTTPSocket.php:312-326 | The address is the peer name before its last ':', and no ':' follows in the port part; with no ':' past the first character the whole name is the address and the port is '' |
| HttpSocket.GetRemoteOfPeerName | src/php/Inject/Stack/Adapter/HTTPSocket.php:312-326 | `address:port` splits back into the address and the integer port, whatever colons the address holds |
| HttpSocket.HeaderLines | src/php/Inject/Stack/Adapter/HTTPSocket.php:363-367 | One `name: value` line per header, in the handler's order |
| HttpSocket.Framing | src/php/Inject/Stack/Adapter/HTTPSocket.php:347-362 | With neither Content-Length nor Transfer-Encoding set, a non-empty string body gets Content-Length set to its length and a stream gets chunked Transfer-Encoding, which is the only case that chunks; otherwise the headers are kept |
| HttpSocket.HeadAsWrittenWithHeaders | src/php/Inject/Stack/Adapter/HTTPSocket.php:371 | With at least one header, the head as written equals the status line and header lines each ending in CRLF, then one CRLF |
| HttpSocket.HeadReadsBack | src/php/Inject/Stack/Adapter/HTTPSocket.php:371 | A client reading the intended head gets the status line and header lines back in order, and what follows the head is left untouched |
| HttpSocket.HeadAsWrittenWithoutHeaders | src/php/Inject/Stack/Adapter/HTTPSocket.php:371 | As written, a response without headers has one CRLF too many, which the client reads as the start of the body |
| HttpSocket.ChunkWrites | src/php/Inject/Stack/Adapter/HTTPSocket.php:384-388 | The chunk writes of a stream, concatenated, are the intended chunks of its reads: one chunk per non-empty read. Equal to the chunks as written when no read is empty (ChunksAsWrittenWithoutEmptyReads) |
| HttpSocket.ChunkedRoundTrip | src/php/Inject/Stack/Adapter/HTTPSocket.php:384-391 | Decoding the chunks and the last chunk gives back the concatenation of the reads, and the bytes after them are untouched |
| HttpSocket.ChunksAsWrittenEmptyRead | src/php/Inject/Stack/Adapter/HTTPSocket.php:384-391 | As written, a stream whose last read is empty writes a size-0 chunk before the last chunk, so the client's body ends early and a stray last chunk follows; the intended chunks decode cleanly |
| HttpSocket.ChunksAsWrittenWithoutEmptyReads | src/php/Inject/Stack/Adapter/HTTPSocket.php:384-388 | When no read is empty, the chunks as written equal the intended ones |
| HttpSocket.TextResponseWire | src/php/Inject/Stack/Adapter/HTTPSocket.php:347-376 | A non-empty string response without framing headers goes out as the head with Content-Length added, then the body |
| HttpSocket.TextResponseReadsBack | src/php/Inject/Stack/Adapter/HTTPSocket.php:347-376 | The client reads the status line, the header lines with Content-Length equal to the body's length, and then exactly the body |
| HttpSocket.StreamResponseReadsBack | src/php/Inject/Stack/Adapter/HTTPSocket.php:347-391 | A stream response without framing headers, framed as intended, is read as a head with chunked Transfer-Encoding, and its chunks decode into the concatenation of the stream's reads |
| HttpSocket.ErrorReplyReadsBack | src/php/Inject/Stack/Adapter/HTTPSocket.php:209 | The error reply is a complete head made of the status line and `Content-Length: 0`, with nothing after it |
| HttpSocket.DispatchEnvRaises | src/php/Inject/Stack/Adapter/HTTPSocket.php:171-197 | Building the handler's env throws exactly when the content type is a form type and CONTENT_LENGTH, once promoted, is below -1 (an empty one reads everything) |
| HttpSocket.DispatchEnvContents | src/php/Inject/Stack/Adapter/HTTPSocket.php:171-176 | When building the env does not throw, the handler sees the connection as inject.input, the peer's address and port, and the parsed query string in inject.get when QUERY_STRING is not empty |
| HttpSocket.Serve | src/php/Inject/Stack/Adapter/HTTPSocket.php:161-219 | With the intended head and chunks: a form body read that throws ends the loop with nothing written and the socket not closed, since `catch (Exception $e)` does not catch the ValueError; every other connection ends with its socket closed; a head that does not parse gets only the error reply, and the handler is not called |
| HttpSocket.RejectedHeadNeverDispatched | src/php/Inject/Stack/Adapter/HTTPSocket.php:169-210 | A rejected head is answered with its status and an empty body, the socket is closed, and no handler runs |
| HttpSocket.Server.ShutdownGracefully | src/php/Inject/Stack/Adapter/HTTPSocket.php:407-410 | The loop flag is cleared and nothing is written |
| HttpSocket.Server.HttpResponse | src/php/Inject/Stack/Adapter/HTTPSocket.php:337-403 | The writes are the intended head and then the body writes of the framed response |
| HttpSocket.Server.WriteBody | src/php/Inject/Stack/Adapter/HTTPSocket.php:373-403 | A string is written at once; a stream is written read by read, as the intended chunks (empty reads skipped) followed by the last chunk when chunked |
| HttpSocket.Server.ServeConnection | src/php/Inject/Stack/Adapter/HTTPSocket.php:161-219 | One connection writes exactly what Serve says, with the intended framing, and reports whether the body read or the handler threw |
| HttpSocket.Server.Run | src/php/Inject/Stack/Adapter/HTTPSocket.php:149-221 | Connections are served in order, with the intended framing, until a form body read or a handler throws (reported) or a shutdown arrives; a stopped server writes nothing |
| HttpSocket.RunStep | src/php/Inject/Stack/Adapter/HTTPSocket.php:149-221 | The loop serves one connection with the intended framing, then stops when its body read or handler threw or a shutdown arrived, and otherwise goes on with the next |
| HttpSocketEventLoop.Classify | src/php/Inject/Stack/Adapter/HTTPSocketEventLoop.php:135-158 | A read with no head end yet waits; an empty head closes the connection; a head at the 4128-byte limit is answered 414; any other head is parsed and answered 400, 501 or 505 when it fails, otherwise dispatched with the parsed env |
| HttpSocketEventLoop.ErrorResponseReadsBack | src/php/Inject/Stack/Adapter/HTTPSocketEventLoop.php:216-218 | The error reply is a complete head with Content-Length equal to the reason text's length and Connection: close, followed by the reason text |
| HttpSocketEventLoop.ShouldClose | src/php/Inject/Stack/Adapter/HTTPSocketEventLoop.php:200-202 | The connection is closed exactly when the request's Connection header or the response's Connection header is "close" |
| HttpSocketEventLoop.EvReadOutcome | src/php/Inject/Stack/Adapter/HTTPSocketEventLoop.php:133-222 | With the intended head and chunks: the connection is closed exactly when the last event closes it; a throwing application closes it and writes nothing; a form body read that throws, before the try block, writes nothing and leaves the connection open; a pending read does nothing; a refused head gets the error reply and a close |
| HttpSocketEventLoop.Finish | src/php/Inject/Stack/Adapter/HTTPSocketEventLoop.php:193-205 | After a returned reply, framed as intended, the connection is closed exactly when ShouldClose holds, and the close is the last event |
| HttpSocketEventLoop.KeepAliveIff | src/php/Inject/Stack/Adapter/HTTPSocketEventLoop.php:135-222 | A connection stays open with nothing thrown exactly when the read is pending, or the head is dispatched, the body read does not throw, the application returns and neither side asked to close |
| HttpSocketEventLoop.RefusedHeadIgnoresApp | src/php/Inject/Stack/Adapter/HTTPSocketEventLoop.php:158-222 | When a head is not dispatched, which application is installed makes no difference |
| HttpSocketEventLoop.EventLoopServer.constructor | src/php/Inject/Stack/Adapter/HTTPSocket.php:94-110 | The loop starts with the HTTPSocket configuration, no clients, nothing logged, running |
| HttpSocketEventLoop.EventLoopServer.EvConnect | src/php/Inject/Stack/Adapter/HTTPSocketEventLoop.php:97-116 | A failed accept changes nothing; an accepted socket is registered under its descriptor |
| HttpSocketEventLoop.EventLoopServer.CloseConnection | src/php/Inject/Stack/Adapter/HTTPSocketEventLoop.php:232-239 | The descriptor is dropped from the clients and the release of the connection is logged as a close |
| HttpSocketEventLoop.EventLoopServer.EvRead | src/php/Inject/Stack/Adapter/HTTPSocketEventLoop.php:133-222 | The log grows by the events EvReadOutcome gives (intended framing), a throw is reported, and the client is dropped exactly when the connection closes |
| HttpSocketEventLoop.EventLoopServer.FinishRequest | src/php/Inject/Stack/Adapter/HTTPSocketEventLoop.php:193-205 | The reply's events, framed as intended, are logged and the client is dropped exactly when Finish closes it |
| HttpSocketEventLoop.EventLoopServer.ShutdownGracefully | src/php/Inject/Stack/Adapter/HTTPSocketEventLoop.php:242-246 | The loop stops; clients and log are unchanged |
| Mongrel2.NextLine | src/php/Inject/Stack/Adapter/Mongrel2.php:317-320 | stream_get_line(): at the end of the stream there is no token; otherwise the token holds no delimiter, is at most `max` bytes, is a prefix of the input, and strictly less input is left |
| Mongrel2.NextLineToken | src/php/Inject/Stack/Adapter/Mongrel2.php:317-320 | A token shorter than the window and followed by its delimiter is read back exactly, and the delimiter is consumed |
| Mongrel2.NextBytes | src/php/Inject/Stack/Adapter/Mongrel2.php:321 | fread(): what is read and what is left make up the input, and a non-negative count reads that many bytes or all there are |
| Mongrel2.NextChar | src/php/Inject/Stack/Adapter/Mongrel2.php:323 | fgetc(): no byte exactly at the end, otherwise the first byte, leaving the rest |
| Mongrel2.TempStream.constructor | src/php/Inject/Stack/Adapter/Mongrel2.php:195-203 | The temporary stream holds the message with the cursor at its start |
| Mongrel2.TempStream.GetLine | src/php/Inject/Stack/Adapter/Mongrel2.php:317-320 | Reading a token moves the cursor exactly as NextLine says |
| Mongrel2.TempStream.Read | src/php/Inject/Stack/Adapter/Mongrel2.php:321 | Reading bytes moves the cursor exactly as NextBytes says |
| Mongrel2.TempStream.Getc | src/php/Inject/Stack/Adapter/Mongrel2.php:323 | Reading a byte moves the cursor exactly as NextChar says |
| Mongrel2.EnvelopeRoundTrip | src/php/Inject/Stack/Adapter/Mongrel2.php:312-335 | A well-formed `UUID CONN_ID PATH len:header,len:body,` message is read back as its UUID, connection id, path, decoded header and body length, whichever comma test is used, and the stream is left at the body and its closing ',' |
| Mongrel2.HeaderRead | src/php/Inject/Stack/Adapter/Mongrel2.php:320-321 | The header length is read up to ':' and cast back to the length, and exactly the header is then read |
| Mongrel2.CommaChecksAgree | src/php/Inject/Stack/Adapter/Mongrel2.php:323-326 | The test as written and the intended one disagree exactly on a byte that is neither ',' nor '0' |
| Mongrel2.CommaCheckAsWrittenAcceptsAnyByte | src/php/Inject/Stack/Adapter/Mongrel2.php:323-326 | A message with ';' where the ',' after the header belongs is accepted as written and refused as intended |
| Mongrel2.ParseRequest | src/php/Inject/Stack/Adapter/Mongrel2.php:312-335 | The fields returned and the stream left behind are those of ParseEnvelope |
| Mongrel2.AddHeaders | src/php/Inject/Stack/Adapter/Mongrel2.php:277-280 | Adding the headers keeps every earlier key |
| Mongrel2.AddHeadersKeeps | src/php/Inject/Stack/Adapter/Mongrel2.php:277-280 | A key no header maps to keeps its value |
| Mongrel2.AddHeadersLastWins | src/php/Inject/Stack/Adapter/Mongrel2.php:277-280 | A header's HTTP_ key holds its value when no later header maps to the same key |
| Mongrel2.PathInfo | src/php/Inject/Stack/Adapter/Mongrel2.php:270 | PATH_INFO always starts with '/', and past that first '/' it neither starts nor ends with '/' |
| Mongrel2.PathInfoBelowPrefix | src/php/Inject/Stack/Adapter/Mongrel2.php:270 | For a path under the pattern, with or without the pattern's trailing '/', PATH_INFO is '/' and the part of the path after the pattern |
| Mongrel2.RequestEntries | src/php/Inject/Stack/Adapter/Mongrel2.php:264-273 | REQUEST_METHOD is the upper-cased METHOD header; SCRIPT_NAME is '' for the pattern '/' and the pattern otherwise; PATH_INFO, REMOTE_ADDR (x-forwarded-for), QUERY_STRING ('' when empty) and inject.input are set; every other default entry is kept |
| Mongrel2.SetEntries | src/php/Inject/Stack/Adapter/Mongrel2.php:264-273 | Each entry holds the value given for it, and every other key of the env is kept |
| Mongrel2.CreateEnvContents | src/php/Inject/Stack/Adapter/Mongrel2.php:262-300 | When the body read does not throw, the finished env still has the request method, script name, path info, remote address and input stream that createEnv() set first |
| Mongrel2.CreateEnvKeeps | src/php/Inject/Stack/Adapter/Mongrel2.php:262-300 | When the body read does not throw, a key no header, content promotion or query parse can touch keeps the value the request entries gave it |
| Mongrel2.HeaderEnvKeeps | src/php/Inject/Stack/Adapter/Mongrel2.php:264-280 | Before promotion, a key outside HTTP_ and inject.get keeps its request-entry value |
| Mongrel2.HeadersExposed | src/php/Inject/Stack/Adapter/Mongrel2.php:277-300 | When the body read does not throw, every header not renamed by the content promotion is in the env under its HTTP_ key with the value of its last occurrence |
| Mongrel2.ReadFrame | src/php/Inject/Stack/Adapter/Mongrel2.php:347-350 | A UUID read from a reply holds no space; ReadFrameSound states that what is read is exactly the reply built from the parts read |
| Mongrel2.ReadFrameSound | src/php/Inject/Stack/Adapter/Mongrel2.php:347-350 | Whatever is read as a reply is exactly the reply built from the parts read |
| Mongrel2.FrameReadsBack | src/php/Inject/Stack/Adapter/Mongrel2.php:347-350 | A reply sendResponse() publishes reads back as its UUID, connection id and payload |
| Mongrel2.Payloads | src/php/Inject/Stack/Adapter/Mongrel2.php:362-430 | httpResponse() publishes at least one message; PayloadsMatchSocket states that the payloads, put together, are the HTTP socket adapter's intended bytes |
| Mongrel2.PayloadsMatchSocket | src/php/Inject/Stack/Adapter/Mongrel2.php:362-430 | The payloads, put together, are the bytes the HTTP socket adapter writes for the same response |
| Mongrel2.Frames | src/php/Inject/Stack/Adapter/Mongrel2.php:401-424 | One reply per payload, in order, each addressed to the same UUID and connection |
| Mongrel2.Handle | src/php/Inject/Stack/Adapter/Mongrel2.php:195-238 | With the intended comma test and payloads: a message without a handler env publishes nothing and does not throw; a throw, from the body read or the handler, publishes nothing |
| Mongrel2.ControlMessageIgnoresApp | src/php/Inject/Stack/Adapter/Mongrel2.php:208-212 | A message with method JSON or path "@*" is skipped: nothing is published and the handler is not called |
| Mongrel2.RequestAnswered | src/php/Inject/Stack/Adapter/Mongrel2.php:195-238 | With the intended comma test and payloads: a request message whose body read throws publishes nothing and the throw is reported; otherwise it reaches the handler with the env createEnv() builds from it; a truthy reply is published as the replies of its payloads, each read back with the request's UUID and connection id; a falsy reply publishes nothing; a throw is reported |
| Mongrel2.RunStep | src/php/Inject/Stack/Adapter/Mongrel2.php:193-244 | The loop handles one message (intended comma test and payloads), then stops when it threw or a shutdown arrived, and otherwise goes on with the next |
| Mongrel2.Adapter.constructor | src/php/Inject/Stack/Adapter/Mongrel2.php:110-126 | default_env is the built-in env overridden by the caller's entries; the adapter is running and has sent nothing |
| Mongrel2.Adapter.ShutdownGracefully | src/php/Inject/Stack/Adapter/Mongrel2.php:246-250 | The run flag is cleared and nothing is sent |
| Mongrel2.Adapter.SendResponse | src/php/Inject/Stack/Adapter/Mongrel2.php:347-350 | Exactly one framed reply is sent |
| Mongrel2.Adapter.HttpResponse | src/php/Inject/Stack/Adapter/Mongrel2.php:362-430 | The replies sent are the frames of the response's intended payloads |
| Mongrel2.Adapter.SendStream | src/php/Inject/Stack/Adapter/Mongrel2.php:406-427 | A stream body is sent read by read, as the intended chunks (empty reads skipped) followed by the last chunk when chunked, each in its own reply |
| Mongrel2.Adapter.HandleMessage | src/php/Inject/Stack/Adapter/Mongrel2.php:195-238 | One message sends exactly what Handle says, with the intended comma test and payloads, and reports whether the body read or the handler threw |
| Mongrel2.Adapter.Run | src/php/Inject/Stack/Adapter/Mongrel2.php:179-244 | Messages are handled in order, with the intended comma test and payloads, until a form body read or a handler throws or a shutdown arrives; a stopped adapter sends nothing |
| Mongrel2Legacy.Parse | src/php/InjectStack/Adapter/Mongrel2.php:164-187 | The UUID of a parsed request holds no space; ParseRoundTrip states that, as intended, a well-formed message is read back whole |
| Mongrel2Legacy.FieldsSplit | src/php/InjectStack/Adapter/Mongrel2.php:166 | The UUID, connection id and path come apart at the first three spaces, the rest kept whole |
| Mongrel2Legacy.LengthSplit | src/php/InjectStack/Adapter/Mongrel2.php:168-170 | A `len:data` netstring prefix gives back exactly the data and what follows |
| Mongrel2Legacy.LengthSplitFromComma | src/php/InjectStack/Adapter/Mongrel2.php:177-179 | A length read from ",<digits>" casts to 0, so nothing is taken and the rest is kept |
| Mongrel2Legacy.HeaderBodyRoundTrip | src/php/InjectStack/Adapter/Mongrel2.php:168-186 | As intended, the header and body netstrings are read back as the header and the body |
| Mongrel2Legacy.BodyRoundTrip | src/php/InjectStack/Adapter/Mongrel2.php:172-184 | As intended, the body netstring after the header's ',' is read back as the body |
| Mongrel2Legacy.BodyAsWrittenFromComma | src/php/InjectStack/Adapter/Mongrel2.php:172-184 | As written, the body comes back empty, and the request is refused when the body starts with '0' |
| Mongrel2Legacy.HeaderBodyAsWrittenLosesBody | src/php/InjectStack/Adapter/Mongrel2.php:168-184 | As written, the header is read back but the body is lost, or the request refused when the body starts with '0' |
| Mongrel2Legacy.ParseRoundTrip | src/php/InjectStack/Adapter/Mongrel2.php:164-187 | As intended, every well-formed message is read back as its UUID, connection id, path, decoded header and body |
| Mongrel2Legacy.ParseAsWrittenLosesBody | src/php/InjectStack/Adapter/Mongrel2.php:164-187 | As written, every well-formed message comes back with an empty body, or is refused when the body starts with '0' |
| Mongrel2Legacy.BodyLostExample | src/php/InjectStack/Adapter/Mongrel2.php:177-179 | The message with body "x" is read with body "x" as intended and "" as written |
| Mongrel2Legacy.QueryString | src/php/InjectStack/Adapter/Mongrel2.php:131 | QUERY_STRING is "" exactly when the QUERY header is empty |
| Mongrel2Legacy.FixedEntries | src/php/InjectStack/Adapter/Mongrel2.php:126-147 | REQUEST_METHOD and PATH_INFO are the METHOD and PATH headers, SCRIPT_NAME is "", inject.input is the body, inject.get the parsed query and inject.post the parsed body |
| Mongrel2Legacy.CreateEnvKeeps | src/php/InjectStack/Adapter/Mongrel2.php:124-155 | Keys outside HTTP_ keep the fixed entries' values after the headers are added |
| Mongrel2Legacy.CreateEnvContents | src/php/InjectStack/Adapter/Mongrel2.php:124-155 | The finished env has the request method, path info, empty script name, body input and parsed post data |
| Mongrel2Legacy.HeadersExposed | src/php/InjectStack/Adapter/Mongrel2.php:149-152 | Every header is in the env under its HTTP_ key with the value of its last occurrence |
| Mongrel2Legacy.ReplyHeaders | src/php/InjectStack/Adapter/Mongrel2.php:220-225 | Content-Length is the content's length, Content-Type is the handler's or text/html, and every other header is the handler's |
| Mongrel2Legacy.ReplyHeadersSafe | src/php/InjectStack/Adapter/Mongrel2.php:220-231 | Added headers keep the header list free of CR and LF when the handler's was |
| Mongrel2Legacy.HttpResponseReadsBack | src/php/InjectStack/Adapter/Mongrel2.php:214-234 | The response reads back as the status line, the reply headers, and then exactly the content |
| Mongrel2Legacy.Adapter.constructor | src/php/InjectStack/Adapter/Mongrel2.php:70-86 | The adapter keeps its UUID and has published nothing |
| Mongrel2Legacy.Adapter.SendResponse | src/php/InjectStack/Adapter/Mongrel2.php:199-204 | Exactly one framed reply is published |
| Mongrel2Legacy.Adapter.Listen | src/php/InjectStack/Adapter/Mongrel2.php:95-112 | One reply per message, in order, each the answer to that message as the intended parse reads it |
| Mongrel2Legacy.Answers | src/php/InjectStack/Adapter/Mongrel2.php:101-111 | As many replies as messages, reply i answering message i as the intended parse reads it |
| Mongrel2Legacy.AnswerReadsBack | src/php/InjectStack/Adapter/Mongrel2.php:103-110 | Each reply is read back as addressed to its request's UUID and connection id, with the handler's response (to the intended parse) as payload |
| Daemon.Pids | src/php/Inject/Stack/Adapter/AbstractDaemon.php:200-205 | The pids of the slot table, one per entry, in iteration order |
| Daemon.PidAt | src/php/Inject/Stack/Adapter/AbstractDaemon.php:154 | A slot holds a pid exactly when its key is in the table, and that entry is in the table |
| Daemon.Search | src/php/Inject/Stack/Adapter/AbstractDaemon.php:172 | array_search(): nothing exactly when the pid is not in the table, otherwise a key whose entry holds that pid |
| Daemon.Unset | src/php/Inject/Stack/Adapter/AbstractDaemon.php:174 | unset(): exactly the entries with other keys are kept |
| Daemon.UnsetOne | src/php/Inject/Stack/Adapter/AbstractDaemon.php:174 | Unsetting a present key of a table with distinct keys removes one entry and that key alone |
| Daemon.UnsetAbsent | src/php/Inject/Stack/Adapter/AbstractDaemon.php:174 | Unsetting a missing key leaves the table as it was |
| Daemon.Fanout | src/php/Inject/Stack/Adapter/AbstractDaemon.php:200-205 | One signal per pid, in the table's order |
| Daemon.Slots | src/php/Inject/Stack/Adapter/AbstractDaemon.php:119-122 | The table serve() fills has key i holding the i-th forked pid |
| Daemon.ChildSleepTime | src/php/Inject/Stack/Adapter/AbstractDaemon.php:365 | A worker sleeps at least one second and about half the supervisor's interval, so it reports twice within each sweep |
| Daemon.FirstSilent | src/php/Inject/Stack/Adapter/AbstractDaemon.php:317-327 | The scan of checkHang(): the first slot whose byte is '0', or -1 exactly when every byte is set |
| Daemon.SweepOf | src/php/Inject/Stack/Adapter/AbstractDaemon.php:143-162 | A tracked reaped pid is the dead one with nothing sent; otherwise, without hang checks, nothing is dead; with them, every byte goes back to '0', and exactly when some slot is silent its worker is dead and gets exactly one SIGTERM |
| Daemon.WaitOf | src/php/Inject/Stack/Adapter/AbstractDaemon.php:136-163 | The wait loop sends at most one signal, a SIGTERM to the worker it reports, which is in the table; it stops after the first turn that names a worker, or with -1 after every turn; without hang checks nothing is sent, and the worker is the first reaped pid of the table, found exactly when one is reaped |
| Daemon.ReportingWorkerSpared | src/php/Inject/Stack/Adapter/AbstractDaemon.php:136-163 | A worker that writes its '1' during every sleep is never the one the wait loop kills |
| Daemon.Supervisor.constructor | src/php/Inject/Stack/Adapter/AbstractDaemon.php:65-94 | The supervisor starts with a 10-second interval, no workers, no signals sent, not exited |
| Daemon.Supervisor.SetSleepTime | src/php/Inject/Stack/Adapter/AbstractDaemon.php:111 | The interval is the requested one, or 2 when fewer than 2 seconds are asked for |
| Daemon.Supervisor.InitShmop | src/php/Inject/Stack/Adapter/AbstractDaemon.php:239-261 | Up to ten keys are tried, stopping at the first that allocates; on success the memory holds one '0' per worker; after ten failures nothing is allocated |
| Daemon.Supervisor.StartChildren | src/php/Inject/Stack/Adapter/AbstractDaemon.php:119-122 | Without a failed fork, slot i holds the i-th pid; a failed fork stops the loop with the slots before it filled |
| Daemon.Supervisor.NotifyNoHang | src/php/Inject/Stack/Adapter/AbstractDaemon.php:296-299 | With hang checks on, a worker's byte becomes '1' and nothing else changes; with them off nothing changes |
| Daemon.Supervisor.CheckHang | src/php/Inject/Stack/Adapter/AbstractDaemon.php:311-333 | The result is the first slot whose byte was '0', or -1 when none was, and every byte is reset to '0' |
| Daemon.Supervisor.Sweep | src/php/Inject/Stack/Adapter/AbstractDaemon.php:141-162 | The pid reported, the signals sent and the bytes left are SweepOf's: a reaped worker of the table is the dead one; otherwise, with hang checks on, the first silent worker is the dead one and gets SIGTERM, or nothing is dead when every worker reported |
| Daemon.Supervisor.Interval | src/php/Inject/Stack/Adapter/AbstractDaemon.php:296-299 | While the supervisor sleeps, the workers of the reported slots write '1' to their bytes when hang checks are on; nothing changes when they are off |
| Daemon.Supervisor.WaitForExit | src/php/Inject/Stack/Adapter/AbstractDaemon.php:136-163 | The pid, the turns used, the signals sent and the bytes left are WaitOf's: the loop ends with a worker of the table, or with none after every turn |
| Daemon.Supervisor.Turn | src/php/Inject/Stack/Adapter/AbstractDaemon.php:139-162 | One turn of the wait loop keeps the loop on course for WaitOf's end: a sweep that names a worker ends there, and otherwise the remaining turns lead to the same end |
| Daemon.Supervisor.Respawn | src/php/Inject/Stack/Adapter/AbstractDaemon.php:171-181 | The dead worker's slot is unset; when the fork succeeds the slot moves to the end of the table with the new pid, when it fails (-1) the slot stays empty and failure is reported, as fork() throws; every other slot keeps its pid, and a pid not in the table changes nothing |
| Daemon.Supervisor.MonitorStep | src/php/Inject/Stack/Adapter/AbstractDaemon.php:125-182 | One pass of the monitor loop replaces exactly the dead worker's pid with the new one in the same slot, or, on a failed fork, leaves that slot empty and reports the failure; no other slot changes. The signals sent and the bytes left are those of WaitOf, and the interval is unchanged |
| Daemon.Supervisor.KillChildren | src/php/Inject/Stack/Adapter/AbstractDaemon.php:194-214 | Every worker gets SIGTERM in table order, the table is emptied and the supervisor exits |
| Daemon.Supervisor.ReloadChildren | src/php/Inject/Stack/Adapter/AbstractDaemon.php:223-229 | Every worker gets SIGUSR1 in table order and nothing else changes |
| Daemon.RespawnKeeps | src/php/Inject/Stack/Adapter/AbstractDaemon.php:171-181 | A respawn keeps the table's size and keys distinct, and its pids distinct: the new pid is in the slot, the old one is gone, and the other slots are untouched |
| Daemon.RespawnPids | src/php/Inject/Stack/Adapter/AbstractDaemon.php:171-181 | After a respawn the pids are still distinct and the dead pid is no longer among them |
| DaemonLegacy.ReapReplaces | src/php/InjectStack/Adapter/AbstractDaemon.php:86-104 | As intended, the exit of a tracked worker keeps the number of workers: its pid is gone, the pids stay distinct and the replacement is the last entry under the next key |
| DaemonLegacy.ReapAsWrittenKeepsFirst | src/php/InjectStack/Adapter/AbstractDaemon.php:99-104 | As written, when the worker under key 0 exits its pid stays in the list and a replacement is appended anyway, so the list grows by one |
| DaemonLegacy.FirstWorkerExample | src/php/InjectStack/Adapter/AbstractDaemon.php:99-104 | With workers 100 and 101, the exit of 100 leaves three entries as written and two as intended |
| DaemonLegacy.UntrackedExitGrows | src/php/InjectStack/Adapter/AbstractDaemon.php:99-104 | The exit of a pid not in the list still appends a new worker, both as written and as intended |
| DaemonLegacy.Supervisor.constructor | src/php/InjectStack/Adapter/AbstractDaemon.php:60-69 | The supervisor starts with no workers, next key 0, no signals sent, not exited |
| DaemonLegacy.Supervisor.StartChildren | src/php/InjectStack/Adapter/AbstractDaemon.php:66-69 | A failure is reported exactly when some fork failed; without one, the forked pids are appended in order under the next keys |
| DaemonLegacy.Supervisor.MonitorStep | src/php/InjectStack/Adapter/AbstractDaemon.php:72-105 | One pass is the intended reap step; a tracked worker's exit keeps the number of workers and drops its pid. A failed fork is reported and loses the worker's entry |
| DaemonLegacy.Supervisor.KillChildren | src/php/InjectStack/Adapter/AbstractDaemon.php:115-133 | Every worker gets SIGTERM in list order, the list is emptied and the supervisor exits |
| DaemonLegacy.Supervisor.ReloadChildren | src/php/InjectStack/Adapter/AbstractDaemon.php:143-149 | Every worker gets SIGUSR1 in list order and nothing else changes |
| DaemonLegacy.AppendFresh | src/php/InjectStack/Adapter/AbstractDaemon.php:68 | Appending a new pid under the next key keeps the keys below the counter and the pids distinct |
| Lint.Strlen | src/php/InjectStack/Middleware/Lint.php:265-272 | Under PHP 8, strlen() gives a length exactly for a string-equivalent value that is not a stream, that length being the length of its string form; otherwise it throws a TypeError |
| Lint.Chomp | src/php/InjectStack/Middleware/Lint.php:149 | The subject a `$`-anchored pattern sees is the value itself or the value without one final line feed |
| Lint.LineControlFree | src/php/InjectStack/Middleware/Lint.php:201 | On a line without a line feed, the pattern `[\000-\027]` not matching is the same as holding no byte up to 0x17 |
| Lint.LinesCleanIff | src/php/InjectStack/Middleware/Lint.php:199-202 | Every line of a header value passes the pattern exactly when the value holds no byte up to 0x17 except line feeds |
| Lint.ValueLinesClean | src/php/InjectStack/Middleware/Lint.php:199-202 | The line-by-line check of a header value accepts exactly the values free of control bytes up to 0x17, line feeds aside |
| Lint.FirstUnset | src/php/InjectStack/Middleware/Lint.php:116-120 | No key is reported exactly when every required key is set; a reported key is required and unset |
| Lint.RootedIff | src/php/InjectStack/Middleware/Lint.php:151-155 | `empty or substr(..., 0, 1) === '/'` holds exactly when the value is empty or its string starts with '/' |
| Lint.CheckEnv | src/php/InjectStack/Middleware/Lint.php:91-161 | checkEnv() throws exactly when some rule is broken: a required key unset, HTTP_CONTENT_TYPE or HTTP_CONTENT_LENGTH set, a key without '.' not string-equivalent, an unknown url scheme, a non-string adapter, non-array get or post data, a method that is not a token, a SCRIPT_NAME or PATH_INFO not starting with '/', a CONTENT_LENGTH that is not digits, or a SCRIPT_NAME of '/'; a missing key reported is required and unset |
| Lint.IsCodeWithNoBody | src/php/InjectStack/Middleware/Lint.php:286-289 | A status has no body exactly when it is 199, 204 or 304 |
| Lint.HeaderViolation | src/php/InjectStack/Middleware/Lint.php:187-203 | A header passes exactly when its name is not numeric, not "status" in any case, holds no ':' or line feed and matches the name pattern, and its value is string-equivalent, not a stream (explode() throws a TypeError on one under PHP 8) and free of control bytes |
| Lint.FirstBadHeader | src/php/InjectStack/Middleware/Lint.php:187-203 | No violation exactly when every header passes; otherwise the violation is that of some header |
| Lint.FindHeader | src/php/InjectStack/Middleware/Lint.php:223-226 | Nothing found exactly when no header has the name in any case; a found index has it |
| Lint.ContentTypeViolation | src/php/InjectStack/Middleware/Lint.php:221-234 | The Content-Type check passes exactly when a Content-Type header is present if and only if the status may have a body |
| Lint.ContentLengthIsLast | src/php/InjectStack/Middleware/Lint.php:252-259 | The Content-Length the loop keeps is the value of the last such header, and none is kept exactly when there is none |
| Lint.ContentLengthViolationIff | src/php/InjectStack/Middleware/Lint.php:247-275 | The Content-Length check passes exactly when a bodiless status has no Content-Length, a HEAD response's body is an empty string (a stream makes strlen() throw under PHP 8), and otherwise the last Content-Length, unless its value is `false` (which counts as no header, as `$content_length !== false` does), equals the length of a body that is not a stream |
| Lint.HeadersViolation | src/php/InjectStack/Middleware/Lint.php:187-210 | The header loop, the Content-Type and Content-Length checks (strlen() and explode() as in PHP 8, a Content-Length of `false` counting as none) and the body check pass exactly when every rule of each holds |
| Lint.BodyRulesViolation | src/php/InjectStack/Middleware/Lint.php:205-210 | Once every header has passed, the Content-Type, Content-Length and body checks pass exactly when a Content-Type is present if and only if the status may have a body, the Content-Length rules hold (a Content-Length of `false` counting as none) and the body is string-equivalent |
| Lint.CheckReturn | src/php/InjectStack/Middleware/Lint.php:171-210 | checkRet() throws exactly when the return value is not a three-part array, its status is not digits or is below 100, its headers are not an array, or a header or body rule is broken, a strlen() or explode() TypeError under PHP 8 included |
| Lint.LintMiddleware.constructor | src/php/InjectStack/Middleware/Lint.php:39-46 | The middleware holds the next application and starts with head_request false |
| Lint.LintMiddleware.SetNext | src/php/InjectStack/Middleware/Lint.php:56-59 | The next application is replaced and nothing else changes |
| Lint.LintMiddleware.CheckRet | src/php/InjectStack/Middleware/Lint.php:171-210 | The return value is refused exactly when it does not conform under the current head_request flag |
| Lint.LintMiddleware.Invoke | src/php/InjectStack/Middleware/Lint.php:69-81 | A non-conforming env is refused with checkEnv()'s violation before the next application runs; otherwise head_request records whether the method is HEAD, and the next application's return value is passed through exactly when it conforms |
| Lint.HeadBodyMustBeEmpty | src/php/InjectStack/Middleware/Lint.php:263-266 | A conforming string body given for a HEAD request is empty |
| Lint.LengthMustMatch | src/php/InjectStack/Middleware/Lint.php:267-273 | When the last Content-Length of a conforming response is an integer, it is the length of the string body |
| Lint.LastLengthRule | src/php/InjectStack/Middleware/Lint.php:252-273 | For a string body, the Content-Length comparison is made against the value of the last Content-Length header, and passes when there is none or its value is `false` |
| Lint.FalseLengthSkipped | src/php/InjectStack/Middleware/Lint.php:250-268 | When the last Content-Length header's value is `false`, the body is not compared with it, whatever the body |
| Lint.StreamHeaderRefused | src/php/InjectStack/Middleware/Lint.php:197-199 | A well-named header whose value is a stream passes isStringEquivalent() but is refused, explode() throwing a TypeError on it under PHP 8 |
| Request.LastPieceIsTail | src/php/Inject/Stack/Request.php:108 | `end(explode(c, s))` is the tail of the string after its last `c`, holding no `c` |
| Request.FirstPieceIsHead | src/php/Inject/Stack/Request.php:134 | `reset(explode(c, s))` is the head of the string before its first `c`, holding no `c` |
| Request.PathSplitsBack | src/php/Inject/Stack/Request.php:46-49 | The path splits at its first '?' back into PATH_INFO and QUERY_STRING, and has no '?' when the query is empty |
| Request.HostWithPort | src/php/Inject/Stack/Request.php:102-123 | With X-Forwarded-Host set, the host is its last comma-separated entry, trimmed and holding no ','; otherwise a non-empty Host header is used as it is |
| Request.Host | src/php/Inject/Stack/Request.php:132-135 | The host is the text before the first ':' of the host with port, and holds no ':' |
| Request.PortAsWrittenIgnoresHost | src/php/Inject/Stack/Request.php:144-156 | As written, getPort() answers SERVER_PORT whatever the host says |
| Request.PortFromHost | src/php/Inject/Stack/Request.php:144-156 | As intended, a `name:port` host gives that port |
| Request.PortExample | src/php/Inject/Stack/Request.php:148 | For host example.com:8080 and SERVER_PORT 80 the port is 80 as written and 8080 as intended |
| Request.BaseUrlHostPort | src/php/Inject/Stack/Request.php:58-79 | The base URL is the scheme, "://", the host, ':' and the port unless the port is the scheme's default, then SCRIPT_NAME |
| Request.ClientIp | src/php/Inject/Stack/Request.php:166-181 | Without proxies allowed the address is REMOTE_ADDR; with them it is the Client-IP or X-Forwarded-For header when that is not empty, else REMOTE_ADDR |
| Request.ClientIpNotSpoofable | src/php/Inject/Stack/Request.php:166-181 | Without proxies allowed, the Client-IP and X-Forwarded-For headers make no difference to the address |
| Request.IsXhrAsWrittenNever | src/php/Inject/Stack/Request.php:190-193 | As written, isXhr() is false for every request |
| Request.XhrExample | src/php/Inject/Stack/Request.php:190-193 | A request with X-Requested-With: XMLHttpRequest is an XHR as intended and not as written |
| Request.FirstAccepted | src/php/Inject/Stack/Request.php:215-221 | The first offered format the client accepts, if any |
| Request.Negotiate | src/php/Inject/Stack/Request.php:205-225 | No format exactly when none is offered; with */* accepted the first offered format; otherwise the first offered format the client accepts, or the first offered format when it accepts none |
| Request.UrlFor | src/php/Inject/Stack/Request.php:325-367 | It throws exactly when there is neither a host nor only_path; a path that already has a scheme is returned as it is |
| Request.UrlForPath | src/php/Inject/Stack/Request.php:345-366 | With only_path and no params or anchor, the URL is an absolute path as given, or a relative path after the script name and '/' |
| Request.RequestObject.constructor | src/php/Inject/Stack/Request.php:16-37 | The request wraps the env with every cache empty |
| Request.RequestObject.GetHostWithPort | src/php/Inject/Stack/Request.php:102-123 | The host with port is computed once and then answered from the cache while that is truthy |
| Request.RequestObject.GetHost | src/php/Inject/Stack/Request.php:132-135 | The host, without ':', of the cached host with port |
| Request.RequestObject.GetPort | src/php/Inject/Stack/Request.php:144-156 | As intended: the port of the cached host with port, or SERVER_PORT |
| Request.RequestObject.GetBaseUrl | src/php/Inject/Stack/Request.php:58-79 | A cached base URL is answered unchanged; otherwise the base URL is built from the host with port, and cached |
| Request.RequestObject.GetRequestUrl | src/php/Inject/Stack/Request.php:88-91 | The request URL is the base URL followed by the path |
| Request.RequestObject.GetAccepts | src/php/Inject/Stack/Request.php:236-251 | The accepted formats are computed once: text/html when there is no Accept header, the parsed header otherwise |
| Request.RequestObject.NegotiateMime | src/php/Inject/Stack/Request.php:205-225 | The format chosen is Negotiate's over the accepted formats |
| Request.NegotiateDefault | src/php/Inject/Stack/Request.php:236-244 | Without an Accept header text/html is chosen when offered, else the first offered format |
| UrlMap.Normalise | src/php/InjectStack/UrlMapEndpoint.php:71 | A stored pattern is normal: one leading '/', no trailing '/' except on the root, and after the '/' exactly the key trimmed of slashes |
| UrlMap.NormaliseRoot | src/php/InjectStack/UrlMapEndpoint.php:71 | The empty key is stored as "/" |
| UrlMap.NormaliseAddsSlash | src/php/InjectStack/UrlMapEndpoint.php:71 | The key "without" is stored as "/without" |
| UrlMap.NormaliseTrims | src/php/InjectStack/UrlMapEndpoint.php:71 | The key "/am/big/" is stored as "/am/big" |
| UrlMap.RtrimNormal | src/php/InjectStack/UrlMapEndpoint.php:104 | The part of a stored pattern appended to SCRIPT_NAME is the pattern itself, or "" for the root |
| UrlMap.LookupPutAll | src/php/InjectStack/UrlMapEndpoint.php:69-74 | After remapping, each key maps to its last callback in the new map, or keeps its earlier callback |
| UrlMap.PutAllWellFormed | src/php/InjectStack/UrlMapEndpoint.php:69-74 | Remapping keeps every key normal and distinct |
| UrlMap.Insert | src/php/InjectStack/UrlMapEndpoint.php:76-79 | Inserting into the sorted table adds exactly one entry |
| UrlMap.SortByLength | src/php/InjectStack/UrlMapEndpoint.php:76-79 | Sorting keeps the number of entries |
| UrlMap.InsertMembers | src/php/InjectStack/UrlMapEndpoint.php:76-79 | Inserting adds the entry and keeps every other |
| UrlMap.InsertSorted | src/php/InjectStack/UrlMapEndpoint.php:76-79 | Inserting into a table sorted longest-pattern-first keeps it sorted |
| UrlMap.SortMembers | src/php/InjectStack/UrlMapEndpoint.php:76-79 | The sorted table has exactly the entries of the table |
| UrlMap.SortSorted | src/php/InjectStack/UrlMapEndpoint.php:76-79 | uksort leaves the patterns longest first |
| UrlMap.InsertUnique | src/php/InjectStack/UrlMapEndpoint.php:76-79 | Inserting a new key keeps keys distinct |
| UrlMap.SortUnique | src/php/InjectStack/UrlMapEndpoint.php:76-79 | Sorting keeps keys distinct |
| UrlMap.OfLengthAppend | src/php/InjectStack/UrlMapEndpoint.php:76-79 | The entries of one pattern length in a concatenation are those of each part, in order |
| UrlMap.InsertStable | src/php/InjectStack/UrlMapEndpoint.php:76-79 | Inserting places the entry after the entries of the same length already there |
| UrlMap.SortStable | src/php/InjectStack/UrlMapEndpoint.php:76-79 | Entries with patterns of the same length keep their order |
| UrlMap.LookupUnique | src/php/InjectStack/UrlMapEndpoint.php:89 | With distinct keys, a key maps to a callback exactly when that entry is in the table |
| UrlMap.SortLookup | src/php/InjectStack/UrlMapEndpoint.php:76-79 | Sorting changes no key's callback |
| UrlMap.Collapse | src/php/InjectStack/UrlMapEndpoint.php:87 | Collapsing runs of slashes never lengthens the path and keeps its first character |
| UrlMap.CollapseNoDoubleSlash | src/php/InjectStack/UrlMapEndpoint.php:87 | The collapsed path has no "//" |
| UrlMap.CollapseFixed | src/php/InjectStack/UrlMapEndpoint.php:87 | A path without "//" is left as it is |
| UrlMap.CollapseIdempotent | src/php/InjectStack/UrlMapEndpoint.php:87 | Collapsing twice is collapsing once |
| UrlMap.FirstMatch | src/php/InjectStack/UrlMapEndpoint.php:89-109 | As intended, the first entry whose pattern matches the path, with no earlier entry matching; none when no entry matches |
| UrlMap.FirstMatchAsWritten | src/php/InjectStack/UrlMapEndpoint.php:89-109 | As written, the first entry the loop's test accepts, with no earlier entry accepted |
| UrlMap.Rewrite | src/php/InjectStack/UrlMapEndpoint.php:103-105 | urlmap.orig.SCRIPT_NAME holds the old SCRIPT_NAME, and every key but PATH_INFO and SCRIPT_NAME is kept |
| UrlMap.RewriteSplitsPath | src/php/InjectStack/UrlMapEndpoint.php:96-105 | SCRIPT_NAME gains the matched part of the path, PATH_INFO holds the rest (or "/"), and together they give back the path |
| UrlMap.UrlMapEndpoint.constructor | src/php/InjectStack/UrlMapEndpoint.php:54-57 | The table is the normalised map sorted longest pattern first |
| UrlMap.UrlMapEndpoint.Remap | src/php/InjectStack/UrlMapEndpoint.php:67-80 | The new entries are added over the old, the table stays sorted, and each key maps to its last new callback or keeps its old one |
| UrlMap.UrlMapEndpoint.Invoke | src/php/InjectStack/UrlMapEndpoint.php:84-112 | As intended, the answer is Dispatch's: the first matching callback on the rewritten env, else a bare 404 |
| UrlMap.LongestMatchWins | src/php/InjectStack/UrlMapEndpoint.php:76-111 | Without a match the answer is a bare 404; otherwise no matching pattern is longer than the one called |
| UrlMap.RootAlwaysMatches | src/php/InjectStack/UrlMapEndpoint.php:33-36 | As intended, the root pattern matches every rooted path and leaves it whole in PATH_INFO |
| UrlMap.MatchesAgree | src/php/InjectStack/UrlMapEndpoint.php:91-98 | For a pattern other than the root, the test as written and as intended agree except when the rest of the path is "0" |
| UrlMap.RootAsWrittenExample | src/php/InjectStack/UrlMapEndpoint.php:91-98 | For "/foo" and only the root pattern, the answer is a 404 as written and the root callback as intended |
| UrlMap.ZeroRestExample | src/php/InjectStack/UrlMapEndpoint.php:96-105 | As written, "/foo0" is dispatched to "/foo" with PATH_INFO "/"; as intended it is not matched |
| Builder.Reverse | src/php/Inject/Stack/Builder.php:127 | array_reverse(): the same length, entry i being entry n-1-i of the input |
| Builder.ChainAppend | src/php/Inject/Stack/Builder.php:92-95 | A middleware added at the end sits innermost, directly around the endpoint |
| Builder.ReduceReverse | src/php/Inject/Stack/Builder.php:120-135 | Folding setNext() over the reversed list links the first middleware outermost and the last around the endpoint |
| Builder.ChainEnds | src/php/Inject/Stack/Builder.php:120-135 | With no middleware the chain is the endpoint; otherwise the first middleware wraps the chain of the rest |
| Builder.TwoMiddlewareExample | src/php/InjectStack/InjectStack.php:91-106 | With two tagging middleware around the HANDLED endpoint, "TESTDATA" gives "21TESTDATAHANDLED21": the env passes the first middleware first and the answer passes it last |
| Builder.StackBuilder.constructor | src/php/Inject/Stack/Builder.php:52-57 | The builder holds the middleware list and the endpoint given |
| Builder.StackBuilder.SetEndpoint | src/php/Inject/Stack/Builder.php:66-69 | The endpoint is replaced and the middleware kept |
| Builder.StackBuilder.PrependMiddleware | src/php/Inject/Stack/Builder.php:79-82 | The middleware becomes the outermost one |
| Builder.StackBuilder.AddMiddleware | src/php/Inject/Stack/Builder.php:92-95 | The middleware becomes the innermost one |
| Builder.StackBuilder.Build | src/php/Inject/Stack/Builder.php:120-135 | Without an endpoint it throws NoEndpointException; otherwise the result is the chain, which equals the setNext() fold over the reversed list |
| Builder.StackBuilder.Invoke | src/php/Inject/Stack/Builder.php:106-111 | Calling the builder calls the built chain on the env, or throws without an endpoint |
| Builder.InjectStack.constructor | src/php/InjectStack/InjectStack.php:50-55 | The stack holds the middleware list and the endpoint given |
| Builder.InjectStack.SetEndpoint | src/php/InjectStack/InjectStack.php:64-67 | The endpoint is replaced and the middleware kept |
| Builder.InjectStack.AddMiddleware | src/php/InjectStack/InjectStack.php:77-80 | The middleware becomes the innermost one |
| Builder.InjectStack.Run | src/php/InjectStack/InjectStack.php:91-106 | Without an endpoint it throws; otherwise the chain answers the env, and with no middleware the endpoint answers it directly |
| Builder.AddingInOrder | src/php/Inject/Stack/Builder.php:52-95 | Giving the list to the constructor and adding the same middleware one by one build the same chain |
| Builder.AddAllChain | src/php/Inject/Stack/Builder.php:92-95 | Adding middleware one by one at the end gives the chain of the concatenated list |
| Cascade.Default | src/php/InjectStack/CascadeEndpoint.php:50 | The starting response itself asks to be passed on: X-Cascade: pass for the legacy class, status 404 for the newer one |
| Cascade.Replies | src/php/InjectStack/CascadeEndpoint.php:52-54 | Each application answers the same env |
| Cascade.FirstStop | src/php/InjectStack/CascadeEndpoint.php:52-60 | The first reply that does not ask to be passed on, every earlier one passing; none when all pass |
| Cascade.Run | src/php/Inject/Stack/CascadeEndpoint.php:48-64 | The loop returns the first reply that does not pass, else the last reply, else the default, after calling exactly the applications up to that reply |
| Cascade.OutcomeAppend | src/php/InjectStack/CascadeEndpoint.php:41-44 | Adding an application changes the answer only when every earlier one passed, and then the new one answers |
| Cascade.FirstStopAppend | src/php/InjectStack/CascadeEndpoint.php:41-60 | An added application is reached only when every earlier one passed |
| Cascade.AllPassPasses | src/php/InjectStack/CascadeEndpoint.php:52-62 | When every application passes, the answer itself passes, so a cascade inside a cascade passes on too |
| Cascade.LegacyCascadeEndpoint.constructor | src/php/InjectStack/CascadeEndpoint.php:28-31 | The endpoint holds the applications in order |
| Cascade.LegacyCascadeEndpoint.Add | src/php/InjectStack/CascadeEndpoint.php:41-44 | The application is tried after the others |
| Cascade.LegacyCascadeEndpoint.Invoke | src/php/InjectStack/CascadeEndpoint.php:48-63 | The answer and the number of calls follow the X-Cascade: pass rule |
| Cascade.CascadeEndpoint.constructor | src/php/Inject/Stack/CascadeEndpoint.php:28-31 | The endpoint holds the applications in order |
| Cascade.CascadeEndpoint.Add | src/php/Inject/Stack/CascadeEndpoint.php:41-44 | The application is tried after the others |
| Cascade.CascadeEndpoint.Invoke | src/php/Inject/Stack/CascadeEndpoint.php:48-64 | The answer and the number of calls follow the 404 rule |
| Cascade.SecondAnswersExample | src/php/Inject/Stack/CascadeEndpoint.php:48-64 | When the first application answers 404 and the second 200, the second's answer is returned and the third application is not called |
| SessionStorage.Unexpired | src/php/Inject/Stack/Middleware/Session/ArrayStorage.php:95-107 | As intended, garbage collection keeps exactly the sessions not older than the maximum age, with their times |
| SessionStorage.UnexpiredAsWritten | src/php/Inject/Stack/Middleware/Session/ArrayStorage.php:99-104 | As written, only the sessions saved in this very second survive |
| SessionStorage.Restrict | src/php/Inject/Stack/Middleware/Session/ArrayStorage.php:99-104 | The data kept is exactly that of the ids still timed, unchanged |
| SessionStorage.SweepExample | src/php/Inject/Stack/Middleware/Session/ArrayStorage.php:95-107 | A session saved a second ago is swept as written and kept as intended |
| SessionStorage.ArrayStorage.constructor | src/php/Inject/Stack/Middleware/Session/ArrayStorage.php:48-51 | As intended, the maximum age is the one given and the storage is empty |
| SessionStorage.ArrayStorage.AsWritten | src/php/Inject/Stack/Middleware/Session/ArrayStorage.php:48-51 | As written, the maximum age is 3600 whatever is given |
| SessionStorage.ArrayStorage.LoadSession | src/php/Inject/Stack/Middleware/Session/ArrayStorage.php:61-69 | false for an unknown id, the stored data otherwise |
| SessionStorage.ArrayStorage.SaveSession | src/php/Inject/Stack/Middleware/Session/ArrayStorage.php:77-81 | The data and the current time are stored under the id, and every other session is untouched |
| SessionStorage.ArrayStorage.DestroySession | src/php/Inject/Stack/Middleware/Session/ArrayStorage.php:89-93 | The id is gone from both arrays and nothing else changes |
| SessionStorage.ArrayStorage.GarbageCollect | src/php/Inject/Stack/Middleware/Session/ArrayStorage.php:95-107 | As intended, the times kept are Unexpired's and the data kept is that of the same ids |
| SessionStorage.ArrayStorage.GarbageCollectAsWritten | src/php/Inject/Stack/Middleware/Session/ArrayStorage.php:95-107 | As written, the times kept are UnexpiredAsWritten's (only the sessions saved in the current second), the data kept is that of the same ids, and max_age is untouched |
| SessionStorage.ArrayStorage.SaveThenLoad | src/php/Inject/Stack/Middleware/Session/ArrayStorage.php:61-81 | After saveSession(), loadSession() through any id with the same array key (false and "0" share key 0) gives back exactly what was saved; every other id loads what it loaded before |
| SessionStorage.ArrayStorage.DestroyThenLoad | src/php/Inject/Stack/Middleware/Session/ArrayStorage.php:61-93 | After destroySession(), loadSession() through any id with the same array key gives false; every other id loads what it loaded before |
| SessionCookie.AddUnlessEmpty | src/php/Inject/Stack/Middleware/Session/Mongrel2CookieIdHandler.php:41-45 | An option is added exactly when its argument is not empty, and nothing else changes |
| SessionCookie.OptionsForMembers | src/php/Inject/Stack/Middleware/Session/Mongrel2CookieIdHandler.php:41-45 | Expires, Domain, Path, Secure and HttpOnly are each present exactly when their argument is not empty |
| SessionCookie.OptionsForRanked | src/php/Inject/Stack/Middleware/Session/Mongrel2CookieIdHandler.php:41-45 | The options come in the constructor's order, and only Expires, Domain and Path carry names |
| SessionCookie.AddRanked | src/php/Inject/Stack/Middleware/Session/Mongrel2CookieIdHandler.php:41-45 | Adding a later-ranked option keeps the order |
| SessionCookie.IndexOfName | src/php/Inject/Stack/Middleware/Session/Mongrel2CookieIdHandler.php:85 | The first named option with that name; none when there is none |
| SessionCookie.RenderAll | src/php/Inject/Stack/Middleware/Session/Mongrel2CookieIdHandler.php:85-88 | One piece per option, `name=value`, or the value alone under a numeric key |
| SessionCookie.MergeAppends | src/php/Inject/Stack/Middleware/Session/Mongrel2CookieIdHandler.php:85 | array_merge() of options with distinct new names appends them |
| SessionCookie.OptionsFollowCookie | src/php/Inject/Stack/Middleware/Session/Mongrel2CookieIdHandler.php:85 | The cookie pair comes first and the options follow it unchanged |
| SessionCookie.Stored | src/php/Inject/Stack/Middleware/Session/Mongrel2CookieIdHandler.php:81-93 | The response keeps its status, body and other headers, and its Set-Cookie header is the cookie with its options |
| SessionCookie.SetCookieStartsWithPair | src/php/Inject/Stack/Middleware/Session/Mongrel2CookieIdHandler.php:85-90 | The Set-Cookie value starts with `name=id`, followed by nothing or by "; " and the options |
| SessionCookie.RenderLetter | src/php/Inject/Stack/Middleware/Session/Mongrel2CookieIdHandler.php:87 | A name starting with a letter is written `name=value` |
| SessionCookie.DefaultOptionsExample | src/php/Inject/Stack/Middleware/Session/Mongrel2CookieIdHandler.php:37-46 | With the default options, storing FoobarId sets the cookie "InjectFw=FoobarId" |
| SessionCookie.FirstValue | src/php/Inject/Stack/Middleware/Session/Mongrel2CookieIdHandler.php:60-68 | The value of the first pair naming the cookie; none exactly when no pair names it |
| SessionCookie.PairsAsWritten | src/php/Inject/Stack/Middleware/Session/Mongrel2CookieIdHandler.php:62 | As written, each piece is split on every '=' |
| SessionCookie.Pairs | src/php/Inject/Stack/Middleware/Session/Mongrel2CookieIdHandler.php:62 | As intended, each piece is split, without its leading spaces, on its first '=' |
| SessionCookie.CookieHeaderParts | src/php/Inject/Stack/Middleware/Session/Mongrel2CookieIdHandler.php:60 | Splitting a "; "-joined cookie header on ';' gives back its cookies, each but the first after a space |
| SessionCookie.PairOfCookie | src/php/Inject/Stack/Middleware/Session/Mongrel2CookieIdHandler.php:62 | As intended, `name=value`, with or without a leading space, splits into the name and the whole value |
| SessionCookie.PairsOfHeader | src/php/Inject/Stack/Middleware/Session/Mongrel2CookieIdHandler.php:60-62 | As intended, the pairs of a cookie header are the pairs of its cookies |
| SessionCookie.HeaderMentions | src/php/Inject/Stack/Middleware/Session/Mongrel2CookieIdHandler.php:57-58 | A header carrying the cookie is not empty and mentions its name |
| SessionCookie.FetchFindsStoredId | src/php/Inject/Stack/Middleware/Session/Mongrel2CookieIdHandler.php:55-72 | As intended, a cookie anywhere in the header, not named by an earlier cookie, gives back its id |
| SessionCookie.AsWrittenReadsOnlyFirst | src/php/Inject/Stack/Middleware/Session/Mongrel2CookieIdHandler.php:60-66 | As written, an id is found only when the first cookie of the header is the one named |
| SessionCookie.AsWrittenValueHasNoEquals | src/php/Inject/Stack/Middleware/Session/Mongrel2CookieIdHandler.php:62-64 | As written, an id that holds '=' is never found |
| SessionCookie.OtherCookieAsWritten | src/php/Inject/Stack/Middleware/Session/Mongrel2CookieIdHandler.php:62 | A `k=v` piece without other '=' splits into k and v as written |
| SessionCookie.SecondCookieAsWritten | src/php/Inject/Stack/Middleware/Session/Mongrel2CookieIdHandler.php:60-66 | As written, the session cookie sent second in the header is not found |
| SessionCookie.SecondCookieIntended | src/php/Inject/Stack/Middleware/Session/Mongrel2CookieIdHandler.php:55-72 | As intended, the session cookie sent second is found |
| SessionCookie.Mongrel2CookieIdHandler.constructor | src/php/Inject/Stack/Middleware/Session/Mongrel2CookieIdHandler.php:37-46 | The handler keeps the cookie name, and its options are those OptionsFor gives |
| SessionCookie.Mongrel2CookieIdHandler.FetchUserIdAsWritten | src/php/Inject/Stack/Middleware/Session/Mongrel2CookieIdHandler.php:55-72 | The loop returns the id FetchedAsWritten gives |
| SessionCookie.Mongrel2CookieIdHandler.FindValueAsWritten | src/php/Inject/Stack/Middleware/Session/Mongrel2CookieIdHandler.php:60-68 | The foreach over the "=" splits returns the value of the first pair that is exactly the name and one value, and nothing when none is |
| SessionCookie.Mongrel2CookieIdHandler.FetchUserId | src/php/Inject/Stack/Middleware/Session/Mongrel2CookieIdHandler.php:55-72 | The loop returns the id Fetched gives |
| SessionCookie.Mongrel2CookieIdHandler.FindValue | src/php/Inject/Stack/Middleware/Session/Mongrel2CookieIdHandler.php:60-68 | The same foreach over pairs trimmed of leading spaces and split on the first "=" returns the first value the cookie names |
| SessionCookie.Mongrel2CookieIdHandler.StoreUserId | src/php/Inject/Stack/Middleware/Session/Mongrel2CookieIdHandler.php:81-93 | The response is the one Stored gives |
| Session.Base64Char | src/php/Inject/Stack/Middleware/Session.php:163-166 | No character of the base64 alphabet is the padding '=', a cookie separator ';' or a space |
| Session.Base64 | src/php/Inject/Stack/Middleware/Session.php:163-166 | base64_encode (section 4 of RFC 4648) yields four characters per started group of three bytes, none of them ';' or a space |
| Session.Base64Padded | src/php/Inject/Stack/Middleware/Session.php:163-166 | Encoding a byte string whose length is not a multiple of three ends in '=' |
| Session.Pack32 | src/php/Inject/Stack/Middleware/Session.php:165 | pack('i') gives four bytes (little-endian, the value modulo 2^32) |
| Session.GeneratedIdShape | src/php/Inject/Stack/Middleware/Session.php:163-166 | A generated id is 12 characters from two 4-byte draws, ends in '=', holds no ';' or space, and is truthy |
| Session.GeneratedIdNeverFetchedAsWritten | src/php/Inject/Stack/Middleware/Session/Mongrel2CookieIdHandler.php:60-66 | As written, the cookie handler never gives back an id the middleware generated, whatever the cookie says |
| Session.GeneratedIdFetched | src/php/Inject/Stack/Middleware/Session/Mongrel2CookieIdHandler.php:60-66 | As intended, a cookie `name=<generated id>` gives that id back |
| Session.DestroyIn | src/php/Inject/Stack/Middleware/Session.php:149-154 | Destroying removes the id's time and data from storage and records the call; no random number is drawn |
| Session.Collect | src/php/Inject/Stack/Middleware/Session.php:84-87 | garbageCollect keeps exactly the unexpired sessions and records the call |
| Session.CollectionOdds | src/php/Inject/Stack/Middleware/Session.php:84-87 | Of the gc_divisor draws of mt_rand(1, gc_divisor), exactly gc_probability collect garbage (none when it is not positive, all when it reaches the divisor) |
| Session.FalsyIdStartsFresh | src/php/Inject/Stack/Middleware/Session.php:89-98 | With no (falsy) id from the handler, the bucket is new, empty and carries a freshly generated id; storage is not consulted |
| Session.LoadDecides | src/php/Inject/Stack/Middleware/Session.php:99-107 | With a truthy id, storage is asked for it; a stored session is resumed with its data and not new, a missing one is replaced by a new empty session under a generated id |
| Session.CloseRules | src/php/Inject/Stack/Middleware/Session.php:112-122 | The bucket is saved unless its id is false (always, in the older middleware), saving stores its data under its id, and only a new session's id is handed to the handler to attach to the response |
| Session.InvalidateOrder | src/php/Inject/Stack/Middleware/Session/Bucket.php:130-150 | Invalidation destroys the old id in storage and then gives the bucket a fresh generated id, keeping or clearing its data; destruction removes the id and sets it to false |
| Session.DestroyedLast | src/php/Inject/Stack/Middleware/Session.php:109-122 | When the application's last bucket call destroys the session, nothing is saved (the older middleware saves an empty entry under key "0") and the false id goes to the handler |
| Session.ResumesAsIntended | src/php/Inject/Stack/Middleware/Session.php:90-107 | With the intended cookie handler, a returning client whose stored session exists resumes it |
| Session.NeverResumesAsWritten | src/php/Inject/Stack/Middleware/Session.php:90-107 | With the cookie handler as written, when every stored id is a generated one, each request starts a new session |
| Session.Bucket.constructor | src/php/Inject/Stack/Middleware/Session/Bucket.php:55-62 | The bucket holds its middleware, id, data and new flag as given |
| Session.Bucket.SetId | src/php/Inject/Stack/Middleware/Session/Bucket.php:78-82 | The id is replaced and the bucket becomes new; its data stays |
| Session.Bucket.GetId | src/php/Inject/Stack/Middleware/Session/Bucket.php:91-94 | Returns the current id |
| Session.Bucket.IsNew | src/php/Inject/Stack/Middleware/Session/Bucket.php:104-107 | Returns the new flag |
| Session.Bucket.ClearSession | src/php/Inject/Stack/Middleware/Session/Bucket.php:116-119 | The data becomes empty; id and flag stay |
| Session.Bucket.Assign | src/php/Inject/Stack/Middleware/Session/Bucket.php:18 | Writing a key of the bucket (ArrayObject) replaces or appends that entry only |
| Session.Bucket.Unassign | src/php/Inject/Stack/Middleware/Session/Bucket.php:18 | Unsetting a key of the bucket removes that entry only |
| Session.Bucket.InvalidateSession | src/php/Inject/Stack/Middleware/Session/Bucket.php:130-135 | The bucket and storage end as the Invalidate step says: old id destroyed, fresh id, data kept or cleared |
| Session.Bucket.DestroySession | src/php/Inject/Stack/Middleware/Session/Bucket.php:145-150 | The bucket and storage end as the Destroy step says: id removed from storage, data cleared, id false |
| Session.Bucket.Apply | src/php/Inject/Stack/Middleware/Session/Bucket.php:78-150 | Any bucket call leaves bucket and storage as the Step function says |
| Session.SessionMiddleware.constructor | src/php/Inject/Stack/Middleware/Session.php:50-59 | The session key is the 'key' option unless empty, else 'inject.session'; gc options default to 1 and 100 and are overridden by those given |
| Session.SessionMiddleware.SetNext | src/php/Inject/Stack/Middleware/Session.php:69-72 | The next application is set; nothing else changes |
| Session.SessionMiddleware.GenerateSessionId | src/php/Inject/Stack/Middleware/Session.php:163-166 | The id is the base64 of the next two random draws packed as 32-bit integers; exactly two draws are consumed |
| Session.SessionMiddleware.InvalidateSession | src/php/Inject/Stack/Middleware/Session.php:134-139 | Storage loses the old id, then the bucket gets a fresh generated id and keeps its data |
| Session.SessionMiddleware.DestroySession | src/php/Inject/Stack/Middleware/Session.php:149-154 | Storage loses the id, then the bucket's id becomes false and it is flagged new; its data is left to the bucket to clear |
| Session.SessionMiddleware.ReplayOps | src/php/Inject/Stack/Middleware/Session.php:109-110 | Applying the application's bucket calls in order leaves bucket and storage as the Replay function says |
| Session.SessionMiddleware.Sweep | src/php/Inject/Stack/Middleware/Session.php:84-87 | Garbage is collected exactly when the draw is at most gc_probability |
| Session.SessionMiddleware.BeginBucket | src/php/Inject/Stack/Middleware/Session.php:89-107 | The bucket is built from the fetched id, storage and fresh ids as the Begin function says |
| Session.SessionMiddleware.CloseBucket | src/php/Inject/Stack/Middleware/Session.php:112-122 | Save and id hand-over happen as the Close function says |
| Session.SessionMiddleware.Invoke | src/php/Inject/Stack/Middleware/Session.php:82-123 | The whole request: collect, open, call next, replay its bucket calls, save and store, as the Handle function says |
| Session.LookupMerge | src/php/Inject/Stack/Middleware/Session.php:55-58 | After array_merge of defaults and options, a key given in the options reads the option, any other reads the default |
| Session.SessionKey | src/php/Inject/Stack/Middleware/Session.php:54 | An empty 'key' option (missing, "", "0", false) gives 'inject.session'; any other gives that option |
| SessionInvalidator.WithUserAgent | src/php/Inject/Stack/Middleware/SessionInvalidator.php:101 | An empty user agent in the env is set to ""; a non-empty one is left alone |
| SessionInvalidator.Pinned | src/php/Inject/Stack/Middleware/SessionInvalidator.php:99-124 | A value pinned in the session must equal the client's (strictly), else the session is invalid; an unpinned one is recorded from the env; earlier invalidity is never undone |
| SessionInvalidator.Aged | src/php/Inject/Stack/Middleware/SessionInvalidator.php:126-146 | A recorded time older than now minus the limit invalidates the session; the time is refreshed always (last access) or only when missing (session start) |
| SessionInvalidator.KeysDistinct | src/php/Inject/Stack/Middleware/SessionInvalidator.php:99-146 | The four bucket keys the checks use are distinct, so the checks do not disturb each other |
| SessionInvalidator.PinnedReads | src/php/Inject/Stack/Middleware/SessionInvalidator.php:103-111 | After the check the key reads the stored value, or the client's when none was stored; every other key reads as before |
| SessionInvalidator.AgedReads | src/php/Inject/Stack/Middleware/SessionInvalidator.php:128-145 | After the check the key reads now when refreshed or missing, else the stored time; every other key reads as before |
| SessionInvalidator.InvalidatorOptions | src/php/Inject/Stack/Middleware/SessionInvalidator.php:65-70 | Each option given overrides its default; every other option keeps its default |
| SessionInvalidator.DefaultOptions | src/php/Inject/Stack/Middleware/SessionInvalidator.php:65-70 | By default both client checks are on, last access is limited to 600 seconds and session time to 3600 |
| SessionInvalidator.FreshSessionPasses | src/php/Inject/Stack/Middleware/SessionInvalidator.php:94-146 | A session with no recorded values is never invalid, and afterwards records the client and the times of every enabled check |
| SessionInvalidator.ChangedClientFails | src/php/Inject/Stack/Middleware/SessionInvalidator.php:99-124 | A recorded user agent or address that differs from the client's makes the session invalid when that check is enabled |
| SessionInvalidator.Revisit | src/php/Inject/Stack/Middleware/SessionInvalidator.php:94-146 | The same client coming back within both limits passes; coming back after the last-access limit fails |
| SessionInvalidator.RecordedPasses | src/php/Inject/Stack/Middleware/SessionInvalidator.php:94-146 | For any session holding the client's values and a positive time, a visit within both limits passes and one past the last-access limit fails |
| SessionInvalidator.InvalidatedBucket | src/php/Inject/Stack/Middleware/SessionInvalidator.php:148-152 | An invalid session's bucket ends empty and new under a fresh id, and its old id is gone from storage |
| SessionInvalidator.SessionInvalidator.constructor | src/php/Inject/Stack/Middleware/SessionInvalidator.php:62-71 | The session key is the one given and the options are the defaults overridden by those given |
| SessionInvalidator.SessionInvalidator.SetNext | src/php/Inject/Stack/Middleware/SessionInvalidator.php:81-84 | The next application is set |
| SessionInvalidator.SessionInvalidator.Pin | src/php/Inject/Stack/Middleware/SessionInvalidator.php:103-111 | Checking or recording one client value in the bucket does what Pinned says, leaving id and flag alone |
| SessionInvalidator.SessionInvalidator.Age | src/php/Inject/Stack/Middleware/SessionInvalidator.php:128-145 | Checking or recording one time in the bucket does what Aged says, leaving id and flag alone |
| SessionInvalidator.SessionInvalidator.CheckAgent | src/php/Inject/Stack/Middleware/SessionInvalidator.php:99-112 | When the user-agent check is on, the env gets its '' default and the bucket's user agent is checked or recorded, as AgentStage says |
| SessionInvalidator.SessionInvalidator.CheckAddress | src/php/Inject/Stack/Middleware/SessionInvalidator.php:114-124 | When the address check is on, the bucket's address is checked or recorded, as AddressStage says |
| SessionInvalidator.SessionInvalidator.CheckLastAccess | src/php/Inject/Stack/Middleware/SessionInvalidator.php:126-134 | When the last-access limit is on, the stored time is checked and then set to now, as LastAccessStage says |
| SessionInvalidator.SessionInvalidator.CheckStart | src/php/Inject/Stack/Middleware/SessionInvalidator.php:136-146 | When the session-time limit is on, the stored start time is checked, or set to now when missing, as StartStage says |
| SessionInvalidator.SessionInvalidator.RunChecks | src/php/Inject/Stack/Middleware/SessionInvalidator.php:96-146 | The four enabled checks, in order, leave the verdict, env and bucket data the Checks function gives |
| SessionInvalidator.SessionInvalidator.Invoke | src/php/Inject/Stack/Middleware/SessionInvalidator.php:94-158 | The next application answers the (user-agent filled) env; an invalid session is invalidated without keeping data, a valid one only gains the recorded values |

## Left out

- Sockets, ZeroMQ, libevent, php://temp streams, signal handlers, sleep() and shared-memory keys are not modelled. The model keeps only what crosses them: reads become inputs; writes to a socket, closes of a socket, sends and signals become entries of a log. The fclose() of a stream body once it is written (HTTPSocket.php:401) is not logged.
- fork() in the supervisors is a fresh-pid oracle: the pids it hands out are inputs, and a failed fork is a -1 among them. pcntl_waitpid() is an input as well, and the workers' own run() is left out.
- Daemon.Supervisor.WaitForExit: the workers' reports are gathered per sleep, before the sweep that follows it; a report landing during the sweep itself is not modelled.
- Daemon.Supervisor.StartChildren: stated only for a fresh, empty table, since serve() runs its fork loop once and never returns.
- Daemon.Supervisor.Respawn: requires the new pid to be -1 (a failed fork) or positive and not in the table, as the operating system guarantees for a live child. A failed fork is reported by a flag in place of the exception fork() throws; the exception leaving the monitor loop, and the rest of the supervisor with it, is not modelled.
- Daemon.Supervisor.MonitorStep: a failed fork leaves the slot unset and is reported by a flag, as for Respawn; what the thrown exception does after that is not modelled.
- DaemonLegacy.Supervisor.MonitorStep: runs the corrected reap step (see Findings), not the `if($key = array_search(...))` of AbstractDaemon.php:99-104. The two differ when the worker under key 0 exits (ReapAsWrittenKeepsFirst) and agree on an untracked pid (UntrackedExitGrows). A failed fork is reported by a flag after the dead worker's entry is removed; the exception is not modelled further.
- HttpSocket.HeadReadsBack: like every status-line read-back lemma, it requires the reason phrase of the code to be free of CR and LF. That is proved for the adapter's own codes 400, 414, 501 and 505, but not for the whole table at once.
- parse_url() is modelled as a split at the first '?'. Fragments and the authority part are not looked at.
- fread() with a length of zero or less returns "" in the model. PHP 7 warns and returns false there, and PHP 8 throws.
- Gateway.Promote: a throwing form body read leaves no env. In HTTPSocket.php run() then ends without closing the socket, and in HTTPSocketEventLoop.php the connection and its watch stay registered; the model logs no close in either case. PHP releases such a socket only once nothing refers to it, which the log does not show.
- Mongrel2.CreateEnv: the fallback length `$bodylen` is taken as its (int) cast. Under PHP 8, a non-numeric string there makes stream_get_contents() throw a TypeError, which is not modelled.
- PHP 8's loose `==` between strings is modelled as string equality wherever the code compares two non-numeric strings.
- Stream bodies are the sequence of what each fread() returns; how many bytes a read asks for is not modelled.
- Mongrel2Legacy: a stream body in a response is not modelled; the older adapter writes only string bodies.
- json_decode(), parse_str() and http_build_query() are parameters of the model.
- Request: parseAccept() (q-values and the sort by them) is not modelled; the constructor is given the list of types it yields. getDefaultUrlOptions() is not modelled either; it only gathers three values that the model exposes separately, and urlFor() is given its options directly, as in the source.
- Request.HostWithPort: when neither X-Forwarded-Host nor Host is set, the result is SERVER_NAME (or SERVER_ADDR) joined to SERVER_PORT by ':'. The function computes this, but its ensures do not state it.
- UrlMap: a PATH_INFO or SCRIPT_NAME missing from the env reads as "".
- Builder: a middleware is modelled by what it becomes once setNext() has linked it. One middleware object shared by two chains, whose second setNext() would overwrite the first, is not modelled. Nor is the same middleware object added twice to one list, where setNext() would link it to itself.
- Cascade: a falsy reply from an application ends the loop and is returned, which is what the PHP comparisons do with null. The X-Cascade value is compared as a string.
- Session: the next handler's calls on the bucket are modelled as a list the handler returns with its reply, and the list is applied in order once it returns. A handler that reads the bucket between its own calls is not modelled.
- Session: mt_rand() is an oracle read through a counter of draws; the draw of the garbage-collection test is a parameter. The range 1..gc_divisor of that draw is a precondition of Session.SessionMiddleware.Invoke. time() is a parameter.
- SessionStorage.ArrayStorage.GarbageCollect: sweeps with the intended max_age (see Findings). As written, ArrayStorage.php:99 keeps only the sessions saved in the current second (GarbageCollectAsWritten, UnexpiredAsWritten); SweepExample shows a session one second old swept as written and kept as intended.
- Session.Collect: keeps the sessions the intended sweep keeps, as GarbageCollect does, not those of ArrayStorage.php:99 as written.
- Session.SessionMiddleware.Sweep: collects with the intended sweep, as GarbageCollect does.
- Session.SessionMiddleware.Invoke: collects with the intended sweep, as GarbageCollect does.
- Session: pack('i') is taken to be little-endian, as on the usual x86 and ARM hosts.
- Session: the id handler is modelled by two functions, one to fetch the id and one to store it; the Mongrel2 cookie handler provides them.
- MemcachedStorage and CookieIdHandler are not part of this model. Neither is the older InjectStack Mongrel2CookieIdHandler.
- Session: storeUserId() with a falsy reply from the next handler fails with a type error in PHP; the model leaves the reply as it is.
- Session and SessionInvalidator options are read through PHP's integer cast. Non-integer option values are not modelled beyond that cast.
- SessionInvalidator: the `<` between a stored time and an integer follows PHP for integers and numeric strings, except that a negative string with a fraction is compared by its value truncated toward zero ("-1.5" < -1 is false in the model, true in PHP). An object is treated as never smaller.
- SessionInvalidator: an env without a bucket under the session key is not modelled, and the next handler is a pure application.
- Mongrel2.RequestEntries: its ensures do not state the REQUEST_URI and inject.url_scheme entries, though the function sets both as the source does.
- Lint: assert() is modelled by the truth value of its test, and a LintException by the name of the check that failed. The message texts are not modelled.
- HttpSocketEventLoop.EventLoopServer.CloseConnection: closeConnection() calls no fclose(). It removes the libevent watch and unsets the client, and the socket closes when its last reference goes. The model logs that release as a Close event at this point; event_del() and event_free() themselves are not modelled.
- HttpSocket.ChunkWrites: states the corrected chunks (see Findings): one chunk per non-empty read. HTTPSocket.php:384-391 writes a chunk for every read, and an empty read ends the body early. The two agree when no read is empty (ChunksAsWrittenWithoutEmptyReads).
- HttpSocket.StreamResponseReadsBack: is stated of the corrected head and chunks; the bytes HTTPSocket.php:371 and 384-391 write differ for a response without headers and for a stream with an empty read.
- HttpSocket.Serve: writes the corrected head and chunks (see Findings), not those of HTTPSocket.php:371 and 384-391. They agree for a response with at least one header (HeadAsWrittenWithHeaders), a string body (TextResponseWire) and a stream without empty reads (ChunksAsWrittenWithoutEmptyReads).
- HttpSocket.Server.HttpResponse: writes the corrected head and chunks, as Serve does.
- HttpSocket.Server.WriteBody: skips the empty reads that HTTPSocket.php:384-391 writes as chunks, as ChunkWrites does.
- HttpSocket.Server.ServeConnection: serves with the corrected framing, as Serve does.
- HttpSocket.Server.Run: serves with the corrected framing, as Serve does.
- HttpSocket.RunStep: is stated of Serve, with the corrected framing.
- HttpSocketEventLoop.EvReadOutcome: replies with the corrected head and chunks of the HTTP socket adapter, which HTTPSocketEventLoop.php shares.
- HttpSocketEventLoop.Finish: writes the corrected framing, as EvReadOutcome does.
- HttpSocketEventLoop.EventLoopServer.EvRead: logs the corrected framing, as EvReadOutcome does.
- HttpSocketEventLoop.EventLoopServer.FinishRequest: logs the corrected framing, as Finish does.
- Mongrel2.Payloads: holds the corrected head and chunks where Mongrel2.php:396 and 413-418 write those of the HTTP socket adapter as written.
- Mongrel2.Handle: parses with the intended comma test and publishes the corrected payloads (see Findings). The comma tests differ only on a byte other than ',' or '0' after the header (CommaChecksAgree).
- Mongrel2.RequestAnswered: is stated of Handle, with the intended comma test and the corrected payloads.
- Mongrel2.RunStep: is stated of Handle, with the intended comma test and the corrected payloads.
- Mongrel2.Adapter.HttpResponse: sends the corrected payloads, as Payloads holds them.
- Mongrel2.Adapter.SendStream: skips the empty-read chunks that Mongrel2.php:413-418 sends, as the HTTP socket adapter's ChunkWrites does.
- Mongrel2.Adapter.HandleMessage: parses with the intended comma test and sends the corrected payloads, as Handle does.
- Mongrel2.Adapter.Run: runs HandleMessage, with the intended comma test and the corrected payloads.
- Mongrel2Legacy.Adapter.Listen: parses with the corrected Parse (see Findings), so the handler gets the body that the code as written loses (ParseAsWrittenLosesBody).
- Mongrel2Legacy.Answers: is stated of the corrected Parse.
- Mongrel2Legacy.AnswerReadsBack: is stated of the corrected Parse.
- Request.RequestObject.GetPort: gives the corrected Port (see Findings). As written, Request.php:148 always answers SERVER_PORT (PortAsWrittenIgnoresHost).
- UrlMap.UrlMapEndpoint.Invoke: dispatches with the intended match (see Findings). As written, the root pattern matches only an empty rest (RootAsWrittenExample), and a rest of "0" matches any other pattern (MatchesAgree).
- Php.IntCast: PHP converts a string with a fraction or an exponent to a double first, then truncates. The model computes the exact value, which differs only where the double rounds (beyond 2^53). A number so large that the double is infinite casts to 0 in PHP, where the model saturates.
- Php.EqualsInt: a numeric string with a fraction is compared by its truncated value, so "1.5" == 1 holds in the model and not in PHP 8.
- HttpSocket.GetRemoteOfPeerName: requires a port of at most PHP_INT_MAX, since the cast saturates beyond.
- Request.PortFromHost: requires a port of at most PHP_INT_MAX, since the cast saturates beyond.
- Mongrel2.HeaderRead: requires a header length of at most PHP_INT_MAX, since the cast saturates beyond. So do Mongrel2.EnvelopeRoundTrip, Mongrel2.CommaCheckAsWrittenAcceptsAnyByte and Mongrel2.RequestAnswered.
- Mongrel2.EnvelopeRoundTrip: requires a header length of at most PHP_INT_MAX.
- Mongrel2.CommaCheckAsWrittenAcceptsAnyByte: requires a header length of at most PHP_INT_MAX.
- Mongrel2.RequestAnswered: requires a header length of at most PHP_INT_MAX.
- Mongrel2Legacy.LengthSplit: requires a length of at most PHP_INT_MAX, since the cast saturates beyond. So do Mongrel2Legacy.HeaderBodyRoundTrip, Mongrel2Legacy.BodyRoundTrip, Mongrel2Legacy.ParseRoundTrip (header and body) and Mongrel2Legacy.HeaderBodyAsWrittenLosesBody and Mongrel2Legacy.ParseAsWrittenLosesBody (header).
- Mongrel2Legacy.HeaderBodyRoundTrip: requires header and body lengths of at most PHP_INT_MAX.
- Mongrel2Legacy.BodyRoundTrip: requires a body length of at most PHP_INT_MAX.
- Mongrel2Legacy.ParseRoundTrip: requires header and body lengths of at most PHP_INT_MAX.
- Mongrel2Legacy.HeaderBodyAsWrittenLosesBody: requires a header length of at most PHP_INT_MAX.
- Mongrel2Legacy.ParseAsWrittenLosesBody: requires a header length of at most PHP_INT_MAX.
- Lint: the target is PHP 8. A strlen() TypeError is reported as the StrlenTypeError violation, which ends checkRet() as a failed assertion does; that PHP throws an Error and not a LintException is not modelled beyond that name.
- Lint.HeaderViolation: explode() of a header value that is a stream throws a TypeError in PHP 8; the model reports it as the HeaderValueTypeError violation.
- Lint.CheckReturn: preg_match() on a status that is an array throws a TypeError in PHP 8; the model reports the status check's violation there instead.
- Floating-point values and the ordering of keys inside `$env` are not modelled (`$env` is a map).

## Findings

| source | as written | input that shows it | evidently intended | confidence | as-written member | corrected member |
|---|---|---|---|---|---|---|
| src/php/Inject/Stack/Adapter/HTTPSocket.php:371 | The head is the status line, the header lines joined by CRLF, then CRLF CRLF; with no header lines that is three CRLFs | A response `array(204, array(), '')` | A blank line ends the head in every case, so there are exactly two CRLFs after a head without headers | not executed | HttpSocket.HeadAsWrittenWithoutHeaders | HttpSocket.HeadReadsBack |
| src/php/Inject/Stack/Adapter/Mongrel2.php:323-326 | `! fgetc($fp) == ','` compares the negated byte with ',', so it refuses only '0' and the end of the stream | A message with ';' where the ',' after the header belongs is accepted | Refuse every byte other than ',' | not executed | Mongrel2.CommaCheckAsWrittenAcceptsAnyByte | Mongrel2.EnvelopeRoundTrip |
| src/php/InjectStack/Adapter/Mongrel2.php:172-181 | The ',' after the header is not consumed, so the body length reads as `(int) ",5"`, which is 0 | `u c /p 2:{},5:hello,` | The body `hello` is returned | not executed | Mongrel2Legacy.ParseAsWrittenLosesBody | Mongrel2Legacy.ParseRoundTrip |
| src/php/InjectStack/Adapter/AbstractDaemon.php:99-104 | `if($key = array_search(...))` is false for key 0, so the first worker's pid is never removed, and a replacement is appended anyway | The worker listed first exits | The dead pid leaves the list and its replacement takes its place, so the number of workers stays the same | not executed | DaemonLegacy.ReapAsWrittenKeepsFirst | DaemonLegacy.ReapReplaces |
| src/php/Inject/Stack/Request.php:148 | `strpos(':', $host)` searches for the host inside ':', so the host's port is never used | Host `example.com:8080` with SERVER_PORT 80 gives 80 | The port after the ':' of the host, 8080 | not executed | Request.PortAsWrittenIgnoresHost | Request.PortFromHost |
| src/php/Inject/Stack/Request.php:192 | The condition is inverted: the header is compared only when it is empty, so isXhr() is always false | `X-Requested-With: XMLHttpRequest` | true for that header, in any letter case | not executed | Request.IsXhrAsWrittenNever | Request.XhrExample |
| src/php/InjectStack/UrlMapEndpoint.php:91-98 | The root pattern '/' matches only when what follows the '/' is PHP-empty | PATH_INFO `/foo` with only '/' mapped gives a 404 | '/' matches every path, as a last resort, as the class documentation says | not executed | UrlMap.RootAsWrittenExample | UrlMap.RootAlwaysMatches |
| src/php/InjectStack/UrlMapEndpoint.php:96-105 | A rest of "0" after the pattern counts as empty, so the pattern matches and the '0' is dropped | PATH_INFO `/foo0` with `/foo` mapped: the callback gets PATH_INFO `/` | No match, since the pattern does not end at a segment boundary; on a match SCRIPT_NAME and PATH_INFO together spell the path | not executed | UrlMap.ZeroRestExample | UrlMap.RewriteSplitsPath |
| src/php/Inject/Stack/Adapter/HTTPSocket.php:384-391 | Every read writes a chunk, and an empty read writes `0\r\n\r\n`, which is the last chunk | A stream whose final fread() before EOF returns "" | Empty reads write nothing, and the body ends only at the real last chunk | not executed | HttpSocket.ChunksAsWrittenEmptyRead | HttpSocket.ChunkedRoundTrip |
| src/php/Inject/Stack/Middleware/Session/ArrayStorage.php:99 | The maximum age is read from the undefined `$that`, so it is null, and every session not saved in this very second is swept | A session saved one second before garbage collection | Sessions are swept only when older than max_age | not executed | SessionStorage.UnexpiredAsWritten | SessionStorage.Unexpired |
| src/php/Inject/Stack/Middleware/Session/ArrayStorage.php:48-51 | The constructor ignores its argument and sets max_age to 3600 | `new ArrayStorage(60)` | max_age is 60 | not executed | SessionStorage.ArrayStorage.AsWritten | SessionStorage.ArrayStorage.constructor |
| src/php/Inject/Stack/Middleware/Session/Mongrel2CookieIdHandler.php:62-64 | Each cookie pair is split on every '=', and an id generated by the session middleware ends in the base64 padding '=' | A cookie `name=<12-character generated id>` splits into three pieces and is not found | The pair is split at its first '=' only, and the stored session is resumed | not executed | Session.GeneratedIdNeverFetchedAsWritten | Session.GeneratedIdFetched |
| src/php/Inject/Stack/Middleware/Session/Mongrel2CookieIdHandler.php:60-66 | The header is split on ';' alone, so a pair after the first keeps its leading space and its name never equals the cookie name | `HTTP_COOKIE` = `other=1; name=id` | Leading spaces are dropped, and the id is found | not executed | SessionCookie.SecondCookieAsWritten | SessionCookie.SecondCookieIntended |

=== FILE: builder.dfy ===
/*
 * Middleware-chain construction: Inject\Stack\Builder and the older
 * InjectStack\InjectStack. Both keep a list of middleware and an endpoint,
 * and link the chain with array_reduce over the reversed list, each step
 * handing the callback built so far to the next middleware's setNext().
 *
 * A middleware is modelled by what it becomes once its next callback is
 * set: a function from that callback to the callback it presents. The
 * env and the answer are type parameters, as the PHP code puts no type on
 * them.
 */
module Builder {
  import opened Php

  type Middleware<!E, !R> = (E -> R) -> (E -> R)

  /** NoEndpointException */
  datatype BuildError = NoEndpoint

  /** The linked chain: the first middleware wraps the chain of the rest,
      and the last wraps the endpoint. */
  function Chain<E, R>(ms: seq<Middleware<E, R>>, endpoint: E -> R): E -> R
  {
    if ms == [] then endpoint else ms[0](Chain(ms[1..], endpoint))
  }

  function Reverse<T>(s: seq<T>): (r: seq<T>)
    ensures |r| == |s|
    ensures forall i | 0 <= i < |s| :: r[i] == s[|s| - 1 - i]
  {
    if s == [] then [] else Reverse(s[1..]) + [s[0]]
  }

  /** array_reduce($ms, fn($callback, $m) => $m->setNext($callback), $init) */
  function Reduce<E, R>(ms: seq<Middleware<E, R>>, acc: E -> R): E -> R
  {
    if ms == [] then acc else Reduce(ms[1..], ms[0](acc))
  }

  /** Adding a middleware at the end puts it innermost, directly around the
      endpoint. */
  lemma {:induction false} ChainAppend<E, R>(ms: seq<Middleware<E, R>>, m: Middleware<E, R>, endpoint: E -> R)
    ensures Chain(ms + [m], endpoint) == Chain(ms, m(endpoint))
  {
    if ms != [] {
      assert (ms + [m])[1..] == ms[1..] + [m];
      ChainAppend(ms[1..], m, endpoint);
    } else {
      assert ms + [m] == [m];
    }
  }

  /** The reduction over the reversed list builds the linked chain: each
      middleware's next is the following element, the last one's the
      endpoint. */
  lemma {:induction false} ReduceReverse<E, R>(ms: seq<Middleware<E, R>>, endpoint: E -> R)
    ensures Reduce(Reverse(ms), endpoint) == Chain(ms, endpoint)
    decreases |ms|
  {
    if ms != [] {
      var n := |ms| - 1;
      var init := ms[..n];
      assert ms == init + [ms[n]];
      assert Reverse(ms) == [ms[n]] + Reverse(init) by {
        ReverseAppend(init, ms[n]);
      }
      assert ([ms[n]] + Reverse(init))[1..] == Reverse(init);
      ReduceReverse(init, ms[n](endpoint));
      ChainAppend(init, ms[n], endpoint);
    }
  }

  lemma {:induction false} ReverseAppend<T>(s: seq<T>, x: T)
    ensures Reverse(s + [x]) == [x] + Reverse(s)
  {
  }

  /** Building an empty list gives the endpoint itself; prepending wraps
      the whole chain. */
  lemma {:induction false} ChainEnds<E, R>(ms: seq<Middleware<E, R>>, m: Middleware<E, R>, endpoint: E -> R)
    ensures Chain([], endpoint) == endpoint
    ensures Chain([m] + ms, endpoint) == m(Chain(ms, endpoint))
  {
    assert ([m] + ms)[1..] == ms;
  }

  /** The endpoint of the stack test: appends "HANDLED" to the env. */
  function Handled(env: string): string {
    env + "HANDLED"
  }

  /** The middleware of the stack test: prefixes the env with `d` on the
      way in and suffixes the answer with `d` on the way out. */
  function Tagging(d: string): Middleware<string, string> {
    (next: string -> string) => (env: string) => next(d + env) + d
  }

  lemma {:induction false} TwoMiddlewareExample()
    ensures Chain([Tagging("1"), Tagging("2")], Handled)("TESTDATA") == "21TESTDATAHANDLED21"
  {
    var ms := [Tagging("1"), Tagging("2")];
    assert ms[1..] == [Tagging("2")];
    assert Chain([Tagging("2")], Handled) == Tagging("2")(Handled) by {
      assert [Tagging("2")][1..] == [];
    }
    var inner := Tagging("2")(Handled);
    assert Chain(ms, Handled) == Tagging("1")(inner);
    assert inner("1TESTDATA") == Handled("2" + "1TESTDATA") + "2";
    assert "2" + "1TESTDATA" == "21TESTDATA";
    assert Handled("21TESTDATA") == "21TESTDATAHANDLED";
    assert Tagging("1")(inner)("TESTDATA") == inner("1" + "TESTDATA") + "1";
    assert "1" + "TESTDATA" == "1TESTDATA";
    assert "21TESTDATAHANDLED" + "2" + "1" == "21TESTDATAHANDLED21";
  }

  /** Inject\Stack\Builder. */
  class StackBuilder<E, R> {
    /** $middleware, outermost first. */
    var middleware: seq<Middleware<E, R>>
    /** $endpoint; None stands for an empty() value. */
    var endpoint: Option<E -> R>

    constructor (middleware: seq<Middleware<E, R>>, endpoint: Option<E -> R>)
      ensures this.middleware == middleware && this.endpoint == endpoint
    {
      this.middleware := middleware;
      this.endpoint := endpoint;
    }

    method SetEndpoint(endpoint: Option<E -> R>)
      modifies this
      ensures this.endpoint == endpoint && middleware == old(middleware)
    {
      this.endpoint := endpoint;
    }

    /** prependMiddleware(): array_unshift. */
    method PrependMiddleware(m: Middleware<E, R>)
      modifies this
      ensures middleware == [m] + old(middleware) && endpoint == old(endpoint)
    {
      middleware := [m] + middleware;
    }

    /** addMiddleware(): `$this->middleware[] = $m`. */
    method AddMiddleware(m: Middleware<E, R>)
      modifies this
      ensures middleware == old(middleware) + [m] && endpoint == old(endpoint)
    {
      middleware := middleware + [m];
    }

    /** build(): fails without an endpoint, otherwise links the chain from
        the last middleware outwards. */
    method Build() returns (r: Result<E -> R, BuildError>)
      ensures endpoint.None? <==> r == Failure(NoEndpoint)
      ensures endpoint.Some? ==> r == Success(Chain(middleware, endpoint.value))
      ensures endpoint.Some? ==> r == Success(Reduce(Reverse(middleware), endpoint.value))
    {
      if endpoint.None? {
        return Failure(NoEndpoint);
      }
      var callback := endpoint.value;
      var i := |middleware|;
      while i > 0
        invariant 0 <= i <= |middleware|
        invariant callback == Chain(middleware[i..], endpoint.value)
      {
        i := i - 1;
        assert middleware[i..][1..] == middleware[i + 1..];
        callback := middleware[i](callback);
      }
      ReduceReverse(middleware, endpoint.value);
      return Success(callback);
    }

    /** __invoke(): build() applied to the env. */
    method Invoke(env: E) returns (r: Result<R, BuildError>)
      ensures endpoint.None? <==> r == Failure(NoEndpoint)
      ensures endpoint.Some? ==> r == Success(Chain(middleware, endpoint.value)(env))
    {
      var callback := Build();
      match callback
      case Failure(e) => return Failure(e);
      case Success(f) => return Success(f(env));
    }
  }

  /** InjectStack\InjectStack: the same list and endpoint, without
      prepending, and run() links and calls in one step. */
  class InjectStack<E, R> {
    var middleware: seq<Middleware<E, R>>
    var endpoint: Option<E -> R>

    constructor (middleware: seq<Middleware<E, R>>, endpoint: Option<E -> R>)
      ensures this.middleware == middleware && this.endpoint == endpoint
    {
      this.middleware := middleware;
      this.endpoint := endpoint;
    }

    method SetEndpoint(endpoint: Option<E -> R>)
      modifies this
      ensures this.endpoint == endpoint && middleware == old(middleware)
    {
      this.endpoint := endpoint;
    }

    method AddMiddleware(m: Middleware<E, R>)
      modifies this
      ensures middleware == old(middleware) + [m] && endpoint == old(endpoint)
    {
      middleware := middleware + [m];
    }

    method Run(env: E) returns (r: Result<R, BuildError>)
      ensures endpoint.None? <==> r == Failure(NoEndpoint)
      ensures endpoint.Some? ==> r == Success(Chain(middleware, endpoint.value)(env))
      ensures middleware == [] && endpoint.Some? ==> r == Success(endpoint.value(env))
    {
      if endpoint.None? {
        return Failure(NoEndpoint);
      }
      var callback := endpoint.value;
      var i := |middleware|;
      while i > 0
        invariant 0 <= i <= |middleware|
        invariant callback == Chain(middleware[i..], endpoint.value)
      {
        i := i - 1;
        assert middleware[i..][1..] == middleware[i + 1..];
        callback := middleware[i](callback);
      }
      assert middleware[0..] == middleware;
      return Success(callback(env));
    }
  }

  /** Giving the list to the constructor and adding the same middleware one
      by one to an empty stack build the same chain. */
  lemma {:induction false} AddingInOrder<E, R>(ms: seq<Middleware<E, R>>, endpoint: E -> R)
    ensures Chain(ms, endpoint) == AddAll([], ms, endpoint)
  {
    AddAllChain([], ms, endpoint);
    assert [] + ms == ms;
  }

  /** The chain of `ms0` after adding each of `ms` at the end. */
  function AddAll<E, R>(ms0: seq<Middleware<E, R>>, ms: seq<Middleware<E, R>>, endpoint: E -> R): E -> R
    decreases |ms|
  {
    if ms == [] then Chain(ms0, endpoint) else AddAll(ms0 + [ms[0]], ms[1..], endpoint)
  }

  lemma {:induction false} AddAllChain<E, R>(ms0: seq<Middleware<E, R>>, ms: seq<Middleware<E, R>>, endpoint: E -> R)
    ensures AddAll(ms0, ms, endpoint) == Chain(ms0 + ms, endpoint)
    decreases |ms|
  {
    if ms == [] {
      assert ms0 + ms == ms0;
    } else {
      AddAllChain(ms0 + [ms[0]], ms[1..], endpoint);
      assert ms0 + [ms[0]] + ms[1..] == ms0 + ms;
    }
  }
}

=== FILE: cascade.dfy ===
/*
 * The two CascadeEndpoint classes: each tries its applications in order,
 * with the same env, and answers with the first response that does not ask
 * to pass the request on; when every application passes, the last
 * response stands, and with no application a default 404.
 *
 * InjectStack\CascadeEndpoint passes on a response carrying the header
 * `X-Cascade: pass`; Inject\Stack\CascadeEndpoint passes on status 404.
 */
module Cascade {
  import opened Php
  import opened Gateway

  /** Which of the two classes' pass tests applies. */
  datatype Rule = PassHeader | NotFoundStatus

  /** Whether the loop goes on after `r`. As written, a falsy reply stops
      both loops: `isset($ret[1]['X-Cascade'])` is false on it, and
      `$ret[0] != 404` reads null != 404, which holds. The header value is
      compared loosely with the non-numeric 'pass', i.e. as a string. */
  predicate Passes(rule: Rule, r: Reply) {
    match rule
    case PassHeader => r.Some? && Lookup(r.value.headers, "X-Cascade") == Some("pass")
    case NotFoundStatus => r.Some? && r.value.status == 404
  }

  /** The response the loop starts from. */
  function Default(rule: Rule): (r: Reply)
    ensures Passes(rule, r)
  {
    match rule
    case PassHeader => Some(Response(404, [("X-Cascade", "pass")], Text("")))
    case NotFoundStatus => Some(Response(404, [], Text("")))
  }

  /** What each application answers to the same env. */
  function Replies(apps: seq<App>, env: Env): (rs: seq<Reply>)
    ensures |rs| == |apps|
    ensures forall i | 0 <= i < |apps| :: rs[i] == apps[i](env)
  {
    seq(|apps|, i requires 0 <= i < |apps| => apps[i](env))
  }

  /** The index of the first reply that does not pass. */
  function FirstStop(rule: Rule, rs: seq<Reply>): (r: Option<nat>)
    ensures r.Some? ==> r.value < |rs| && !Passes(rule, rs[r.value])
    ensures r.Some? ==> forall j | 0 <= j < r.value :: Passes(rule, rs[j])
    ensures r.None? ==> forall j | 0 <= j < |rs| :: Passes(rule, rs[j])
  {
    if rs == [] then None
    else if !Passes(rule, rs[0]) then Some(0)
    else match FirstStop(rule, rs[1..])
      case None => None
      case Some(i) => Some(i + 1)
  }

  /** The cascade's answer: the first reply that does not pass, else the
      last reply, else the default. */
  function Outcome(rule: Rule, rs: seq<Reply>): Reply {
    match FirstStop(rule, rs)
    case Some(i) => rs[i]
    case None => if rs == [] then Default(rule) else rs[|rs| - 1]
  }

  /** How many applications the loop calls: up to and including the first
      that does not pass. */
  function Attempts(rule: Rule, rs: seq<Reply>): (n: nat)
    ensures n <= |rs|
  {
    match FirstStop(rule, rs)
    case Some(i) => i + 1
    case None => |rs|
  }

  /** The foreach of __invoke: returns the answer and the number of
      applications called. */
  method Run(rule: Rule, apps: seq<App>, env: Env) returns (r: Reply, attempts: nat)
    ensures r == Outcome(rule, Replies(apps, env))
    ensures attempts == Attempts(rule, Replies(apps, env))
  {
    ghost var rs := Replies(apps, env);
    r := Default(rule);
    attempts := 0;
    while attempts < |apps|
      invariant attempts <= |apps|
      invariant forall j | 0 <= j < attempts :: Passes(rule, rs[j])
      invariant r == if attempts == 0 then Default(rule) else rs[attempts - 1]
    {
      r := apps[attempts](env);
      attempts := attempts + 1;
      if !Passes(rule, r) {
        StopsAt(rule, rs, attempts - 1);
        return;
      }
    }
    NeverStops(rule, rs);
  }

  /** The loop's exit on a reply that does not pass. */
  lemma {:induction false} StopsAt(rule: Rule, rs: seq<Reply>, k: nat)
    requires k < |rs| && !Passes(rule, rs[k])
    requires forall j | 0 <= j < k :: Passes(rule, rs[j])
    ensures FirstStop(rule, rs) == Some(k)
    ensures Outcome(rule, rs) == rs[k] && Attempts(rule, rs) == k + 1
  {
    if k > 0 {
      StopsAt(rule, rs[1..], k - 1);
    }
  }

  /** The loop's exit once every reply has passed. */
  lemma {:induction false} NeverStops(rule: Rule, rs: seq<Reply>)
    requires forall j | 0 <= j < |rs| :: Passes(rule, rs[j])
    ensures FirstStop(rule, rs) == None
    ensures Outcome(rule, rs) == (if rs == [] then Default(rule) else rs[|rs| - 1])
    ensures Attempts(rule, rs) == |rs|
  {
    if rs != [] {
      NeverStops(rule, rs[1..]);
    }
  }

  /** Appending an application changes the answer only when every earlier
      one passed, and then the new one answers. */
  lemma {:induction false} OutcomeAppend(rule: Rule, rs: seq<Reply>, r: Reply)
    ensures Outcome(rule, rs + [r]) == if FirstStop(rule, rs).Some? then Outcome(rule, rs) else r
    ensures Attempts(rule, rs + [r]) == if FirstStop(rule, rs).Some? then Attempts(rule, rs) else |rs| + 1
  {
    FirstStopAppend(rule, rs, r);
  }

  lemma {:induction false} FirstStopAppend(rule: Rule, rs: seq<Reply>, r: Reply)
    ensures FirstStop(rule, rs + [r]) == if FirstStop(rule, rs).Some? then FirstStop(rule, rs)
                                         else if Passes(rule, r) then None else Some(|rs|)
  {
    if rs != [] {
      assert (rs + [r])[1..] == rs[1..] + [r];
      FirstStopAppend(rule, rs[1..], r);
    } else {
      assert (rs + [r])[1..] == [];
    }
  }

  lemma {:induction false} RepliesAppend(apps: seq<App>, a: App, env: Env)
    ensures Replies(apps + [a], env) == Replies(apps, env) + [a(env)]
  {
  }

  /** When every application passes, the answer itself passes, so an
      enclosing cascade goes on to its next application. */
  lemma {:induction false} AllPassPasses(rule: Rule, rs: seq<Reply>)
    requires FirstStop(rule, rs).None?
    ensures Passes(rule, Outcome(rule, rs))
  {
  }

  /** InjectStack\CascadeEndpoint. */
  class LegacyCascadeEndpoint {
    /** $apps, in the order they are tried. */
    var apps: seq<App>

    constructor (apps: seq<App>)
      ensures this.apps == apps
    {
      this.apps := apps;
    }

    /** add(): the application is tried after all the others. */
    method Add(app: App)
      modifies this
      ensures apps == old(apps) + [app]
    {
      apps := apps + [app];
    }

    method Invoke(env: Env) returns (r: Reply, attempts: nat)
      ensures r == Outcome(PassHeader, Replies(apps, env))
      ensures attempts == Attempts(PassHeader, Replies(apps, env))
    {
      r, attempts := Run(PassHeader, apps, env);
    }
  }

  /** Inject\Stack\CascadeEndpoint. */
  class CascadeEndpoint {
    var apps: seq<App>

    constructor (apps: seq<App>)
      ensures this.apps == apps
    {
      this.apps := apps;
    }

    method Add(app: App)
      modifies this
      ensures apps == old(apps) + [app]
    {
      apps := apps + [app];
    }

    method Invoke(env: Env) returns (r: Reply, attempts: nat)
      ensures r == Outcome(NotFoundStatus, Replies(apps, env))
      ensures attempts == Attempts(NotFoundStatus, Replies(apps, env))
    {
      r, attempts := Run(NotFoundStatus, apps, env);
    }
  }

  /** The three-application test of the 404 rule: the second answer (200)
      is returned and the third application is never called. */
  lemma {:induction false} SecondAnswersExample(a: App, b: App, c: App, env: Env)
    requires a(env) == Some(Response(404, [("From", "call1")], Text("From call1")))
    requires b(env) == Some(Response(200, [("From", "call2")], Text("From call2")))
    ensures Outcome(NotFoundStatus, Replies([a, b, c], env)) == b(env)
    ensures Attempts(NotFoundStatus, Replies([a, b, c], env)) == 2
  {
    var rs := Replies([a, b, c], env);
    assert rs[1..][0] == b(env);
    assert FirstStop(NotFoundStatus, rs[1..]) == Some(0);
  }
}

=== FILE: daemon.dfy ===
/*
 * Inject\Stack\Adapter\AbstractDaemon: the supervisor that forks a fixed
 * number of workers, keeps the pid of each in a slot table, watches a
 * shared-memory byte per worker for hangs, and refills a slot whose worker
 * died or hung.
 *
 * pcntl_fork() is a fresh-pid oracle (the pids it hands out are inputs),
 * what pcntl_waitpid() reaps is an input, the shared memory is an array of
 * bytes, and posix_kill() is a recorded signal. Sleeping, signal handler
 * registration and the workers' own run() are left out.
 */
module Daemon {
  import Php

  /** A PHP array of pids, in its own iteration order: (key, pid) pairs. */
  type Table = seq<(int, int)>

  function KeySet(t: Table): set<int> {
    set i | 0 <= i < |t| :: t[i].0
  }

  /** The pids of a table, in iteration order. */
  function Pids(t: Table): (r: seq<int>)
    ensures |r| == |t| && forall i | 0 <= i < |t| :: r[i] == t[i].1
  {
    seq(|t|, i requires 0 <= i < |t| => t[i].1)
  }

  predicate DistinctKeys(t: Table) {
    forall i, j | 0 <= i < j < |t| :: t[i].0 != t[j].0
  }

  predicate DistinctPids(t: Table) {
    forall i, j | 0 <= i < j < |t| :: t[i].1 != t[j].1
  }

  /** `$a[$k]`: the pid under a key. */
  function PidAt(t: Table, k: int): (r: Php.Option<int>)
    ensures r.Some? <==> k in KeySet(t)
    ensures r.Some? ==> (k, r.value) in t
  {
    if t == [] then Php.None
    else if t[0].0 == k then Php.Some(t[0].1)
    else
      var r := PidAt(t[1..], k);
      assert r.Some? ==> (k, r.value) in t by {
        if r.Some? {
          var i :| 0 <= i < |t[1..]| && t[1..][i] == (k, r.value);
          assert t[i + 1] == (k, r.value);
        }
      }
      assert k in KeySet(t[1..]) ==> k in KeySet(t) by {
        if k in KeySet(t[1..]) {
          var i :| 0 <= i < |t[1..]| && t[1..][i].0 == k;
          assert t[i + 1].0 == k;
        }
      }
      assert k in KeySet(t) ==> k in KeySet(t[1..]) by {
        if k in KeySet(t) {
          var i :| 0 <= i < |t| && t[i].0 == k;
          assert i > 0 && t[1..][i - 1].0 == k;
        }
      }
      r
  }

  /** array_search($pid, $a): the key of the first entry holding the pid,
      or false (None). */
  function Search(t: Table, pid: int): (r: Php.Option<int>)
    ensures r.None? <==> pid !in Pids(t)
    ensures r.Some? ==> (r.value, pid) in t
  {
    if t == [] then Php.None
    else if t[0].1 == pid then Php.Some(t[0].0)
    else
      var r := Search(t[1..], pid);
      assert Pids(t) == [t[0].1] + Pids(t[1..]);
      assert r.Some? ==> (r.value, pid) in t by {
        if r.Some? {
          var i :| 0 <= i < |t[1..]| && t[1..][i] == (r.value, pid);
          assert t[i + 1] == (r.value, pid);
        }
      }
      r
  }

  /** unset($a[$k]): the entries with that key are dropped, the others keep
      their order. */
  function Unset(t: Table, k: int): (r: Table)
    ensures forall e | e in r :: e in t && e.0 != k
    ensures forall e | e in t && e.0 != k :: e in r
  {
    if t == [] then []
    else if t[0].0 == k then Unset(t[1..], k)
    else [t[0]] + Unset(t[1..], k)
  }

  /** The entries of a table are distinct keys, so unsetting a present key
      removes exactly one entry and keeps the others distinct. */
  lemma {:induction false} UnsetOne(t: Table, k: int)
    requires DistinctKeys(t) && k in KeySet(t)
    ensures |Unset(t, k)| == |t| - 1
    ensures DistinctKeys(Unset(t, k))
    ensures KeySet(Unset(t, k)) == KeySet(t) - {k}
    decreases |t|
  {
    DistinctCons(t);
    KeySetCons(t);
    if t[0].0 == k {
      UnsetAbsent(t[1..], k);
    } else {
      UnsetOne(t[1..], k);
      ConsDistinct(t[0], Unset(t[1..], k));
    }
  }

  lemma {:induction false} DistinctCons(t: Table)
    requires DistinctKeys(t) && t != []
    ensures DistinctKeys(t[1..]) && t[0].0 !in KeySet(t[1..])
  {
  }

  lemma {:induction false} ConsDistinct(e: (int, int), r: Table)
    requires DistinctKeys(r) && e.0 !in KeySet(r)
    ensures DistinctKeys([e] + r) && ([e] + r)[1..] == r
    ensures KeySet([e] + r) == {e.0} + KeySet(r)
  {
    forall j | 0 < j < |[e] + r| ensures ([e] + r)[0].0 != ([e] + r)[j].0 {
      assert ([e] + r)[j] == r[j - 1];
    }
    assert ([e] + r)[1..] == r;
    KeySetCons([e] + r);
  }

  lemma {:induction false} KeySetCons(t: Table)
    requires t != []
    ensures KeySet(t) == {t[0].0} + KeySet(t[1..])
  {
    forall x | x in KeySet(t) ensures x in {t[0].0} + KeySet(t[1..]) {
      var i :| 0 <= i < |t| && t[i].0 == x;
      if i > 0 {
        assert t[1..][i - 1].0 == x;
      }
    }
    forall x | x in KeySet(t[1..]) ensures x in KeySet(t) {
      var i :| 0 <= i < |t[1..]| && t[1..][i].0 == x;
      assert t[i + 1].0 == x;
    }
  }

  lemma {:induction false} UnsetAbsent(t: Table, k: int)
    requires k !in KeySet(t)
    ensures Unset(t, k) == t
    decreases |t|
  {
    if t != [] {
      KeySetCons(t);
      UnsetAbsent(t[1..], k);
    }
  }

  /** A signal posix_kill() sends. */
  datatype Signal = Term | Usr1

  datatype Kill = Kill(pid: int, signal: Signal)

  /** One signal to each pid, in order. */
  function Fanout(pids: seq<int>, s: Signal): (r: seq<Kill>)
    ensures |r| == |pids| && forall i | 0 <= i < |pids| :: r[i] == Kill(pids[i], s)
  {
    seq(|pids|, i requires 0 <= i < |pids| => Kill(pids[i], s))
  }

  lemma {:induction false} FanoutSnoc(pids: seq<int>, i: nat, s: Signal)
    requires i < |pids|
    ensures Fanout(pids[..i + 1], s) == Fanout(pids[..i], s) + [Kill(pids[i], s)]
  {
    var a := Fanout(pids[..i + 1], s);
    var b := Fanout(pids[..i], s) + [Kill(pids[i], s)];
    forall j | 0 <= j < |a| ensures a[j] == b[j] {
      if j < i {
        assert pids[..i][j] == pids[j];
      }
    }
  }

  /** The table serve() fills: key i holds the pid of the i-th fork. */
  function Slots(pids: seq<int>): (t: Table)
    ensures |t| == |pids| && forall i | 0 <= i < |pids| :: t[i] == (i, pids[i])
  {
    seq(|pids|, i requires 0 <= i < |pids| => (i, pids[i]))
  }

  /** A worker's half of the monitor interval: `(int) $sleep_time / 2`,
      the cast binding tighter than the division; sleep() then drops the
      fraction. */
  function ChildSleepTime(sleepTime: int): (c: int)
    requires sleepTime >= 2
    ensures c >= 1 && 2 * c <= sleepTime < 2 * c + 2
  {
    sleepTime / 2
  }

  /** One turn of the wait loop as the supervisor sees it: during its
      sleep() the workers of the slots in `reported` call notifyNoHang(),
      then pcntl_waitpid() reaps `reaped` (0 or -1 when nothing exited). */
  datatype Pause = Pause(reported: set<int>, reaped: int)

  /** What a run of the wait loop comes to: the pid it reports (-1 for
      none), how many turns it took, the signals it sent and the liveness
      bytes it leaves behind. */
  datatype Outcome = Outcome(dead: int, used: nat, sent: seq<Kill>, bytes: seq<char>)

  /** An outcome reached `n` turns later. */
  function Later(o: Outcome, n: nat): (r: Outcome)
    ensures r.used == o.used + n
    ensures r.dead == o.dead && r.sent == o.sent && r.bytes == o.bytes
  {
    o.(used := o.used + n)
  }

  /** One byte per slot, every one '0'. */
  function Zeros(n: nat): (r: seq<char>)
    ensures |r| == n && forall i | 0 <= i < n :: r[i] == '0'
  {
    seq(n, _ => '0')
  }

  /** The liveness bytes once the workers of `reported` wrote their '1'. */
  function Reported(bytes: seq<char>, reported: set<int>): (r: seq<char>)
    ensures |r| == |bytes|
    ensures forall i | 0 <= i < |bytes| && i in reported :: r[i] == '1'
    ensures forall i | 0 <= i < |bytes| && i !in reported :: r[i] == bytes[i]
  {
    seq(|bytes|, i requires 0 <= i < |bytes| => if i in reported then '1' else bytes[i])
  }

  /** The scan of checkHang(): the first of the first n slots whose byte is
      '0', or -1 when every one of them reported. */
  function FirstSilent(bytes: seq<char>, n: nat): (r: int)
    requires n <= |bytes|
    ensures -1 <= r < n
    ensures r >= 0 ==> bytes[r] == '0' && forall j | 0 <= j < r :: bytes[j] != '0'
    ensures r == -1 ==> forall j | 0 <= j < n :: bytes[j] != '0'
    decreases n
  {
    if n == 0 then -1
    else
      var r := FirstSilent(bytes, n - 1);
      if r >= 0 then r else if bytes[n - 1] == '0' then n - 1 else -1
  }

  /** One sweep of the wait loop on the bytes as they stand: a reaped
      worker of the table is the dead one; otherwise, with hang checks on,
      every byte goes back to '0' and the worker of the first silent slot
      is the dead one and gets exactly one SIGTERM. */
  function SweepOf(t: Table, bytes: seq<char>, useShmop: bool, waited: int): (o: Outcome)
    requires WorkerTable(t) && (useShmop ==> |bytes| == |t|)
    ensures o.used == 1 && |o.bytes| == |bytes|
    ensures waited in Pids(t) ==> o.dead == waited && o.sent == [] && o.bytes == bytes
    ensures waited !in Pids(t) && !useShmop ==> o.dead == -1 && o.sent == [] && o.bytes == bytes
    ensures waited !in Pids(t) && useShmop ==>
              o.bytes == Zeros(|bytes|) && (o.sent != [] <==> FirstSilent(bytes, |t|) >= 0)
    ensures o.dead >= 1 ==> o.dead in Pids(t)
    ensures o.dead < 1 ==> o.dead == -1 && o.sent == []
    ensures o.sent != [] ==>
              o.sent == [Kill(o.dead, Term)] && FirstSilent(bytes, |t|) >= 0
              && PidAt(t, FirstSilent(bytes, |t|)) == Php.Some(o.dead)
  {
    if waited in Pids(t) then
      var a :| 0 <= a < |t| && Pids(t)[a] == waited;
      Outcome(waited, 1, [], bytes)
    else if !useShmop then Outcome(-1, 1, [], bytes)
    else
      var i := FirstSilent(bytes, |t|);
      if i == -1 then Outcome(-1, 1, [], Zeros(|bytes|))
      else
        assert i in KeySet(t);
        var pid := PidAt(t, i).value;
        EntryPid(t, (i, pid));
        var a :| 0 <= a < |t| && t[a] == (i, pid);
        Outcome(pid, 1, [Kill(pid, Term)], Zeros(|bytes|))
  }

  /** The wait loop of serve() over the turns `pauses`: each turn the
      reports land, then a sweep; the loop stops at the first sweep that
      names a worker, or when the turns run out. */
  function WaitOf(t: Table, bytes: seq<char>, useShmop: bool, pauses: seq<Pause>): (o: Outcome)
    requires WorkerTable(t) && (useShmop ==> |bytes| == |t|)
    ensures o.used <= |pauses| && |o.bytes| == |bytes|
    ensures o.dead >= 1 ==> o.dead in Pids(t) && o.used >= 1
    ensures o.dead < 1 ==> o.dead == -1 && o.used == |pauses| && o.sent == []
    ensures o.sent != [] ==> useShmop && o.sent == [Kill(o.dead, Term)]
    ensures !useShmop ==> (o.dead >= 1 <==> exists i | 0 <= i < |pauses| :: pauses[i].reaped in Pids(t))
    ensures !useShmop && o.dead >= 1 ==>
              o.dead == pauses[o.used - 1].reaped && forall i | 0 <= i < o.used - 1 :: pauses[i].reaped !in Pids(t)
    decreases |pauses|
  {
    if pauses == [] then Outcome(-1, 0, [], bytes)
    else
      var b := if useShmop then Reported(bytes, pauses[0].reported) else bytes;
      var s := SweepOf(t, b, useShmop, pauses[0].reaped);
      if s.dead >= 1 then s
      else Later(WaitOf(t, s.bytes, useShmop, pauses[1..]), 1)
  }

  /** The wait loop from turn i on: that turn's reports and sweep, then,
      unless the sweep named a worker, the loop from turn i + 1. */
  lemma WaitOfFrom(t: Table, bytes: seq<char>, useShmop: bool, pauses: seq<Pause>, i: nat)
    requires WorkerTable(t) && (useShmop ==> |bytes| == |t|) && i < |pauses|
    ensures var b := if useShmop then Reported(bytes, pauses[i].reported) else bytes;
            var s := SweepOf(t, b, useShmop, pauses[i].reaped);
            WaitOf(t, bytes, useShmop, pauses[i..])
              == if s.dead >= 1 then s else Later(WaitOf(t, s.bytes, useShmop, pauses[i + 1..]), 1)
  {
    assert pauses[i..][0] == pauses[i] && pauses[i..][1..] == pauses[i + 1..];
  }

  /** Only one slot is the first silent one. */
  lemma FirstSilentIs(bytes: seq<char>, n: nat, index: int)
    requires n <= |bytes| && -1 <= index < n
    requires index >= 0 ==> bytes[index] == '0' && forall j | 0 <= j < index :: bytes[j] != '0'
    requires index == -1 ==> forall j | 0 <= j < n :: bytes[j] != '0'
    ensures index == FirstSilent(bytes, n)
  {
  }

  /** A worker that reports during every sleep is never taken for hung:
      whatever the wait loop kills, it is not that worker. */
  lemma {:induction false} ReportingWorkerSpared(t: Table, bytes: seq<char>, useShmop: bool, pauses: seq<Pause>, k: int)
    requires WorkerTable(t) && (useShmop ==> |bytes| == |t|) && 0 <= k < |t|
    requires forall i | 0 <= i < |pauses| :: k in pauses[i].reported
    ensures var o := WaitOf(t, bytes, useShmop, pauses);
            o.sent != [] ==> PidAt(t, k) != Php.Some(o.dead)
    decreases |pauses|
  {
    var o := WaitOf(t, bytes, useShmop, pauses);
    if pauses != [] && o.sent != [] {
      var b := if useShmop then Reported(bytes, pauses[0].reported) else bytes;
      var s := SweepOf(t, b, useShmop, pauses[0].reaped);
      if s.dead >= 1 {
        var j := FirstSilent(b, |t|);
        assert b[k] == '1';
        if PidAt(t, k) == Php.Some(o.dead) {
          DistinctEntries(t, (j, o.dead), (k, o.dead));
        }
      } else {
        ReportingWorkerSpared(t, s.bytes, useShmop, pauses[1..], k);
      }
    }
  }

  class Supervisor {
    /** AbstractDaemon::$use_shmop: whether hangs are watched for. */
    const useShmop: bool
    /** Seconds between sweeps of the monitor loop. */
    var sleepTime: int
    /** $child_pids: slot index to worker pid. */
    var table: Table
    /** The shared memory: one liveness byte per worker. */
    var shm: array<char>
    /** The signals sent, in order. */
    var kills: seq<Kill>
    /** Whether the supervisor has exited (die()). */
    var exited: bool

    /** The slot table covers the slots 0 .. n-1 once each, its pids are
        positive and distinct, and there is one liveness byte per slot. */
    predicate Valid()
      reads this
    {
      WorkerTable(table) && (useShmop ==> shm.Length == |table|)
    }

    constructor (useShmop: bool)
      ensures this.useShmop == useShmop
      ensures sleepTime == 10 && table == [] && kills == [] && !exited
    {
      this.useShmop := useShmop;
      sleepTime := 10;
      table := [];
      shm := new char[0];
      kills := [];
      exited := false;
    }

    /** The first line of serve(): the interval is never below 2 seconds. */
    method SetSleepTime(requested: int)
      modifies this
      ensures sleepTime >= 2 && (requested >= 2 ==> sleepTime == requested)
      ensures requested < 2 ==> sleepTime == 2
      ensures table == old(table) && shm == old(shm) && kills == old(kills) && exited == old(exited)
    {
      sleepTime := if requested < 2 then 2 else requested;
    }

    /** initShmop(): up to ten attempts at allocating the shared memory
        (`allocates(i)` says whether attempt i succeeds), then every byte is
        set to '0'; `ok` is false where the source throws. */
    method InitShmop(n: nat, allocates: nat -> bool) returns (ok: bool, attempts: nat)
      modifies this
      ensures ok <==> exists i | 0 <= i < 10 :: allocates(i)
      ensures 1 <= attempts <= 10
      ensures forall i | 0 <= i < attempts - 1 :: !allocates(i)
      ensures ok ==> allocates(attempts - 1)
      ensures !ok ==> attempts == 10
      ensures ok ==> fresh(shm) && shm.Length == n && forall i | 0 <= i < n :: shm[i] == '0'
      ensures !ok ==> shm == old(shm)
      ensures table == old(table) && kills == old(kills) && sleepTime == old(sleepTime) && exited == old(exited)
    {
      ok := false;
      attempts := 0;
      while !ok && attempts < 10
        invariant 0 <= attempts <= 10
        invariant forall i | 0 <= i < attempts - 1 :: !allocates(i)
        invariant ok ==> attempts >= 1 && allocates(attempts - 1)
        invariant !ok ==> forall i | 0 <= i < attempts :: !allocates(i)
        decreases 10 - attempts, !ok
      {
        ok := allocates(attempts);
        attempts := attempts + 1;
      }
      if ok {
        var bytes := new char[n];
        for i := 0 to n
          modifies bytes
          invariant forall j | 0 <= j < i :: bytes[j] == '0'
        {
          bytes[i] := '0';
        }
        shm := bytes;
      }
    }

    /** The fork loop of serve(): slot i gets the pid of the child forked
        with index i. `forked` holds what each pcntl_fork() returns in the
        parent; a -1 throws, which `failed` reports, with the slots filled
        so far. serve() never returns, so it runs once, on an empty
        table. */
    method StartChildren(n: nat, forked: seq<int>) returns (failed: bool)
      requires table == [] && |forked| == n
      requires forall i | 0 <= i < n :: forked[i] == -1 || forked[i] > 0
      requires forall i, j | 0 <= i < j < n && forked[i] > 0 :: forked[i] != forked[j]
      modifies this
      ensures failed <==> -1 in forked
      ensures !failed ==> table == Slots(forked)
      ensures failed ==> exists m | 0 <= m < n :: forked[m] == -1 && -1 !in forked[..m] && table == Slots(forked[..m])
      ensures shm == old(shm) && kills == old(kills) && sleepTime == old(sleepTime) && exited == old(exited)
    {
      failed := false;
      var i := 0;
      while i < n
        invariant 0 <= i <= n
        invariant -1 !in forked[..i]
        invariant table == Slots(forked[..i])
        invariant shm == old(shm) && kills == old(kills) && sleepTime == old(sleepTime) && exited == old(exited)
      {
        if forked[i] == -1 {
          failed := true;
          assert -1 in forked;
          return;
        }
        table := table + [(i, forked[i])];
        assert forked[..i + 1] == forked[..i] + [forked[i]];
        i := i + 1;
      }
      assert forked[..n] == forked;
    }

    /** A worker's notifyNoHang(): a '1' at its own slot, nothing else. */
    method NotifyNoHang(index: nat)
      requires index < shm.Length
      modifies shm
      ensures useShmop ==> shm[..] == old(shm[..])[index := '1']
      ensures !useShmop ==> shm[..] == old(shm[..])
    {
      if useShmop {
        shm[index] := '1';
      }
    }

    /** checkHang(): the first slot whose byte is still '0' (a falsy
        character: the worker has not reported since the last sweep), or
        -1; every byte is reset to '0' in either case. */
    method CheckHang() returns (index: int)
      requires Valid() && useShmop
      modifies shm
      ensures -1 <= index < |table|
      ensures index >= 0 ==> old(shm[index]) == '0' && forall j | 0 <= j < index :: old(shm[j]) != '0'
      ensures index == -1 ==> forall j | 0 <= j < |table| :: old(shm[j]) != '0'
      ensures forall j | 0 <= j < shm.Length :: shm[j] == '0'
    {
      index := -1;
      var n := |table|;
      var i := 0;
      while i < n
        invariant 0 <= i <= n
        invariant forall j | 0 <= j < i :: shm[j] != '0'
      {
        if shm[i] == '0' {
          index := i;
          break;
        }
        i := i + 1;
      }
      for j := 0 to n
        invariant forall m | 0 <= m < j :: shm[m] == '0'
        invariant forall m | j <= m < n :: shm[m] == old(shm[m])
      {
        shm[j] := '0';
      }
    }

    /** One pass of the wait loop in serve(): a reaped pid counts only when
        it is tracked; otherwise, with hang watching on, the first silent
        slot is taken as dead and its worker is sent SIGTERM. The result is
        below 1 when there is nothing to replace yet. */
    method Sweep(waited: int) returns (dead: int)
      requires Valid()
      modifies this, shm
      ensures Valid() && table == old(table) && shm == old(shm)
      ensures waited in Pids(table) ==> dead == waited && kills == old(kills) && shm[..] == old(shm[..])
      ensures waited !in Pids(table) && !useShmop ==> dead == -1 && kills == old(kills)
      ensures dead >= 1 ==> dead in Pids(table)
      ensures var o := SweepOf(table, old(shm[..]), useShmop, waited);
              dead == o.dead && kills == old(kills) + o.sent && shm[..] == o.bytes
      ensures sleepTime == old(sleepTime) && exited == old(exited)
    {
      if waited in Pids(table) {
        dead := waited;
        var i :| 0 <= i < |table| && Pids(table)[i] == dead;
        return;
      }
      dead := -1;
      if !useShmop {
        return;
      }
      ghost var before := shm[..];
      var index := CheckHang();
      FirstSilentIs(before, |table|, index);
      assert shm[..] == Zeros(shm.Length);
      if index > -1 {
        assert index in KeySet(table);
        var p := PidAt(table, index);
        dead := p.value;
        assert dead in Pids(table) by {
          var i :| 0 <= i < |table| && table[i] == (index, dead);
          assert Pids(table)[i] == dead;
        }
        kills := kills + [Kill(dead, Term)];
      }
    }

    /** The workers of the slots in `reported` call notifyNoHang() while
        the supervisor sleeps. */
    method Interval(reported: set<int>)
      modifies shm
      ensures shm[..] == if useShmop then Reported(old(shm[..]), reported) else old(shm[..])
    {
      for i := 0 to shm.Length
        invariant forall m | 0 <= m < i :: shm[m] == if useShmop && m in reported then '1' else old(shm[m])
        invariant forall m | i <= m < shm.Length :: shm[m] == old(shm[m])
      {
        if i in reported {
          NotifyNoHang(i);
        }
      }
    }

    /** Turn `used` of the wait loop: the reports of the sleep land, then a
        sweep. `o` is where the whole loop ends; the sweep either names a
        worker and the loop ends there, or the rest of the turns lead to
        the same end. */
    method Turn(ghost o: Outcome, pauses: seq<Pause>, used: nat) returns (dead: int)
      requires Valid() && used < |pauses|
      requires o == Later(WaitOf(table, shm[..], useShmop, pauses[used..]), used)
      modifies this, shm
      ensures Valid() && table == old(table) && shm == old(shm)
      ensures dead < 1 ==> dead == -1 && kills == old(kills)
                           && o == Later(WaitOf(table, shm[..], useShmop, pauses[used + 1..]), used + 1)
      ensures dead >= 1 ==> dead == o.dead && used + 1 == o.used && kills == old(kills) + o.sent && shm[..] == o.bytes
      ensures sleepTime == old(sleepTime) && exited == old(exited)
    {
      WaitOfFrom(table, shm[..], useShmop, pauses, used);
      Interval(pauses[used].reported);
      dead := Sweep(pauses[used].reaped);
    }

    /** The wait loop of serve(): each turn of `pauses` the reports of the
        sleep land, then a sweep, until one names a worker to replace, or
        the turns run out; `used` is how many were consumed. */
    method WaitForExit(pauses: seq<Pause>) returns (dead: int, used: nat)
      requires Valid()
      modifies this, shm
      ensures Valid() && table == old(table) && shm == old(shm)
      ensures var o := WaitOf(table, old(shm[..]), useShmop, pauses);
              dead == o.dead && used == o.used && kills == old(kills) + o.sent && shm[..] == o.bytes
      ensures used <= |pauses|
      ensures dead >= 1 ==> dead in Pids(table) && used >= 1
      ensures dead < 1 ==> used == |pauses|
      ensures sleepTime == old(sleepTime) && exited == old(exited)
    {
      ghost var o := WaitOf(table, shm[..], useShmop, pauses);
      dead := -1;
      used := 0;
      while dead < 1 && used < |pauses|
        invariant Valid() && table == old(table) && shm == old(shm)
        invariant used <= |pauses|
        invariant dead < 1 ==> dead == -1 && kills == old(kills)
                               && o == Later(WaitOf(table, shm[..], useShmop, pauses[used..]), used)
        invariant dead >= 1 ==> dead == o.dead && used == o.used && kills == old(kills) + o.sent && shm[..] == o.bytes
        invariant sleepTime == old(sleepTime) && exited == old(exited)
        decreases |pauses| - used
      {
        dead := Turn(o, pauses, used);
        used := used + 1;
      }
      if dead < 1 {
        assert pauses[used..] == [];
      }
    }

    /** The end of a monitor iteration: a tracked pid's slot is unset and
        refilled with a fork for the same index; other slots keep their
        pids. `newPid` is what pcntl_fork() returns: -1 makes fork() throw
        after the unset, so the slot stays empty and `failed` reports the
        exception. An untracked pid changes nothing. */
    method Respawn(dead: int, newPid: int) returns (failed: bool)
      requires Valid() && (newPid == -1 || (newPid > 0 && newPid !in Pids(table)))
      modifies this
      ensures failed <==> dead in Pids(old(table)) && newPid == -1
      ensures !failed ==> Valid()
      ensures Search(old(table), dead).None? ==> table == old(table)
      ensures Search(old(table), dead).Some? ==>
                var k := Search(old(table), dead).value;
                table == Unset(old(table), k) + (if failed then [] else [(k, newPid)])
                && PidAt(table, k) == (if failed then Php.None else Php.Some(newPid))
                && dead !in Pids(table)
                && forall k' | k' != k :: PidAt(table, k') == PidAt(old(table), k')
      ensures shm == old(shm) && kills == old(kills) && sleepTime == old(sleepTime) && exited == old(exited)
    {
      failed := false;
      var key := Search(table, dead);
      if key.Some? {
        var k := key.value;
        if newPid == -1 {
          UnsetLosesSlot(table, k, dead);
          table := Unset(table, k);
          failed := true;
        } else {
          RespawnKeepsTable(table, dead, newPid);
          table := Unset(table, k) + [(k, newPid)];
        }
      }
    }

    /** One iteration of the monitor loop: wait over the turns `pauses`
        for a worker to replace, then refill its slot with the fork
        `newPid`. The signals and the liveness bytes are the wait loop's.
        When the turns run out first, the table is as it was; when the fork
        fails, the slot is left empty and serve() ends with the
        exception. */
    method MonitorStep(pauses: seq<Pause>, newPid: int) returns (dead: int, used: nat, failed: bool)
      requires Valid() && (newPid == -1 || (newPid > 0 && newPid !in Pids(table)))
      modifies this, shm
      ensures !failed ==> Valid()
      ensures var o := WaitOf(old(table), old(shm[..]), useShmop, pauses);
              dead == o.dead && used == o.used && kills == old(kills) + o.sent && shm[..] == o.bytes
      ensures shm == old(shm) && sleepTime == old(sleepTime) && exited == old(exited)
      ensures used <= |pauses|
      ensures failed <==> dead >= 1 && newPid == -1
      ensures dead < 1 ==> table == old(table)
      ensures dead >= 1 ==>
                dead in Pids(old(table)) && dead !in Pids(table)
                && exists k :: PidAt(old(table), k) == Php.Some(dead)
                               && PidAt(table, k) == (if failed then Php.None else Php.Some(newPid))
                               && forall k' | k' != k :: PidAt(table, k') == PidAt(old(table), k')
    {
      failed := false;
      dead, used := WaitForExit(pauses);
      if dead >= 1 {
        var k := Search(table, dead).value;
        PidAtUnique(table, k, dead);
        failed := Respawn(dead, newPid);
      }
    }

    /** killChildren(): SIGTERM to every tracked pid in table order, the
        table emptied, and the supervisor gone. */
    method KillChildren()
      modifies this
      ensures kills == old(kills) + Fanout(Pids(old(table)), Term)
      ensures table == [] && exited
      ensures shm == old(shm) && sleepTime == old(sleepTime)
    {
      var pids := Pids(table);
      for i := 0 to |pids|
        invariant kills == old(kills) + Fanout(pids[..i], Term)
        invariant table == old(table) && shm == old(shm) && sleepTime == old(sleepTime)
      {
        FanoutSnoc(pids, i, Term);
        kills := kills + [Kill(pids[i], Term)];
      }
      assert pids[..|pids|] == pids;
      table := [];
      exited := true;
    }

    /** reloadChildren(): SIGUSR1 to every tracked pid; the table stays as
        it is, the monitor loop refilling slots as workers wind down. */
    method ReloadChildren()
      modifies this
      ensures kills == old(kills) + Fanout(Pids(table), Usr1)
      ensures table == old(table) && shm == old(shm) && sleepTime == old(sleepTime) && exited == old(exited)
    {
      var pids := Pids(table);
      for i := 0 to |pids|
        invariant kills == old(kills) + Fanout(pids[..i], Usr1)
        invariant table == old(table) && shm == old(shm) && sleepTime == old(sleepTime) && exited == old(exited)
      {
        FanoutSnoc(pids, i, Usr1);
        kills := kills + [Kill(pids[i], Usr1)];
      }
      assert pids[..|pids|] == pids;
    }
  }

  /** Refilling a slot keeps the table well formed: the same keys, each
      once, distinct pids, the refilled slot holding the new pid and every
      other slot its old one, and the dead pid gone. */
  /** The worker table: one slot per index 0 .. n-1, no pid twice, every
      pid a real process. */
  predicate WorkerTable(t: Table) {
    DistinctKeys(t) && DistinctPids(t)
    && (forall i | 0 <= i < |t| :: 0 <= t[i].0 < |t| && t[i].1 > 0)
    && (forall k | 0 <= k < |t| :: k in KeySet(t))
  }

  /** Refilling the slot of a tracked pid keeps the table's shape. */
  lemma {:induction false} RespawnKeepsTable(t: Table, dead: int, newPid: int)
    requires WorkerTable(t) && newPid > 0 && newPid !in Pids(t) && Search(t, dead).Some?
    ensures var k := Search(t, dead).value;
            var r := Unset(t, k) + [(k, newPid)];
            WorkerTable(r) && |r| == |t| && PidAt(r, k) == Php.Some(newPid) && dead !in Pids(r)
            && forall k' | k' != k :: PidAt(r, k') == PidAt(t, k')
  {
    var k := Search(t, dead).value;
    var i :| 0 <= i < |t| && t[i] == (k, dead);
    assert k in KeySet(t);
    PidAtUnique(t, k, dead);
    RespawnKeeps(t, k, newPid);
    var r := Unset(t, k) + [(k, newPid)];
    forall j | 0 <= j < |r| ensures 0 <= r[j].0 < |r| && r[j].1 > 0 {
      if j < |r| - 1 {
        assert r[j] in t;
        var a :| 0 <= a < |t| && t[a] == r[j];
      }
    }
  }

  lemma {:induction false} RespawnKeeps(t: Table, k: int, newPid: int)
    requires DistinctKeys(t) && DistinctPids(t) && k in KeySet(t) && newPid !in Pids(t)
    ensures var r := Unset(t, k) + [(k, newPid)];
            |r| == |t| && KeySet(r) == KeySet(t) && DistinctKeys(r) && DistinctPids(r)
            && PidAt(r, k) == Php.Some(newPid)
            && PidAt(t, k).Some? && PidAt(t, k).value !in Pids(r)
            && (forall k' | k' != k :: PidAt(r, k') == PidAt(t, k'))
  {
    var u := Unset(t, k);
    var r := u + [(k, newPid)];
    UnsetOne(t, k);
    AppendKey(u, k, newPid);
    RespawnPids(t, k, newPid);
    forall k' | k' != k ensures PidAt(r, k') == PidAt(t, k') {
      if PidAt(t, k').Some? {
        var v := PidAt(t, k').value;
        assert (k', v) in r;
        PidAtUnique(r, k', v);
      }
    }
    PidAtUnique(r, k, newPid);
  }

  /** Unsetting a tracked slot empties it and drops its pid; every other
      slot keeps its pid. */
  lemma {:induction false} UnsetLosesSlot(t: Table, k: int, dead: int)
    requires DistinctKeys(t) && DistinctPids(t) && (k, dead) in t
    ensures var u := Unset(t, k);
            PidAt(u, k).None? && dead !in Pids(u)
            && forall k' | k' != k :: PidAt(u, k') == PidAt(t, k')
  {
    var u := Unset(t, k);
    assert k in KeySet(t) by {
      var a :| 0 <= a < |t| && t[a] == (k, dead);
    }
    UnsetOne(t, k);
    forall i | 0 <= i < |u| ensures Pids(u)[i] != dead {
      DistinctEntries(t, u[i], (k, dead));
    }
    forall k' | k' != k ensures PidAt(u, k') == PidAt(t, k') {
      if PidAt(t, k').Some? {
        var v := PidAt(t, k').value;
        assert (k', v) in u;
        PidAtUnique(u, k', v);
      }
    }
  }

  /** Appending an absent key adds it and keeps the keys distinct. */
  lemma {:induction false} AppendKey(u: Table, k: int, p: int)
    requires DistinctKeys(u) && k !in KeySet(u)
    ensures KeySet(u + [(k, p)]) == KeySet(u) + {k}
    ensures DistinctKeys(u + [(k, p)])
  {
    var r := u + [(k, p)];
    assert r[|u|].0 == k;
    forall x | x in KeySet(r) ensures x in KeySet(u) + {k} {
      var i :| 0 <= i < |r| && r[i].0 == x;
      if i < |u| { assert u[i].0 == x; }
    }
    forall x | x in KeySet(u) ensures x in KeySet(r) {
      var i :| 0 <= i < |u| && u[i].0 == x;
      assert r[i].0 == x;
    }
    forall i, j | 0 <= i < j < |r| ensures r[i].0 != r[j].0 {
      assert r[i] == u[i];
      if j == |u| {
        assert u[i].0 in KeySet(u);
      } else {
        assert r[j] == u[j];
      }
    }
  }

  /** The pids after a refill are distinct and the refilled slot's old pid
      is no longer among them. */
  lemma {:induction false} RespawnPids(t: Table, k: int, newPid: int)
    requires DistinctKeys(t) && DistinctPids(t) && k in KeySet(t) && newPid !in Pids(t)
    ensures PidAt(t, k).Some?
    ensures DistinctPids(Unset(t, k) + [(k, newPid)])
    ensures PidAt(t, k).value !in Pids(Unset(t, k) + [(k, newPid)])
  {
    var u := Unset(t, k);
    var r := u + [(k, newPid)];
    UnsetOne(t, k);
    forall i, j | 0 <= i < j < |r| ensures r[i].1 != r[j].1 {
      if j == |u| {
        EntryPid(t, u[i]);
      } else {
        DistinctEntries(t, u[i], u[j]);
      }
    }
    var old_ := PidAt(t, k).value;
    forall i | 0 <= i < |r| ensures Pids(r)[i] != old_ {
      if i < |u| {
        DistinctEntries(t, u[i], (k, old_));
      } else {
        EntryPid(t, (k, old_));
      }
    }
  }

  lemma {:induction false} EntryPid(t: Table, e: (int, int))
    requires e in t
    ensures e.1 in Pids(t)
  {
    var a :| 0 <= a < |t| && t[a] == e;
    assert Pids(t)[a] == e.1;
  }

  /** Two entries with different keys hold different pids. */
  lemma {:induction false} DistinctEntries(t: Table, e1: (int, int), e2: (int, int))
    requires DistinctPids(t) && e1 in t && e2 in t && e1.0 != e2.0
    ensures e1.1 != e2.1
  {
    var a :| 0 <= a < |t| && t[a] == e1;
    var b :| 0 <= b < |t| && t[b] == e2;
    assert a != b;
  }

  /** With distinct keys, the pid under a key is the one its entry holds. */
  lemma {:induction false} PidAtUnique(t: Table, k: int, v: int)
    requires DistinctKeys(t) && (k, v) in t
    ensures PidAt(t, k) == Php.Some(v)
    decreases |t|
  {
    if t[0] != (k, v) {
      assert (k, v) in t[1..] by {
        var i :| 0 <= i < |t| && t[i] == (k, v);
        assert i > 0 && t[1..][i - 1] == (k, v);
      }
      assert t[0].0 != k by {
        var i :| 0 <= i < |t| && t[i] == (k, v);
      }
      PidAtUnique(t[1..], k, v);
    }
  }
}

=== FILE: daemon_legacy.dfy ===
/*
 * InjectStack\Adapter\AbstractDaemon: the older supervisor. It keeps the
 * worker pids in a plain list that `$child_pids[] = ...` appends to, waits
 * for any child to exit, drops the dead pid and appends a replacement.
 *
 * As in Daemon, forks and reaped pids are inputs and signals are recorded.
 */
module DaemonLegacy {
  import Php
  import opened Daemon

  /** What the monitor loop makes of one reaped pid, as written:
      `if ($key = array_search(...))` is false for key 0 as well as for a
      pid not found, so the first worker's pid is never dropped; the
      replacement is appended under the next free key either way. A wait
      error (-1) changes nothing. */
  function ReapAsWritten(t: Table, next: int, dead: int, newPid: int): (Table, int) {
    if dead == -1 then (t, next)
    else
      var kept := match Search(t, dead)
        case Some(k) => if k != 0 then Unset(t, k) else t
        case None => t;
      (kept + [(next, newPid)], next + 1)
  }

  /** The same step as intended (the test the newer supervisor makes,
      `!== false`): a tracked pid is dropped whatever its key. */
  function Reap(t: Table, next: int, dead: int, newPid: int): (Table, int) {
    if dead == -1 then (t, next)
    else
      var kept := match Search(t, dead)
        case Some(k) => Unset(t, k)
        case None => t;
      (kept + [(next, newPid)], next + 1)
  }

  /** The list after `n` appends: keys 0 .. n-1 in order. */
  predicate WellKeyed(t: Table, next: int) {
    DistinctKeys(t) && forall i | 0 <= i < |t| :: 0 <= t[i].0 < next
  }

  /** As intended, a tracked worker's exit keeps the number of workers:
      its pid is gone and the replacement is the last entry. */
  lemma {:induction false} ReapReplaces(t: Table, next: int, dead: int, newPid: int)
    requires WellKeyed(t, next) && DistinctPids(t) && dead != -1 && dead in Pids(t) && newPid !in Pids(t)
    ensures var (r, next') := Reap(t, next, dead, newPid);
            |r| == |t| && next' == next + 1 && WellKeyed(r, next') && DistinctPids(r)
            && dead !in Pids(r) && r[|r| - 1] == (next, newPid)
  {
    var k := Search(t, dead).value;
    var u := Unset(t, k);
    UnsetKeeps(t, next, k, dead, newPid);
    AppendFresh(u, next, newPid);
    PidsSnoc(u, (next, newPid));
  }

  /** Unsetting a tracked entry keeps the table well formed and drops its
      pid, and adds no pid. */
  lemma {:induction false} UnsetKeeps(t: Table, next: int, k: int, dead: int, newPid: int)
    requires WellKeyed(t, next) && DistinctPids(t) && (k, dead) in t && newPid !in Pids(t)
    ensures var u := Unset(t, k);
            |u| == |t| - 1 && next >= 1 && WellKeyed(u, next) && DistinctPids(u)
            && dead !in Pids(u) && newPid !in Pids(u) && dead != newPid
  {
    var u := Unset(t, k);
    var a :| 0 <= a < |t| && t[a] == (k, dead);
    assert k in KeySet(t);
    assert Pids(t)[a] == dead;
    UnsetOne(t, k);
    forall i | 0 <= i < |u| ensures 0 <= u[i].0 < next {
      assert u[i] in t;
    }
    forall i, j | 0 <= i < j < |u| ensures u[i].1 != u[j].1 {
      assert u[i] in t && u[j] in t;
      assert u[i].0 != u[j].0;
      DistinctEntries(t, u[i], u[j]);
    }
    forall i | 0 <= i < |u| ensures Pids(u)[i] != dead && Pids(u)[i] != newPid {
      assert u[i] in t && u[i].0 != k;
      DistinctEntries(t, u[i], (k, dead));
      EntryPid(t, u[i]);
    }
  }


  /** The supervisor's table: keys below the next key, no pid twice, every
      pid a real process. */
  predicate Supervised(t: Table, next: int) {
    WellKeyed(t, next) && DistinctPids(t) && next >= 0 && forall i | 0 <= i < |t| :: t[i].1 > 0
  }

  /** A reap keeps the supervisor's table well formed. */
  lemma {:induction false} ReapTracked(t: Table, next: int, dead: int, newPid: int)
    requires Supervised(t, next) && newPid > 0 && newPid !in Pids(t) && dead != -1
    ensures Supervised(Reap(t, next, dead, newPid).0, Reap(t, next, dead, newPid).1)
    ensures dead in Pids(t) ==> |Reap(t, next, dead, newPid).0| == |t| && dead !in Pids(Reap(t, next, dead, newPid).0)
  {
    var r := Reap(t, next, dead, newPid).0;
    if dead in Pids(t) {
      ReapReplaces(t, next, dead, newPid);
    } else {
      AppendFresh(t, next, newPid);
    }
    forall i | 0 <= i < |r| ensures r[i].1 > 0 {
      if i < |r| - 1 {
        assert r[i] in t;
        var j :| 0 <= j < |t| && t[j] == r[i];
      }
    }
  }

  /** A list whose entries all come from a list of real processes holds
      only real processes. */
  lemma {:induction false} PositivePids(t: Table, u: Table)
    requires forall i | 0 <= i < |t| :: t[i].1 > 0
    requires forall e | e in u :: e in t
    ensures forall i | 0 <= i < |u| :: u[i].1 > 0
  {
    forall i | 0 <= i < |u| ensures u[i].1 > 0 {
      assert u[i] in t;
      var j :| 0 <= j < |t| && t[j] == u[i];
    }
  }

  /** The reap drops the entry Search finds, if any, and appends. */
  lemma {:induction false} ReapKeeps(t: Table, next: int, dead: int, newPid: int, kept: Table)
    requires dead != -1
    requires kept == if Search(t, dead).Some? then Unset(t, Search(t, dead).value) else t
    ensures Reap(t, next, dead, newPid) == (kept + [(next, newPid)], next + 1)
  {
  }

  /** As written, the exit of the worker under key 0 leaves its pid in the
      list and still appends a replacement: the list grows by one. */
  lemma {:induction false} ReapAsWrittenKeepsFirst(t: Table, next: int, newPid: int)
    requires t != [] && t[0].0 == 0 && t[0].1 != -1
    ensures var (r, _) := ReapAsWritten(t, next, t[0].1, newPid);
            |r| == |t| + 1 && t[0].1 in Pids(r) && r == t + [(next, newPid)]
  {
    var (r, _) := ReapAsWritten(t, next, t[0].1, newPid);
    assert Search(t, t[0].1) == Php.Some(0);
    assert Pids(r)[0] == t[0].1;
  }

  /** Two workers, the first one exits: as written the list still names it
      and now has three entries; as intended it has two, without it. */
  lemma {:induction false} FirstWorkerExample()
    ensures ReapAsWritten([(0, 100), (1, 101)], 2, 100, 102) == ([(0, 100), (1, 101), (2, 102)], 3)
    ensures Reap([(0, 100), (1, 101)], 2, 100, 102) == ([(1, 101), (2, 102)], 3)
  {
    var t: Table := [(0, 100), (1, 101)];
    assert Search(t, 100) == Php.Some(0);
    ReapAsWrittenKeepsFirst(t, 2, 102);
    assert t[1..] == [(1, 101)];
    assert Unset([(1, 101)], 0) == [(1, 101)] + Unset([], 0);
    assert Unset(t, 0) == [(1, 101)];
    assert t + [(2, 102)] == [(0, 100), (1, 101), (2, 102)];
    assert [(1, 101)] + [(2, 102)] == [(1, 101), (2, 102)];
  }

  /** A pid that is not tracked is not removed, but still gets a
      replacement: either way the list grows. */
  lemma {:induction false} UntrackedExitGrows(t: Table, next: int, dead: int, newPid: int)
    requires dead != -1 && dead !in Pids(t)
    ensures Reap(t, next, dead, newPid).0 == t + [(next, newPid)]
    ensures ReapAsWritten(t, next, dead, newPid).0 == t + [(next, newPid)]
  {
  }

  class Supervisor {
    /** $child_pids, in array order. */
    var table: Table
    /** The key the next `$child_pids[] = ...` uses: one past the largest
        key the array has ever held. */
    var nextKey: int
    var kills: seq<Kill>
    var exited: bool

    predicate Valid()
      reads this
    {
      Supervised(table, nextKey)
    }

    constructor ()
      ensures table == [] && nextKey == 0 && kills == [] && !exited
      ensures Valid()
    {
      table := [];
      nextKey := 0;
      kills := [];
      exited := false;
    }

    /** The fork loop of serve(): n pids appended in order; a fork that
        returns -1 throws, reported by `failed`. */
    method StartChildren(n: nat, forked: seq<int>) returns (failed: bool)
      requires Valid() && |forked| == n
      requires forall i | 0 <= i < n :: forked[i] == -1 || (forked[i] > 0 && forked[i] !in Pids(table))
      requires forall i, j | 0 <= i < j < n && forked[i] > 0 :: forked[i] != forked[j]
      modifies this
      ensures Valid()
      ensures failed <==> -1 in forked
      ensures !failed ==> Pids(table) == Pids(old(table)) + forked && nextKey == old(nextKey) + n
      ensures kills == old(kills) && exited == old(exited)
    {
      failed := false;
      var i := 0;
      while i < n
        invariant 0 <= i <= n && Valid()
        invariant -1 !in forked[..i]
        invariant Pids(table) == Pids(old(table)) + forked[..i] && nextKey == old(nextKey) + i
        invariant |table| == |old(table)| + i
        invariant kills == old(kills) && exited == old(exited)
      {
        if forked[i] == -1 {
          failed := true;
          assert -1 in forked;
          return;
        }
        assert forked[i] !in Pids(table) by {
          forall j | 0 <= j < |table| ensures Pids(table)[j] != forked[i] {
            if j >= |old(table)| {
              assert Pids(table)[j] == forked[..i][j - |old(table)|];
            }
          }
        }
        AppendFresh(table, nextKey, forked[i]);
        PidsSnoc(table, (nextKey, forked[i]));
        table := table + [(nextKey, forked[i])];
        nextKey := nextKey + 1;
        assert forked[..i + 1] == forked[..i] + [forked[i]];
        i := i + 1;
      }
      assert forked[..n] == forked;
    }

    /** One iteration of the monitor loop on the pid pcntl_wait()
        returned, with the fix to the key-0 test applied; `newPid` is what
        the replacement pcntl_fork() returns. A -1 there makes fork()
        throw after the unset, which `failed` reports: the dead pid is
        gone and nothing is appended. */
    method MonitorStep(dead: int, newPid: int) returns (failed: bool)
      requires Valid() && (newPid == -1 || (newPid > 0 && newPid !in Pids(table)))
      modifies this
      ensures failed <==> dead != -1 && newPid == -1
      ensures !failed ==> table == Reap(old(table), old(nextKey), dead, newPid).0
      ensures !failed ==> nextKey == Reap(old(table), old(nextKey), dead, newPid).1
      ensures failed ==> nextKey == old(nextKey)
                         && table == if Search(old(table), dead).Some? then Unset(old(table), Search(old(table), dead).value) else old(table)
      ensures Valid()
      ensures dead in Pids(old(table)) && dead != -1 ==>
                |table| == |old(table)| - (if failed then 1 else 0) && dead !in Pids(table)
      ensures kills == old(kills) && exited == old(exited)
    {
      failed := false;
      if dead == -1 {
        return;
      }
      ghost var t0, n0 := table, nextKey;
      var key := Search(table, dead);
      var kept := table;
      if key.Some? {
        kept := Unset(table, key.value);
      }
      if newPid == -1 {
        if key.Some? {
          UnsetKeeps(t0, n0, key.value, dead, newPid);
          PositivePids(t0, kept);
        }
        table := kept;
        failed := true;
        return;
      }
      table := kept + [(nextKey, newPid)];
      nextKey := nextKey + 1;
      ReapKeeps(t0, n0, dead, newPid, kept);
      ReapTracked(t0, n0, dead, newPid);
    }

    /** killChildren(): SIGTERM to every listed pid, the list emptied, and
        the supervisor gone. */
    method KillChildren()
      modifies this
      ensures kills == old(kills) + Fanout(Pids(old(table)), Term)
      ensures table == [] && exited && nextKey == old(nextKey)
    {
      var pids := Pids(table);
      for i := 0 to |pids|
        invariant kills == old(kills) + Fanout(pids[..i], Term)
        invariant table == old(table) && nextKey == old(nextKey)
      {
        FanoutSnoc(pids, i, Term);
        kills := kills + [Kill(pids[i], Term)];
      }
      assert pids[..|pids|] == pids;
      table := [];
      exited := true;
    }

    /** reloadChildren(): SIGUSR1 to every listed pid; the list is
        unchanged. */
    method ReloadChildren()
      modifies this
      ensures kills == old(kills) + Fanout(Pids(table), Usr1)
      ensures table == old(table) && nextKey == old(nextKey) && exited == old(exited)
    {
      var pids := Pids(table);
      for i := 0 to |pids|
        invariant kills == old(kills) + Fanout(pids[..i], Usr1)
        invariant table == old(table) && nextKey == old(nextKey) && exited == old(exited)
      {
        FanoutSnoc(pids, i, Usr1);
        kills := kills + [Kill(pids[i], Usr1)];
      }
      assert pids[..|pids|] == pids;
    }
  }

  /** Appending under the next free key a pid not yet listed keeps the list
      well keyed and its pids distinct. */
  lemma {:induction false} AppendFresh(t: Table, next: int, p: int)
    requires WellKeyed(t, next) && next >= 0 && DistinctPids(t) && p !in Pids(t)
    ensures WellKeyed(t + [(next, p)], next + 1) && DistinctPids(t + [(next, p)])
  {
    var r := t + [(next, p)];
    assert next !in KeySet(t);
    AppendKey(t, next, p);
    forall i | 0 <= i < |r| ensures 0 <= r[i].0 < next + 1 {
      if i < |t| {
        assert r[i] == t[i];
      } else {
        assert r[i] == (next, p);
      }
    }
    forall i, j | 0 <= i < j < |r| ensures r[i].1 != r[j].1 {
      if j == |t| {
        assert Pids(t)[i] == r[i].1;
      } else {
        assert r[i] == t[i] && r[j] == t[j];
      }
    }
  }

  lemma {:induction false} PidsSnoc(t: Table, e: (int, int))
    ensures Pids(t + [e]) == Pids(t) + [e.1]
  {
    assert |Pids(t + [e])| == |Pids(t) + [e.1]|;
    forall i | 0 <= i < |t| + 1 ensures Pids(t + [e])[i] == (Pids(t) + [e.1])[i] {
      if i < |t| {
        assert (t + [e])[i] == t[i];
      }
    }
  }
}

=== FILE: event_loop.dfy ===
/*
 * Inject\Stack\Adapter\HTTPSocketEventLoop: the non-blocking variant of the
 * socket adapter. libevent calls evConnect() when a client connects and
 * evRead() whenever a client socket is readable; the adapter keeps the
 * watch of every open client in a table keyed by the socket's descriptor,
 * and keeps a connection open between requests unless either side asks
 * for "Connection: close".
 *
 * Head parsing, promotion and response writing are HttpSocket's; what a
 * read returned, the peer name and the bytes after the head are inputs.
 */
module HttpSocketEventLoop {
  import opened Php
  import opened Gateway
  import Util
  import opened HttpSocket

  /** The most stream_get_line() returns for a head; a head this long is
      answered with 414 without being parsed. */
  const MaxHead: nat := 4128

  /** What stream_get_line() returned on a readable socket: false while no
      blank line has arrived, or a string (empty once the peer has gone). */
  datatype LineRead = Pending | Line(s: string)

  /** What evRead() makes of a read. */
  datatype Action = Wait | Drop | Answer(code: int) | Dispatch(env: Env)

  /** The classification at the top of evRead(): wait for more, drop a
      closed connection, refuse an over-long or malformed head, or hand a
      parsed env on. */
  function Classify(cfg: Config, r: LineRead): (a: Action)
    ensures a.Wait? <==> r.Pending?
    ensures a.Drop? <==> r.Line? && EmptyStr(r.s)
    ensures a == Answer(414) <==> r.Line? && |r.s| == MaxHead
    ensures a.Answer? ==> a.code in {400, 414, 501, 505}
    ensures a.Dispatch? <==> r.Line? && !EmptyStr(r.s) && |r.s| != MaxHead && ParseRequestHeader(cfg, r.s).Parsed?
    ensures a.Dispatch? ==> a.env == ParseRequestHeader(cfg, r.s).env
  {
    match r
    case Pending => Wait
    case Line(s) =>
      if EmptyStr(s) then Drop
      else if |s| == MaxHead then Answer(414)
      else match ParseRequestHeader(cfg, s)
        case Parsed(env) => Dispatch(env)
        case Rejected(code) => Answer(code)
  }

  /** The headers of the error reply; its body is the reason phrase. */
  function ErrorHeaders(code: int): Headers {
    [("Content-Type", "text/plain"), ("Connection", "close"),
     ("Content-Length", NatToDec(|Util.StatusPhrase(code)|))]
  }

  /** The reply to a refused head: the status line, a plain-text content
      type, Connection: close, the length of the phrase, and the phrase. */
  function ErrorResponse(code: int): string {
    Head(code, ErrorHeaders(code)) + Util.StatusPhrase(code)
  }

  /** A client reading the error reply gets its three header lines and,
      after the head, exactly the phrase the Content-Length announces. */
  lemma {:induction false} ErrorResponseReadsBack(code: int)
    requires Util.ReasonPhrase(Util.StatusPhrase(code))
    ensures var text := Util.StatusPhrase(code);
            ReadHead(ErrorResponse(code)) == Some(([StatusLine(code)] + HeaderLines(ErrorHeaders(code)), text))
            && Lookup(ErrorHeaders(code), "Content-Length") == Some(NatToDec(|text|))
            && Lookup(ErrorHeaders(code), "Connection") == Some("close")
  {
    ErrorHeadersSafe(code);
    HeadReadsBack(code, ErrorHeaders(code), Util.StatusPhrase(code));
    ErrorHeadersLookup(code);
  }

  lemma {:induction false} ErrorHeadersSafe(code: int)
    ensures SafeHeaders(ErrorHeaders(code))
  {
    DecimalLineFree(|Util.StatusPhrase(code)|);
    ContentLengthNameFree();
    assert LineFree("Content-Type") && LineFree("text/plain");
    assert LineFree("Connection") && LineFree("close");
  }

  lemma {:induction false} ErrorHeadersLookup(code: int)
    ensures Lookup(ErrorHeaders(code), "Content-Length") == Some(NatToDec(|Util.StatusPhrase(code)|))
    ensures Lookup(ErrorHeaders(code), "Connection") == Some("close")
  {
    var h := ErrorHeaders(code);
    assert "Content-Type" != "Content-Length" && "Connection" != "Content-Length";
    assert "Content-Type" != "Connection";
    var cl := ("Content-Length", NatToDec(|Util.StatusPhrase(code)|));
    assert h[1..][1..] == [cl];
    assert Lookup([cl], "Content-Length") == Some(cl.1);
    assert Lookup(h[1..], "Content-Length") == Lookup(h[1..][1..], "Content-Length");
    assert Lookup(h, "Content-Length") == Lookup(h[1..], "Content-Length");
  }

  /** The close decision after a dispatch: the request's Connection header
      or the response's is exactly "close". The empty() guards of the
      source change nothing, since "close" is not empty. */
  function ShouldClose(env: Env, reply: Reply): (r: bool)
    ensures r <==> Get(env, "HTTP_CONNECTION") == Str("close")
                   || (reply.Some? && Lookup(reply.value.headers, "Connection") == Some("close"))
  {
    (!Empty(Get(env, "HTTP_CONNECTION")) && Get(env, "HTTP_CONNECTION") == Str("close"))
    || (reply.Some? && !HeaderEmpty(reply.value.headers, "Connection")
        && Lookup(reply.value.headers, "Connection") == Some("close"))
  }

  /** What one evRead() call does: the events on the socket, whether the
      connection was closed (and its watch dropped), whether something
      threw. */
  datatype Outcome = Outcome(events: seq<SocketEvent>, closed: bool, raised: bool)

  function EvReadOutcome(cfg: Config, fd: nat, r: LineRead, peer: string, input: string,
                         app: Env -> AppOutcome, parseStr: string -> Value): (o: Outcome)
    ensures o.closed <==> |o.events| > 0 && o.events[|o.events| - 1] == Close(fd)
    ensures o.raised ==> o.events == if o.closed then [Close(fd)] else []
    ensures o.raised && !o.closed <==>
              Classify(cfg, r).Dispatch?
              && DispatchEnv(Classify(cfg, r).env, Connection(fd, r.s, peer, input, false), parseStr).None?
    ensures r.Pending? ==> o == Outcome([], false, false)
    ensures Classify(cfg, r).Answer? ==>
              o == Outcome([Write(fd, ErrorResponse(Classify(cfg, r).code)), Close(fd)], true, false)
  {
    match Classify(cfg, r)
    case Wait => Outcome([], false, false)
    case Drop => Outcome([Close(fd)], true, false)
    case Answer(code) => Outcome([Write(fd, ErrorResponse(code)), Close(fd)], true, false)
    case Dispatch(env) =>
      // The promotion runs before the try block, so its ValueError leaves
      // the connection and its watch in place.
      match DispatchEnv(env, Connection(fd, r.s, peer, input, false), parseStr)
      case None => Outcome([], false, true)
      case Some(e) =>
      match app(e)
      case Raised => Outcome([Close(fd)], true, true)
      case Returned(reply) => Finish(fd, e, reply)
  }

  /** After the handler returned: its response, if any, then the close
      decision. */
  function Finish(fd: nat, e: Env, reply: Reply): (o: Outcome)
    ensures !o.raised
    ensures o.closed <==> ShouldClose(e, reply)
    ensures o.closed <==> |o.events| > 0 && o.events[|o.events| - 1] == Close(fd)
  {
    var sent := if reply.Some? then Writes(fd, ResponseWrites(reply.value)) else [];
    if ShouldClose(e, reply) then Outcome(sent + [Close(fd)], true, false)
    else Outcome(sent, false, false)
  }

  /** A connection stays open, with nothing thrown, exactly while no head
      has arrived yet, or after a request whose handler returned and where
      neither side asked for the connection to be closed. */
  lemma {:induction false} KeepAliveIff(cfg: Config, fd: nat, r: LineRead, peer: string, input: string,
                                        app: Env -> AppOutcome, parseStr: string -> Value)
    ensures var o := EvReadOutcome(cfg, fd, r, peer, input, app, parseStr);
            var a := Classify(cfg, r);
            !o.closed && !o.raised <==>
              r.Pending?
              || (a.Dispatch?
                  && var d := DispatchEnv(a.env, Connection(fd, r.s, peer, input, false), parseStr);
                  d.Some? && app(d.value).Returned? && !ShouldClose(d.value, app(d.value).reply))
  {
    var o := EvReadOutcome(cfg, fd, r, peer, input, app, parseStr);
    match Classify(cfg, r)
    case Wait =>
    case Drop =>
    case Answer(code) =>
    case Dispatch(env) =>
      var d := DispatchEnv(env, Connection(fd, r.s, peer, input, false), parseStr);
      if d.Some? && app(d.value).Returned? {
        assert o == Finish(fd, d.value, app(d.value).reply);
      }
  }

  /** A refused head never reaches the handler: the outcome is the same
      whatever the handler would have done. */
  lemma {:induction false} RefusedHeadIgnoresApp(cfg: Config, fd: nat, r: LineRead, peer: string, input: string,
                                                 app1: Env -> AppOutcome, app2: Env -> AppOutcome,
                                                 parseStr: string -> Value)
    requires !Classify(cfg, r).Dispatch?
    ensures EvReadOutcome(cfg, fd, r, peer, input, app1, parseStr) == EvReadOutcome(cfg, fd, r, peer, input, app2, parseStr)
  {
    match Classify(cfg, r)
    case Wait =>
    case Drop =>
    case Answer(code) =>
  }

  class EventLoopServer {
    const cfg: Config
    /** The watch registered for each open client, by socket descriptor. */
    var clients: map<nat, nat>
    /** What was written to and released on the client sockets, in order. */
    var log: seq<SocketEvent>
    /** Whether the event loop is to go on. */
    var looping: bool

    constructor (adapterClass: string, defaultEnv: Env, allowedMethods: seq<string>)
      ensures cfg == Configure(adapterClass, defaultEnv, allowedMethods)
      ensures clients == map[] && log == [] && looping
    {
      cfg := Configure(adapterClass, defaultEnv, allowedMethods);
      clients := map[];
      log := [];
      looping := true;
    }

    /** evConnect(): a socket that was accepted gets a read watch, recorded
        under its descriptor; a failed accept changes nothing. */
    method EvConnect(accepted: Option<nat>, watch: nat)
      modifies this
      ensures accepted.None? ==> clients == old(clients)
      ensures accepted.Some? ==> clients == old(clients)[accepted.value := watch]
      ensures log == old(log) && looping == old(looping)
    {
      if accepted.Some? {
        clients := clients[accepted.value := watch];
      }
    }

    /** closeConnection(): the watch is removed and freed and the socket
        released; no other client is touched. */
    method CloseConnection(fd: nat)
      modifies this
      ensures clients == old(clients) - {fd}
      ensures log == old(log) + [Close(fd)] && looping == old(looping)
    {
      clients := clients - {fd};
      log := log + [Close(fd)];
    }

    /** evRead(): one read on a client socket, handled as EvReadOutcome
        says; the handler's exception is passed on as `raised`. */
    method EvRead(fd: nat, r: LineRead, peer: string, input: string,
                  app: Env -> AppOutcome, parseStr: string -> Value) returns (raised: bool)
      modifies this
      ensures var o := EvReadOutcome(cfg, fd, r, peer, input, app, parseStr);
              log == old(log) + o.events && raised == o.raised
              && clients == (if o.closed then old(clients) - {fd} else old(clients))
      ensures looping == old(looping)
    {
      raised := false;
      ghost var o := EvReadOutcome(cfg, fd, r, peer, input, app, parseStr);
      ghost var log0 := log;
      var action := Classify(cfg, r);
      match action {
        case Wait =>
          assert o.events == [] && !o.closed;
        case Drop =>
          assert o.events == [Close(fd)] && o.closed;
          CloseConnection(fd);
        case Answer(code) =>
          assert o.events == [Write(fd, ErrorResponse(code)), Close(fd)] && o.closed;
          log := log + [Write(fd, ErrorResponse(code))];
          CloseConnection(fd);
        case Dispatch(env) =>
          var d := DispatchEnv(env, Connection(fd, r.s, peer, input, false), parseStr);
          if d.None? {
            assert o == Outcome([], false, true);
            raised := true;
            return;
          }
          var e := d.value;
          var outcome := app(e);
          match outcome {
            case Raised =>
              assert o.events == [Close(fd)] && o.closed && o.raised;
              CloseConnection(fd);
              raised := true;
            case Returned(reply) =>
              assert o == Finish(fd, e, reply);
              FinishRequest(fd, e, reply);
          }
      }
    }

    /** The end of evRead() after the handler returned: write its response
        when it is truthy, then close when either side asked for it. */
    method FinishRequest(fd: nat, e: Env, reply: Reply)
      modifies this
      ensures var o := Finish(fd, e, reply);
              log == old(log) + o.events
              && clients == (if o.closed then old(clients) - {fd} else old(clients))
      ensures looping == old(looping)
    {
      ghost var sent := if reply.Some? then Writes(fd, ResponseWrites(reply.value)) else [];
      if reply.Some? {
        // httpResponse() is the socket adapter's; its write loop is proved
        // there against the same ResponseWrites.
        log := log + Writes(fd, ResponseWrites(reply.value));
      }
      assert log == old(log) + sent;
      if ShouldClose(e, reply) {
        CloseConnection(fd);
        AppendAssoc(old(log), sent, [Close(fd)]);
      }
    }

    /** shutdownGracefully(): the event loop exits after this iteration. */
    method ShutdownGracefully()
      modifies this
      ensures !looping && clients == old(clients) && log == old(log)
    {
      looping := false;
    }
  }
}

=== FILE: gateway.dfy ===
/*
 * The request/response contract shared by every adapter and middleware: the
 * environment map, the (status, headers, body) triple a handler returns, and
 * the promotion of the Content-Length and Content-Type headers that the
 * socket, event-loop and Mongrel2 adapters all perform on a fresh env.
 */
module Gateway {
  import opened Php

  /** The `$env` array handed to a handler. */
  type Env = map<string, Value>

  /** `$env[$k]`: a missing key reads as null. */
  function Get(env: Env, k: string): Value {
    if k in env then env[k] else Null
  }

  /** Response headers, in the order the handler put them, with PHP array
      semantics (a key occurs once). */
  type Headers = seq<(string, string)>

  /** A response body: a string, or a stream given by what each successive
      fread() on it returns. */
  datatype Body = Text(s: string) | Stream(chunks: seq<string>)

  datatype Response = Response(status: int, headers: Headers, body: Body)

  /** A handler's return value: None stands for a falsy return. */
  type Reply = Option<Response>

  type App = Env -> Reply

  /** A handler as an adapter sees it: it returns or it throws. */
  datatype AppOutcome = Returned(reply: Reply) | Raised

  /** empty($content) on a response body; a stream is never empty. */
  predicate BodyEmpty(b: Body) {
    b.Text? && EmptyStr(b.s)
  }

  /** empty($headers[$k]) on an ordered header array. */
  predicate HeaderEmpty(h: Headers, k: string) {
    var v := Lookup(h, k);
    v.None? || EmptyStr(v.value)
  }

  const FormContentType := "application/x-www-form-urlencoded"

  /** stream_get_contents($input, $len) on the bytes left after the request
      head: -1 reads everything and a length of zero or more reads at most
      that many bytes; a length below -1 throws a ValueError under PHP 8,
      which is None here. */
  function StreamContents(input: string, len: int): (r: Option<string>)
    ensures r.None? <==> len < -1
    ensures r.Some? ==> r.value <= input
    ensures len == -1 ==> r == Some(input)
    ensures len >= 0 ==> r.Some? && |r.value| == if len < |input| then len else |input|
  {
    if len < -1 then None
    else if len == -1 || |input| <= len then Some(input)
    else Some(input[..len])
  }

  /** Whether the promotion parses a form body: HTTP_CONTENT_TYPE is not
      empty and starts with the form content type, in any case (stripos()
      at 0). */
  predicate IsForm(env: Env) {
    !Empty(Get(env, "HTTP_CONTENT_TYPE")) && StartsWithIgnoreCase(ToStr(env["HTTP_CONTENT_TYPE"]), FormContentType)
  }

  /** The first half of the promotion: a non-empty HTTP_CONTENT_LENGTH is
      removed and its (int) cast becomes CONTENT_LENGTH. */
  function PromoteLength(env: Env): Env {
    if Empty(Get(env, "HTTP_CONTENT_LENGTH")) then env
    else (env - {"HTTP_CONTENT_LENGTH"})["CONTENT_LENGTH" := Int(ToInt(env["HTTP_CONTENT_LENGTH"]))]
  }

  /** The length handed to stream_get_contents(): `fallback` when
      CONTENT_LENGTH is empty, else CONTENT_LENGTH as an integer. */
  function ReadLength(env: Env, fallback: int): int {
    if Empty(Get(env, "CONTENT_LENGTH")) then fallback else ToInt(env["CONTENT_LENGTH"])
  }

  /** The promotion step: a non-empty HTTP_CONTENT_LENGTH becomes the integer
      CONTENT_LENGTH and a non-empty HTTP_CONTENT_TYPE becomes CONTENT_TYPE,
      the originals being removed; a form-encoded body is then parsed into
      inject.post, reading CONTENT_LENGTH bytes, or `fallback` bytes when
      CONTENT_LENGTH is empty. `parseStr` stands for parse_str(). None is
      the ValueError of stream_get_contents() for a length below -1, which
      no adapter catches. */
  function Promote(env: Env, input: string, fallback: int, parseStr: string -> Value): (r: Option<Env>)
    ensures r.None? <==> IsForm(env) && ReadLength(PromoteLength(env), fallback) < -1
    ensures r.Some? && !Empty(Get(env, "HTTP_CONTENT_LENGTH")) ==>
              "HTTP_CONTENT_LENGTH" !in r.value && Get(r.value, "CONTENT_LENGTH") == Int(ToInt(env["HTTP_CONTENT_LENGTH"]))
    ensures r.Some? && Empty(Get(env, "HTTP_CONTENT_LENGTH")) ==> Get(r.value, "CONTENT_LENGTH") == Get(env, "CONTENT_LENGTH")
    ensures r.Some? && !Empty(Get(env, "HTTP_CONTENT_TYPE")) ==>
              "HTTP_CONTENT_TYPE" !in r.value && Get(r.value, "CONTENT_TYPE") == env["HTTP_CONTENT_TYPE"]
    ensures r.Some? && IsForm(env) ==>
              Get(r.value, "inject.post") == parseStr(StreamContents(input, ReadLength(r.value, fallback)).value)
    ensures r.Some? && !IsForm(env) ==> Get(r.value, "inject.post") == Get(env, "inject.post")
    ensures r.Some? ==> forall k | k in env && k !in PromotedKeys :: k in r.value && r.value[k] == env[k]
    ensures r.Some? ==> forall k | k in r.value && k !in PromotedKeys :: k in env
  {
    var e1 := PromoteLength(env);
    if Empty(Get(e1, "HTTP_CONTENT_TYPE")) then Some(e1)
    else
      var ct := e1["HTTP_CONTENT_TYPE"];
      var e2 := (e1 - {"HTTP_CONTENT_TYPE"})["CONTENT_TYPE" := ct];
      if StartsWithIgnoreCase(ToStr(ct), FormContentType) then
        match StreamContents(input, ReadLength(e2, fallback))
        case None => None
        case Some(body) => Some(e2["inject.post" := parseStr(body)])
      else Some(e2)
  }

  /** Promotion leaves every other key alone. */
  lemma {:induction false} PromoteKeeps(env: Env, input: string, fallback: int, parseStr: string -> Value, k: string)
    requires k !in PromotedKeys
    ensures Promote(env, input, fallback, parseStr).Some? ==> Get(Promote(env, input, fallback, parseStr).value, k) == Get(env, k)
  {
  }

  /** A form request whose Content-Length header casts to an integer below
      -1 never reaches the handler: stream_get_contents() throws. A form
      request whose Content-Length casts to a positive integer always does. */
  lemma {:induction false} NegativeLengthRaises(env: Env, input: string, fallback: int, parseStr: string -> Value)
    requires IsForm(env)
    ensures !Empty(Get(env, "HTTP_CONTENT_LENGTH")) && ToInt(env["HTTP_CONTENT_LENGTH"]) < -1 ==>
              Promote(env, input, fallback, parseStr).None?
    ensures !Empty(Get(env, "HTTP_CONTENT_LENGTH")) && ToInt(env["HTTP_CONTENT_LENGTH"]) > 0 ==>
              Promote(env, input, fallback, parseStr).Some?
  {
  }

  const PromotedKeys: set<string> :=
    {"HTTP_CONTENT_LENGTH", "CONTENT_LENGTH", "HTTP_CONTENT_TYPE", "CONTENT_TYPE", "inject.post"}

  /** The env key a request header is exposed under: `HTTP_` followed by the
      upper-cased name with '-' turned into '_'. */
  function HeaderKey(name: string): (k: string)
    ensures |k| == 5 + |name| && k[..5] == "HTTP_"
    ensures forall i | 5 <= i < |k| :: k[i] != '-' && !('a' <= k[i] <= 'z')
  {
    "HTTP_" + Upper(ReplaceChar(name, '-', '_'))
  }
}

=== FILE: http_socket.dfy ===
/*
 * Inject\Stack\Adapter\HTTPSocket: the blocking HTTP/1.1 server. A request
 * head (the bytes before the first blank line, at most 4128 of them) is
 * parsed into an env or a numeric error; the env is completed with the
 * connection's details and given to the handler; the handler's triple is
 * serialised back onto the connection.
 *
 * The socket is modelled by what was read from it (the head, the peer name,
 * the remaining bytes) and by the log of writes and closes made on it.
 */
module HttpSocket {
  import opened Php
  import opened Gateway
  import Util

  const CRLF: string := "\r\n"

  /** The request methods accepted when the constructor is given none. */
  const DefaultAllowedMethods: seq<string> :=
    ["OPTIONS", "GET", "POST", "PUT", "DELETE", "HEAD", "TRACE", "CONNECT"]

  /** Inject\Stack\Builder::VERSION. */
  const InjectVersion: string := "0.1.0"

  /** What the constructor leaves in the adapter. */
  datatype Config = Config(defaultEnv: Env, allowedMethods: seq<string>)

  /** The built-in part of default_env. */
  function BaseEnv(adapterClass: string): Env {
    map[
      "SERVER_NAME" := Str("localhost"),
      "SERVER_PORT" := Int(80),
      "BASE_URI" := Str(""),
      "SCRIPT_NAME" := Str(""),
      "inject.version" := Str(InjectVersion),
      "inject.adapter" := Str(adapterClass),
      "inject.get" := Arr(map[]),
      "inject.post" := Arr(map[]),
      "inject.url_scheme" := Str("http")
    ]
  }

  /** The constructor: the caller's default_env overrides the built-in
      entries key by key; a non-empty method list replaces the default one. */
  function Configure(adapterClass: string, defaultEnv: Env, allowedMethods: seq<string>): (c: Config)
    ensures c.defaultEnv.Keys == BaseEnv(adapterClass).Keys + defaultEnv.Keys
    ensures forall k | k in defaultEnv :: c.defaultEnv[k] == defaultEnv[k]
    ensures forall k | k in BaseEnv(adapterClass) && k !in defaultEnv :: c.defaultEnv[k] == BaseEnv(adapterClass)[k]
    ensures allowedMethods != [] ==> c.allowedMethods == allowedMethods
    ensures allowedMethods == [] ==> c.allowedMethods == DefaultAllowedMethods
  {
    Config(BaseEnv(adapterClass) + defaultEnv,
           if allowedMethods == [] then DefaultAllowedMethods else allowedMethods)
  }

  // ------------------------------------------------------------ request head

  /** The result of parseRequestHeader(): an env, or the status to answer. */
  datatype HeadResult = Parsed(env: Env) | Rejected(code: int)

  const Blank: set<char> := {' ', '\t'}

  /** A folded line: it starts with a space or a tab. */
  predicate IsContinuation(line: string) {
    line != [] && (line[0] == ' ' || line[0] == '\t')
  }

  /** The position of the ':' ending a header name; None when the line has
      no ':' or starts with one, both of which are refused. */
  function NameEnd(line: string): (r: Option<nat>)
    ensures r.Some? ==> 0 < r.value < |line| && line[r.value] == ':'
    ensures r.None? <==> (Find(line, ":").None? || Find(line, ":").value == 0)
  {
    match Find(line, ":")
    case None => None
    case Some(p) => if p == 0 then None else Some(p)
  }

  /** One header line read into the env, with the key it last wrote. */
  function HeaderStep(env: Env, lastKey: string, line: string): Option<(Env, string)> {
    if IsContinuation(line) then
      Some((env[lastKey := Str(ToStr(Get(env, lastKey)) + Ltrim(line, Blank))], lastKey))
    else match NameEnd(line)
      case None => None
      case Some(p) =>
        var k := HeaderKey(line[..p]);
        Some((env[k := Str(Ltrim(line[p + 1..], Blank))], k))
  }

  /** The loop over the header lines, as a fold; None is the 400 exit. */
  function FoldHeaders(lines: seq<string>, env: Env, lastKey: string): Option<(Env, string)>
    decreases |lines|
  {
    if lines == [] then Some((env, lastKey))
    else match HeaderStep(env, lastKey, lines[0])
      case None => None
      case Some((e, k)) => FoldHeaders(lines[1..], e, k)
  }

  /** parse_url() reduced to a split at the first '?': the path (null when
      the target starts with '?') and the query, if any. */
  function SplitTarget(target: string): (r: (Value, Option<string>))
    ensures r.1.None? ==> r.0 == Str(target)
    ensures r.1.Some? ==> ToStr(r.0) + "?" + r.1.value == target
  {
    match Find(target, "?")
    case None => (Str(target), None)
    case Some(i) =>
      assert target == target[..i] + "?" + target[i + 1..] by {
        assert target[i..][..1] == "?";
      }
      (if i == 0 then Null else Str(target[..i]), Some(target[i + 1..]))
  }

  /** The entries parseRequestHeader() sets after the headers. */
  function RequestEnv(env: Env, verb: string, target: string, version: string): (r: Env)
    ensures Get(r, "REQUEST_METHOD") == Str(verb) && Get(r, "REQUEST_URI") == Str(target)
    ensures Get(r, "HTTP_VERSION") == Str(version)
    ensures Get(r, "PATH_INFO") == SplitTarget(target).0
    ensures var q := SplitTarget(target).1;
            Get(r, "QUERY_STRING") == Str(if q.Some? && !EmptyStr(q.value) then q.value else "")
    ensures forall k | k in env && k !in RequestKeys :: k in r && r[k] == env[k]
  {
    var (path, query) := SplitTarget(target);
    var qs := if query.None? || EmptyStr(query.value) then "" else query.value;
    env["REQUEST_METHOD" := Str(verb)]["REQUEST_URI" := Str(target)]["PATH_INFO" := path]
       ["QUERY_STRING" := Str(qs)]["HTTP_VERSION" := Str(version)]
  }

  const RequestKeys: set<string> :=
    {"REQUEST_METHOD", "REQUEST_URI", "PATH_INFO", "QUERY_STRING", "HTTP_VERSION"}

  /** The request line: the head up to its first CRLF (all of it if none). */
  function RequestLine(head: string): string {
    ExplodeLimit(head, CRLF, 2)[0]
  }

  /** The space-separated fields of the request line. */
  function RequestFields(head: string): seq<string> {
    Explode(RequestLine(head), " ")
  }

  /** parseRequestHeader(). */
  function ParseRequestHeader(cfg: Config, head: string): (r: HeadResult)
    ensures r.Rejected? ==> r.code == 400 || r.code == 501 || r.code == 505
  {
    var data := ExplodeLimit(head, CRLF, 2);
    if |data| != 2 then Rejected(400)
    else
      var reqline := Explode(data[0], " ");
      if |reqline| != 3 then Rejected(400)
      else if reqline[0] !in cfg.allowedMethods then Rejected(501)
      else if reqline[2] != "HTTP/1.1" then Rejected(505)
      else match FoldHeaders(Explode(data[1], CRLF), cfg.defaultEnv, " ")
        case None => Rejected(400)
        case Some((env, _)) => Parsed(RequestEnv(env, reqline[0], reqline[1], reqline[2]))
  }

  /** The header lines after the request line. */
  function HeaderPart(head: string): seq<string>
    requires Contains(head, CRLF)
  {
    Explode(ExplodeLimit(head, CRLF, 2)[1], CRLF)
  }

  lemma {:induction false} ExplodeLimitTwo(s: string, d: string)
    requires |d| > 0
    ensures |ExplodeLimit(s, d, 2)| == 2 <==> Contains(s, d)
    ensures Contains(s, d) ==> ExplodeLimit(s, d, 2) == [s[..Find(s, d).value], s[Find(s, d).value + |d|..]]
    ensures !Contains(s, d) ==> ExplodeLimit(s, d, 2) == [s]
  {
    match Find(s, d)
    case None =>
    case Some(i) =>
      assert ExplodeLimit(s[i + |d|..], d, 1) == [s[i + |d|..]];
  }

  /** The three-way outcome of the checks, in the order the parser makes
      them: 400 for a missing line break or a request line without exactly
      three fields, then 501 for a method not allowed (exact match), then 505
      for a version other than HTTP/1.1, then 400 for a bad header line. */
  lemma {:induction false} ParseRequestHeaderOutcome(cfg: Config, head: string)
    ensures !Contains(head, CRLF) ==> ParseRequestHeader(cfg, head) == Rejected(400)
    ensures |RequestFields(head)| != 3 ==> ParseRequestHeader(cfg, head) == Rejected(400)
    ensures ParseRequestHeader(cfg, head) == Rejected(501) <==>
              Contains(head, CRLF) && |RequestFields(head)| == 3 && RequestFields(head)[0] !in cfg.allowedMethods
    ensures ParseRequestHeader(cfg, head) == Rejected(505) <==>
              Contains(head, CRLF) && |RequestFields(head)| == 3 && RequestFields(head)[0] in cfg.allowedMethods
              && RequestFields(head)[2] != "HTTP/1.1"
    ensures ParseRequestHeader(cfg, head).Parsed? <==>
              Contains(head, CRLF) && |RequestFields(head)| == 3 && RequestFields(head)[0] in cfg.allowedMethods
              && RequestFields(head)[2] == "HTTP/1.1" && FoldHeaders(HeaderPart(head), cfg.defaultEnv, " ").Some?
  {
    ExplodeLimitTwo(head, CRLF);
  }

  /** What a successful parse puts into the env: the request line's three
      fields, the target's path and query, over the folded headers, over
      default_env. No header is required (there is no Host check). */
  lemma {:induction false} ParsedEnvContents(cfg: Config, head: string)
    requires ParseRequestHeader(cfg, head).Parsed?
    ensures var env := ParseRequestHeader(cfg, head).env;
            var f := RequestFields(head);
            var folded := FoldHeaders(HeaderPart(head), cfg.defaultEnv, " ");
            |f| == 3 && folded.Some? &&
            env == RequestEnv(folded.value.0, f[0], f[1], f[2]) &&
            Get(env, "REQUEST_METHOD") == Str(f[0]) && f[0] in cfg.allowedMethods &&
            Get(env, "HTTP_VERSION") == Str("HTTP/1.1")
  {
    ExplodeLimitTwo(head, CRLF);
  }

  /** A line that is neither folded nor has a ':' past its first column. */
  predicate BadLine(line: string) {
    !IsContinuation(line) && NameEnd(line).None?
  }

  lemma {:induction false} HeaderStepFails(env: Env, lastKey: string, line: string)
    ensures HeaderStep(env, lastKey, line).None? <==> BadLine(line)
  {
  }

  /** The fold refuses the head exactly when one of its lines is bad. */
  lemma {:induction false} FoldRejectsIff(lines: seq<string>, env: Env, lastKey: string)
    ensures FoldHeaders(lines, env, lastKey).None? <==> exists i | 0 <= i < |lines| :: BadLine(lines[i])
    decreases |lines|
  {
    if lines != [] {
      HeaderStepFails(env, lastKey, lines[0]);
      AnyBadCons(lines);
      var st := HeaderStep(env, lastKey, lines[0]);
      if st.Some? {
        FoldRejectsIff(lines[1..], st.value.0, st.value.1);
      }
    }
  }

  /** Some line is bad exactly when the first is or a later one is. */
  lemma {:induction false} AnyBadCons(lines: seq<string>)
    requires lines != []
    ensures (exists i | 0 <= i < |lines| :: BadLine(lines[i])) <==>
            BadLine(lines[0]) || exists i | 0 <= i < |lines[1..]| :: BadLine(lines[1..][i])
  {
    if exists i | 0 <= i < |lines| :: BadLine(lines[i]) {
      var i :| 0 <= i < |lines| && BadLine(lines[i]);
      if i > 0 {
        assert lines[1..][i - 1] == lines[i];
      }
    }
    if exists i | 0 <= i < |lines[1..]| :: BadLine(lines[1..][i]) {
      var i :| 0 <= i < |lines[1..]| && BadLine(lines[1..][i]);
      assert lines[i + 1] == lines[1..][i];
    }
  }

  /** Folding one more line does one more step on the state the earlier
      lines left: so a later header line overwrites an earlier one with the
      same key, and a folded line extends the last header written. */
  lemma {:induction false} FoldSnoc(lines: seq<string>, line: string, env: Env, lastKey: string)
    ensures FoldHeaders(lines + [line], env, lastKey) ==
              match FoldHeaders(lines, env, lastKey)
              case None => None
              case Some((e, k)) => HeaderStep(e, k, line)
    decreases |lines|
  {
    if lines == [] {
      assert [] + [line] == [line];
    } else {
      assert (lines + [line])[0] == lines[0];
      assert (lines + [line])[1..] == lines[1..] + [line];
      match HeaderStep(env, lastKey, lines[0])
      case None =>
      case Some((e, k)) => FoldSnoc(lines[1..], line, e, k);
    }
  }

  /** The value a header line leaves under its key, whatever came before. */
  lemma {:induction false} LastHeaderWins(lines: seq<string>, name: string, value: string, env: Env, lastKey: string)
    requires name != [] && ':' !in name && !IsContinuation(name)
    requires FoldHeaders(lines, env, lastKey).Some?
    ensures var r := FoldHeaders(lines + [name + ":" + value], env, lastKey);
            r.Some? && r.value.1 == HeaderKey(name) && Get(r.value.0, HeaderKey(name)) == Str(Ltrim(value, Blank))
  {
    FoldSnoc(lines, name + ":" + value, env, lastKey);
    var (e, k) := FoldHeaders(lines, env, lastKey).value;
    HeaderLineStep(e, k, name, value);
  }

  lemma {:induction false} HeaderLineStep(env: Env, lastKey: string, name: string, value: string)
    requires name != [] && ':' !in name && !IsContinuation(name)
    ensures HeaderStep(env, lastKey, name + ":" + value) ==
              Some((env[HeaderKey(name) := Str(Ltrim(value, Blank))], HeaderKey(name)))
  {
    var line := name + ":" + value;
    assert line[..|name|] == name && line[|name| + 1..] == value;
    assert line[|name|..|name| + 1] == ":";
    forall j | 0 <= j < |name| ensures !(":" <= line[j..]) {
      assert line[j..][0] == name[j];
    }
    FindAt(line, ":", |name|);
    assert line[0] == name[0];
  }

  /** A folded line is appended, left-trimmed and without a separator, to
      the value of the last header key (the placeholder " " before any). */
  lemma {:induction false} ContinuationAppends(lines: seq<string>, line: string, env: Env, lastKey: string)
    requires IsContinuation(line)
    requires FoldHeaders(lines, env, lastKey).Some?
    ensures var (e, k) := FoldHeaders(lines, env, lastKey).value;
            FoldHeaders(lines + [line], env, lastKey) == Some((e[k := Str(ToStr(Get(e, k)) + Ltrim(line, Blank))], k))
  {
    FoldSnoc(lines, line, env, lastKey);
  }

  // ------------------------------------------------------------ remote peer

  /** getRemote(): the peer name split at its last ':' into the address and
      the (int) port; ('', name) when there is no ':' past the first column. */
  function GetRemote(remote: string): (r: (string, Value))
    ensures r.1 == Str("") ==> r.0 == remote
    ensures r.1.Int? ==> |r.0| < |remote| && remote[|r.0|] == ':' && remote[..|r.0|] == r.0 && ':' !in remote[|r.0| + 1..]
  {
    match FindLast(remote, ':')
    case None => (remote, Str(""))
    case Some(p) =>
      if p == 0 then (remote, Str(""))
      else
        var port := remote[p + 1..];
        assert ':' !in port by {
          forall j | 0 <= j < |port| ensures port[j] != ':' {
            assert port[j] == remote[p + 1 + j];
          }
        }
        (remote[..p], Int(IntCast(port)))
  }

  /** The peer name `address:port` splits back into its address and port,
      whatever colons the address holds (an IPv6 literal, say). */
  lemma {:induction false} GetRemoteOfPeerName(address: string, port: nat)
    requires address != [] && port <= PhpIntMax
    ensures GetRemote(address + ":" + NatToDec(port)) == (address, Int(port))
  {
    var d := NatToDec(port);
    var s := address + ":" + d;
    assert s[|address|] == ':';
    assert forall j | |address| < j < |s| :: s[j] == d[j - |address| - 1] && IsDigit(s[j]);
    var f := FindLast(s, ':');
    assert f == Some(|address|);
    assert s[..|address|] == address && s[|address| + 1..] == d;
    IntCastOfDec(port);
  }

  // ------------------------------------------------------------ response

  /** A header line of the response. */
  function HeaderLine(kv: (string, string)): string {
    kv.0 + ": " + kv.1
  }

  function HeaderLines(h: Headers): (r: seq<string>)
    ensures |r| == |h|
    ensures forall i | 0 <= i < |h| :: r[i] == HeaderLine(h[i])
  {
    seq(|h|, i requires 0 <= i < |h| => HeaderLine(h[i]))
  }

  /** The framing decision of httpResponse(): when neither Content-Length
      nor Transfer-Encoding is set and the body is not empty, a string body
      gets Content-Length = its length and a stream is sent chunked. */
  function Framing(h: Headers, body: Body): (r: (Headers, bool))
    ensures r.1 <==> HeaderEmpty(h, "Content-Length") && HeaderEmpty(h, "Transfer-Encoding") && body.Stream?
    ensures r.1 ==> r.0 == Put(h, "Transfer-Encoding", "chunked")
    ensures (HeaderEmpty(h, "Content-Length") && HeaderEmpty(h, "Transfer-Encoding") && body.Text? && !EmptyStr(body.s))
            ==> r.0 == Put(h, "Content-Length", NatToDec(|body.s|))
    ensures !(HeaderEmpty(h, "Content-Length") && HeaderEmpty(h, "Transfer-Encoding") && !BodyEmpty(body)) ==> r.0 == h
  {
    if HeaderEmpty(h, "Content-Length") && HeaderEmpty(h, "Transfer-Encoding") && !BodyEmpty(body) then
      match body
      case Text(s) => (Put(h, "Content-Length", NatToDec(|s|)), false)
      case Stream(_) => (Put(h, "Transfer-Encoding", "chunked"), true)
    else (h, false)
  }

  /** "HTTP/1.1 <code> <phrase>". */
  function StatusLine(code: int): string {
    "HTTP/1.1 " + IntToDec(code) + " " + Util.StatusPhrase(code)
  }

  /** Lines each followed by CRLF. */
  function JoinLines(ls: seq<string>): string {
    if ls == [] then "" else ls[0] + CRLF + JoinLines(ls[1..])
  }

  /** The head as httpResponse() writes it: the header lines are joined by
      CRLF and the whole is followed by two more CRLFs. */
  function HeadAsWritten(code: int, h: Headers): string {
    StatusLine(code) + CRLF + Implode(CRLF, HeaderLines(h)) + CRLF + CRLF
  }

  /** The head as intended: every header line ends in CRLF and one CRLF
      ends the head. */
  function Head(code: int, h: Headers): string {
    HeadOf(StatusLine(code), h)
  }

  function HeadOf(statusLine: string, h: Headers): string {
    statusLine + CRLF + JoinLines(HeaderLines(h)) + CRLF
  }

  lemma {:induction false} JoinLinesIsImplode(ls: seq<string>)
    requires ls != []
    ensures JoinLines(ls) == Implode(CRLF, ls) + CRLF
    decreases |ls|
  {
    if |ls| > 1 {
      JoinLinesIsImplode(ls[1..]);
    }
  }

  /** The two heads agree whenever there is at least one header. */
  lemma {:induction false} HeadAsWrittenWithHeaders(code: int, h: Headers)
    requires h != []
    ensures HeadAsWritten(code, h) == Head(code, h)
  {
    var sl := StatusLine(code);
    JoinLinesIsImplode(HeaderLines(h));
    assert HeadAsWritten(code, h) == sl + CRLF + (Implode(CRLF, HeaderLines(h)) + CRLF) + CRLF;
  }

  /** One chunk of the chunked coding: hex size, CRLF, data, CRLF. */
  function Chunk(data: string): string {
    NatToHex(|data|) + CRLF + data + CRLF
  }

  const LastChunk: string := "0\r\n\r\n"

  /** The chunks written as httpResponse() writes them: one per read, an
      empty read included. */
  function ChunksAsWritten(pieces: seq<string>): string {
    if pieces == [] then "" else Chunk(pieces[0]) + ChunksAsWritten(pieces[1..])
  }

  /** The chunks as intended: an empty read writes nothing (a chunk of size
      0 would end the body). */
  function Chunks(pieces: seq<string>): string {
    if pieces == [] then ""
    else if pieces[0] == [] then Chunks(pieces[1..])
    else Chunk(pieces[0]) + Chunks(pieces[1..])
  }

  function Concat(parts: seq<string>): (r: string)
    ensures |parts| == 1 ==> r == parts[0]
  {
    if parts == [] then "" else parts[0] + Concat(parts[1..])
  }

  /** The chunk payloads of one stream body, as successive writes. */
  function ChunkWrites(pieces: seq<string>): (r: seq<string>)
    ensures Concat(r) == Chunks(pieces)
  {
    if pieces == [] then []
    else if pieces[0] == [] then ChunkWrites(pieces[1..])
    else [Chunk(pieces[0])] + ChunkWrites(pieces[1..])
  }

  /** The writes httpResponse() makes for a body: a string at once, a
      stream read by read, chunked or raw. */
  function BodyWrites(body: Body, chunked: bool): seq<string> {
    match body
    case Text(s) => [s]
    case Stream(pieces) => if chunked then ChunkWrites(pieces) + [LastChunk] else pieces
  }

  /** The writes httpResponse() makes for a response, in order. */
  function ResponseWrites(resp: Response): seq<string> {
    var (h, chunked) := Framing(resp.headers, resp.body);
    [Head(resp.status, h)] + BodyWrites(resp.body, chunked)
  }

  // ------------------------------------------------------------ a client's reading

  /** No CR and no LF. */
  predicate LineFree(s: string) {
    forall i | 0 <= i < |s| :: s[i] != '\r' && s[i] != '\n'
  }

  /** How a client reads one line: the bytes up to the first CRLF, and the
      bytes after it. */
  function ReadLine(s: string): (r: Option<(string, string)>)
    ensures r.Some? ==> |r.value.0| + 2 + |r.value.1| == |s|
    decreases |s|
  {
    if |s| < 2 then None
    else if s[0] == '\r' && s[1] == '\n' then Some(([], s[2..]))
    else match ReadLine(s[1..])
      case None => None
      case Some((line, rest)) => Some(([s[0]] + line, rest))
  }

  /** How a client reads a head: lines up to the first empty one, and the
      bytes after it. */
  function ReadHead(s: string): Option<(seq<string>, string)>
    decreases |s|
  {
    match ReadLine(s)
    case None => None
    case Some((line, rest)) =>
      if line == [] then Some(([], rest))
      else match ReadHead(rest)
        case None => None
        case Some((ls, after)) => Some(([line] + ls, after))
  }

  /** How a client reads a chunked body: chunks up to the one of size 0 and
      its CRLF, and the bytes after it. */
  function DecodeChunked(s: string): Option<(string, string)>
    decreases |s|
  {
    match ReadLine(s)
    case None => None
    case Some((size, data)) =>
      match HexValue(size)
      case None => None
      case Some(n) =>
        if n == 0 then
          (match ReadLine(data)
           case Some((trailer, rest)) => if trailer == [] then Some(("", rest)) else None
           case None => None)
        else if |data| < n + 2 || data[n..n + 2] != CRLF then None
        else match DecodeChunked(data[n + 2..])
          case None => None
          case Some((body, rest)) => Some((data[..n] + body, rest))
  }

  lemma {:induction false} ReadLineOf(a: string, t: string)
    requires LineFree(a)
    ensures ReadLine(a + CRLF + t) == Some((a, t))
    decreases |a|
  {
    var s := a + CRLF + t;
    if a == [] {
      assert s == CRLF + t;
      assert s[2..] == t;
    } else {
      assert s[0] == a[0];
      assert s[1..] == a[1..] + CRLF + t;
      ReadLineOf(a[1..], t);
      assert [a[0]] + a[1..] == a;
    }
  }

  lemma {:induction false} ReadHeadLine(a: string, t: string)
    requires a != [] && LineFree(a)
    ensures ReadHead(a + CRLF + t) ==
              match ReadHead(t)
              case None => None
              case Some((ls, rest)) => Some(([a] + ls, rest))
  {
    ReadLineOf(a, t);
  }

  lemma {:induction false} ReadHeadBlank(t: string)
    ensures ReadHead(CRLF + t) == Some(([], t))
  {
    ReadLineOf([], t);
    assert [] + CRLF + t == CRLF + t;
  }

  lemma {:induction false} ReadJoinedLines(ls: seq<string>, t: string)
    requires forall i | 0 <= i < |ls| :: ls[i] != [] && LineFree(ls[i])
    ensures ReadHead(JoinLines(ls) + CRLF + t) == Some((ls, t))
    decreases |ls|
  {
    if ls == [] {
      assert JoinLines(ls) + CRLF + t == CRLF + t;
      ReadHeadBlank(t);
    } else {
      ReadJoinedLines(ls[1..], t);
      assert JoinLines(ls) + CRLF + t == ls[0] + CRLF + (JoinLines(ls[1..]) + CRLF + t);
      ReadHeadLine(ls[0], JoinLines(ls[1..]) + CRLF + t);
      assert [ls[0]] + ls[1..] == ls;
    }
  }

  /** Header names and values fit on one line. */
  predicate SafeHeaders(h: Headers) {
    forall i | 0 <= i < |h| :: LineFree(h[i].0) && LineFree(h[i].1)
  }

  lemma {:induction false} LineFreeConcat(a: string, b: string)
    requires LineFree(a) && LineFree(b)
    ensures LineFree(a + b)
  {
    forall i | 0 <= i < |a + b| ensures (a + b)[i] != '\r' && (a + b)[i] != '\n' {
      if i < |a| {
        assert (a + b)[i] == a[i];
      } else {
        assert (a + b)[i] == b[i - |a|];
      }
    }
  }

  lemma {:induction false} StatusLineFree(code: int)
    requires Util.ReasonPhrase(Util.StatusPhrase(code))
    ensures StatusLine(code) != [] && LineFree(StatusLine(code))
  {
    var d := IntToDec(code);
    assert LineFree(d) by {
      if code >= 0 {
        DecimalLineFree(code);
      } else {
        DecimalLineFree(-code);
        LineFreeConcat("-", NatToDec(-code));
      }
    }
    var p := Util.StatusPhrase(code);
    assert LineFree("HTTP/1.1 ") && LineFree(" ") && LineFree(p);
    LineFreeConcat("HTTP/1.1 ", d);
    LineFreeConcat("HTTP/1.1 " + d, " ");
    LineFreeConcat("HTTP/1.1 " + d + " ", p);
  }

  lemma {:induction false} HeaderLinesFree(h: Headers)
    requires SafeHeaders(h)
    ensures forall i | 0 <= i < |h| :: HeaderLines(h)[i] != [] && LineFree(HeaderLines(h)[i])
  {
    forall i | 0 <= i < |h| ensures HeaderLines(h)[i] != [] && LineFree(HeaderLines(h)[i]) {
      var l := HeaderLine(h[i]);
      assert l == h[i].0 + ": " + h[i].1;
      forall j | 0 <= j < |l| ensures l[j] != '\r' && l[j] != '\n' {
        if j < |h[i].0| {
          assert l[j] == h[i].0[j];
        } else if j < |h[i].0| + 2 {
        } else {
          assert l[j] == h[i].1[j - |h[i].0| - 2];
        }
      }
    }
  }

  lemma {:induction false} HeadOfReadsBack(sl: string, h: Headers, t: string)
    requires sl != [] && LineFree(sl) && SafeHeaders(h)
    ensures ReadHead(HeadOf(sl, h) + t) == Some(([sl] + HeaderLines(h), t))
  {
    HeaderLinesFree(h);
    ReadJoinedLines(HeaderLines(h), t);
    assert HeadOf(sl, h) + t == sl + CRLF + (JoinLines(HeaderLines(h)) + CRLF + t);
    ReadHeadLine(sl, JoinLines(HeaderLines(h)) + CRLF + t);
  }

  /** A client reading the head gets back the status line and the header
      lines in order, and the bytes after the head are exactly what follows
      it. */
  lemma {:induction false} HeadReadsBack(code: int, h: Headers, t: string)
    requires Util.ReasonPhrase(Util.StatusPhrase(code)) && SafeHeaders(h)
    ensures ReadHead(Head(code, h) + t) == Some(([StatusLine(code)] + HeaderLines(h), t))
  {
    StatusLineFree(code);
    HeadOfReadsBack(StatusLine(code), h, t);
  }

  /** As written, a response without headers gets one CRLF too many: the
      client sees the head end after the status line and takes the stray
      CRLF as the start of the body. */
  lemma {:induction false} HeadAsWrittenWithoutHeaders(code: int, t: string)
    requires Util.ReasonPhrase(Util.StatusPhrase(code))
    ensures HeadAsWritten(code, []) == Head(code, []) + CRLF
    ensures ReadHead(HeadAsWritten(code, []) + t) == Some(([StatusLine(code)], CRLF + t))
  {
    var sl := StatusLine(code);
    EmptyHeadAsWritten(sl);
    StatusLineFree(code);
    ReadEmptyHead(sl, t);
  }

  /** Without header lines the head as written is the intended one and a
      CRLF. */
  lemma {:induction false} EmptyHeadAsWritten(sl: string)
    ensures sl + CRLF + Implode(CRLF, HeaderLines([])) + CRLF + CRLF == HeadOf(sl, []) + CRLF
  {
    assert HeaderLines([]) == [];
  }

  /** A client reads a head without header lines back as the status line
      alone, and leaves whatever follows, a stray CRLF included. */
  lemma {:induction false} ReadEmptyHead(sl: string, t: string)
    requires sl != [] && LineFree(sl)
    ensures ReadHead(HeadOf(sl, []) + CRLF + t) == Some(([sl], CRLF + t))
  {
    HeadOfReadsBack(sl, [], CRLF + t);
    assert [sl] + HeaderLines([]) == [sl];
    assert HeadOf(sl, []) + CRLF + t == HeadOf(sl, []) + (CRLF + t);
  }

  lemma {:induction false} HexLineFree(n: nat)
    ensures LineFree(NatToHex(n)) && NatToHex(n) != []
    decreases n
  {
    if n >= 16 {
      HexLineFree(n / 16);
    }
  }

  lemma {:induction false} DecodeChunk(d: string, t: string)
    requires d != []
    ensures DecodeChunked(Chunk(d) + t) ==
              match DecodeChunked(t)
              case None => None
              case Some((body, rest)) => Some((d + body, rest))
  {
    var x := NatToHex(|d|);
    HexLineFree(|d|);
    HexValueOfHex(|d|);
    var data := d + CRLF + t;
    assert Chunk(d) + t == x + CRLF + data;
    ReadLineOf(x, data);
    assert data[|d|..|d| + 2] == CRLF;
    assert data[..|d|] == d;
    assert data[|d| + 2..] == t;
  }

  lemma {:induction false} DecodeLastChunk(t: string)
    ensures DecodeChunked(LastChunk + t) == Some(("", t))
  {
    assert LastChunk + t == "0" + CRLF + (CRLF + t);
    assert LineFree("0");
    ReadLineOf("0", CRLF + t);
    assert HexValue("0") == Some(0);
    ReadLineOf([], t);
    assert [] + CRLF + t == CRLF + t;
  }

  /** A client decoding the chunked body gets the concatenation of the
      pieces back, and the bytes after the last chunk are untouched. */
  lemma {:induction false} ChunkedRoundTrip(pieces: seq<string>, t: string)
    ensures DecodeChunked(Chunks(pieces) + LastChunk + t) == Some((Concat(pieces), t))
    decreases |pieces|
  {
    if pieces == [] {
      assert Chunks(pieces) + LastChunk + t == LastChunk + t;
      DecodeLastChunk(t);
    } else {
      ChunkedRoundTrip(pieces[1..], t);
      ChunkedCons(pieces[0], pieces[1..], t);
      assert [pieces[0]] + pieces[1..] == pieces;
    }
  }

  lemma {:induction false} ChunkedCons(p: string, ps: seq<string>, t: string)
    requires DecodeChunked(Chunks(ps) + LastChunk + t) == Some((Concat(ps), t))
    ensures DecodeChunked(Chunks([p] + ps) + LastChunk + t) == Some((Concat([p] + ps), t))
  {
    if p == [] {
      ChunkedConsEmpty(p, ps, t);
    } else {
      ChunkedConsData(p, ps, t);
    }
  }

  lemma {:induction false} ChunkedConsEmpty(p: string, ps: seq<string>, t: string)
    requires p == []
    requires DecodeChunked(Chunks(ps) + LastChunk + t) == Some((Concat(ps), t))
    ensures DecodeChunked(Chunks([p] + ps) + LastChunk + t) == Some((Concat([p] + ps), t))
  {
    ChunksCons(p, ps);
    assert Concat([p] + ps) == Concat(ps);
  }

  lemma {:induction false} ChunkedConsData(p: string, ps: seq<string>, t: string)
    requires p != []
    requires DecodeChunked(Chunks(ps) + LastChunk + t) == Some((Concat(ps), t))
    ensures DecodeChunked(Chunks([p] + ps) + LastChunk + t) == Some((Concat([p] + ps), t))
  {
    ChunksCons(p, ps);
    Regroup3(Chunk(p), Chunks(ps), LastChunk, t);
    DecodeAfterChunk(p, Chunks(ps) + LastChunk + t, Concat(ps), t, Chunks([p] + ps) + LastChunk + t, Concat([p] + ps));
  }

  lemma {:induction false} Regroup3(a: string, b: string, c: string, d: string)
    ensures a + b + c + d == a + (b + c + d)
  {
  }

  lemma {:induction false} ChunksCons(p: string, ps: seq<string>)
    ensures Chunks([p] + ps) == if p == [] then Chunks(ps) else Chunk(p) + Chunks(ps)
    ensures Concat([p] + ps) == p + Concat(ps)
  {
    assert ([p] + ps)[1..] == ps;
  }

  lemma {:induction false} DecodeAfterChunk(p: string, rest: string, body: string, t: string, w: string, b: string)
    requires p != [] && w == Chunk(p) + rest && b == p + body
    requires DecodeChunked(rest) == Some((body, t))
    ensures DecodeChunked(w) == Some((b, t))
  {
    DecodeChunk(p, rest);
  }

  /** As written, a stream whose last read comes back empty (a file whose
      size is a multiple of the buffer) writes the last chunk twice: the
      client's body ends at the first one and a stray last chunk is left on
      the connection. */
  lemma {:induction false} ChunksAsWrittenEmptyRead(d: string)
    requires d != []
    ensures ChunksAsWritten([d, ""]) + LastChunk == Chunk(d) + LastChunk + LastChunk
    ensures DecodeChunked(ChunksAsWritten([d, ""]) + LastChunk) == Some((d, LastChunk))
    ensures DecodeChunked(Chunks([d, ""]) + LastChunk) == Some((d, ""))
  {
    EmptyReadWritesAsWritten(d);
    DecodeLastChunk(LastChunk);
    DecodeChunk(d, LastChunk + LastChunk);
    Regroup2(Chunk(d), LastChunk, LastChunk);
    assert d + "" == d;
    EmptyReadDecodes(d);
  }

  lemma {:induction false} EmptyReadWritesAsWritten(d: string)
    requires d != []
    ensures ChunksAsWritten([d, ""]) == Chunk(d) + LastChunk
  {
    assert Chunk("") == LastChunk;
    assert [d, ""][1..] == [""] && [""][1..] == [];
  }

  lemma {:induction false} EmptyReadDecodes(d: string)
    requires d != []
    ensures DecodeChunked(Chunks([d, ""]) + LastChunk) == Some((d, ""))
  {
    ChunkedRoundTrip([d, ""], "");
    assert Chunks([d, ""]) + LastChunk + "" == Chunks([d, ""]) + LastChunk;
    assert [d, ""][1..] == [""] && [""][1..] == [];
    assert Concat([d, ""]) == d;
  }

  lemma {:induction false} Regroup2(a: string, b: string, c: string)
    ensures a + b + c == a + (b + c)
  {
  }

  /** The chunks are the same as written whenever no read comes back empty. */
  lemma {:induction false} ChunksAsWrittenWithoutEmptyReads(pieces: seq<string>)
    requires forall i | 0 <= i < |pieces| :: pieces[i] != []
    ensures ChunksAsWritten(pieces) == Chunks(pieces)
    decreases |pieces|
  {
    if pieces != [] {
      ChunksAsWrittenWithoutEmptyReads(pieces[1..]);
    }
  }

  /** A string response: the client reads the status line, the handler's
      header lines with Content-Length = the body's length added when it set
      neither framing header, and then exactly the body. */
  lemma {:induction false} TextResponseReadsBack(resp: Response)
    requires resp.body.Text? && !EmptyStr(resp.body.s)
    requires HeaderEmpty(resp.headers, "Content-Length") && HeaderEmpty(resp.headers, "Transfer-Encoding")
    requires Util.ReasonPhrase(Util.StatusPhrase(resp.status)) && SafeHeaders(resp.headers)
    ensures var h := Put(resp.headers, "Content-Length", NatToDec(|resp.body.s|));
            ReadHead(Concat(ResponseWrites(resp))) == Some(([StatusLine(resp.status)] + HeaderLines(h), resp.body.s))
            && Lookup(h, "Content-Length") == Some(NatToDec(|resp.body.s|))
  {
    ContentLengthPut(resp.headers, |resp.body.s|);
    TextResponseWire(resp);
    HeadReadsBack(resp.status, Put(resp.headers, "Content-Length", NatToDec(|resp.body.s|)), resp.body.s);
  }

  lemma {:induction false} ContentLengthPut(headers: Headers, n: nat)
    requires SafeHeaders(headers)
    ensures var h := Put(headers, "Content-Length", NatToDec(n));
            Lookup(h, "Content-Length") == Some(NatToDec(n)) && SafeHeaders(h)
  {
    LookupPut(headers, "Content-Length", NatToDec(n), "Content-Length");
    DecimalLineFree(n);
    ContentLengthNameFree();
    SafePut(headers, "Content-Length", NatToDec(n));
  }

  lemma {:induction false} ContentLengthNameFree()
    ensures LineFree("Content-Length")
  {
  }

  lemma {:induction false} TextResponseWire(resp: Response)
    requires resp.body.Text? && !EmptyStr(resp.body.s)
    requires HeaderEmpty(resp.headers, "Content-Length") && HeaderEmpty(resp.headers, "Transfer-Encoding")
    ensures Concat(ResponseWrites(resp)) ==
              Head(resp.status, Put(resp.headers, "Content-Length", NatToDec(|resp.body.s|))) + resp.body.s
  {
    var h := Put(resp.headers, "Content-Length", NatToDec(|resp.body.s|));
    assert ResponseWrites(resp) == [Head(resp.status, h)] + [resp.body.s];
    ConcatAppend([Head(resp.status, h)], [resp.body.s]);
  }

  /** A stream response sent chunked: the client reads the head, then
      decodes the chunks back into the concatenation of the reads. */
  lemma {:induction false} StreamResponseReadsBack(resp: Response)
    requires resp.body.Stream?
    requires HeaderEmpty(resp.headers, "Content-Length") && HeaderEmpty(resp.headers, "Transfer-Encoding")
    requires Util.ReasonPhrase(Util.StatusPhrase(resp.status)) && SafeHeaders(resp.headers)
    ensures var h := Put(resp.headers, "Transfer-Encoding", "chunked");
            var wire := Concat(ResponseWrites(resp));
            ReadHead(wire) == Some(([StatusLine(resp.status)] + HeaderLines(h), Chunks(resp.body.chunks) + LastChunk))
            && DecodeChunked(Chunks(resp.body.chunks) + LastChunk) == Some((Concat(resp.body.chunks), ""))
  {
    var pieces := resp.body.chunks;
    var h := Put(resp.headers, "Transfer-Encoding", "chunked");
    SafePut(resp.headers, "Transfer-Encoding", "chunked");
    var tail := ChunkWrites(pieces) + [LastChunk];
    assert ResponseWrites(resp) == [Head(resp.status, h)] + tail;
    ConcatAppend([Head(resp.status, h)], tail);
    ConcatAppend(ChunkWrites(pieces), [LastChunk]);
    assert Concat(ResponseWrites(resp)) == Head(resp.status, h) + (Chunks(pieces) + LastChunk);
    HeadReadsBack(resp.status, h, Chunks(pieces) + LastChunk);
    ChunkedRoundTrip(pieces, "");
    assert Chunks(pieces) + LastChunk + "" == Chunks(pieces) + LastChunk;
  }

  lemma {:induction false} ConcatAppend(a: seq<string>, b: seq<string>)
    ensures Concat(a + b) == Concat(a) + Concat(b)
    decreases |a|
  {
    if a != [] {
      ConcatAppend(a[1..], b);
      assert (a + b)[1..] == a[1..] + b;
    } else {
      assert a + b == b;
    }
  }

  lemma {:induction false} SafePut(h: Headers, k: string, v: string)
    requires SafeHeaders(h) && LineFree(k) && LineFree(v)
    ensures SafeHeaders(Put(h, k, v))
    decreases |h|
  {
    if h != [] && h[0].0 != k {
      SafePut(h[1..], k, v);
    }
  }

  lemma {:induction false} DecimalLineFree(n: nat)
    ensures LineFree(NatToDec(n))
  {
  }

  // ------------------------------------------------------------ connections

  /** One accepted connection: its socket id, the head stream_get_line()
      returned, the peer name, the bytes after the head, and whether a
      shutdown signal arrived while it was being served. */
  datatype Connection = Connection(id: nat, head: string, peer: string, input: string, stopAfter: bool)

  /** What the adapter does on a socket. */
  datatype SocketEvent = Write(conn: nat, bytes: string) | Close(conn: nat)

  function Writes(conn: nat, payloads: seq<string>): (r: seq<SocketEvent>)
    ensures |r| == |payloads|
    ensures forall i | 0 <= i < |r| :: r[i] == Write(conn, payloads[i])
  {
    seq(|payloads|, i requires 0 <= i < |payloads| => Write(conn, payloads[i]))
  }

  /** The reply to a head that did not parse: the status line and the one
      header Content-Length: 0. */
  function ErrorReply(code: int): string {
    Head(code, [("Content-Length", "0")])
  }

  /** The error reply is a complete head with no body after it. */
  lemma {:induction false} ErrorReplyReadsBack(code: int)
    requires Util.ReasonPhrase(Util.StatusPhrase(code))
    ensures ReadHead(ErrorReply(code)) == Some(([StatusLine(code), HeaderLine(("Content-Length", "0"))], ""))
  {
    var h := [("Content-Length", "0")];
    ZeroLengthSafe();
    HeadReadsBack(code, h, "");
    NothingAfter(ErrorReply(code));
    ZeroLengthLines(code);
  }

  lemma {:induction false} ZeroLengthSafe()
    ensures SafeHeaders([("Content-Length", "0")])
  {
    ContentLengthNameFree();
    assert LineFree("0");
  }

  lemma {:induction false} NothingAfter(x: string)
    ensures x + "" == x
  {
  }

  lemma {:induction false} ZeroLengthLines(code: int)
    ensures [StatusLine(code)] + HeaderLines([("Content-Length", "0")]) == [StatusLine(code), HeaderLine(("Content-Length", "0"))]
  {
    assert HeaderLines([("Content-Length", "0")]) == [HeaderLine(("Content-Length", "0"))];
  }

  /** The env handed to the handler: the parsed env with the input stream,
      the peer's address and port, the parsed query string and the promoted
      content headers; None when reading a form body throws. */
  function DispatchEnv(env: Env, c: Connection, parseStr: string -> Value): Option<Env> {
    Promote(ConnectionEnv(env, c, parseStr), c.input, -1, parseStr)
  }

  /** The env before the promotion step. */
  function ConnectionEnv(env: Env, c: Connection, parseStr: string -> Value): Env {
    var remote := GetRemote(c.peer);
    var e1 := env["inject.input" := Resource(c.id)]["REMOTE_ADDR" := Str(remote.0)]["REMOTE_PORT" := remote.1];
    if Empty(Get(e1, "QUERY_STRING")) then e1 else e1["inject.get" := parseStr(ToStr(Get(e1, "QUERY_STRING")))]
  }

  /** The handler sees the connection's input stream, the peer's address
      and port, the query string parsed into inject.get when there is one,
      and every other entry of the parsed env that promotion leaves alone. */
  lemma {:induction false} DispatchEnvContents(env: Env, c: Connection, parseStr: string -> Value)
    ensures var d := DispatchEnv(env, c, parseStr);
            d.Some? ==>
            var r := d.value;
            Get(r, "inject.input") == Resource(c.id)
            && Get(r, "REMOTE_ADDR") == Str(GetRemote(c.peer).0)
            && Get(r, "REMOTE_PORT") == GetRemote(c.peer).1
            && (!Empty(Get(env, "QUERY_STRING")) ==> Get(r, "inject.get") == parseStr(ToStr(Get(env, "QUERY_STRING"))))
            && (Empty(Get(env, "QUERY_STRING")) ==> Get(r, "inject.get") == Get(env, "inject.get"))
  {
    ConnectionEnvContents(env, c, parseStr);
    PromoteKeepsConnection(ConnectionEnv(env, c, parseStr), c.input, parseStr);
  }

  /** Building the env throws exactly when a form body is read with a
      length below -1; as the fallback is -1, that takes a CONTENT_LENGTH
      below -1, such as the cast of a Content-Length header of "-5". */
  lemma {:induction false} DispatchEnvRaises(env: Env, c: Connection, parseStr: string -> Value)
    ensures DispatchEnv(env, c, parseStr).None? <==> IsForm(env) && ReadLength(PromoteLength(env), -1) < -1
  {
    var e := ConnectionEnv(env, c, parseStr);
    ConnectionEnvKeepsContent(env, c, parseStr);
    assert IsForm(e) == IsForm(env);
    assert Get(PromoteLength(e), "CONTENT_LENGTH") == Get(PromoteLength(env), "CONTENT_LENGTH");
    assert ReadLength(PromoteLength(e), -1) == ReadLength(PromoteLength(env), -1);
  }

  lemma {:induction false} ConnectionEnvKeepsContent(env: Env, c: Connection, parseStr: string -> Value)
    ensures var e := ConnectionEnv(env, c, parseStr);
            Get(e, "HTTP_CONTENT_TYPE") == Get(env, "HTTP_CONTENT_TYPE")
            && Get(e, "HTTP_CONTENT_LENGTH") == Get(env, "HTTP_CONTENT_LENGTH")
            && Get(e, "CONTENT_LENGTH") == Get(env, "CONTENT_LENGTH")
  {
    assert "HTTP_CONTENT_TYPE"[0] == "HTTP_CONTENT_LENGTH"[0] == 'H' && "CONTENT_LENGTH"[0] == 'C';
    ConnectionEnvKeeps(env, c, parseStr, "HTTP_CONTENT_TYPE");
    ConnectionEnvKeeps(env, c, parseStr, "HTTP_CONTENT_LENGTH");
    ConnectionEnvKeeps(env, c, parseStr, "CONTENT_LENGTH");
  }

  /** The keys the connection sets all start with 'i' or 'R'. */
  lemma {:induction false} ConnectionEnvKeeps(env: Env, c: Connection, parseStr: string -> Value, k: string)
    requires k != [] && k[0] != 'i' && k[0] != 'R'
    ensures Get(ConnectionEnv(env, c, parseStr), k) == Get(env, k)
  {
    var remote := GetRemote(c.peer);
    assert k != "inject.input" && k != "REMOTE_ADDR" && k != "REMOTE_PORT" && k != "inject.get" by {
      assert "inject.input"[0] == "inject.get"[0] == 'i' && "REMOTE_ADDR"[0] == "REMOTE_PORT"[0] == 'R';
    }
    var e1 := env["inject.input" := Resource(c.id)]["REMOTE_ADDR" := Str(remote.0)]["REMOTE_PORT" := remote.1];
    assert Get(e1, k) == Get(env, k);
  }

  lemma {:induction false} ConnectionEnvContents(env: Env, c: Connection, parseStr: string -> Value)
    ensures var e := ConnectionEnv(env, c, parseStr);
            Get(e, "inject.input") == Resource(c.id)
            && Get(e, "REMOTE_ADDR") == Str(GetRemote(c.peer).0)
            && Get(e, "REMOTE_PORT") == GetRemote(c.peer).1
            && (!Empty(Get(env, "QUERY_STRING")) ==> Get(e, "inject.get") == parseStr(ToStr(Get(env, "QUERY_STRING"))))
            && (Empty(Get(env, "QUERY_STRING")) ==> Get(e, "inject.get") == Get(env, "inject.get"))
  {
    var e1 := env["inject.input" := Resource(c.id)]["REMOTE_ADDR" := Str(GetRemote(c.peer).0)]["REMOTE_PORT" := GetRemote(c.peer).1];
    assert Get(e1, "QUERY_STRING") == Get(env, "QUERY_STRING");
    assert Get(e1, "inject.get") == Get(env, "inject.get");
  }

  lemma {:induction false} PromoteKeepsConnection(e: Env, input: string, parseStr: string -> Value)
    ensures var d := Promote(e, input, -1, parseStr);
            d.Some? ==>
            var r := d.value;
            Get(r, "inject.input") == Get(e, "inject.input") && Get(r, "REMOTE_ADDR") == Get(e, "REMOTE_ADDR")
            && Get(r, "REMOTE_PORT") == Get(e, "REMOTE_PORT") && Get(r, "inject.get") == Get(e, "inject.get")
  {
    PromoteKeeps(e, input, -1, parseStr, "inject.input");
    PromoteKeeps(e, input, -1, parseStr, "REMOTE_ADDR");
    PromoteKeeps(e, input, -1, parseStr, "REMOTE_PORT");
    PromoteKeeps(e, input, -1, parseStr, "inject.get");
  }

  /** Everything done on one connection, and whether something threw. The
      ValueError of a form body read escapes `catch (Exception $e)`, so
      run() ends without closing the socket; a handler's exception is
      caught, the socket closed and the exception rethrown. */
  function Serve(cfg: Config, c: Connection, app: Env -> AppOutcome, parseStr: string -> Value): (r: (seq<SocketEvent>, bool))
    ensures r.0 == [] <==> ParseRequestHeader(cfg, c.head).Parsed?
                           && DispatchEnv(ParseRequestHeader(cfg, c.head).env, c, parseStr).None?
    ensures r.0 == [] ==> r.1
    ensures r.0 != [] ==> r.0[|r.0| - 1] == Close(c.id)
    ensures ParseRequestHeader(cfg, c.head).Rejected? ==>
              r == ([Write(c.id, ErrorReply(ParseRequestHeader(cfg, c.head).code)), Close(c.id)], false)
  {
    match ParseRequestHeader(cfg, c.head)
    case Rejected(code) => ([Write(c.id, ErrorReply(code)), Close(c.id)], false)
    case Parsed(env) =>
      match DispatchEnv(env, c, parseStr)
      case None => ([], true)
      case Some(e) =>
      match app(e)
      case Raised => ([Close(c.id)], true)
      case Returned(None) => ([Close(c.id)], false)
      case Returned(Some(resp)) => (Writes(c.id, ResponseWrites(resp)) + [Close(c.id)], false)
  }

  lemma {:induction false} ServeRejected(cfg: Config, c: Connection, app: Env -> AppOutcome, parseStr: string -> Value, code: int)
    requires ParseRequestHeader(cfg, c.head) == Rejected(code)
    ensures Serve(cfg, c, app, parseStr) == ([Write(c.id, ErrorReply(code))] + [Close(c.id)], false)
  {
    assert [Write(c.id, ErrorReply(code))] + [Close(c.id)] == [Write(c.id, ErrorReply(code)), Close(c.id)];
  }

  /** Serving a connection whose head parsed: a throwing body read ends
      the loop with nothing written; otherwise the handler's outcome
      decides. */
  lemma {:induction false} ServeParsed(cfg: Config, c: Connection, app: Env -> AppOutcome, parseStr: string -> Value, env: Env)
    requires ParseRequestHeader(cfg, c.head) == Parsed(env)
    ensures DispatchEnv(env, c, parseStr).None? ==> Serve(cfg, c, app, parseStr) == ([], true)
    ensures DispatchEnv(env, c, parseStr).Some? ==>
            var o := app(DispatchEnv(env, c, parseStr).value);
            Serve(cfg, c, app, parseStr) ==
              if o.Raised? then ([Close(c.id)], true)
              else if o.reply.None? then ([Close(c.id)], false)
              else (Writes(c.id, ResponseWrites(o.reply.value)) + [Close(c.id)], false)
  {
  }

  lemma {:induction false} CloseAfter(start: seq<SocketEvent>, log: seq<SocketEvent>, events: seq<SocketEvent>, id: nat)
    requires log == start + events
    ensures log + [Close(id)] == start + (events + [Close(id)])
  {
  }

  /** What serving each connection would do, in order. */
  function Outcomes(cfg: Config, conns: seq<Connection>, app: Env -> AppOutcome, parseStr: string -> Value): (r: seq<(seq<SocketEvent>, bool)>)
    ensures |r| == |conns|
    ensures forall i | 0 <= i < |conns| :: r[i] == Serve(cfg, conns[i], app, parseStr)
  {
    seq(|conns|, i requires 0 <= i < |conns| => Serve(cfg, conns[i], app, parseStr))
  }

  /** The run loop over the connections' outcomes: it stops after a handler
      throws or after a shutdown signal. */
  function RunEvents(outcomes: seq<(seq<SocketEvent>, bool)>, conns: seq<Connection>): seq<SocketEvent>
    requires |outcomes| == |conns|
    decreases |conns|
  {
    if conns == [] then []
    else if outcomes[0].1 || conns[0].stopAfter then outcomes[0].0
    else outcomes[0].0 + RunEvents(outcomes[1..], conns[1..])
  }

  /** Whether the run loop ends by rethrowing a handler's exception. */
  function RunRaises(outcomes: seq<(seq<SocketEvent>, bool)>, conns: seq<Connection>): bool
    requires |outcomes| == |conns|
    decreases |conns|
  {
    if conns == [] then false
    else if outcomes[0].1 then true
    else if conns[0].stopAfter then false
    else RunRaises(outcomes[1..], conns[1..])
  }

  /** Everything run() does on the given connections. */
  function Transcript(cfg: Config, conns: seq<Connection>, app: Env -> AppOutcome, parseStr: string -> Value): seq<SocketEvent> {
    RunEvents(Outcomes(cfg, conns, app, parseStr), conns)
  }

  function TranscriptRaises(cfg: Config, conns: seq<Connection>, app: Env -> AppOutcome, parseStr: string -> Value): bool {
    RunRaises(Outcomes(cfg, conns, app, parseStr), conns)
  }

  /** A head that does not parse is answered with its status and an empty
      body, the socket is closed, and the handler is not called. */
  lemma {:induction false} RejectedHeadNeverDispatched(cfg: Config, c: Connection, app: Env -> AppOutcome, parseStr: string -> Value)
    requires ParseRequestHeader(cfg, c.head).Rejected?
    ensures var code := ParseRequestHeader(cfg, c.head).code;
            Serve(cfg, c, app, parseStr) == ([Write(c.id, ErrorReply(code)), Close(c.id)], false)
            && ReadHead(ErrorReply(code)) == Some(([StatusLine(code), HeaderLine(("Content-Length", "0"))], ""))
  {
    var code := ParseRequestHeader(cfg, c.head).code;
    assert Util.ReasonPhrase(Util.StatusPhrase(code)) by {
      Util.AdapterErrorPhrases();
    }
    ErrorReplyReadsBack(code);
  }

  class Server {
    const cfg: Config
    /** Listen for connections while this is true. */
    var doRun: bool
    /** What was written to and closed on the accepted sockets, in order. */
    var log: seq<SocketEvent>

    constructor (adapterClass: string, defaultEnv: Env, allowedMethods: seq<string>)
      ensures cfg == Configure(adapterClass, defaultEnv, allowedMethods)
      ensures doRun && log == []
    {
      cfg := Configure(adapterClass, defaultEnv, allowedMethods);
      doRun := true;
      log := [];
    }

    /** shutdownGracefully(): the loop stops before the next accept. */
    method ShutdownGracefully()
      modifies this
      ensures !doRun && log == old(log)
    {
      doRun := false;
    }

    /** httpResponse(): the head, then the body. */
    method HttpResponse(conn: nat, resp: Response)
      modifies this
      ensures log == old(log) + Writes(conn, ResponseWrites(resp))
      ensures doRun == old(doRun)
    {
      var framing := Framing(resp.headers, resp.body);
      ghost var before := log;
      log := log + [Write(conn, Head(resp.status, framing.0))];
      WriteBody(conn, resp.body, framing.1);
      ResponseLog(conn, resp, before, framing);
    }

    /** The body part of httpResponse(): a string at once, or a stream read
        by read, each read as a chunk (none for an empty read) followed by
        the last chunk, or raw. */
    method WriteBody(conn: nat, body: Body, chunked: bool)
      modifies this
      ensures log == old(log) + Writes(conn, BodyWrites(body, chunked))
      ensures doRun == old(doRun)
    {
      match body {
        case Text(s) =>
          log := log + [Write(conn, s)];
        case Stream(pieces) =>
          var i := 0;
          while i < |pieces|
            invariant 0 <= i <= |pieces| && doRun == old(doRun)
            invariant chunked ==> log == old(log) + Writes(conn, ChunkWrites(pieces[..i]))
            invariant !chunked ==> log == old(log) + Writes(conn, pieces[..i])
          {
            var data := pieces[i];
            assert pieces[..i + 1] == pieces[..i] + [data];
            if chunked {
              ChunkWritesSnoc(pieces[..i], data);
              if data != [] {
                log := log + [Write(conn, Chunk(data))];
                WritesAppend(conn, ChunkWrites(pieces[..i]), [Chunk(data)]);
              } else {
                assert ChunkWrites(pieces[..i + 1]) == ChunkWrites(pieces[..i]);
              }
            } else {
              log := log + [Write(conn, data)];
              WritesAppend(conn, pieces[..i], [data]);
            }
            i := i + 1;
          }
          assert pieces[..i] == pieces;
          if chunked {
            log := log + [Write(conn, LastChunk)];
            WritesAppend(conn, ChunkWrites(pieces), [LastChunk]);
          }
      }
    }

    /** One connection of run(): parse the head, answer an error or call
        the handler and send its response, then close the socket. */
    method ServeConnection(c: Connection, app: Env -> AppOutcome, parseStr: string -> Value) returns (raised: bool)
      modifies this
      ensures log == old(log) + Serve(cfg, c, app, parseStr).0
      ensures raised == Serve(cfg, c, app, parseStr).1
      ensures doRun == old(doRun)
    {
      ghost var start := log;
      ghost var events: seq<SocketEvent> := [];
      raised := false;
      var parsed := ParseRequestHeader(cfg, c.head);
      match parsed {
        case Rejected(code) =>
          log := log + [Write(c.id, ErrorReply(code))];
          events := [Write(c.id, ErrorReply(code))];
          ServeRejected(cfg, c, app, parseStr, code);
        case Parsed(env) =>
          var e := DispatchEnv(env, c, parseStr);
          ServeParsed(cfg, c, app, parseStr, env);
          if e.None? {
            raised := true;
            return;
          }
          var outcome := app(e.value);
          match outcome {
            case Raised =>
              raised := true;
            case Returned(reply) =>
              if reply.Some? {
                HttpResponse(c.id, reply.value);
                events := Writes(c.id, ResponseWrites(reply.value));
              }
          }
      }
      ghost var before := log;
      log := log + [Close(c.id)];
      CloseAfter(start, before, events, c.id);
    }

    /** The main loop of run(): connections are served one at a time until
        a handler throws or a shutdown signal arrives. */
    method Run(conns: seq<Connection>, app: Env -> AppOutcome, parseStr: string -> Value) returns (raised: bool)
      modifies this
      ensures old(doRun) ==> log == old(log) + Transcript(cfg, conns, app, parseStr)
      ensures old(doRun) ==> raised == TranscriptRaises(cfg, conns, app, parseStr)
      ensures !old(doRun) ==> log == old(log) && !raised
    {
      raised := false;
      var i := 0;
      ghost var outs := Outcomes(cfg, conns, app, parseStr);
      ghost var total := old(log) + RunEvents(outs, conns);
      ghost var totalRaises := RunRaises(outs, conns);
      assert conns[0..] == conns && outs[0..] == outs;
      while doRun && i < |conns| && !raised
        invariant 0 <= i <= |conns|
        invariant !old(doRun) ==> !doRun && log == old(log) && !raised
        invariant old(doRun) && doRun && !raised ==>
                    total == log + RunEvents(outs[i..], conns[i..])
                    && totalRaises == RunRaises(outs[i..], conns[i..])
        invariant old(doRun) && (!doRun || raised) ==> log == total && raised == totalRaises
        decreases |conns| - i
      {
        var c := conns[i];
        RunStep(outs, conns, i);
        ghost var before := log;
        ghost var ev := outs[i].0;
        ghost var rest := RunEvents(outs[i + 1..], conns[i + 1..]);
        raised := ServeConnection(c, app, parseStr);
        assert log == before + ev && raised == outs[i].1;
        if !raised && !c.stopAfter {
          assert total == before + (ev + rest);
          AppendAssoc(before, ev, rest);
        }
        if c.stopAfter {
          ShutdownGracefully();
        }
        i := i + 1;
      }
    }
  }

  lemma {:induction false} AppendAssoc<T>(a: seq<T>, b: seq<T>, c: seq<T>)
    ensures a + (b + c) == (a + b) + c
  {
  }

  lemma {:induction false} RunStep(outcomes: seq<(seq<SocketEvent>, bool)>, conns: seq<Connection>, i: nat)
    requires |outcomes| == |conns| && i < |conns|
    ensures RunEvents(outcomes[i..], conns[i..]) ==
              if outcomes[i].1 || conns[i].stopAfter then outcomes[i].0
              else outcomes[i].0 + RunEvents(outcomes[i + 1..], conns[i + 1..])
    ensures RunRaises(outcomes[i..], conns[i..]) ==
              (outcomes[i].1 || (!conns[i].stopAfter && RunRaises(outcomes[i + 1..], conns[i + 1..])))
  {
    assert conns[i..][0] == conns[i] && conns[i..][1..] == conns[i + 1..];
    assert outcomes[i..][0] == outcomes[i] && outcomes[i..][1..] == outcomes[i + 1..];
  }

  lemma {:induction false} ResponseLog(conn: nat, resp: Response, before: seq<SocketEvent>, framing: (Headers, bool))
    requires framing == Framing(resp.headers, resp.body)
    ensures before + [Write(conn, Head(resp.status, framing.0))] + Writes(conn, BodyWrites(resp.body, framing.1))
            == before + Writes(conn, ResponseWrites(resp))
  {
    WritesAppend(conn, [Head(resp.status, framing.0)], BodyWrites(resp.body, framing.1));
  }

  lemma {:induction false} WritesAppend(conn: nat, a: seq<string>, b: seq<string>)
    ensures Writes(conn, a + b) == Writes(conn, a) + Writes(conn, b)
  {
  }

  lemma {:induction false} ChunkWritesSnoc(pieces: seq<string>, data: string)
    ensures ChunkWrites(pieces + [data]) == ChunkWrites(pieces) + (if data == [] then [] else [Chunk(data)])
    decreases |pieces|
  {
    if pieces == [] {
      assert pieces + [data] == [data];
    } else {
      assert (pieces + [data])[1..] == pieces[1..] + [data];
      ChunkWritesSnoc(pieces[1..], data);
    }
  }
}

=== FILE: lint.dfy ===
/*
 * InjectStack\Middleware\Lint: a middleware that checks the `$env` it is
 * handed and the value the next handler returns against the gateway's
 * conventions, and throws a LintException at the first check that fails.
 *
 * A thrown LintException is the `Some(violation)` of the check functions
 * (and the Failure of Invoke); the violation names the failed assertion.
 * Comparisons follow PHP 8's loose `==`; the regular expressions are
 * written out as predicates, including PCRE's `$`, which also matches just
 * before a final "\n".
 */
module Lint {
  import opened Php
  import opened Gateway

  // ------------------------------------------------------------------ values

  /** isArrayEquivalent(): an array, or an ArrayObject-like object. */
  predicate IsArrayEquivalent(v: Value) {
    v.Arr? || (v.Obj? && v.arrayLike)
  }

  /** isStringEquivalent(): anything but an array or an object, or an object
      with __toString(). */
  predicate IsStringEquivalent(v: Value) {
    match v
    case Arr(_) => false
    case Obj(t, _) => t.Some?
    case _ => true
  }

  /** A value that is not array-equivalent. */
  type NonArray = v: Value | !IsArrayEquivalent(v) witness Null

  /** strlen($v); None is the TypeError PHP 8 throws for an array, a
      resource or an object without __toString(). */
  function Strlen(v: Value): (r: Option<nat>)
    ensures r.Some? <==> IsStringEquivalent(v) && !v.Resource?
    ensures r.Some? ==> r.value == |ToStr(v)|
  {
    match v
    case Arr(_) => None
    case Resource(_) => None
    case Obj(None, _) => None
    case _ => Some(|ToStr(v)|)
  }

  // ------------------------------------------------------------------ patterns

  /** The subject PCRE's `$` sees as the end: one final "\n" is ignored. */
  function Chomp(s: string): (r: string)
    ensures r == s || (s == r + "\n")
  {
    if s != [] && s[|s| - 1] == '\n' then s[..|s| - 1] else s
  }

  /** A tchar of the method token: a digit, a letter or one of
      !#$%&'*+.^_`|~- */
  predicate TokenChar(c: char) {
    IsDigit(c) || 'A' <= c <= 'Z' || 'a' <= c <= 'z' || c in "!#$%&'*+.^_`|~-"
  }

  /** `/^[0-9A-Za-z!#$%&'*+.^_`|~-]+$/` */
  predicate MethodToken(s: string) {
    var t := Chomp(s);
    t != [] && forall i | 0 <= i < |t| :: TokenChar(t[i])
  }

  /** `/^\d+$/` */
  predicate DigitsLine(s: string) {
    var t := Chomp(s);
    t != [] && AllDigits(t)
  }

  predicate Letter(c: char) {
    'A' <= c <= 'Z' || 'a' <= c <= 'z'
  }

  /** `/^[a-zA-Z][a-zA-Z0-9_-]*$/` */
  predicate HeaderNamePattern(s: string) {
    var t := Chomp(s);
    t != [] && Letter(t[0])
    && forall i | 1 <= i < |t| :: Letter(t[i]) || IsDigit(t[i]) || t[i] == '_' || t[i] == '-'
  }

  /** `/[\000-\027]/`: the octal range ends at 0x17. */
  predicate HasControl(line: string) {
    exists i | 0 <= i < |line| :: line[i] as int <= 0x17
  }

  /** No byte up to 0x17 but the line feed. */
  predicate ControlFree(s: string) {
    forall i | 0 <= i < |s| :: s[i] == '\n' || s[i] as int > 0x17
  }

  /** On a single line the pattern and ControlFree agree. */
  lemma {:induction false} LineControlFree(line: string)
    requires forall i | 0 <= i < |line| :: line[i] != '\n'
    ensures !HasControl(line) <==> ControlFree(line)
  {
  }

  lemma {:induction false} ControlFreeSplit(s: string, p: nat)
    requires p < |s| && s[p] == '\n'
    ensures ControlFree(s) <==> ControlFree(s[..p]) && ControlFree(s[p + 1..])
  {
    if ControlFree(s[..p]) && ControlFree(s[p + 1..]) {
      forall i | 0 <= i < |s| ensures s[i] == '\n' || s[i] as int > 0x17 {
        if i < p {
          assert s[..p][i] == s[i];
        } else if i > p {
          assert s[p + 1..][i - p - 1] == s[i];
        }
      }
    }
    if ControlFree(s) {
      forall i | 0 <= i < p ensures s[..p][i] == '\n' || s[..p][i] as int > 0x17 {
        assert s[..p][i] == s[i];
      }
      var rest := s[p + 1..];
      forall i | 0 <= i < |rest| ensures rest[i] == '\n' || rest[i] as int > 0x17 {
        assert rest[i] == s[p + 1 + i];
      }
    }
  }

  /** The loop over `explode("\n", $hval)`: no line matches the pattern. */
  predicate LinesClean(lines: seq<string>) {
    lines == [] || (!HasControl(lines[0]) && LinesClean(lines[1..]))
  }

  /** Every line of the value is free of control bytes exactly when the only
      byte up to 0x17 in it is the line feed that separates the lines. */
  lemma {:induction false} LinesCleanIff(s: string)
    ensures LinesClean(Explode(s, "\n")) <==> ControlFree(s)
    decreases |s|
  {
    var parts := Explode(s, "\n");
    match Find(s, "\n")
    case None =>
      assert parts == [s];
      assert parts[1..] == [];
      forall i | 0 <= i < |s| ensures s[i] != '\n' {
        assert !("\n" <= s[i..]);
      }
      LineControlFree(s);
    case Some(p) =>
      var rest := s[p + 1..];
      LinesCleanIff(rest);
      assert parts == [s[..p]] + Explode(rest, "\n");
      assert parts[1..] == Explode(rest, "\n");
      assert s[p] == '\n' by {
        assert "\n" <= s[p..];
      }
      forall i | 0 <= i < p ensures s[..p][i] != '\n' {
        assert s[..p][i] == s[i];
        assert !("\n" <= s[i..]);
      }
      LineControlFree(s[..p]);
      ControlFreeSplit(s, p);
  }

  // ------------------------------------------------------------------ checkEnv

  /** Why a LintException is thrown. */
  datatype Violation =
    | MissingKey(key: string)
    | ForbiddenKey(key: string)
      /** Some key without '.' holds an array or an object without
          __toString(); the message names the first in array order. */
    | NotString
    | UnknownScheme
    | AdapterNotString
    | GetNotArray
    | PostNotArray
    | UnknownMethod
    | ScriptNameNoSlash
    | PathInfoNoSlash
    | InvalidContentLength
    | ScriptNameIsSlash
    | ReturnNotArray
    | MissingPart(index: nat)
    | StatusNotInt
    | StatusBelow100
    | HeadersNotArray
    | NumericHeaderName(name: string)
    | StatusHeader(name: string)
    | ColonOrNewlineInName(name: string)
    | InvalidHeaderName(name: string)
    | HeaderNotString(name: string)
      /** explode() of a header value that is a stream threw a TypeError. */
    | HeaderValueTypeError(name: string)
    | HeaderControlChars(name: string)
    | ContentTypeNotAllowed
    | ContentTypeMissing
    | ContentLengthNotAllowed
    | HeadBodyNotEmpty
      /** strlen() of the body threw a TypeError, which ends checkRet()
          as a failed assertion does. */
    | StrlenTypeError
    | LengthMismatch
    | BodyNotString

  /** The keys every `$env` must set, in the order they are checked. */
  const RequiredKeys: seq<string> := [
    "PATH_INFO", "QUERY_STRING", "REQUEST_METHOD", "BASE_URI", "SCRIPT_NAME",
    "SERVER_NAME", "SERVER_PORT", "inject.version", "inject.url_scheme",
    "inject.adapter", "inject.get", "inject.post", "inject.input"]

  /** The first of `keys` that isset() rejects. */
  function FirstUnset(env: Env, keys: seq<string>): (r: Option<string>)
    ensures r.None? <==> forall i | 0 <= i < |keys| :: IsSet(Get(env, keys[i]))
    ensures r.Some? ==> r.value in keys && !IsSet(Get(env, r.value))
  {
    if keys == [] then None
    else if !IsSet(Get(env, keys[0])) then Some(keys[0])
    else FirstUnset(env, keys[1..])
  }

  /** `empty($v) OR substr($v, 0, 1) === '/'` */
  predicate EmptyOrRooted(v: Value) {
    Empty(v) || Substr(ToStr(v), 0, Some(1)) == "/"
  }

  /** `strtoupper($env['REQUEST_METHOD']) == 'HEAD'` */
  predicate IsHeadRequest(env: Env) {
    Upper(ToStr(Get(env, "REQUEST_METHOD"))) == "HEAD"
  }

  /** What checkEnv() accepts, stated as one condition per rule. */
  predicate ConformingEnv(env: Env) {
    (forall k | k in RequiredKeys :: IsSet(Get(env, k)))
    && !IsSet(Get(env, "HTTP_CONTENT_TYPE")) && !IsSet(Get(env, "HTTP_CONTENT_LENGTH"))
    && (forall k | k in env && '.' !in k :: IsStringEquivalent(env[k]))
    && (EqualsWord(Get(env, "inject.url_scheme"), "http") || EqualsWord(Get(env, "inject.url_scheme"), "https"))
    && Get(env, "inject.adapter").Str?
    && IsArrayEquivalent(Get(env, "inject.get")) && IsArrayEquivalent(Get(env, "inject.post"))
    && MethodToken(ToStr(Get(env, "REQUEST_METHOD")))
    && (Empty(Get(env, "SCRIPT_NAME")) || (ToStr(Get(env, "SCRIPT_NAME")) != [] && ToStr(Get(env, "SCRIPT_NAME"))[0] == '/'))
    && (Empty(Get(env, "PATH_INFO")) || (ToStr(Get(env, "PATH_INFO")) != [] && ToStr(Get(env, "PATH_INFO"))[0] == '/'))
    && (Empty(Get(env, "CONTENT_LENGTH")) || DigitsLine(ToStr(Get(env, "CONTENT_LENGTH"))))
    && !EqualsWord(Get(env, "SCRIPT_NAME"), "/")
  }

  lemma {:induction false} RootedIff(v: Value)
    ensures EmptyOrRooted(v) <==> Empty(v) || (ToStr(v) != [] && ToStr(v)[0] == '/')
  {
    var s := ToStr(v);
    if s != [] {
      assert Substr(s, 0, Some(1)) == [s[0]];
    }
  }

  /** checkEnv(): the first rule `env` breaks, in the order the checks run;
      None when it passes them all. */
  function CheckEnv(env: Env): (r: Option<Violation>)
    ensures r.None? <==> ConformingEnv(env)
    ensures r.Some? && r.value.MissingKey? ==> r.value.key in RequiredKeys && !IsSet(Get(env, r.value.key))
  {
    match FirstUnset(env, RequiredKeys)
    case Some(k) => Some(MissingKey(k))
    case None =>
      RootedIff(Get(env, "SCRIPT_NAME"));
      RootedIff(Get(env, "PATH_INFO"));
      if IsSet(Get(env, "HTTP_CONTENT_TYPE")) then Some(ForbiddenKey("HTTP_CONTENT_TYPE"))
      else if IsSet(Get(env, "HTTP_CONTENT_LENGTH")) then Some(ForbiddenKey("HTTP_CONTENT_LENGTH"))
      else if exists k | k in env :: '.' !in k && !IsStringEquivalent(env[k]) then Some(NotString)
      else if !(EqualsWord(Get(env, "inject.url_scheme"), "http") || EqualsWord(Get(env, "inject.url_scheme"), "https"))
      then Some(UnknownScheme)
      else if !Get(env, "inject.adapter").Str? then Some(AdapterNotString)
      else if !IsArrayEquivalent(Get(env, "inject.get")) then Some(GetNotArray)
      else if !IsArrayEquivalent(Get(env, "inject.post")) then Some(PostNotArray)
      else if !MethodToken(ToStr(Get(env, "REQUEST_METHOD"))) then Some(UnknownMethod)
      else if !EmptyOrRooted(Get(env, "SCRIPT_NAME")) then Some(ScriptNameNoSlash)
      else if !EmptyOrRooted(Get(env, "PATH_INFO")) then Some(PathInfoNoSlash)
      else if !(Empty(Get(env, "CONTENT_LENGTH")) || DigitsLine(ToStr(Get(env, "CONTENT_LENGTH"))))
      then Some(InvalidContentLength)
      else if EqualsWord(Get(env, "SCRIPT_NAME"), "/") then Some(ScriptNameIsSlash)
      else None
  }

  // ------------------------------------------------------------------ checkRet

  /** The header array of a return value, in array order, or whatever else
      stands in its place. */
  datatype HeaderPart = HeaderArray(entries: seq<(string, Value)>) | NoHeaderArray(v: NonArray)

  /** The handler's return value: the three elements of an array (an
      element that is missing reads as null), or a value that is not an
      array. */
  datatype Returned = Triple(status: Value, headers: HeaderPart, body: Value) | NotArray(v: NonArray)

  /** isCodeWithNoBody(): `$code < 200 && $code >= 199 OR $code == 204 OR
      $code == 304`. */
  function IsCodeWithNoBody(code: int): (r: bool)
    ensures r <==> code == 199 || code == 204 || code == 304
  {
    (code < 200 && code >= 199) || code == 204 || code == 304
  }

  /** What checkRet() demands of a header name. */
  predicate NameOk(name: string) {
    !IsNumeric(name) && Lower(name) != "status" && ':' !in name && '\n' !in name
    && HeaderNamePattern(name)
  }

  /** What checkRet() demands of one header. */
  predicate HeaderOk(name: string, value: Value) {
    NameOk(name) && IsStringEquivalent(value) && !value.Resource? && ControlFree(ToStr(value))
  }

  /** The header value check, line by line as the loop makes it. */
  function ValueLinesClean(s: string): (r: bool)
    ensures r <==> ControlFree(s)
  {
    LinesCleanIff(s);
    LinesClean(Explode(s, "\n"))
  }

  /** The checks of the header loop on one header, in order. */
  function HeaderViolation(name: string, value: Value): (r: Option<Violation>)
    ensures r.None? <==> HeaderOk(name, value)
  {
    if IsNumeric(name) then Some(NumericHeaderName(name))
    else if Lower(name) == "status" then Some(StatusHeader(name))
    else if ':' in name || '\n' in name then Some(ColonOrNewlineInName(name))
    else if !HeaderNamePattern(name) then Some(InvalidHeaderName(name))
    else if !IsStringEquivalent(value) then Some(HeaderNotString(name))
    else if value.Resource? then Some(HeaderValueTypeError(name))
    else if !ValueLinesClean(ToStr(value)) then Some(HeaderControlChars(name))
    else None
  }

  /** The index of the first element that fails `ok`. */
  function FirstFailing<T>(s: seq<T>, ok: T -> bool): (r: Option<nat>)
    ensures r.None? <==> forall i | 0 <= i < |s| :: ok(s[i])
    ensures r.Some? ==> r.value < |s| && !ok(s[r.value])
  {
    if s == [] then None
    else if !ok(s[0]) then Some(0)
    else match FirstFailing(s[1..], ok)
      case None => None
      case Some(i) => Some(i + 1)
  }

  /** The violation of the first header that breaks a rule. */
  function FirstBadHeader(hs: seq<(string, Value)>): (r: Option<Violation>)
    ensures r.None? <==> forall i | 0 <= i < |hs| :: HeaderOk(hs[i].0, hs[i].1)
    ensures r.Some? ==> exists i | 0 <= i < |hs| :: r == HeaderViolation(hs[i].0, hs[i].1)
  {
    match FirstFailing(hs, (h: (string, Value)) => HeaderOk(h.0, h.1))
    case None => None
    case Some(i) => HeaderViolation(hs[i].0, hs[i].1)
  }

  predicate Named(h: (string, Value), name: string) {
    Lower(h.0) == name
  }

  /** The index of the first header whose lower-cased name is `name`. */
  function FindHeader(hs: seq<(string, Value)>, name: string): (r: Option<nat>)
    ensures r.None? <==> forall i | 0 <= i < |hs| :: !Named(hs[i], name)
    ensures r.Some? ==> r.value < |hs| && Named(hs[r.value], name)
  {
    if hs == [] then None
    else if Named(hs[0], name) then Some(0)
    else match FindHeader(hs[1..], name)
      case None => None
      case Some(i) => Some(i + 1)
  }

  /** checkContentTypeHeader(): the first Content-Type header fails for a
      code without a body; having none fails for any other code. */
  function ContentTypeViolation(code: int, hs: seq<(string, Value)>): (r: Option<Violation>)
    ensures r.None? <==> ((exists i | 0 <= i < |hs| :: Named(hs[i], "content-type")) <==> !IsCodeWithNoBody(code))
  {
    match FindHeader(hs, "content-type")
    case Some(_) => if IsCodeWithNoBody(code) then Some(ContentTypeNotAllowed) else None
    case None => if IsCodeWithNoBody(code) then None else Some(ContentTypeMissing)
  }

  /** `$content_length` after the header loop: each Content-Length header
      overwrites it, starting from `acc`. */
  function ContentLength(hs: seq<(string, Value)>, acc: Option<Value>): Option<Value> {
    if hs == [] then acc
    else ContentLength(hs[1..], if Named(hs[0], "content-length") then Some(hs[0].1) else acc)
  }

  /** The Content-Length loop leaves the value of the last Content-Length
      header, and false when there is none. */
  lemma {:induction false} ContentLengthIsLast(hs: seq<(string, Value)>, acc: Option<Value>)
    ensures ContentLength(hs, acc).None? <==> acc.None? && forall i | 0 <= i < |hs| :: !Named(hs[i], "content-length")
    ensures forall i | 0 <= i < |hs| && Named(hs[i], "content-length")
              && (forall j | i < j < |hs| :: !Named(hs[j], "content-length")) ::
              ContentLength(hs, acc) == Some(hs[i].1)
    ensures (forall i | 0 <= i < |hs| :: !Named(hs[i], "content-length")) ==> ContentLength(hs, acc) == acc
    decreases |hs|
  {
    if hs != [] {
      var acc' := if Named(hs[0], "content-length") then Some(hs[0].1) else acc;
      ContentLengthIsLast(hs[1..], acc');
      assert forall i | 1 <= i < |hs| :: hs[i] == hs[1..][i - 1];
      forall i | 0 <= i < |hs| && Named(hs[i], "content-length")
          && (forall j | i < j < |hs| :: !Named(hs[j], "content-length"))
        ensures ContentLength(hs, acc) == Some(hs[i].1)
      {
        if i == 0 {
          assert forall j | 0 <= j < |hs[1..]| :: !Named(hs[1..][j], "content-length") by {
            forall j | 0 <= j < |hs[1..]| ensures !Named(hs[1..][j], "content-length") {
              assert hs[1..][j] == hs[j + 1];
            }
          }
        } else {
          assert Named(hs[1..][i - 1], "content-length");
          forall j | i - 1 < j < |hs[1..]| ensures !Named(hs[1..][j], "content-length") {
            assert hs[1..][j] == hs[j + 1];
          }
        }
      }
    }
  }

  /** checkContentLengthHeader() with the request's head_request flag. */
  function ContentLengthViolation(code: int, hs: seq<(string, Value)>, body: Value, headRequest: bool): (r: Option<Violation>) {
    if IsCodeWithNoBody(code) && FindHeader(hs, "content-length").Some? then Some(ContentLengthNotAllowed)
    else if headRequest then
      (if Strlen(body).None? then Some(StrlenTypeError)
       else if Strlen(body).value != 0 then Some(HeadBodyNotEmpty)
       else None)
    else match ContentLength(hs, None)
      case None => None
      case Some(cl) =>
        if IsFalse(cl) || body.Resource? then None
        else if Strlen(body).None? then Some(StrlenTypeError)
        else if !LengthMatches(body, cl) then Some(LengthMismatch)
        else None
  }

  /** `$content_length === false`: the loop's "no header" value, which a
      header set to false also leaves. */
  predicate IsFalse(v: Value) {
    v.Bool? && !v.b
  }

  /** A Content-Length value the body passes: false is skipped, anything
      else must equal the body's length. */
  predicate LengthAccepted(body: Value, cl: Value) {
    IsFalse(cl) || LengthMatches(body, cl)
  }

  /** `strlen($body) == $content_length` */
  predicate LengthMatches(body: Value, cl: Value) {
    Strlen(body).Some? && EqualsInt(cl, Strlen(body).value)
  }

  /** The body rule: a HEAD response has an empty body that strlen() can
      measure; otherwise the last Content-Length header, if any, gives the
      length of a body that is not a stream. */
  predicate BodyLengthOk(hs: seq<(string, Value)>, body: Value, headRequest: bool) {
    if headRequest then Strlen(body).Some? && Strlen(body).value == 0
    else (body.Resource?
          || forall i | 0 <= i < |hs| && Named(hs[i], "content-length")
               && (forall j | i < j < |hs| :: !Named(hs[j], "content-length")) ::
               LengthAccepted(body, hs[i].1))
  }

  lemma {:induction false} ContentLengthViolationIff(code: int, hs: seq<(string, Value)>, body: Value, headRequest: bool)
    ensures ContentLengthViolation(code, hs, body, headRequest).None? <==>
            (IsCodeWithNoBody(code) ==> forall i | 0 <= i < |hs| :: !Named(hs[i], "content-length"))
            && BodyLengthOk(hs, body, headRequest)
  {
    if !headRequest && !body.Resource? {
      LastLengthRule(hs, body);
    }
  }

  /** A last Content-Length header set to false reads as no header at all:
      whatever the body, a request other than HEAD passes the check. */
  lemma {:induction false} FalseLengthSkipped(code: int, hs: seq<(string, Value)>, body: Value, i: nat)
    requires !IsCodeWithNoBody(code)
    requires i < |hs| && Named(hs[i], "content-length") && IsFalse(hs[i].1)
    requires forall j | i < j < |hs| :: !Named(hs[j], "content-length")
    ensures ContentLengthViolation(code, hs, body, false).None?
  {
    ContentLengthIsLast(hs, None);
  }

  /** A header whose value is a stream is refused with the TypeError of
      explode(), once its name has passed. */
  lemma {:induction false} StreamHeaderRefused(name: string, id: nat)
    requires NameOk(name)
    ensures HeaderViolation(name, Resource(id)) == Some(HeaderValueTypeError(name))
  {
  }

  /** The value the Content-Length loop leaves is the last header's, so
      comparing the body with it is comparing it with the last one. */
  lemma {:induction false} LastLengthRule(hs: seq<(string, Value)>, body: Value)
    ensures (match ContentLength(hs, None)
             case None => true
             case Some(cl) => LengthAccepted(body, cl))
            <==> forall i | 0 <= i < |hs| && Named(hs[i], "content-length")
                   && (forall j | i < j < |hs| :: !Named(hs[j], "content-length")) ::
                   LengthAccepted(body, hs[i].1)
  {
    ContentLengthIsLast(hs, None);
    if ContentLength(hs, None).Some? {
      var i :| 0 <= i < |hs| && Named(hs[i], "content-length");
      var last := LastNamed(hs, i);
      assert ContentLength(hs, None) == Some(hs[last].1);
    }
  }

  /** The last index at or after `i` whose header is a Content-Length. */
  ghost function LastNamed(hs: seq<(string, Value)>, i: nat): (l: nat)
    requires i < |hs| && Named(hs[i], "content-length")
    ensures l < |hs| && Named(hs[l], "content-length")
    ensures forall j | l < j < |hs| :: !Named(hs[j], "content-length")
    decreases |hs| - i
  {
    if exists j | i < j < |hs| :: Named(hs[j], "content-length") then
      var j :| i < j < |hs| && Named(hs[j], "content-length");
      LastNamed(hs, j)
    else i
  }

  /** What checkRet() demands of the headers and the body, for a status
      that passed its own checks. */
  predicate HeadersConform(code: int, hs: seq<(string, Value)>, body: Value, headRequest: bool) {
    (forall i | 0 <= i < |hs| :: HeaderOk(hs[i].0, hs[i].1))
    && ((exists i | 0 <= i < |hs| :: Named(hs[i], "content-type")) <==> !IsCodeWithNoBody(code))
    && LengthRulesHold(code, hs, body, headRequest)
    && IsStringEquivalent(body)
  }

  /** The rules of checkContentLengthHeader(). */
  predicate LengthRulesHold(code: int, hs: seq<(string, Value)>, body: Value, headRequest: bool) {
    (IsCodeWithNoBody(code) ==> forall i | 0 <= i < |hs| :: !Named(hs[i], "content-length"))
    && BodyLengthOk(hs, body, headRequest)
  }

  /** The header loop, checkContentTypeHeader(), checkContentLengthHeader()
      and the body check, in that order. */
  function HeadersViolation(code: int, hs: seq<(string, Value)>, body: Value, headRequest: bool): (r: Option<Violation>)
    ensures r.None? <==> HeadersConform(code, hs, body, headRequest)
  {
    match FirstBadHeader(hs)
    case Some(v) => Some(v)
    case None => BodyRulesViolation(code, hs, body, headRequest)
  }

  /** checkContentTypeHeader(), checkContentLengthHeader() and the body
      check, once every header has passed. */
  function BodyRulesViolation(code: int, hs: seq<(string, Value)>, body: Value, headRequest: bool): (r: Option<Violation>)
    ensures r.None? <==>
              ((exists i | 0 <= i < |hs| :: Named(hs[i], "content-type")) <==> !IsCodeWithNoBody(code))
              && LengthRulesHold(code, hs, body, headRequest) && IsStringEquivalent(body)
  {
    assert ContentLengthViolation(code, hs, body, headRequest).None? <==> LengthRulesHold(code, hs, body, headRequest) by {
      ContentLengthViolationIff(code, hs, body, headRequest);
    }
    match ContentTypeViolation(code, hs)
    case Some(v) => Some(v)
    case None =>
      match ContentLengthViolation(code, hs, body, headRequest)
      case Some(v) => Some(v)
      case None => if IsStringEquivalent(body) then None else Some(BodyNotString)
  }

  /** What checkRet() accepts, one condition per rule. */
  predicate ConformingReturn(ret: Returned, headRequest: bool) {
    ret.Triple? && IsSet(ret.status) && ret.headers.HeaderArray? && IsSet(ret.body)
    && DigitsLine(ToStr(ret.status)) && ToInt(ret.status) >= 100
    && HeadersConform(ToInt(ret.status), ret.headers.entries, ret.body, headRequest)
  }

  /** checkRet(): the first rule the return value breaks, in the order the
      checks run; None when it passes them all. */
  function CheckReturn(ret: Returned, headRequest: bool): (r: Option<Violation>)
    ensures r.None? <==> ConformingReturn(ret, headRequest)
  {
    match ret
    case NotArray(_) => Some(ReturnNotArray)
    case Triple(status, headers, body) =>
      if !IsSet(status) then Some(MissingPart(0))
      else if headers.NoHeaderArray? && !IsSet(headers.v) then Some(MissingPart(1))
      else if !IsSet(body) then Some(MissingPart(2))
      else if !DigitsLine(ToStr(status)) then Some(StatusNotInt)
      else if ToInt(status) < 100 then Some(StatusBelow100)
      else if headers.NoHeaderArray? then Some(HeadersNotArray)
      else HeadersViolation(ToInt(status), headers.entries, body, headRequest)
  }

  // ------------------------------------------------------------------ the middleware

  class LintMiddleware {
    /** The next middleware or endpoint. */
    var next: Env -> Returned
    /** Whether the request being checked is a HEAD request. */
    var headRequest: bool

    /** A Lint whose next handler has been set. */
    constructor (next: Env -> Returned)
      ensures this.next == next && !headRequest
    {
      this.next := next;
      headRequest := false;
    }

    /** setNext() */
    method SetNext(next: Env -> Returned)
      modifies this
      ensures this.next == next && headRequest == old(headRequest)
    {
      this.next := next;
    }

    /** checkRet() as the middleware runs it, under its head_request flag. */
    method CheckRet(ret: Returned) returns (r: Option<Violation>)
      ensures r.None? <==> ConformingReturn(ret, headRequest)
      ensures r == CheckReturn(ret, headRequest)
    {
      r := CheckReturn(ret, headRequest);
    }

    /** __invoke(): check the env, note whether this is a HEAD request, call
        the next handler and check what it returns. A failed check is the
        Failure; nothing after it runs. */
    method Invoke(env: Env) returns (r: Result<Returned, Violation>)
      modifies this
      ensures next == old(next)
      ensures !ConformingEnv(env) ==> r == Failure(CheckEnv(env).value) && headRequest == old(headRequest)
      ensures ConformingEnv(env) ==> headRequest == IsHeadRequest(env)
      ensures r.Success? <==> ConformingEnv(env) && ConformingReturn(next(env), IsHeadRequest(env))
      ensures r.Success? ==> r.value == next(env)
    {
      var envViolation := CheckEnv(env);
      if envViolation.Some? {
        return Failure(envViolation.value);
      }
      headRequest := IsHeadRequest(env);
      var ret := next(env);
      var retViolation := CheckRet(ret);
      if retViolation.Some? {
        return Failure(retViolation.value);
      }
      r := Success(ret);
    }
  }

  /** A HEAD request must get an empty body back, whatever its headers say;
      any other request with a Content-Length header must get a string body
      of exactly that length. */
  lemma {:induction false} HeadBodyMustBeEmpty(status: Value, hs: seq<(string, Value)>, body: string)
    requires ConformingReturn(Triple(status, HeaderArray(hs), Str(body)), true)
    ensures body == ""
  {
  }

  lemma {:induction false} LengthMustMatch(status: Value, hs: seq<(string, Value)>, body: string, i: nat, n: int)
    requires ConformingReturn(Triple(status, HeaderArray(hs), Str(body)), false)
    requires i < |hs| && hs[i].1 == Int(n) && Named(hs[i], "content-length")
    requires forall j | i < j < |hs| :: !Named(hs[j], "content-length")
    ensures n == |body|
  {
    assert HeadersConform(ToInt(status), hs, Str(body), false);
    assert BodyLengthOk(hs, Str(body), false);
    assert LengthAccepted(Str(body), hs[i].1);
  }
}

=== FILE: mongrel2.dfy ===
/*
 * Inject\Stack\Adapter\Mongrel2: the adapter behind a Mongrel2 server. A
 * request arrives as one ZeroMQ message
 *
 *     UUID CONN_ID PATH HEADLEN:HEADER,BODYLEN:BODY,
 *
 * which is copied into a temporary stream and read from it field by field;
 * HEADER is a JSON object. A reply is published as
 *
 *     UUID LEN:CONN_ID, PAYLOAD
 *
 * ZeroMQ, the temporary stream's storage and json_decode() are not part of
 * this model: a message is the string received, the stream is a cursor over
 * it, and the JSON decoder is a parameter.
 */
module Mongrel2 {
  import opened Php
  import opened Gateway
  import HttpSocket

  /** The built-in part of default_env; the caller's entries override it. */
  function BaseEnv(adapterClass: string): Env {
    map[
      "SERVER_NAME" := Str("localhost"),
      "SERVER_PORT" := Int(80),
      "BASE_URI" := Str(""),
      "inject.version" := Str(HttpSocket.InjectVersion),
      "inject.adapter" := Str(adapterClass),
      "inject.get" := Arr(map[]),
      "inject.post" := Arr(map[])
    ]
  }

  // ------------------------------------------------------------ the temporary stream

  /** The first position of `c` in `s`. */
  function IndexOf(s: string, c: char): (r: Option<nat>)
    ensures r.Some? ==> r.value < |s| && s[r.value] == c && c !in s[..r.value]
    ensures r.None? ==> c !in s
  {
    if s == [] then None
    else if s[0] == c then Some(0)
    else match IndexOf(s[1..], c)
      case None => None
      case Some(i) =>
        assert s[..i + 1] == [s[0]] + s[1..][..i];
        Some(i + 1)
  }

  lemma {:induction false} IndexOfAt(s: string, c: char, i: nat)
    requires i < |s| && s[i] == c && c !in s[..i]
    ensures IndexOf(s, c) == Some(i)
    decreases i
  {
    if i > 0 {
      assert s[0] == s[..i][0];
      assert s[1..][..i - 1] == s[..i][1..];
      IndexOfAt(s[1..], c, i - 1);
    }
  }

  /** stream_get_line($fp, max, delim) on the unread bytes `s`: false at
      the end; otherwise the bytes before the first `delim` within the first
      `max` bytes, the delimiter being consumed, or all of those `max`
      bytes when no delimiter is among them. */
  function NextLine(s: string, max: nat, delim: char): (r: (Option<string>, string))
    requires max > 0
    ensures r.0.None? <==> s == []
    ensures r.0.Some? ==> delim !in r.0.value && |r.0.value| <= max
    ensures r.0.Some? ==> |r.1| < |s| && r.1 == s[|s| - |r.1|..] && r.0.value <= s
  {
    if s == [] then (None, [])
    else
      var w := if max < |s| then s[..max] else s;
      match IndexOf(w, delim)
      case Some(i) => (Some(w[..i]), s[i + 1..])
      case None => (Some(w), s[|w|..])
  }

  /** A token followed by its delimiter within the window is read whole and
      the delimiter consumed. */
  lemma {:induction false} NextLineToken(tok: string, delim: char, rest: string, max: nat)
    requires delim !in tok && |tok| < max
    ensures NextLine(tok + [delim] + rest, max, delim) == (Some(tok), rest)
  {
    var s := tok + [delim] + rest;
    var w := if max < |s| then s[..max] else s;
    assert w[..|tok|] == tok;
    IndexOfAt(w, delim, |tok|);
    assert s[|tok| + 1..] == rest;
  }

  /** fread($fp, n): at most n bytes; nothing for n <= 0. */
  function NextBytes(s: string, n: int): (r: (string, string))
    ensures r.0 + r.1 == s
    ensures n >= 0 ==> |r.0| == if n < |s| then n else |s|
  {
    if n <= 0 then ("", s)
    else if n < |s| then (s[..n], s[n..])
    else (s, [])
  }

  /** fgetc($fp): one byte, or false at the end. */
  function NextChar(s: string): (r: (Option<char>, string))
    ensures r.0.None? <==> s == []
    ensures r.0.Some? ==> s == [r.0.value] + r.1
  {
    if s == [] then (None, []) else (Some(s[0]), s[1..])
  }

  /** The php://temp stream a message is copied into, read through a
      cursor. */
  class TempStream {
    const data: string
    var pos: nat

    ghost predicate Valid()
      reads this
    {
      pos <= |data|
    }

    /** The bytes not read yet. */
    function Rest(): string
      reads this
      requires Valid()
    {
      data[pos..]
    }

    constructor (d: string)
      ensures data == d && pos == 0 && Valid()
    {
      data := d;
      pos := 0;
    }

    method GetLine(max: nat, delim: char) returns (r: Option<string>)
      requires Valid() && max > 0
      modifies this
      ensures Valid()
      ensures (r, Rest()) == NextLine(old(Rest()), max, delim)
    {
      var (tok, after) := NextLine(data[pos..], max, delim);
      r := tok;
      pos := |data| - |after|;
    }

    method Read(n: int) returns (r: string)
      requires Valid()
      modifies this
      ensures Valid()
      ensures (r, Rest()) == NextBytes(old(Rest()), n)
    {
      var (bytes, after) := NextBytes(data[pos..], n);
      assert after == data[pos + |bytes|..];
      r := bytes;
      pos := pos + |bytes|;
    }

    method Getc() returns (r: Option<char>)
      requires Valid()
      modifies this
      ensures Valid()
      ensures (r, Rest()) == NextChar(old(Rest()))
    {
      if pos < |data| {
        r := Some(data[pos]);
        pos := pos + 1;
      } else {
        r := None;
      }
    }
  }

  // ------------------------------------------------------------ the request envelope

  /** A decoded JSON object, in key order; None when json_decode() does
      not give an array. */
  type Json = string -> Option<seq<(string, Value)>>

  /** What parseRequest() returns. A field stream_get_line() found nothing
      for is false there; it is "" here, which every use of it (sprintf's
      %s, strlen(), the comparison with "@*", the (int) cast) treats the
      same way. */
  datatype Envelope = Envelope(uuid: string, connId: string, path: string,
                               headers: Option<seq<(string, Value)>>, bodyLen: string)

  /** The test on the byte after the header. As written, `! fgetc($fp) ==
      ','` compares the negated byte with ',', which is true exactly when
      the byte is falsy: '0' or the end. */
  datatype CommaCheck = AsWritten | Intended

  predicate CommaAccepted(check: CommaCheck, c: Option<char>) {
    match check
    case AsWritten => !(c.None? || c == Some('0'))
    case Intended => c == Some(',')
  }

  /** parseRequest(): the fields of the envelope, and the bytes left in the
      stream (the body and its closing ','). */
  function ParseEnvelope(s: string, check: CommaCheck, json: Json): (r: (Option<Envelope>, string))
  {
    var (uuid, s1) := NextLine(s, 255, ' ');
    var (connId, s2) := NextLine(s1, 255, ' ');
    var (path, s3) := NextLine(s2, 1024, ' ');
    var (headLen, s4) := NextLine(s3, 255, ':');
    var (header, s5) := NextBytes(s4, IntCast(headLen.GetOr("")));
    var (comma, s6) := NextChar(s5);
    if !CommaAccepted(check, comma) then (None, s6)
    else
      var (bodyLen, s7) := NextLine(s6, 255, ':');
      (Some(Envelope(uuid.GetOr(""), connId.GetOr(""), path.GetOr(""), json(header), bodyLen.GetOr(""))), s7)
  }

  /** The message Mongrel2 sends for a request. */
  function Encode(uuid: string, connId: string, path: string, header: string, body: string): string {
    uuid + " " + (connId + " " + (path + " " + (NatToDec(|header|) + ":" + (header + ("," + (NatToDec(|body|) + ":" + (body + ",")))))))
  }

  /** A field of the envelope fits the window stream_get_line() reads it
      with and holds no delimiter. */
  predicate FitsField(t: string, max: nat, delim: char) {
    delim !in t && |t| < max
  }

  /** A well-formed message is read back field by field, and the stream is
      left at the body, followed by its closing ','. */
  lemma {:induction false} EnvelopeRoundTrip(uuid: string, connId: string, path: string, header: string, body: string,
                                            check: CommaCheck, json: Json)
    requires FitsField(uuid, 255, ' ') && FitsField(connId, 255, ' ') && FitsField(path, 1024, ' ')
    requires |NatToDec(|header|)| < 255 && |NatToDec(|body|)| < 255 && |header| <= PhpIntMax
    ensures ParseEnvelope(Encode(uuid, connId, path, header, body), check, json) ==
              (Some(Envelope(uuid, connId, path, json(header), NatToDec(|body|))), body + ",")
  {
    var bl := NatToDec(|body|);
    var s6 := bl + ":" + (body + ",");
    var s5 := "," + s6;
    FieldsRead(uuid, connId, path, NatToDec(|header|) + ":" + (header + s5));
    HeaderRead(header, s5);
    NextCharOf(',', s6);
    assert NextLine(s6, 255, ':') == (Some(bl), body + ",") by {
      DecimalFree(bl, ':');
      NextLineToken(bl, ':', body + ",", 255);
    }
    ParseEnvelopeOf(Encode(uuid, connId, path, header, body), check, json, uuid, connId, path,
                    NatToDec(|header|), header, s5, ',', s6);
  }

  /** The three space-ended fields are read back in order. */
  lemma {:induction false} FieldsRead(uuid: string, connId: string, path: string, s3: string)
    requires FitsField(uuid, 255, ' ') && FitsField(connId, 255, ' ') && FitsField(path, 1024, ' ')
    ensures NextLine(uuid + " " + (connId + " " + (path + " " + s3)), 255, ' ') == (Some(uuid), connId + " " + (path + " " + s3))
    ensures NextLine(connId + " " + (path + " " + s3), 255, ' ') == (Some(connId), path + " " + s3)
    ensures NextLine(path + " " + s3, 1024, ' ') == (Some(path), s3)
  {
    NextLineToken(uuid, ' ', connId + " " + (path + " " + s3), 255);
    NextLineToken(connId, ' ', path + " " + s3, 255);
    NextLineToken(path, ' ', s3, 1024);
  }

  lemma {:induction false} NextCharOf(c: char, rest: string)
    ensures NextChar([c] + rest) == (Some(c), rest)
  {
    assert ([c] + rest)[1..] == rest;
  }

  /** parseRequest() on a stream whose fields read as given. */
  lemma {:induction false} ParseEnvelopeOf(s: string, check: CommaCheck, json: Json, uuid: string, connId: string,
                                          path: string, hl: string, header: string, s5: string, c: char, s6: string)
    requires NextLine(s, 255, ' ') == (Some(uuid), connId + " " + (path + " " + (hl + ":" + (header + s5))))
    requires NextLine(connId + " " + (path + " " + (hl + ":" + (header + s5))), 255, ' ') == (Some(connId), path + " " + (hl + ":" + (header + s5)))
    requires NextLine(path + " " + (hl + ":" + (header + s5)), 1024, ' ') == (Some(path), hl + ":" + (header + s5))
    requires NextLine(hl + ":" + (header + s5), 255, ':') == (Some(hl), header + s5)
    requires NextBytes(header + s5, IntCast(hl)) == (header, s5)
    requires NextChar(s5) == (Some(c), s6)
    ensures ParseEnvelope(s, check, json) ==
              if !CommaAccepted(check, Some(c)) then (None, s6)
              else (Some(Envelope(uuid, connId, path, json(header), NextLine(s6, 255, ':').0.GetOr(""))), NextLine(s6, 255, ':').1)
  {
  }

  /** The header length is read, then exactly that many header bytes. */
  lemma {:induction false} HeaderRead(header: string, after: string)
    requires |NatToDec(|header|)| < 255 && |header| <= PhpIntMax
    ensures NextLine(NatToDec(|header|) + ":" + (header + after), 255, ':') == (Some(NatToDec(|header|)), header + after)
    ensures IntCast(NatToDec(|header|)) == |header|
    ensures NextBytes(header + after, |header|) == (header, after)
  {
    var hl := NatToDec(|header|);
    var s4 := header + after;
    assert NextLine(hl + ":" + s4, 255, ':') == (Some(hl), s4) by {
      DecimalFree(hl, ':');
      NextLineToken(hl, ':', s4, 255);
    }
    assert IntCast(hl) == |header| by {
      DigitsValueOfDec(|header|);
      IntCastOfDigits(hl);
    }
    if after != [] {
      assert s4[..|header|] == header && s4[|header|..] == after;
    }
  }

  lemma {:induction false} DecimalFree(d: string, c: char)
    requires AllDigits(d) && !IsDigit(c)
    ensures c !in d
  {
    forall i | 0 <= i < |d| ensures d[i] != c {
      assert IsDigit(d[i]);
    }
  }

  /** As written, any byte but '0' after the header passes for the ','
      (here ';'), where the intended check refuses the message. */
  lemma {:induction false} CommaCheckAsWrittenAcceptsAnyByte(uuid: string, connId: string, path: string, header: string,
                                                           rest: string, json: Json)
    requires FitsField(uuid, 255, ' ') && FitsField(connId, 255, ' ') && FitsField(path, 1024, ' ')
    requires |NatToDec(|header|)| < 255 && |header| <= PhpIntMax
    ensures var s := uuid + " " + (connId + " " + (path + " " + (NatToDec(|header|) + ":" + (header + (";" + rest)))));
            ParseEnvelope(s, AsWritten, json).0.Some? && ParseEnvelope(s, Intended, json).0.None?
  {
    var s5 := ";" + rest;
    FieldsRead(uuid, connId, path, NatToDec(|header|) + ":" + (header + s5));
    HeaderRead(header, s5);
    NextCharOf(';', rest);
    var s := uuid + " " + (connId + " " + (path + " " + (NatToDec(|header|) + ":" + (header + s5))));
    ParseEnvelopeOf(s, AsWritten, json, uuid, connId, path, NatToDec(|header|), header, s5, ';', rest);
    ParseEnvelopeOf(s, Intended, json, uuid, connId, path, NatToDec(|header|), header, s5, ';', rest);
  }

  /** As written and as intended, the check agrees on the ',' itself, on
      '0' and on the end of the stream. */
  lemma {:induction false} CommaChecksAgree(c: Option<char>)
    ensures CommaAccepted(AsWritten, c) != CommaAccepted(Intended, c) <==> c.Some? && c.value != ',' && c.value != '0'
  {
  }

  /** parseRequest() reading the stream step by step. */
  method ParseRequest(fp: TempStream, check: CommaCheck, json: Json) returns (r: Option<Envelope>)
    requires fp.Valid()
    modifies fp
    ensures fp.Valid()
    ensures (r, fp.Rest()) == ParseEnvelope(old(fp.Rest()), check, json)
  {
    var uuid := fp.GetLine(255, ' ');
    var connId := fp.GetLine(255, ' ');
    var path := fp.GetLine(1024, ' ');
    var headLen := fp.GetLine(255, ':');
    var header := fp.Read(IntCast(headLen.GetOr("")));
    var comma := fp.Getc();
    if !CommaAccepted(check, comma) {
      return None;
    }
    var bodyLen := fp.GetLine(255, ':');
    r := Some(Envelope(uuid.GetOr(""), connId.GetOr(""), path.GetOr(""), json(header), bodyLen.GetOr("")));
  }

  // ------------------------------------------------------------ the env

  /** $headers[$k] on the decoded header object; null when the object or
      the key is missing. */
  function Field(headers: Option<seq<(string, Value)>>, k: string): Value {
    if headers.None? then Null else Lookup(headers.value, k).GetOr(Null)
  }

  /** The foreach copying every header into the env under its HTTP_ key,
      in order. */
  function AddHeaders(env: Env, hs: seq<(string, Value)>): (r: Env)
    ensures env.Keys <= r.Keys
    decreases |hs|
  {
    if hs == [] then env else AddHeaders(env[HeaderKey(hs[0].0) := hs[0].1], hs[1..])
  }

  /** A key no header maps to keeps its value. */
  lemma {:induction false} AddHeadersKeeps(env: Env, hs: seq<(string, Value)>, k: string)
    requires forall j | 0 <= j < |hs| :: HeaderKey(hs[j].0) != k
    ensures Get(AddHeaders(env, hs), k) == Get(env, k)
    decreases |hs|
  {
    if hs != [] {
      assert HeaderKey(hs[0].0) != k;
      forall j | 0 <= j < |hs[1..]| ensures HeaderKey(hs[1..][j].0) != k {
        assert hs[1..][j] == hs[j + 1];
      }
      AddHeadersKeeps(env[HeaderKey(hs[0].0) := hs[0].1], hs[1..], k);
    }
  }

  /** A header's value stays under its HTTP_ key unless a later header maps
      to the same key. */
  lemma {:induction false} AddHeadersLastWins(env: Env, hs: seq<(string, Value)>, i: nat)
    requires i < |hs|
    requires forall j | i < j < |hs| :: HeaderKey(hs[j].0) != HeaderKey(hs[i].0)
    ensures Get(AddHeaders(env, hs), HeaderKey(hs[i].0)) == hs[i].1
    decreases |hs|
  {
    var e1 := env[HeaderKey(hs[0].0) := hs[0].1];
    if i == 0 {
      forall j | 0 <= j < |hs[1..]| ensures HeaderKey(hs[1..][j].0) != HeaderKey(hs[0].0) {
        assert hs[1..][j] == hs[j + 1];
      }
      AddHeadersKeeps(e1, hs[1..], HeaderKey(hs[0].0));
    } else {
      assert hs[1..][i - 1] == hs[i];
      forall j | i - 1 < j < |hs[1..]| ensures HeaderKey(hs[1..][j].0) != HeaderKey(hs[1..][i - 1].0) {
        assert hs[1..][j] == hs[j + 1];
      }
      AddHeadersLastWins(e1, hs[1..], i - 1);
    }
  }

  /** PATH_INFO: the request path without the first strlen(PATTERN) bytes,
      trimmed of '/', behind one '/'. */
  function PathInfo(path: string, pattern: string): (r: string)
    ensures |r| > 0 && r[0] == '/'
    ensures |r| > 1 ==> r[1] != '/' && r[|r| - 1] != '/'
  {
    "/" + Trim(Substr(path, |pattern|, None), {'/'})
  }

  /** A path below its route's prefix loses the prefix and its slashes. */
  lemma {:induction false} PathInfoBelowPrefix(prefix: string, rest: string)
    requires rest == [] || (rest[0] != '/' && rest[|rest| - 1] != '/')
    ensures PathInfo(prefix + "/" + rest, prefix + "/") == "/" + rest
    ensures PathInfo(prefix + "/" + rest, prefix) == "/" + rest
  {
    var p := prefix + "/" + rest;
    SlicesBelowPrefix(prefix, rest);
    TrimSlashes(rest);
    PathInfoOf(p, prefix + "/", rest, rest);
    PathInfoOf(p, prefix, "/" + rest, rest);
  }

  lemma {:induction false} SlicesBelowPrefix(prefix: string, rest: string)
    ensures (prefix + "/" + rest)[|prefix + "/"|..] == rest
    ensures (prefix + "/" + rest)[|prefix|..] == "/" + rest
  {
  }

  lemma {:induction false} PathInfoOf(path: string, pattern: string, tail: string, rest: string)
    requires |pattern| <= |path| && path[|pattern|..] == tail && Trim(tail, {'/'}) == rest
    ensures PathInfo(path, pattern) == "/" + rest
  {
    SubstrFrom(path, |pattern|);
  }

  lemma {:induction false} SubstrFrom(s: string, k: nat)
    requires k <= |s|
    ensures Substr(s, k, None) == s[k..]
  {
  }

  lemma {:induction false} TrimSlashes(rest: string)
    requires rest == [] || (rest[0] != '/' && rest[|rest| - 1] != '/')
    ensures Trim(rest, {'/'}) == rest && Trim("/" + rest, {'/'}) == rest
  {
    var cs := {'/'};
    assert Ltrim(rest, cs) == rest by {
      if rest != [] {
        LtrimStops(rest, cs);
      }
    }
    assert Rtrim(rest, cs) == rest by {
      if rest != [] {
        RtrimStops(rest, cs);
      }
    }
    assert Ltrim("/" + rest, cs) == Ltrim(rest, cs) by {
      assert ("/" + rest)[1..] == rest;
    }
  }

  /** createEnv(): the default env with the request's entries, the query
      parsed into inject.get, every header under its HTTP_ key, then the
      promotion of the content headers; a form body is read from the
      stream, `bodyLen` bytes of it when CONTENT_LENGTH is empty. None is
      the ValueError of that read for a length below -1, which run() does
      not catch. */
  function CreateEnv(defaultEnv: Env, headers: Option<seq<(string, Value)>>, stream: nat, input: string,
                     bodyLen: string, parseStr: string -> Value): Option<Env> {
    Promote(HeaderEnv(defaultEnv, headers, stream, parseStr), input, IntCast(bodyLen), parseStr)
  }

  /** The env before the promotion step. */
  function HeaderEnv(defaultEnv: Env, headers: Option<seq<(string, Value)>>, stream: nat, parseStr: string -> Value): Env {
    var e := RequestEntries(defaultEnv, headers, stream);
    var e1 := if Empty(Get(e, "QUERY_STRING")) then e else e["inject.get" := parseStr(ToStr(Get(e, "QUERY_STRING")))];
    if headers.None? then e1 else AddHeaders(e1, headers.value)
  }

  /** The entries createEnv() sets from the message, over the defaults. */
  function RequestEntries(defaultEnv: Env, headers: Option<seq<(string, Value)>>, stream: nat): (r: Env)
    ensures "REQUEST_METHOD" in r && r["REQUEST_METHOD"] == Str(Upper(ToStr(Field(headers, "METHOD"))))
    ensures "SCRIPT_NAME" in r && r["SCRIPT_NAME"] == (if Field(headers, "PATTERN") == Str("/") then Str("") else Field(headers, "PATTERN"))
    ensures "PATH_INFO" in r && r["PATH_INFO"] == Str(PathInfo(ToStr(Field(headers, "PATH")), ToStr(Field(headers, "PATTERN"))))
    ensures "REMOTE_ADDR" in r && r["REMOTE_ADDR"] == Field(headers, "x-forwarded-for")
    ensures "QUERY_STRING" in r && r["QUERY_STRING"] == (if Empty(Field(headers, "QUERY")) then Str("") else Field(headers, "QUERY"))
    ensures "inject.input" in r && r["inject.input"] == Resource(stream)
    ensures forall k | k in defaultEnv && k !in EnvKeys :: k in r && r[k] == defaultEnv[k]
  {
    var pattern := Field(headers, "PATTERN");
    var query := Field(headers, "QUERY");
    SetEntries(defaultEnv, Field(headers, "x-forwarded-for"), Str(Upper(ToStr(Field(headers, "METHOD")))),
               Field(headers, "URI"), if pattern == Str("/") then Str("") else pattern,
               Str(PathInfo(ToStr(Field(headers, "PATH")), ToStr(pattern))),
               if Empty(query) then Str("") else query, stream)
  }

  function SetEntries(env: Env, remote: Value, requestMethod: Value, uri: Value, scriptName: Value,
                      pathInfo: Value, queryString: Value, stream: nat): (r: Env)
    ensures "REQUEST_METHOD" in r && r["REQUEST_METHOD"] == requestMethod
    ensures "SCRIPT_NAME" in r && r["SCRIPT_NAME"] == scriptName
    ensures "PATH_INFO" in r && r["PATH_INFO"] == pathInfo
    ensures "REMOTE_ADDR" in r && r["REMOTE_ADDR"] == remote
    ensures "QUERY_STRING" in r && r["QUERY_STRING"] == queryString
    ensures "inject.input" in r && r["inject.input"] == Resource(stream)
    ensures forall k | k in env && k !in EnvKeys :: k in r && r[k] == env[k]
  {
    env["REMOTE_ADDR" := remote]
       ["REQUEST_METHOD" := requestMethod]
       ["REQUEST_URI" := uri]
       ["SCRIPT_NAME" := scriptName]
       ["PATH_INFO" := pathInfo]
       ["QUERY_STRING" := queryString]
       ["inject.url_scheme" := Str("http")]
       ["inject.input" := Resource(stream)]
  }

  const EnvKeys: set<string> :=
    {"REMOTE_ADDR", "REQUEST_METHOD", "REQUEST_URI", "SCRIPT_NAME", "PATH_INFO",
     "QUERY_STRING", "inject.url_scheme", "inject.input"}

  /** No HTTP_ key is one of the keys the adapter sets itself: those do not
      start with 'H'. */
  lemma {:induction false} HeaderKeyNotPlain(name: string, k: string)
    requires k != [] && k[0] != 'H'
    ensures HeaderKey(name) != k
  {
    assert HeaderKey(name)[0] == HeaderKey(name)[..5][0] == 'H';
  }

  /** The handler sees the request's method upper-cased, SCRIPT_NAME from
      the route pattern ('' for '/'), PATH_INFO the path below it, the
      client's address from x-forwarded-for, and its own stream as input:
      no header can overwrite these. */
  lemma {:induction false} CreateEnvContents(defaultEnv: Env, headers: Option<seq<(string, Value)>>, stream: nat,
                                            input: string, bodyLen: string, parseStr: string -> Value)
    ensures var d := CreateEnv(defaultEnv, headers, stream, input, bodyLen, parseStr);
            d.Some? ==>
            var r := d.value;
            Get(r, "REQUEST_METHOD") == Str(Upper(ToStr(Field(headers, "METHOD"))))
            && Get(r, "SCRIPT_NAME") == (if Field(headers, "PATTERN") == Str("/") then Str("") else Field(headers, "PATTERN"))
            && Get(r, "PATH_INFO") == Str(PathInfo(ToStr(Field(headers, "PATH")), ToStr(Field(headers, "PATTERN"))))
            && Get(r, "REMOTE_ADDR") == Field(headers, "x-forwarded-for")
            && Get(r, "inject.input") == Resource(stream)
  {
    var d := CreateEnv(defaultEnv, headers, stream, input, bodyLen, parseStr);
    if d.None? {
      return;
    }
    var r := d.value;
    assert Get(r, "REQUEST_METHOD") == Str(Upper(ToStr(Field(headers, "METHOD")))) by {
      assert "REQUEST_METHOD"[0] != 'H' && "REQUEST_METHOD"[0] != 'C';
      CreateEnvKeeps(defaultEnv, headers, stream, input, bodyLen, parseStr, "REQUEST_METHOD");
    }
    assert Get(r, "SCRIPT_NAME") == (if Field(headers, "PATTERN") == Str("/") then Str("") else Field(headers, "PATTERN")) by {
      assert "SCRIPT_NAME"[0] != 'H' && "SCRIPT_NAME"[0] != 'C';
      CreateEnvKeeps(defaultEnv, headers, stream, input, bodyLen, parseStr, "SCRIPT_NAME");
    }
    assert Get(r, "PATH_INFO") == Str(PathInfo(ToStr(Field(headers, "PATH")), ToStr(Field(headers, "PATTERN")))) by {
      assert "PATH_INFO"[0] != 'H' && "PATH_INFO"[0] != 'C';
      CreateEnvKeeps(defaultEnv, headers, stream, input, bodyLen, parseStr, "PATH_INFO");
    }
    assert Get(r, "REMOTE_ADDR") == Field(headers, "x-forwarded-for") by {
      assert "REMOTE_ADDR"[0] != 'H' && "REMOTE_ADDR"[0] != 'C';
      CreateEnvKeeps(defaultEnv, headers, stream, input, bodyLen, parseStr, "REMOTE_ADDR");
    }
    assert Get(r, "inject.input") == Resource(stream) by {
      assert "inject.input"[0] != 'H' && "inject.input"[0] != 'C';
      CreateEnvKeeps(defaultEnv, headers, stream, input, bodyLen, parseStr, "inject.input");
    }
  }

  /** A key the adapter sets, other than the promoted ones and inject.get,
      reaches the handler as the request entries set it. */
  lemma {:induction false} CreateEnvKeeps(defaultEnv: Env, headers: Option<seq<(string, Value)>>, stream: nat,
                                         input: string, bodyLen: string, parseStr: string -> Value, k: string)
    requires k != [] && k[0] != 'H' && k[0] != 'C' && k != "inject.get" && k != "inject.post"
    ensures var d := CreateEnv(defaultEnv, headers, stream, input, bodyLen, parseStr);
            d.Some? ==> Get(d.value, k) == Get(RequestEntries(defaultEnv, headers, stream), k)
  {
    assert k !in PromotedKeys by {
      assert "CONTENT_TYPE"[0] == "CONTENT_LENGTH"[0] == 'C';
      assert "HTTP_CONTENT_TYPE"[0] == "HTTP_CONTENT_LENGTH"[0] == 'H';
    }
    var e2 := HeaderEnv(defaultEnv, headers, stream, parseStr);
    HeaderEnvKeeps(defaultEnv, headers, stream, parseStr, k);
    PromoteKeeps(e2, input, IntCast(bodyLen), parseStr, k);
  }

  lemma {:induction false} HeaderEnvKeeps(defaultEnv: Env, headers: Option<seq<(string, Value)>>, stream: nat,
                                         parseStr: string -> Value, k: string)
    requires k != [] && k[0] != 'H' && k != "inject.get"
    ensures Get(HeaderEnv(defaultEnv, headers, stream, parseStr), k) == Get(RequestEntries(defaultEnv, headers, stream), k)
  {
    HeaderEnvFrom(RequestEntries(defaultEnv, headers, stream), headers, parseStr, k);
  }

  lemma {:induction false} HeaderEnvFrom(e: Env, headers: Option<seq<(string, Value)>>, parseStr: string -> Value, k: string)
    requires k != [] && k[0] != 'H' && k != "inject.get"
    ensures var e1 := if Empty(Get(e, "QUERY_STRING")) then e else e["inject.get" := parseStr(ToStr(Get(e, "QUERY_STRING")))];
            Get(if headers.None? then e1 else AddHeaders(e1, headers.value), k) == Get(e, k)
  {
    var e1 := if Empty(Get(e, "QUERY_STRING")) then e else e["inject.get" := parseStr(ToStr(Get(e, "QUERY_STRING")))];
    assert Get(e1, k) == Get(e, k);
    if headers.Some? {
      forall j | 0 <= j < |headers.value| ensures HeaderKey(headers.value[j].0) != k {
        HeaderKeyNotPlain(headers.value[j].0, k);
      }
      AddHeadersKeeps(e1, headers.value, k);
    }
  }

  /** Every header reaches the handler under its HTTP_ key, the last one
      winning where two keys map to the same name, except that a non-empty
      Content-Length or Content-Type is moved by the promotion. */
  lemma {:induction false} HeadersExposed(defaultEnv: Env, hs: seq<(string, Value)>, stream: nat,
                                         input: string, bodyLen: string, parseStr: string -> Value, i: nat)
    requires i < |hs|
    requires forall j | i < j < |hs| :: HeaderKey(hs[j].0) != HeaderKey(hs[i].0)
    requires HeaderKey(hs[i].0) !in PromotedKeys
    ensures var d := CreateEnv(defaultEnv, Some(hs), stream, input, bodyLen, parseStr);
            d.Some? ==> Get(d.value, HeaderKey(hs[i].0)) == hs[i].1
  {
    var e := RequestEntries(defaultEnv, Some(hs), stream);
    var e1 := if Empty(Get(e, "QUERY_STRING")) then e else e["inject.get" := parseStr(ToStr(Get(e, "QUERY_STRING")))];
    AddHeadersLastWins(e1, hs, i);
    PromoteKeeps(HeaderEnv(defaultEnv, Some(hs), stream, parseStr), input, IntCast(bodyLen), parseStr, HeaderKey(hs[i].0));
  }

  // ------------------------------------------------------------ replies

  /** The message sendResponse() publishes: the handler UUID, the
      connection id as a netstring, a ',' and a space, then the payload. */
  function Frame(uuid: string, connId: string, payload: string): string {
    uuid + " " + (NatToDec(|connId|) + ":" + (connId + (", " + payload)))
  }

  /** How Mongrel2 takes a reply apart: the UUID up to the first space,
      the length of the connection id up to ':', that many bytes, ", ",
      and the payload. */
  function ReadFrame(s: string): (r: Option<(string, string, string)>)
    ensures r.Some? ==> ' ' !in r.value.0
  {
    match IndexOf(s, ' ')
    case None => None
    case Some(i) =>
      var t := s[i + 1..];
      match IndexOf(t, ':')
      case None => None
      case Some(j) =>
        var digits := t[..j];
        if digits == [] || !AllDigits(digits) || digits != NatToDec(DigitsValue(digits)) then None
        else
          var n := DigitsValue(digits);
          var u := t[j + 1..];
          if |u| < n + 2 || u[n..n + 2] != ", " then None
          else
            Some((s[..i], u[..n], u[n + 2..]))
  }

  /** Whatever is read as a reply is exactly the reply made of what was
      read. */
  lemma {:induction false} ReadFrameSound(s: string)
    requires ReadFrame(s).Some?
    ensures var (uuid, connId, payload) := ReadFrame(s).value;
            Frame(uuid, connId, payload) == s
  {
    var i := IndexOf(s, ' ').value;
    var t := s[i + 1..];
    var j := IndexOf(t, ':').value;
    var digits := t[..j];
    var n := DigitsValue(digits);
    var u := t[j + 1..];
    assert ReadFrame(s).value == (s[..i], u[..n], u[n + 2..]);
    SplitAround(s, i, ' ');
    SplitAround(t, j, ':');
    PayloadSplit(u, n);
  }

  lemma {:induction false} SplitAround(s: string, i: nat, c: char)
    requires i < |s| && s[i] == c
    ensures s == s[..i] + [c] + s[i + 1..]
  {
  }

  lemma {:induction false} PayloadSplit(u: string, n: nat)
    requires n + 2 <= |u| && u[n..n + 2] == ", "
    ensures |u[..n]| == n && u == u[..n] + (", " + u[n + 2..])
  {
    assert u == u[..n] + u[n..n + 2] + u[n + 2..];
  }

  /** Every reply published is read back as the UUID, connection id and
      payload it was made of. */
  lemma {:induction false} FrameReadsBack(uuid: string, connId: string, payload: string)
    requires ' ' !in uuid
    ensures ReadFrame(Frame(uuid, connId, payload)) == Some((uuid, connId, payload))
  {
    var d := NatToDec(|connId|);
    var u := connId + (", " + payload);
    var t := d + ":" + u;
    CutAt(uuid, ' ', t);
    DecimalFree(d, ':');
    CutAt(d, ':', u);
    DigitsValueOfDec(|connId|);
    ConnIdPart(connId, payload);
  }

  /** A string cut at the first occurrence of a character it is built
      around. */
  lemma {:induction false} CutAt(a: string, c: char, b: string)
    requires c !in a
    ensures IndexOf(a + [c] + b, c) == Some(|a|)
    ensures (a + [c] + b)[..|a|] == a && (a + [c] + b)[|a| + 1..] == b
  {
    var s := a + [c] + b;
    assert s[..|a|] == a;
    IndexOfAt(s, c, |a|);
  }

  lemma {:induction false} ConnIdPart(connId: string, payload: string)
    ensures var u := connId + (", " + payload);
            |connId| + 2 <= |u| && u[..|connId|] == connId && u[|connId|..|connId| + 2] == ", "
            && u[|connId| + 2..] == payload
  {
  }

  /** The payloads httpResponse() publishes for a response: the head with
      a string body in one message; for a stream the head alone, then the
      stream read by read, chunked or raw, as the socket adapter writes it. */
  function Payloads(resp: Response): (r: seq<string>)
    ensures |r| > 0
  {
    var (h, chunked) := HttpSocket.Framing(resp.headers, resp.body);
    match resp.body
    case Text(s) => [HttpSocket.Head(resp.status, h) + s]
    case Stream(_) => [HttpSocket.Head(resp.status, h)] + HttpSocket.BodyWrites(resp.body, chunked)
  }

  /** Put together, the payloads are the bytes the socket adapter writes
      for the same response: the client sees the same reply whichever
      adapter serves it. */
  lemma {:induction false} PayloadsMatchSocket(resp: Response)
    ensures HttpSocket.Concat(Payloads(resp)) == HttpSocket.Concat(HttpSocket.ResponseWrites(resp))
  {
    var (h, chunked) := HttpSocket.Framing(resp.headers, resp.body);
    var head := HttpSocket.Head(resp.status, h);
    match resp.body {
      case Text(s) =>
        assert HttpSocket.ResponseWrites(resp) == [head, s];
        assert HttpSocket.Concat([head, s]) == head + HttpSocket.Concat([s]);
      case Stream(_) =>
        var w := HttpSocket.BodyWrites(resp.body, chunked);
        assert HttpSocket.ResponseWrites(resp) == [head] + w;
        assert Payloads(resp) == [head] + w;
    }
  }

  /** The messages sendResponse() publishes for the payloads of one reply. */
  function Frames(uuid: string, connId: string, payloads: seq<string>): (r: seq<string>)
    ensures |r| == |payloads|
    ensures forall i | 0 <= i < |payloads| :: r[i] == Frame(uuid, connId, payloads[i])
  {
    seq(|payloads|, i requires 0 <= i < |payloads| => Frame(uuid, connId, payloads[i]))
  }

  /** The messages httpResponse() publishes are the frames of the
      response's payloads. */
  lemma {:induction false} SentPayloads(before: seq<string>, uuid: string, connId: string, resp: Response,
                                        framing: (Headers, bool))
    requires framing == HttpSocket.Framing(resp.headers, resp.body)
    ensures var head := HttpSocket.Head(resp.status, framing.0);
            resp.body.Text? ==> before + [Frame(uuid, connId, head + resp.body.s)] == before + Frames(uuid, connId, Payloads(resp))
    ensures var head := HttpSocket.Head(resp.status, framing.0);
            resp.body.Stream? ==>
              before + [Frame(uuid, connId, head)] + Frames(uuid, connId, HttpSocket.BodyWrites(resp.body, framing.1))
              == before + Frames(uuid, connId, Payloads(resp))
  {
    var head := HttpSocket.Head(resp.status, framing.0);
    if resp.body.Text? {
      FramesOne(uuid, connId, head + resp.body.s);
    } else {
      FramesOne(uuid, connId, head);
      FramesAppend(uuid, connId, [head], HttpSocket.BodyWrites(resp.body, framing.1));
    }
  }

  lemma {:induction false} FramesOne(uuid: string, connId: string, p: string)
    ensures Frames(uuid, connId, [p]) == [Frame(uuid, connId, p)]
  {
  }

  /** The writes of a stream before the last chunk. */
  function StreamWrites(pieces: seq<string>, chunked: bool): (r: seq<string>)
    ensures HttpSocket.BodyWrites(Stream(pieces), chunked) == r + (if chunked then [HttpSocket.LastChunk] else [])
  {
    if chunked then HttpSocket.ChunkWrites(pieces) else pieces
  }

  /** One more read adds its chunk (none for an empty read when chunked). */
  lemma {:induction false} StreamWritesStep(pieces: seq<string>, i: nat, chunked: bool)
    requires i < |pieces|
    ensures StreamWrites(pieces[..i + 1], chunked) ==
              StreamWrites(pieces[..i], chunked)
              + (if chunked && pieces[i] == [] then [] else [if chunked then HttpSocket.Chunk(pieces[i]) else pieces[i]])
  {
    assert pieces[..i + 1] == pieces[..i] + [pieces[i]];
    if chunked {
      HttpSocket.ChunkWritesSnoc(pieces[..i], pieces[i]);
    }
  }

  /** Publishing one more frame extends the frames of what was sent. */
  lemma {:induction false} FramesSnoc(start: seq<string>, sent: seq<string>, uuid: string, connId: string,
                                      done: seq<string>, payload: string)
    requires sent == start + Frames(uuid, connId, done)
    ensures sent + [Frame(uuid, connId, payload)] == start + Frames(uuid, connId, done + [payload])
  {
    FramesAppend(uuid, connId, done, [payload]);
  }

  lemma {:induction false} FramesAppend(uuid: string, connId: string, a: seq<string>, b: seq<string>)
    ensures Frames(uuid, connId, a + b) == Frames(uuid, connId, a) + Frames(uuid, connId, b)
  {
    assert |Frames(uuid, connId, a + b)| == |Frames(uuid, connId, a) + Frames(uuid, connId, b)|;
    forall i | 0 <= i < |a + b|
      ensures Frames(uuid, connId, a + b)[i] == (Frames(uuid, connId, a) + Frames(uuid, connId, b))[i]
    {
      if i < |a| {
        assert (a + b)[i] == a[i];
      } else {
        assert (a + b)[i] == b[i - |a|];
      }
    }
  }

  // ------------------------------------------------------------ the run loop

  /** A message as run() receives it: its bytes, the temporary stream it is
      copied into, and whether a shutdown signal arrives while it is
      handled. */
  datatype Message = Message(bytes: string, stream: nat, stopAfter: bool)

  /** The fields run() works with when parseRequest() returned false: every
      one of them null. */
  const NoEnvelope := Envelope("", "", "", None, "")

  /** A control message from Mongrel2 (method JSON, or the path "@*"): it is
      skipped without calling the handler. */
  predicate IsControl(e: Envelope) {
    Field(e.headers, "METHOD") == Str("JSON") || e.path == "@*"
  }

  /** The envelope of a message the handler is to see, None for a control
      message, with the env built for it (None when building it throws). */
  function MessageEnv(defaultEnv: Env, m: Message, json: Json, parseStr: string -> Value): Option<(Envelope, Option<Env>)> {
    var pr := ParseEnvelope(m.bytes, Intended, json);
    var e := pr.0.GetOr(NoEnvelope);
    if IsControl(e) then None
    else Some((e, CreateEnv(defaultEnv, e.headers, m.stream, pr.1, e.bodyLen, parseStr)))
  }

  /** One iteration of run(): the messages published and whether the
      env or the handler threw. */
  function Handle(defaultEnv: Env, m: Message, app: Env -> AppOutcome, json: Json, parseStr: string -> Value): (r: (seq<string>, bool))
    ensures MessageEnv(defaultEnv, m, json, parseStr).None? ==> r == ([], false)
    ensures r.1 ==> r.0 == []
  {
    match MessageEnv(defaultEnv, m, json, parseStr)
    case None => ([], false)
    case Some((_, None)) => ([], true)
    case Some((e, Some(env))) =>
      match app(env)
      case Raised => ([], true)
      case Returned(None) => ([], false)
      case Returned(Some(resp)) => (Frames(e.uuid, e.connId, Payloads(resp)), false)
  }

  /** A message that reaches the handler: its outcome decides. */
  lemma {:induction false} HandleOf(defaultEnv: Env, m: Message, app: Env -> AppOutcome, json: Json, parseStr: string -> Value,
                                    e: Envelope, env: Env)
    requires MessageEnv(defaultEnv, m, json, parseStr) == Some((e, Some(env)))
    ensures var o := app(env);
            Handle(defaultEnv, m, app, json, parseStr) ==
              if o.Raised? then ([], true)
              else if o.reply.None? then ([], false)
              else (Frames(e.uuid, e.connId, Payloads(o.reply.value)), false)
  {
  }

  /** A control message reaches no handler: whatever the handler would do,
      nothing is published and nothing is thrown. */
  lemma {:induction false} ControlMessageIgnoresApp(defaultEnv: Env, m: Message, app: Env -> AppOutcome, json: Json,
                                                    parseStr: string -> Value)
    requires IsControl(ParseEnvelope(m.bytes, Intended, json).0.GetOr(NoEnvelope))
    ensures Handle(defaultEnv, m, app, json, parseStr) == ([], false)
  {
    assert MessageEnv(defaultEnv, m, json, parseStr).None?;
  }

  /** A well-formed request is answered on its own UUID and connection id,
      each published message carrying one payload of the response, in
      order. */
  lemma {:induction false} RequestAnswered(defaultEnv: Env, m: Message, app: Env -> AppOutcome, json: Json,
                                           parseStr: string -> Value, uuid: string, connId: string, path: string,
                                           header: string, body: string)
    requires FitsField(uuid, 255, ' ') && FitsField(connId, 255, ' ') && FitsField(path, 1024, ' ')
    requires |NatToDec(|header|)| < 255 && |NatToDec(|body|)| < 255 && |header| <= PhpIntMax
    requires m.bytes == Encode(uuid, connId, path, header, body)
    requires Field(json(header), "METHOD") != Str("JSON") && path != "@*"
    ensures var d := CreateEnv(defaultEnv, json(header), m.stream, body + ",", NatToDec(|body|), parseStr);
            d.None? ==> Handle(defaultEnv, m, app, json, parseStr) == ([], true)
    ensures var d := CreateEnv(defaultEnv, json(header), m.stream, body + ",", NatToDec(|body|), parseStr);
            d.Some? ==>
            var env := d.value;
            var r := Handle(defaultEnv, m, app, json, parseStr);
            (app(env).Returned? && app(env).reply.Some? ==>
               r == (Frames(uuid, connId, Payloads(app(env).reply.value)), false)
               && forall i | 0 <= i < |r.0| :: ReadFrame(r.0[i]) == Some((uuid, connId, Payloads(app(env).reply.value)[i])))
            && (app(env).Returned? && app(env).reply.None? ==> r == ([], false))
            && (app(env).Raised? ==> r == ([], true))
  {
    EnvelopeRoundTrip(uuid, connId, path, header, body, Intended, json);
    var e := Envelope(uuid, connId, path, json(header), NatToDec(|body|));
    var d := CreateEnv(defaultEnv, json(header), m.stream, body + ",", NatToDec(|body|), parseStr);
    MessageEnvOf(defaultEnv, m, json, parseStr, e, body + ",");
    if d.Some? && app(d.value).Returned? && app(d.value).reply.Some? {
      FramesReadBack(uuid, connId, Payloads(app(d.value).reply.value));
    }
  }

  /** A message that parses to a request envelope reaches the handler with
      the env built from it. */
  lemma {:induction false} MessageEnvOf(defaultEnv: Env, m: Message, json: Json, parseStr: string -> Value,
                                        e: Envelope, rest: string)
    requires ParseEnvelope(m.bytes, Intended, json) == (Some(e), rest) && !IsControl(e)
    ensures MessageEnv(defaultEnv, m, json, parseStr) == Some((e, CreateEnv(defaultEnv, e.headers, m.stream, rest, e.bodyLen, parseStr)))
  {
  }

  lemma {:induction false} FramesReadBack(uuid: string, connId: string, ps: seq<string>)
    requires ' ' !in uuid
    ensures forall i | 0 <= i < |ps| :: ReadFrame(Frames(uuid, connId, ps)[i]) == Some((uuid, connId, ps[i]))
  {
    forall i | 0 <= i < |ps| ensures ReadFrame(Frames(uuid, connId, ps)[i]) == Some((uuid, connId, ps[i])) {
      FrameReadsBack(uuid, connId, ps[i]);
    }
  }

  /** What run() publishes for the messages it receives, one iteration
      each: it stops after a handler throws or a shutdown signal. */
  function RunFrames(defaultEnv: Env, msgs: seq<Message>, app: Env -> AppOutcome, json: Json, parseStr: string -> Value): seq<string>
    decreases |msgs|
  {
    if msgs == [] then []
    else
      var (frames, raised) := Handle(defaultEnv, msgs[0], app, json, parseStr);
      if raised || msgs[0].stopAfter then frames
      else frames + RunFrames(defaultEnv, msgs[1..], app, json, parseStr)
  }

  /** Whether run() ends by passing on a handler's exception. */
  function RunRaises(defaultEnv: Env, msgs: seq<Message>, app: Env -> AppOutcome, json: Json, parseStr: string -> Value): bool
    decreases |msgs|
  {
    if msgs == [] then false
    else if Handle(defaultEnv, msgs[0], app, json, parseStr).1 then true
    else if msgs[0].stopAfter then false
    else RunRaises(defaultEnv, msgs[1..], app, json, parseStr)
  }

  lemma {:induction false} RunStep(defaultEnv: Env, msgs: seq<Message>, app: Env -> AppOutcome, json: Json,
                                   parseStr: string -> Value, i: nat)
    requires i < |msgs|
    ensures var (frames, raised) := Handle(defaultEnv, msgs[i], app, json, parseStr);
            RunFrames(defaultEnv, msgs[i..], app, json, parseStr) ==
              (if raised || msgs[i].stopAfter then frames else frames + RunFrames(defaultEnv, msgs[i + 1..], app, json, parseStr))
            && RunRaises(defaultEnv, msgs[i..], app, json, parseStr) ==
              (raised || (!msgs[i].stopAfter && RunRaises(defaultEnv, msgs[i + 1..], app, json, parseStr)))
  {
    assert msgs[i..][0] == msgs[i] && msgs[i..][1..] == msgs[i + 1..];
  }

  /** The adapter object: its handler UUID, the env template, the run
      flag, and the messages it has published on the PUB socket. */
  class Adapter {
    const uuid: string
    const defaultEnv: Env
    var doRun: bool
    var sent: seq<string>

    /** The constructor: the caller's default env entries override the
        built-in ones key by key. */
    constructor (uuid: string, adapterClass: string, defaultEnv: Env)
      ensures this.uuid == uuid && this.defaultEnv == BaseEnv(adapterClass) + defaultEnv
      ensures doRun && sent == []
    {
      this.uuid := uuid;
      this.defaultEnv := BaseEnv(adapterClass) + defaultEnv;
      doRun := true;
      sent := [];
    }

    /** shutdownGracefully(): run() stops after the current message. */
    method ShutdownGracefully()
      modifies this
      ensures !doRun && sent == old(sent)
    {
      doRun := false;
    }

    method SendResponse(uuid: string, connId: string, payload: string)
      modifies this
      ensures sent == old(sent) + [Frame(uuid, connId, payload)] && doRun == old(doRun)
    {
      sent := sent + [Frame(uuid, connId, payload)];
    }

    /** httpResponse(): the payloads of the response, each sent as one
        message. */
    method HttpResponse(uuid: string, connId: string, resp: Response)
      modifies this
      ensures sent == old(sent) + Frames(uuid, connId, Payloads(resp))
      ensures doRun == old(doRun)
    {
      var framing := HttpSocket.Framing(resp.headers, resp.body);
      var head := HttpSocket.Head(resp.status, framing.0);
      ghost var before := sent;
      match resp.body {
        case Text(s) =>
          SendResponse(uuid, connId, head + s);
        case Stream(pieces) =>
          SendResponse(uuid, connId, head);
          SendStream(uuid, connId, pieces, framing.1);
      }
      SentPayloads(before, uuid, connId, resp, framing);
    }

    /** The stream part of httpResponse(): each read as a chunk (none for
        an empty read) and then the last chunk, or each read as it is. */
    method SendStream(uuid: string, connId: string, pieces: seq<string>, chunked: bool)
      modifies this
      ensures sent == old(sent) + Frames(uuid, connId, HttpSocket.BodyWrites(Stream(pieces), chunked))
      ensures doRun == old(doRun)
    {
      ghost var done: seq<string> := [];
      var i := 0;
      while i < |pieces|
        invariant 0 <= i <= |pieces| && doRun == old(doRun)
        invariant done == StreamWrites(pieces[..i], chunked)
        invariant sent == old(sent) + Frames(uuid, connId, done)
      {
        var data := pieces[i];
        StreamWritesStep(pieces, i, chunked);
        if !chunked || data != [] {
          var payload := if chunked then HttpSocket.Chunk(data) else data;
          ghost var before := sent;
          SendResponse(uuid, connId, payload);
          FramesSnoc(old(sent), before, uuid, connId, done, payload);
          done := done + [payload];
        }
        i := i + 1;
      }
      assert pieces[..i] == pieces;
      if chunked {
        ghost var before := sent;
        SendResponse(uuid, connId, HttpSocket.LastChunk);
        FramesSnoc(old(sent), before, uuid, connId, done, HttpSocket.LastChunk);
      }
    }

    /** One iteration of run(): copy the message into a temporary stream,
        parse it, skip a control message, otherwise build the env, call the
        handler and publish its response when it is truthy. */
    method HandleMessage(m: Message, app: Env -> AppOutcome, json: Json, parseStr: string -> Value) returns (raised: bool)
      modifies this
      ensures sent == old(sent) + Handle(defaultEnv, m, app, json, parseStr).0
      ensures raised == Handle(defaultEnv, m, app, json, parseStr).1
      ensures doRun == old(doRun)
    {
      raised := false;
      ghost var r := Handle(defaultEnv, m, app, json, parseStr);
      var fp := new TempStream(m.bytes);
      var parsed := ParseRequest(fp, Intended, json);
      var e := parsed.GetOr(NoEnvelope);
      if Field(e.headers, "METHOD") == Str("JSON") || e.path == "@*" {
        assert MessageEnv(defaultEnv, m, json, parseStr).None?;
        return;
      }
      var d := CreateEnv(defaultEnv, e.headers, m.stream, fp.Rest(), e.bodyLen, parseStr);
      assert MessageEnv(defaultEnv, m, json, parseStr) == Some((e, d));
      if d.None? {
        raised := true;
        return;
      }
      var env := d.value;
      HandleOf(defaultEnv, m, app, json, parseStr, e, env);
      var outcome := app(env);
      match outcome {
        case Raised =>
          raised := true;
        case Returned(reply) =>
          if reply.Some? {
            HttpResponse(e.uuid, e.connId, reply.value);
          }
      }
    }

    /** run(): messages are handled one at a time until a handler throws
        or a shutdown signal arrives. */
    method Run(msgs: seq<Message>, app: Env -> AppOutcome, json: Json, parseStr: string -> Value) returns (raised: bool)
      modifies this
      ensures old(doRun) ==> sent == old(sent) + RunFrames(defaultEnv, msgs, app, json, parseStr)
      ensures old(doRun) ==> raised == RunRaises(defaultEnv, msgs, app, json, parseStr)
      ensures !old(doRun) ==> sent == old(sent) && !raised
    {
      raised := false;
      var i := 0;
      ghost var total := old(sent) + RunFrames(defaultEnv, msgs, app, json, parseStr);
      ghost var totalRaises := RunRaises(defaultEnv, msgs, app, json, parseStr);
      assert msgs[0..] == msgs;
      while doRun && i < |msgs| && !raised
        invariant 0 <= i <= |msgs|
        invariant !old(doRun) ==> !doRun && sent == old(sent) && !raised
        invariant old(doRun) && doRun && !raised ==>
                    total == sent + RunFrames(defaultEnv, msgs[i..], app, json, parseStr)
                    && totalRaises == RunRaises(defaultEnv, msgs[i..], app, json, parseStr)
        invariant old(doRun) && (!doRun || raised) ==> sent == total && raised == totalRaises
        decreases |msgs| - i
      {
        var m := msgs[i];
        RunStep(defaultEnv, msgs, app, json, parseStr, i);
        ghost var before := sent;
        ghost var frames := Handle(defaultEnv, m, app, json, parseStr).0;
        ghost var rest := RunFrames(defaultEnv, msgs[i + 1..], app, json, parseStr);
        raised := HandleMessage(m, app, json, parseStr);
        if !raised && !m.stopAfter {
          assert total == before + (frames + rest);
          HttpSocket.AppendAssoc(before, frames, rest);
        }
        if m.stopAfter {
          ShutdownGracefully();
        }
        i := i + 1;
      }
    }
  }
}

=== FILE: mongrel2_legacy.dfy ===
/*
 * InjectStack\Adapter\Mongrel2: the first Mongrel2 adapter. Unlike its
 * successor it takes a request message apart with explode() and substr()
 * on the string received, builds a fixed env from it, and answers every
 * request with one reply whose body is a string:
 *
 *     request  UUID CONN_ID PATH HEADLEN:HEADER,BODYLEN:BODY,
 *     reply    UUID LEN:CONN_ID, HTTP/1.1 ...
 *
 * The message layout and the reply frame are the ones the Mongrel2 module
 * states; json_decode() and parse_str() are parameters.
 */
module Mongrel2Legacy {
  import opened Php
  import opened Gateway
  import HttpSocket
  import Mongrel2
  import Util

  /** What parseRequest() returns when it does not return false. */
  datatype Request = Request(uuid: string, connId: string, path: string,
                             headers: Option<seq<(string, Value)>>, body: string)

  /** list() reading entry `i` of explode()'s result: a missing entry is
      null, which every later use (substr, sprintf, strlen) treats as "". */
  function Piece(ps: seq<string>, i: nat): string {
    if i < |ps| then ps[i] else ""
  }

  /** `! $msg[0] == ','` parses as `(! $msg[0]) == ','`: it holds, and the
      message is refused, exactly when the first byte is falsy, that is
      '0' or missing. */
  predicate FalsyFirst(m: string) {
    m == [] || m[0] == '0'
  }

  /** `list($len, $msg) = explode(':', $msg, 2)` followed by the two
      substr() calls: the first (int)$len bytes after the ':', and what
      follows them. */
  function SplitLength(m: string): (string, string) {
    var ps := ExplodeLimit(m, ":", 2);
    var len := IntCast(ps[0]);
    (Substr(Piece(ps, 1), 0, Some(len)), Substr(Piece(ps, 1), len, None))
  }

  /** The checks of parseRequest() as written on what follows the header:
      the ',' is checked but not consumed, so the body length is read from
      ",<digits>", which casts to 0, and the body always comes back
      empty. */
  function BodyAsWritten(m: string): Option<string> {
    if FalsyFirst(m) then None
    else
      var sp := SplitLength(m);
      if FalsyFirst(sp.1) then None else Some(sp.0)
  }

  /** The same checks as intended: each ',' must be there and the one
      after the header is consumed before the body length is read. */
  function Body(m: string): Option<string> {
    if m == [] || m[0] != ',' then None
    else
      var (body, m') := SplitLength(m[1..]);
      if m' == [] || m'[0] != ',' then None else Some(body)
  }

  /** The header, then the body, from what follows the third space. */
  function HeaderBodyAsWritten(s: string): Option<(string, string)> {
    var sp := SplitLength(s);
    match BodyAsWritten(sp.1)
    case None => None
    case Some(body) => Some((sp.0, body))
  }

  function HeaderBody(s: string): Option<(string, string)> {
    var sp := SplitLength(s);
    match Body(sp.1)
    case None => None
    case Some(body) => Some((sp.0, body))
  }

  /** parseRequest() as written. */
  function ParseAsWritten(msg: string, json: Mongrel2.Json): Option<Request> {
    var ps := ExplodeLimit(msg, " ", 4);
    match HeaderBodyAsWritten(Piece(ps, 3))
    case None => None
    case Some((header, body)) => Some(Request(Piece(ps, 0), Piece(ps, 1), Piece(ps, 2), json(header), body))
  }

  /** parseRequest() as intended. */
  function Parse(msg: string, json: Mongrel2.Json): (r: Option<Request>)
    ensures r.Some? ==> ' ' !in r.value.uuid
  {
    var ps := ExplodeLimit(msg, " ", 4);
    ExplodeLimitFirstFree(msg, ' ', 4);
    match HeaderBody(Piece(ps, 3))
    case None => None
    case Some((header, body)) => Some(Request(Piece(ps, 0), Piece(ps, 1), Piece(ps, 2), json(header), body))
  }

  /** The three space-separated fields and the rest come apart. */
  lemma {:induction false} FieldsSplit(uuid: string, connId: string, path: string, rest: string)
    requires ' ' !in uuid && ' ' !in connId && ' ' !in path
    ensures ExplodeLimit(uuid + " " + (connId + " " + (path + " " + rest)), " ", 4) == [uuid, connId, path, rest]
  {
    var s2 := path + " " + rest;
    var s1 := connId + " " + s2;
    assert ExplodeLimit(s2, " ", 2) == [path, rest] by {
      ExplodeLimitToken(path, ' ', rest, 2);
    }
    assert ExplodeLimit(s1, " ", 3) == [connId, path, rest] by {
      ExplodeLimitToken(connId, ' ', s2, 3);
    }
    ExplodeLimitToken(uuid, ' ', s1, 4);
  }

  /** A length, its ':' and that many bytes come apart. */
  lemma {:induction false} LengthSplit(data: string, after: string)
    requires |data| <= PhpIntMax
    ensures SplitLength(NatToDec(|data|) + ":" + (data + after)) == (data, after)
  {
    var d := NatToDec(|data|);
    assert ExplodeLimit(d + ":" + (data + after), ":", 2) == [d, data + after] by {
      Mongrel2.DecimalFree(d, ':');
      ExplodeLimitToken(d, ':', data + after, 2);
    }
    assert IntCast(d) == |data| by {
      DigitsValueOfDec(|data|);
      IntCastOfDigits(d);
    }
    assert Substr(data + after, 0, Some(|data|)) == data && Substr(data + after, |data|, None) == after by {
      SubstrPrefixSuffix(data + after, |data|);
      assert (data + after)[..|data|] == data && (data + after)[|data|..] == after;
    }
  }

  /** Read from the ',' on, the body length casts to 0: nothing is taken
      and the rest is left whole. */
  lemma {:induction false} LengthSplitFromComma(bl: string, rest: string)
    requires AllDigits(bl)
    ensures SplitLength("," + bl + ":" + rest) == ("", rest)
  {
    var m := "," + bl + ":" + rest;
    assert ExplodeLimit(m, ":", 2) == ["," + bl, rest] by {
      Mongrel2.DecimalFree(bl, ':');
      assert ':' !in "," + bl;
      ExplodeLimitToken("," + bl, ':', rest, 2);
    }
    assert IntCast("," + bl) == 0 by {
      IntCastNonNumeric("," + bl);
    }
    assert Substr(rest, 0, Some(0)) == "" && Substr(rest, 0, None) == rest by {
      SubstrPrefixSuffix(rest, 0);
    }
  }

  /** A header and a body framed as Mongrel2 frames them are read back. */
  lemma {:induction false} HeaderBodyRoundTrip(header: string, body: string)
    requires |header| <= PhpIntMax && |body| <= PhpIntMax
    ensures HeaderBody(NatToDec(|header|) + ":" + (header + ("," + (NatToDec(|body|) + ":" + (body + ",")))))
            == Some((header, body))
  {
    var s6 := NatToDec(|body|) + ":" + (body + ",");
    assert SplitLength(NatToDec(|header|) + ":" + (header + ("," + s6))) == (header, "," + s6) by {
      LengthSplit(header, "," + s6);
    }
    assert Body("," + s6) == Some(body) by {
      BodyRoundTrip(body);
    }
  }

  lemma {:induction false} BodyRoundTrip(body: string)
    requires |body| <= PhpIntMax
    ensures Body("," + (NatToDec(|body|) + ":" + (body + ","))) == Some(body)
  {
    var s6 := NatToDec(|body|) + ":" + (body + ",");
    assert ("," + s6)[1..] == s6;
    LengthSplit(body, ",");
  }

  /** As written, the part after the header yields an empty body, or
      nothing when the body starts with '0'. */
  lemma {:induction false} BodyAsWrittenFromComma(bl: string, body: string)
    requires AllDigits(bl)
    ensures BodyAsWritten("," + bl + ":" + (body + ",")) == if body != [] && body[0] == '0' then None else Some("")
  {
    var m := "," + bl + ":" + (body + ",");
    assert !FalsyFirst(m);
    LengthSplitFromComma(bl, body + ",");
    assert (body + ",")[0] == if body == [] then ',' else body[0];
  }

  /** As written, the same text yields the header and an empty body, or
      nothing when the body starts with '0'. */
  lemma {:induction false} HeaderBodyAsWrittenLosesBody(header: string, body: string)
    requires |header| <= PhpIntMax
    ensures HeaderBodyAsWritten(NatToDec(|header|) + ":" + (header + ("," + (NatToDec(|body|) + ":" + (body + ",")))))
            == if body != [] && body[0] == '0' then None else Some((header, ""))
  {
    var bl := NatToDec(|body|);
    var s6 := bl + ":" + (body + ",");
    LengthSplit(header, "," + s6);
    CommaRegroup(bl, body);
    BodyAsWrittenFromComma(bl, body);
  }

  lemma {:induction false} CommaRegroup(bl: string, body: string)
    ensures "," + (bl + ":" + (body + ",")) == "," + bl + ":" + (body + ",")
  {
  }

  /** A well-formed message is read back whole. */
  lemma {:induction false} ParseRoundTrip(uuid: string, connId: string, path: string, header: string, body: string,
                                          json: Mongrel2.Json)
    requires ' ' !in uuid && ' ' !in connId && ' ' !in path
    requires |header| <= PhpIntMax && |body| <= PhpIntMax
    ensures Parse(Mongrel2.Encode(uuid, connId, path, header, body), json) == Some(Request(uuid, connId, path, json(header), body))
  {
    var s3 := NatToDec(|header|) + ":" + (header + ("," + (NatToDec(|body|) + ":" + (body + ","))));
    FieldsSplit(uuid, connId, path, s3);
    HeaderBodyRoundTrip(header, body);
  }

  /** As written, the body of a well-formed message is lost: it comes back
      empty, or the message is refused when the body starts with '0'. */
  lemma {:induction false} ParseAsWrittenLosesBody(uuid: string, connId: string, path: string, header: string,
                                                   body: string, json: Mongrel2.Json)
    requires ' ' !in uuid && ' ' !in connId && ' ' !in path && |header| <= PhpIntMax
    ensures ParseAsWritten(Mongrel2.Encode(uuid, connId, path, header, body), json)
            == if body != [] && body[0] == '0' then None else Some(Request(uuid, connId, path, json(header), ""))
  {
    var s3 := NatToDec(|header|) + ":" + (header + ("," + (NatToDec(|body|) + ":" + (body + ","))));
    FieldsSplit(uuid, connId, path, s3);
    HeaderBodyAsWrittenLosesBody(header, body);
  }

  /** One that the intended parser reads back correctly and the written
      one empties: the body "x". */
  lemma {:induction false} BodyLostExample(json: Mongrel2.Json)
    ensures Parse(Mongrel2.Encode("u", "1", "/", "{}", "x"), json) == Some(Request("u", "1", "/", json("{}"), "x"))
    ensures ParseAsWritten(Mongrel2.Encode("u", "1", "/", "{}", "x"), json) == Some(Request("u", "1", "/", json("{}"), ""))
  {
    ParseRoundTrip("u", "1", "/", "{}", "x", json);
    ParseAsWrittenLosesBody("u", "1", "/", "{}", "x", json);
  }

  // ------------------------------------------------------------ the env

  /** createEnv(): fixed server values, the request's method, URI, path and
      query from the header object unchanged, the body as input, the query
      and the body both run through parse_str(), then every header under
      its HTTP_ key. Nothing is promoted. */
  function CreateEnv(headers: Option<seq<(string, Value)>>, body: string, version: string, adapterClass: string,
                     parseStr: string -> Value): Env {
    var e := FixedEntries(headers, body, version, adapterClass, parseStr);
    if headers.None? then e else Mongrel2.AddHeaders(e, headers.value)
  }

  function QueryString(headers: Option<seq<(string, Value)>>): (r: Value)
    ensures Empty(Mongrel2.Field(headers, "QUERY")) <==> r == Str("")
  {
    var q := Mongrel2.Field(headers, "QUERY");
    if Empty(q) then Str("") else q
  }

  /** The entries set before the headers are copied. */
  function FixedEntries(headers: Option<seq<(string, Value)>>, body: string, version: string, adapterClass: string,
                        parseStr: string -> Value): (r: Env)
    ensures "REQUEST_METHOD" in r && r["REQUEST_METHOD"] == Mongrel2.Field(headers, "METHOD")
    ensures "PATH_INFO" in r && r["PATH_INFO"] == Mongrel2.Field(headers, "PATH")
    ensures "SCRIPT_NAME" in r && r["SCRIPT_NAME"] == Str("")
    ensures "QUERY_STRING" in r && r["QUERY_STRING"] == QueryString(headers)
    ensures "inject.input" in r && r["inject.input"] == Str(body)
    ensures "inject.get" in r && r["inject.get"] == parseStr(ToStr(QueryString(headers)))
    ensures "inject.post" in r && r["inject.post"] == parseStr(body)
  {
    var qs := QueryString(headers);
    Server(version, adapterClass)
      ["REQUEST_METHOD" := Mongrel2.Field(headers, "METHOD")]
      ["REQUEST_URI" := Mongrel2.Field(headers, "URI")]
      ["PATH_INFO" := Mongrel2.Field(headers, "PATH")]
      ["QUERY_STRING" := qs]
      ["inject.input" := Str(body)]
      ["inject.get" := parseStr(ToStr(qs))]
      ["inject.post" := parseStr(body)]
  }

  /** The values createEnv() fixes whatever the request. */
  function Server(version: string, adapterClass: string): Env {
    map[
      "SCRIPT_NAME" := Str(""),
      "SERVER_NAME" := Str("localhost"),
      "SERVER_PORT" := Int(80),
      "BASE_URI" := Str(""),
      "inject.version" := Str(version),
      "inject.adapter" := Str(adapterClass),
      "inject.url_scheme" := Str("http"),
      "inject.cookies" := Arr(map[]),
      "inject.files" := Arr(map[])
    ]
  }

  /** No header reaches a key createEnv() sets itself: those do not start
      with 'H'. */
  lemma {:induction false} CreateEnvKeeps(headers: Option<seq<(string, Value)>>, body: string, version: string,
                                         adapterClass: string, parseStr: string -> Value, k: string)
    requires k != [] && k[0] != 'H'
    ensures Get(CreateEnv(headers, body, version, adapterClass, parseStr), k)
            == Get(FixedEntries(headers, body, version, adapterClass, parseStr), k)
  {
    if headers.Some? {
      forall j | 0 <= j < |headers.value| ensures HeaderKey(headers.value[j].0) != k {
        Mongrel2.HeaderKeyNotPlain(headers.value[j].0, k);
      }
      Mongrel2.AddHeadersKeeps(FixedEntries(headers, body, version, adapterClass, parseStr), headers.value, k);
    }
  }

  /** The handler sees the method and path exactly as Mongrel2 sent them,
      an empty SCRIPT_NAME, the body as input and parsed as a form, and no
      header can overwrite these. */
  lemma {:induction false} CreateEnvContents(headers: Option<seq<(string, Value)>>, body: string, version: string,
                                            adapterClass: string, parseStr: string -> Value)
    ensures var r := CreateEnv(headers, body, version, adapterClass, parseStr);
            Get(r, "REQUEST_METHOD") == Mongrel2.Field(headers, "METHOD")
            && Get(r, "PATH_INFO") == Mongrel2.Field(headers, "PATH")
            && Get(r, "SCRIPT_NAME") == Str("")
            && Get(r, "inject.input") == Str(body)
            && Get(r, "inject.post") == parseStr(body)
  {
    var r := CreateEnv(headers, body, version, adapterClass, parseStr);
    assert Get(r, "REQUEST_METHOD") == Mongrel2.Field(headers, "METHOD") by {
      assert "REQUEST_METHOD"[0] != 'H';
      CreateEnvKeeps(headers, body, version, adapterClass, parseStr, "REQUEST_METHOD");
    }
    assert Get(r, "PATH_INFO") == Mongrel2.Field(headers, "PATH") by {
      assert "PATH_INFO"[0] != 'H';
      CreateEnvKeeps(headers, body, version, adapterClass, parseStr, "PATH_INFO");
    }
    assert Get(r, "SCRIPT_NAME") == Str("") by {
      assert "SCRIPT_NAME"[0] != 'H';
      CreateEnvKeeps(headers, body, version, adapterClass, parseStr, "SCRIPT_NAME");
    }
    assert Get(r, "inject.input") == Str(body) by {
      assert "inject.input"[0] != 'H';
      CreateEnvKeeps(headers, body, version, adapterClass, parseStr, "inject.input");
    }
    assert Get(r, "inject.post") == parseStr(body) by {
      assert "inject.post"[0] != 'H';
      CreateEnvKeeps(headers, body, version, adapterClass, parseStr, "inject.post");
    }
  }

  /** Every header reaches the handler under its HTTP_ key, the last one
      winning; Content-Length and Content-Type included, since this adapter
      promotes nothing. */
  lemma {:induction false} HeadersExposed(hs: seq<(string, Value)>, body: string, version: string, adapterClass: string,
                                         parseStr: string -> Value, i: nat)
    requires i < |hs|
    requires forall j | i < j < |hs| :: HeaderKey(hs[j].0) != HeaderKey(hs[i].0)
    ensures Get(CreateEnv(Some(hs), body, version, adapterClass, parseStr), HeaderKey(hs[i].0)) == hs[i].1
  {
    Mongrel2.AddHeadersLastWins(FixedEntries(Some(hs), body, version, adapterClass, parseStr), hs, i);
  }

  // ------------------------------------------------------------ the reply

  /** The array a handler returns to this adapter: a status, headers and a
      string body. */
  datatype Triple = Triple(status: int, headers: Headers, content: string)

  /** The headers with Content-Type text/html added unless one is set. */
  function WithContentType(h: Headers): Headers {
    if Lookup(h, "Content-Type").Some? then h else Put(h, "Content-Type", "text/html")
  }

  /** The headers httpResponse() sends: Content-Type text/html unless one
      is set, and Content-Length always replaced by the body's length. */
  function ReplyHeaders(t: Triple): (h: Headers)
    ensures Lookup(h, "Content-Length") == Some(NatToDec(|t.content|))
    ensures Lookup(h, "Content-Type") == Some(Lookup(t.headers, "Content-Type").GetOr("text/html"))
    ensures forall k | k != "Content-Length" && k != "Content-Type" :: Lookup(h, k) == Lookup(t.headers, k)
  {
    var h1 := WithContentType(t.headers);
    var h2 := Put(h1, "Content-Length", NatToDec(|t.content|));
    LookupPut(h1, "Content-Length", NatToDec(|t.content|), "Content-Length");
    LookupPut(h1, "Content-Length", NatToDec(|t.content|), "Content-Type");
    LookupPut(t.headers, "Content-Type", "text/html", "Content-Type");
    forall k | k != "Content-Length" && k != "Content-Type" ensures Lookup(h2, k) == Lookup(t.headers, k) {
      LookupPut(h1, "Content-Length", NatToDec(|t.content|), k);
      LookupPut(t.headers, "Content-Type", "text/html", k);
    }
    h2
  }

  /** httpResponse(): the status line, a line per header, a blank line and
      the body. */
  function HttpResponse(t: Triple): string {
    HttpSocket.Head(t.status, ReplyHeaders(t)) + t.content
  }

  /** The headers added keep every header on one line. */
  lemma {:induction false} ReplyHeadersSafe(t: Triple)
    requires HttpSocket.SafeHeaders(t.headers)
    ensures HttpSocket.SafeHeaders(ReplyHeaders(t))
  {
    var h1 := WithContentType(t.headers);
    assert HttpSocket.SafeHeaders(h1) by {
      if Lookup(t.headers, "Content-Type").None? {
        assert HttpSocket.LineFree("Content-Type") && HttpSocket.LineFree("text/html");
        HttpSocket.SafePut(t.headers, "Content-Type", "text/html");
      }
    }
    HttpSocket.DecimalLineFree(|t.content|);
    assert HttpSocket.LineFree("Content-Length");
    HttpSocket.SafePut(h1, "Content-Length", NatToDec(|t.content|));
  }

  /** A client reading the reply gets the status line, the header lines,
      and after them exactly the body, whose length Content-Length gives. */
  lemma {:induction false} HttpResponseReadsBack(t: Triple)
    requires Util.ReasonPhrase(Util.StatusPhrase(t.status))
    requires HttpSocket.SafeHeaders(t.headers)
    ensures HttpSocket.ReadHead(HttpResponse(t))
            == Some(([HttpSocket.StatusLine(t.status)] + HttpSocket.HeaderLines(ReplyHeaders(t)), t.content))
  {
    ReplyHeadersSafe(t);
    HttpSocket.HeadReadsBack(t.status, ReplyHeaders(t), t.content);
  }

  // ------------------------------------------------------------ the listen loop

  /** What one iteration of listen() publishes: the reply to the message,
      on the UUID and connection id it came with (empty when the message
      did not parse, as list() then assigns null). */
  function Answer(msg: string, app: Env -> Triple, json: Mongrel2.Json, version: string, adapterClass: string,
                  parseStr: string -> Value): string {
    var q := Parse(msg, json).GetOr(Request("", "", "", None, ""));
    Mongrel2.Frame(q.uuid, q.connId, HttpResponse(app(CreateEnv(q.headers, q.body, version, adapterClass, parseStr))))
  }

  /** The adapter object and the replies it has published. */
  class Adapter {
    const uuid: string
    const version: string
    const adapterClass: string
    var sent: seq<string>

    constructor (uuid: string, version: string, adapterClass: string)
      ensures this.uuid == uuid && this.version == version && this.adapterClass == adapterClass
      ensures sent == []
    {
      this.uuid := uuid;
      this.version := version;
      this.adapterClass := adapterClass;
      sent := [];
    }

    method SendResponse(uuid: string, connId: string, payload: string)
      modifies this
      ensures sent == old(sent) + [Mongrel2.Frame(uuid, connId, payload)]
    {
      sent := sent + [Mongrel2.Frame(uuid, connId, payload)];
    }

    /** listen() over the messages received: each is parsed, turned into an
        env, handed to the handler, and answered with one reply. */
    method Listen(msgs: seq<string>, app: Env -> Triple, json: Mongrel2.Json, parseStr: string -> Value)
      modifies this
      ensures sent == old(sent) + Answers(msgs, m => Answer(m, app, json, version, adapterClass, parseStr))
    {
      ghost var answer := m => Answer(m, app, json, version, adapterClass, parseStr);
      var i := 0;
      while i < |msgs|
        invariant 0 <= i <= |msgs|
        invariant sent == old(sent) + Answers(msgs[..i], answer)
      {
        var parsed := Parse(msgs[i], json);
        var q := parsed.GetOr(Request("", "", "", None, ""));
        var env := CreateEnv(q.headers, q.body, version, adapterClass, parseStr);
        ghost var before := sent;
        SendResponse(q.uuid, q.connId, HttpResponse(app(env)));
        assert answer(msgs[i]) == Mongrel2.Frame(q.uuid, q.connId, HttpResponse(app(env)));
        SentSnoc(old(sent), before, msgs, i, answer, Mongrel2.Frame(q.uuid, q.connId, HttpResponse(app(env))));
        i := i + 1;
      }
      assert msgs[..i] == msgs;
    }
  }

  /** The replies to a run of messages, one per message in order. */
  function Answers(msgs: seq<string>, answer: string -> string): (r: seq<string>)
    ensures |r| == |msgs| && forall i | 0 <= i < |msgs| :: r[i] == answer(msgs[i])
  {
    seq(|msgs|, i requires 0 <= i < |msgs| => answer(msgs[i]))
  }

  lemma {:induction false} SentSnoc(start: seq<string>, sent: seq<string>, msgs: seq<string>, i: nat,
                                    answer: string -> string, reply: string)
    requires i < |msgs| && sent == start + Answers(msgs[..i], answer) && reply == answer(msgs[i])
    ensures sent + [reply] == start + Answers(msgs[..i + 1], answer)
  {
    AnswersSnoc(msgs, i, answer);
  }

  lemma {:induction false} AnswersSnoc(msgs: seq<string>, i: nat, answer: string -> string)
    requires i < |msgs|
    ensures Answers(msgs[..i + 1], answer) == Answers(msgs[..i], answer) + [answer(msgs[i])]
  {
    var a := Answers(msgs[..i + 1], answer);
    var b := Answers(msgs[..i], answer) + [answer(msgs[i])];
    forall j | 0 <= j < |a| ensures a[j] == b[j] {
      assert msgs[..i + 1][j] == msgs[j];
      if j < i {
        assert msgs[..i][j] == msgs[j];
      }
    }
  }

  /** Every reply published is read back by Mongrel2 as addressed to the
      UUID and connection id of its request, with the handler's response as
      payload. */
  lemma {:induction false} AnswerReadsBack(msg: string, app: Env -> Triple, json: Mongrel2.Json, version: string,
                                           adapterClass: string, parseStr: string -> Value)
    ensures var q := Parse(msg, json).GetOr(Request("", "", "", None, ""));
            Mongrel2.ReadFrame(Answer(msg, app, json, version, adapterClass, parseStr))
            == Some((q.uuid, q.connId, HttpResponse(app(CreateEnv(q.headers, q.body, version, adapterClass, parseStr)))))
  {
    var q := Parse(msg, json).GetOr(Request("", "", "", None, ""));
    Mongrel2.FrameReadsBack(q.uuid, q.connId, HttpResponse(app(CreateEnv(q.headers, q.body, version, adapterClass, parseStr))));
  }
}

=== FILE: php.dfy ===
/*
 * PHP run-time behaviour that the adapters and middleware depend on, written
 * once: the value model, `empty()`, string conversion, the integer cast, the
 * string functions with their edge cases, and ordered string-keyed arrays.
 */
module Php {

  datatype Option<+T> = None | Some(value: T) {
    function GetOr(default: T): T {
      match this
      case Some(v) => v
      case None => default
    }
  }

  datatype Result<+T, +E> = Success(value: T) | Failure(error: E)

  /** A PHP value, as far as the gateway looks into it. */
  datatype Value =
    | Str(s: string)
    | Int(i: int)
    | Bool(b: bool)
    | Null
    | Arr(entries: map<string, Value>)
      /** An object: the result of its __toString() if it has one, and whether
          it is ArrayAccess + Countable + Traversable (an ArrayObject). */
    | Obj(text: Option<string>, arrayLike: bool)
    | Resource(id: nat)

  /** PHP's empty() on a string: "" and "0" are empty. */
  predicate EmptyStr(s: string) {
    s == "" || s == "0"
  }

  /** PHP's empty(): false, 0, "", "0", null and the empty array. */
  predicate Empty(v: Value) {
    match v
    case Str(s) => EmptyStr(s)
    case Int(i) => i == 0
    case Bool(b) => !b
    case Null => true
    case Arr(m) => |m| == 0
    case Obj(_, _) => false
    case Resource(_) => false
  }

  /** isset() on an array element that is present in the array. */
  predicate IsSet(v: Value) {
    !v.Null?
  }

  /** (string) $v, for the values the gateway converts. An object without
      __toString() cannot be converted and is not passed here by the
      adapters; it reads as "". */
  function ToStr(v: Value): string {
    match v
    case Str(s) => s
    case Int(i) => IntToDec(i)
    case Bool(b) => if b then "1" else ""
    case Null => ""
    case Arr(_) => "Array"
    case Obj(t, _) => t.GetOr("")
    case Resource(n) => "Resource id #" + NatToDec(n)
  }

  /** (int) $v. */
  function ToInt(v: Value): int {
    match v
    case Str(s) => IntCast(s)
    case Int(i) => i
    case Bool(b) => if b then 1 else 0
    case Null => 0
    case Arr(m) => if |m| == 0 then 0 else 1
    case Obj(_, _) => 1
    case Resource(n) => n
  }

  // ---------------------------------------------------------------- loose ==

  /** `$v == $w` for a word `w` (a string that is never numeric), under
      PHP 8's comparison rules. */
  predicate EqualsWord(v: Value, w: string) {
    match v
    case Str(s) => s == w
    case Int(i) => IntToDec(i) == w
    case Bool(b) => b == !EmptyStr(w)
    case Null => w == ""
    case Arr(_) => false
    case Obj(t, _) => t == Some(w)
    case Resource(_) => false
  }

  /** `$n == $v` for an integer `n`. A numeric string is compared by its
      integer value. */
  predicate EqualsInt(v: Value, n: int) {
    match v
    case Str(s) => IsNumeric(s) && IntCast(s) == n
    case Int(i) => i == n
    case Bool(b) => b == (n != 0)
    case Null => n == 0
    case Arr(_) => false
    case Obj(_, _) => n == 1
    case Resource(id) => id == n
  }

  /** `null == $v`. */
  predicate EqualsNull(v: Value) {
    match v
    case Str(s) => s == ""
    case Int(i) => i == 0
    case Bool(b) => !b
    case Null => true
    case Arr(m) => |m| == 0
    case Obj(_, _) => false
    case Resource(_) => false
  }

  // ---------------------------------------------------------------- digits

  predicate IsDigit(c: char) {
    '0' <= c <= '9'
  }

  predicate AllDigits(s: string) {
    forall i | 0 <= i < |s| :: IsDigit(s[i])
  }

  function DigitChar(d: nat): (c: char)
    requires d < 10
    ensures IsDigit(c) && (c as int) - ('0' as int) == d
  {
    ('0' as int + d) as char
  }

  /** The decimal text of a natural number, as PHP prints it. */
  function NatToDec(n: nat): (r: string)
    ensures |r| > 0 && AllDigits(r)
    ensures r[0] == '0' <==> n == 0
    decreases n
  {
    if n < 10 then [DigitChar(n)] else NatToDec(n / 10) + [DigitChar(n % 10)]
  }

  /** The decimal text of an integer, as PHP prints it. */
  function IntToDec(i: int): (r: string)
    ensures |r| > 0
  {
    if i < 0 then "-" + NatToDec(-i) else NatToDec(i)
  }

  /** The value of a string of decimal digits. */
  function DigitsValue(s: string): nat
    requires AllDigits(s)
  {
    if s == [] then 0 else DigitsValue(s[..|s| - 1]) * 10 + ((s[|s| - 1] as int) - ('0' as int))
  }

  lemma {:induction false} DigitsValueOfDec(n: nat)
    ensures DigitsValue(NatToDec(n)) == n
    decreases n
  {
    if n >= 10 {
      DigitsValueOfDec(n / 10);
      var r := NatToDec(n);
      assert r[..|r| - 1] == NatToDec(n / 10);
    }
  }

  /** The longest prefix of `s` made of decimal digits. */
  function LeadingDigits(s: string): (r: string)
    ensures r <= s && AllDigits(r)
    ensures |r| < |s| ==> !IsDigit(s[|r|])
  {
    if s != [] && IsDigit(s[0]) then [s[0]] + LeadingDigits(s[1..]) else []
  }

  lemma {:induction false} LeadingDigitsOfDigits(s: string, rest: string)
    requires AllDigits(s)
    requires rest == [] || !IsDigit(rest[0])
    ensures LeadingDigits(s + rest) == s
    decreases |s|
  {
    if s != [] {
      assert (s + rest)[1..] == s[1..] + rest;
      LeadingDigitsOfDigits(s[1..], rest);
    } else {
      assert s + rest == rest;
    }
  }

  /** Whitespace that PHP's integer conversion skips before the digits. */
  const CastWhitespace: set<char> := {' ', '\t', '\n', '\r', '\U{B}', '\U{C}'}

  /** PHP_INT_MAX and PHP_INT_MIN on a 64-bit build. */
  const PhpIntMax: int := 0x7FFF_FFFF_FFFF_FFFF
  const PhpIntMin: int := -0x8000_0000_0000_0000

  function Pow10(k: nat): (r: nat)
    ensures r >= 1
  {
    if k == 0 then 1 else 10 * Pow10(k - 1)
  }

  /** A decimal number read from a string: its digits as one integer and
      the power of ten that scales them. */
  datatype Decimal = Decimal(digits: nat, scale: int)

  /** The value of a decimal truncated toward zero. */
  function Truncate(d: Decimal): int {
    if d.scale >= 0 then d.digits * Pow10(d.scale) else d.digits / Pow10(-d.scale)
  }

  /** The exponent at the start of `s`: 'e' or 'E', an optional sign and at
      least one digit; 0 when there is none. */
  function LeadingExponent(s: string): int {
    if |s| >= 2 && (s[0] == 'e' || s[0] == 'E') then
      var f := if s[1] == '+' || s[1] == '-' then s[2..] else s[1..];
      var d := LeadingDigits(f);
      if d == [] then 0 else if s[1] == '-' then 0 - DigitsValue(d) as int else DigitsValue(d)
    else 0
  }

  /** The unsigned number at the start of `u`: digits, then optionally '.'
      and digits (one of the two runs non-empty), then optionally an
      exponent. None when `u` does not start with one. */
  function LeadingDecimal(u: string): (r: Option<Decimal>)
    ensures r.Some? ==> u != []
  {
    var a := LeadingDigits(u);
    DecimalAfter(a, u[|a|..])
  }

  /** The number whose leading digits `a` are followed by `v`. */
  function DecimalAfter(a: string, v: string): (r: Option<Decimal>)
    requires AllDigits(a)
    ensures r.Some? ==> a != [] || v != []
  {
    if v != [] && v[0] == '.' then
      var b := LeadingDigits(v[1..]);
      if a == [] && b == [] then None
      else
        assert AllDigits(a + b) by {
          assert forall i | 0 <= i < |a + b| :: (a + b)[i] == if i < |a| then a[i] else b[i - |a|];
        }
        Some(Decimal(DigitsValue(a + b), LeadingExponent(v[1 + |b|..]) - |b|))
    else if a == [] then None
    else Some(Decimal(DigitsValue(a), LeadingExponent(v)))
  }

  /** An integer clamped to PHP's 64-bit range. */
  function Saturate(i: int): (r: int)
    ensures PhpIntMin <= r <= PhpIntMax
    ensures PhpIntMin <= i <= PhpIntMax ==> r == i
    ensures i > PhpIntMax ==> r == PhpIntMax
    ensures i < PhpIntMin ==> r == PhpIntMin
  {
    if i > PhpIntMax then PhpIntMax else if i < PhpIntMin then PhpIntMin else i
  }

  /** PHP 8's (int) cast of a string: leading whitespace and an optional
      sign are skipped, and the longest number after them (digits, a
      fraction, an exponent) is truncated toward zero and clamped to the
      64-bit range; a string that does not start with a number gives 0. */
  function IntCast(s: string): (r: int)
    ensures PhpIntMin <= r <= PhpIntMax
  {
    var t := Ltrim(s, CastWhitespace);
    var u := if t != [] && (t[0] == '-' || t[0] == '+') then t[1..] else t;
    match LeadingDecimal(u)
    case None => 0
    case Some(d) => Saturate(if t != [] && t[0] == '-' then 0 - Truncate(d) else Truncate(d))
  }

  lemma {:induction false} NoWhitespaceAhead(s: string)
    requires s != [] && (s[0] == '-' || IsDigit(s[0]))
    ensures Ltrim(s, CastWhitespace) == s
  {
    assert s[0] !in CastWhitespace;
    LtrimStops(s, CastWhitespace);
  }

  lemma {:induction false} LeadingDigitsOfAll(d: string)
    requires AllDigits(d)
    ensures LeadingDigits(d) == d
  {
    LeadingDigitsOfDigits(d, []);
    assert d + [] == d;
  }

  /** A string that starts with neither whitespace, a sign, a digit nor a
      '.' casts to 0. */
  lemma {:induction false} IntCastNonNumeric(s: string)
    requires s != [] && s[0] !in CastWhitespace && s[0] != '-' && s[0] != '+' && s[0] != '.' && !IsDigit(s[0])
    ensures IntCast(s) == 0
  {
    LtrimStops(s, CastWhitespace);
  }

  /** A run of digits reads as the number it spells. */
  lemma {:induction false} LeadingDecimalOfDigits(d: string)
    requires d != [] && AllDigits(d)
    ensures LeadingDecimal(d) == Some(Decimal(DigitsValue(d), 0))
  {
    LeadingDigitsOfAll(d);
    assert d + [] == d;
    assert d[|d|..] == [];
  }

  lemma {:induction false} IntCastOfDigits(d: string)
    requires d != [] && AllDigits(d) && DigitsValue(d) <= PhpIntMax
    ensures IntCast(d) == DigitsValue(d)
  {
    NoWhitespaceAhead(d);
    LeadingDecimalOfDigits(d);
  }

  lemma {:induction false} IntCastOfNegDigits(d: string)
    requires d != [] && AllDigits(d) && 0 - DigitsValue(d) as int >= PhpIntMin
    ensures IntCast("-" + d) == 0 - DigitsValue(d) as int
  {
    var m := "-" + d;
    NoWhitespaceAhead(m);
    assert m[1..] == d;
    LeadingDecimalOfDigits(d);
  }

  /** (int) casting what PHP printed gives the integer back. */
  lemma {:induction false} IntCastOfDec(i: int)
    requires PhpIntMin <= i <= PhpIntMax
    ensures IntCast(IntToDec(i)) == i
  {
    var n: nat := if i < 0 then -i else i;
    DigitsValueOfDec(n);
    if i < 0 {
      IntCastOfNegDigits(NatToDec(n));
    } else {
      IntCastOfDigits(NatToDec(n));
    }
  }

  /** Digits written after digits shift the first run left. */
  lemma {:induction false} DigitsValueAppend(a: string, b: string)
    requires AllDigits(a) && AllDigits(b)
    ensures AllDigits(a + b)
    ensures DigitsValue(a + b) == DigitsValue(a) * Pow10(|b|) + DigitsValue(b)
    ensures DigitsValue(b) < Pow10(|b|)
    decreases |b|
  {
    assert forall i | 0 <= i < |a + b| :: (a + b)[i] == if i < |a| then a[i] else b[i - |a|];
    if b == [] {
      assert a + b == a;
    } else {
      var b' := b[..|b| - 1];
      var c := (b[|b| - 1] as int) - ('0' as int);
      DigitsValueAppend(a, b');
      assert (a + b)[..|a + b| - 1] == a + b';
      assert DigitsValue(a + b) == DigitsValue(a + b') * 10 + c;
      assert DigitsValue(b) == DigitsValue(b') * 10 + c;
      ShiftStep(DigitsValue(a), Pow10(|b'|), DigitsValue(b'), c, Pow10(|b|));
    }
  }

  /** One more digit on the right: the arithmetic of DigitsValueAppend. */
  lemma {:induction false} ShiftStep(x: nat, pw: nat, y: nat, c: int, p: nat)
    requires 0 <= c < 10 && y < pw && p == 10 * pw
    ensures (x * pw + y) * 10 + c == x * p + (y * 10 + c)
    ensures y * 10 + c < p
  {
    var xp := x * pw;
    assert (xp + y) * 10 + c == xp * 10 + (y * 10 + c);
    ShiftByTen(x, pw);
    assert (y + 1) * 10 <= pw * 10;
  }

  lemma {:induction false} ShiftByTen(x: int, p: int)
    ensures x * (10 * p) == (x * p) * 10
  {
  }

  /** Digits followed by neither a digit nor a '.' read as their value,
      scaled by the exponent that follows, if any. */
  lemma {:induction false} LeadingDecimalWhole(a: string, rest: string)
    requires a != [] && AllDigits(a)
    requires rest == [] || (!IsDigit(rest[0]) && rest[0] != '.')
    ensures LeadingDecimal(a + rest) == Some(Decimal(DigitsValue(a), LeadingExponent(rest)))
  {
    LeadingDigitsOfDigits(a, rest);
    assert (a + rest)[|a|..] == rest;
    assert a + [] == a;
  }

  /** Digits, a '.' and digits read as all the digits over a power of ten. */
  lemma {:induction false} LeadingDecimalFraction(a: string, b: string, rest: string)
    requires AllDigits(a) && AllDigits(b) && AllDigits(a + b) && (a != [] || b != [])
    requires rest == [] || !IsDigit(rest[0])
    ensures LeadingDecimal(a + ("." + (b + rest))) == Some(Decimal(DigitsValue(a + b), LeadingExponent(rest) - |b|))
  {
    var v := "." + (b + rest);
    LeadingDigitsOfDigits(a, v);
    assert (a + v)[|a|..] == v;
    DecimalAfterFraction(a, b, rest);
  }

  lemma {:induction false} DecimalAfterFraction(a: string, b: string, rest: string)
    requires AllDigits(a) && AllDigits(b) && AllDigits(a + b) && (a != [] || b != [])
    requires rest == [] || !IsDigit(rest[0])
    ensures DecimalAfter(a, "." + (b + rest)) == Some(Decimal(DigitsValue(a + b), LeadingExponent(rest) - |b|))
  {
    var v := "." + (b + rest);
    assert v[1..] == b + rest;
    LeadingDigitsOfDigits(b, rest);
    assert v[1 + |b|..] == rest;
  }

  /** A string that starts with a digit casts to the number it starts with. */
  lemma {:induction false} IntCastOfNumber(s: string, d: Decimal)
    requires s != [] && IsDigit(s[0]) && LeadingDecimal(s) == Some(d)
    ensures IntCast(s) == Saturate(Truncate(d))
  {
    NoWhitespaceAhead(s);
  }

  /** The cast stops at the first character that cannot continue the
      number. */
  lemma {:induction false} IntCastStops(a: string, rest: string)
    requires a != [] && AllDigits(a) && DigitsValue(a) <= PhpIntMax
    requires rest == [] || (!IsDigit(rest[0]) && rest[0] != '.' && rest[0] != 'e' && rest[0] != 'E')
    ensures IntCast(a + rest) == DigitsValue(a)
  {
    LeadingDecimalWhole(a, rest);
    assert LeadingExponent(rest) == 0;
    assert (a + rest)[0] == a[0];
    IntCastOfNumber(a + rest, Decimal(DigitsValue(a), 0));
  }

  /** An exponent scales the digits before it. */
  lemma {:induction false} IntCastExponent(a: string, e: string)
    requires a != [] && AllDigits(a) && e != [] && AllDigits(e)
    ensures IntCast(a + ("e" + e)) == Saturate(DigitsValue(a) * Pow10(DigitsValue(e)))
  {
    var s := a + ("e" + e);
    LeadingDecimalWhole(a, "e" + e);
    ExponentOfDigits(e);
    assert s[0] == a[0];
    IntCastOfNumber(s, Decimal(DigitsValue(a), DigitsValue(e)));
  }

  lemma {:induction false} ExponentOfDigits(e: string)
    requires e != [] && AllDigits(e)
    ensures LeadingExponent("e" + e) == DigitsValue(e)
  {
    assert ("e" + e)[1..] == e;
    LeadingDigitsOfAll(e);
  }

  /** A fraction is dropped: the cast truncates toward zero. */
  lemma {:induction false} IntCastDropsFraction(a: string, b: string)
    requires a != [] && AllDigits(a) && AllDigits(b) && DigitsValue(a) <= PhpIntMax
    ensures IntCast(a + ("." + b)) == DigitsValue(a)
  {
    var s := a + ("." + (b + []));
    assert b + [] == b;
    DigitsValueAppend(a, b);
    LeadingDecimalFraction(a, b, []);
    assert s[0] == a[0];
    var d := Decimal(DigitsValue(a + b), 0 - |b|);
    IntCastOfNumber(s, d);
    TruncateShifted(d, DigitsValue(a), DigitsValue(b), |b|);
    assert s == a + ("." + b);
  }

  lemma {:induction false} TruncateShifted(d: Decimal, x: nat, r: nat, k: nat)
    requires r < Pow10(k) && d.digits == x * Pow10(k) + r && d.scale == 0 - k
    ensures Truncate(d) == x
  {
    DivAfterShift(x, r, Pow10(k));
  }

  lemma {:induction false} DivAfterShift(x: nat, r: nat, p: nat)
    requires r < p
    ensures (x * p + r) / p == x
  {
    var n := x * p + r;
    var q, m := n / p, n % p;
    assert q * p + m == n && 0 <= m < p;
    if q < x {
      MulLe(q + 1, x, p);
    } else if q > x {
      MulLe(x + 1, q, p);
    }
  }

  lemma {:induction false} MulLe(a: int, b: int, p: nat)
    requires a <= b
    ensures a * p <= b * p
  {
    var d := b - a;
    assert d * p >= 0;
    assert b * p == a * p + d * p;
  }

  /** A number beyond the 64-bit range saturates at PHP_INT_MAX. */
  lemma {:induction false} IntCastSaturates(d: string)
    requires d != [] && AllDigits(d) && DigitsValue(d) > PhpIntMax
    ensures IntCast(d) == PhpIntMax
  {
    NoWhitespaceAhead(d);
    LeadingDecimalOfDigits(d);
  }

  /** "1e3" casts to 1000. */
  lemma {:induction false} IntCastThousand()
    ensures IntCast("1e3") == 1000
  {
    var one, three := "1", "3";
    IntCastExponent(one, three);
    assert DigitsValue(one) == 1 && DigitsValue(three) == 3;
    assert Pow10(3) == 1000;
    assert Saturate(1 * 1000) == 1000;
    assert one + ("e" + three) == "1e3";
  }

  /** PHP's is_numeric() on a string: optional leading whitespace, an optional
      sign, digits with an optional fraction (or a fraction alone), an
      optional exponent and optional trailing whitespace. */
  predicate IsNumeric(s: string) {
    var t := Rtrim(Ltrim(s, CastWhitespace), CastWhitespace);
    var u := if t != [] && (t[0] == '+' || t[0] == '-') then t[1..] else t;
    var m := NumberMantissaLength(u);
    m > 0 && (m == |u| || ExponentPart(u[m..]))
  }

  /** Length of the `digits[.digits]` or `.digits` prefix of `u` (0 if none). */
  function NumberMantissaLength(u: string): (m: nat)
    ensures m <= |u|
  {
    var a := LeadingDigits(u);
    if |a| < |u| && u[|a|] == '.' then
      var b := LeadingDigits(u[|a| + 1..]);
      if |a| == 0 && |b| == 0 then 0 else |a| + 1 + |b|
    else |a|
  }

  predicate ExponentPart(e: string) {
    |e| >= 2 && (e[0] == 'e' || e[0] == 'E') &&
    var f := if e[1] == '+' || e[1] == '-' then e[2..] else e[1..];
    f != [] && AllDigits(f)
  }

  // ---------------------------------------------------------------- hex

  function HexChar(d: nat): char
    requires d < 16
  {
    "0123456789ABCDEF"[d]
  }

  /** sprintf('%X', n): upper-case hexadecimal. */
  function NatToHex(n: nat): (r: string)
    ensures |r| > 0
    decreases n
  {
    if n < 16 then [HexChar(n)] else NatToHex(n / 16) + [HexChar(n % 16)]
  }

  function HexDigitValue(c: char): Option<nat> {
    if '0' <= c <= '9' then Some((c as int) - ('0' as int))
    else if 'A' <= c <= 'F' then Some((c as int) - ('A' as int) + 10)
    else if 'a' <= c <= 'f' then Some((c as int) - ('a' as int) + 10)
    else None
  }

  /** The value of a hexadecimal numeral, None when it is empty or holds a
      character that is not a hex digit. */
  function HexValue(s: string): Option<nat> {
    if s == [] then None
    else
      var d := HexDigitValue(s[|s| - 1]);
      if d.None? then None
      else if |s| == 1 then d
      else match HexValue(s[..|s| - 1])
        case None => None
        case Some(h) => Some(h * 16 + d.value)
  }

  lemma {:induction false} HexValueOfHex(n: nat)
    ensures HexValue(NatToHex(n)) == Some(n)
    decreases n
  {
    if n >= 16 {
      HexValueOfHex(n / 16);
      var r := NatToHex(n);
      assert r[..|r| - 1] == NatToHex(n / 16);
    }
  }

  // ---------------------------------------------------------------- case

  function UpperChar(c: char): char {
    if 'a' <= c <= 'z' then (c as int - 32) as char else c
  }

  function LowerChar(c: char): char {
    if 'A' <= c <= 'Z' then (c as int + 32) as char else c
  }

  /** strtoupper() on ASCII text. */
  function Upper(s: string): (r: string)
    ensures |r| == |s|
    ensures forall i | 0 <= i < |s| :: !('a' <= r[i] <= 'z')
  {
    seq(|s|, i requires 0 <= i < |s| => UpperChar(s[i]))
  }

  /** strtolower() on ASCII text. */
  function Lower(s: string): (r: string)
    ensures |r| == |s|
    ensures forall i | 0 <= i < |s| :: !('A' <= r[i] <= 'Z')
  {
    seq(|s|, i requires 0 <= i < |s| => LowerChar(s[i]))
  }

  /** strtr($s, $from, $to) with single characters. */
  function ReplaceChar(s: string, from: char, to: char): (r: string)
    ensures |r| == |s|
    ensures from != to ==> forall i | 0 <= i < |r| :: r[i] != from
  {
    seq(|s|, i requires 0 <= i < |s| => if s[i] == from then to else s[i])
  }

  lemma {:induction false} UpperIdempotent(s: string)
    ensures Upper(Upper(s)) == Upper(s)
  {
  }

  /** stripos($s, $p) === 0: case-insensitive prefix test. */
  predicate StartsWithIgnoreCase(s: string, p: string) {
    |p| <= |s| && Lower(s[..|p|]) == Lower(p)
  }

  // ---------------------------------------------------------------- trim

  const TrimDefault: set<char> := {' ', '\t', '\n', '\r', '\0', '\U{B}'}

  /** ltrim($s, $chars). */
  function Ltrim(s: string, cs: set<char>): (r: string)
    ensures |r| <= |s| && r == s[|s| - |r|..]
    ensures r == [] || r[0] !in cs
    ensures forall i | 0 <= i < |s| - |r| :: s[i] in cs
  {
    if s != [] && s[0] in cs then Ltrim(s[1..], cs) else s
  }

  lemma {:induction false} LtrimStops(s: string, cs: set<char>)
    requires s != [] && s[0] !in cs
    ensures Ltrim(s, cs) == s
  {
  }

  /** rtrim($s, $chars). */
  function Rtrim(s: string, cs: set<char>): (r: string)
    ensures r <= s
    ensures r == [] || r[|r| - 1] !in cs
    ensures forall i | |r| <= i < |s| :: s[i] in cs
  {
    if s != [] && s[|s| - 1] in cs then Rtrim(s[..|s| - 1], cs) else s
  }

  lemma {:induction false} RtrimStops(s: string, cs: set<char>)
    requires s != [] && s[|s| - 1] !in cs
    ensures Rtrim(s, cs) == s
  {
  }

  /** trim($s, $chars). */
  function Trim(s: string, cs: set<char>): (r: string)
    ensures r == [] || (r[0] !in cs && r[|r| - 1] !in cs)
  {
    Rtrim(Ltrim(s, cs), cs)
  }

  // ---------------------------------------------------------------- search

  /** strpos($s, $d): the first position where the non-empty `d` occurs. */
  function Find(s: string, d: string): (r: Option<nat>)
    requires |d| > 0
    ensures r.Some? ==> r.value + |d| <= |s| && d <= s[r.value..]
    ensures r.Some? ==> forall j | 0 <= j < r.value :: !(d <= s[j..])
    ensures r.None? ==> forall j | 0 <= j <= |s| :: !(d <= s[j..])
    decreases |s|
  {
    if |s| < |d| then None
    else if d <= s then Some(0)
    else match Find(s[1..], d)
      case None =>
        assert forall j | 1 <= j <= |s| :: s[j..] == s[1..][j - 1..];
        None
      case Some(k) =>
        assert forall j | 1 <= j <= |s| :: s[j..] == s[1..][j - 1..];
        Some(k + 1)
  }

  /** The first occurrence is where Find points. */
  lemma {:induction false} FindAt(s: string, d: string, p: nat)
    requires |d| > 0 && p + |d| <= |s| && s[p..p + |d|] == d
    requires forall j | 0 <= j < p :: !(d <= s[j..])
    ensures Find(s, d) == Some(p)
  {
    assert s[p..][..|d|] == s[p..p + |d|];
    assert d <= s[p..];
  }

  /** strrpos($s, $c): the last position of the character `c`. */
  function FindLast(s: string, c: char): (r: Option<nat>)
    ensures r.Some? ==> r.value < |s| && s[r.value] == c
    ensures r.Some? ==> forall j | r.value < j < |s| :: s[j] != c
    ensures r.None? ==> forall j | 0 <= j < |s| :: s[j] != c
  {
    if s == [] then None
    else if s[|s| - 1] == c then Some(|s| - 1)
    else FindLast(s[..|s| - 1], c)
  }

  predicate Contains(s: string, d: string)
    requires |d| > 0
  {
    Find(s, d).Some?
  }

  // ---------------------------------------------------------------- substr

  /** substr($s, $start, $length) with PHP 8 semantics: negative start and
      length count from the end, and an empty string comes back when the
      range is empty. */
  function Substr(s: string, start: int, length: Option<int>): (r: string)
    ensures |r| <= |s|
  {
    var n := |s|;
    var b := if start < 0 then (if n + start < 0 then 0 else n + start)
             else if start > n then n else start;
    var e := match length
      case None => n
      case Some(l) =>
        if l < 0 then (if n + l < b then b else n + l)
        else if b + l > n then n else b + l;
    s[b..e]
  }

  lemma {:induction false} SubstrPrefixSuffix(s: string, k: nat)
    requires k <= |s|
    ensures Substr(s, 0, Some(k)) == s[..k]
    ensures Substr(s, k, None) == s[k..]
  {
  }

  // ---------------------------------------------------------------- explode

  /** explode($d, $s) with a non-empty delimiter. */
  function Explode(s: string, d: string): (r: seq<string>)
    requires |d| > 0
    ensures |r| >= 1
    decreases |s|
  {
    match Find(s, d)
    case None => [s]
    case Some(i) => [s[..i]] + Explode(s[i + |d|..], d)
  }

  /** explode($d, $s, $limit) for a positive limit: at most `limit` pieces,
      the last one holding the rest of the string. */
  function ExplodeLimit(s: string, d: string, limit: nat): (r: seq<string>)
    requires |d| > 0 && limit >= 1
    ensures 1 <= |r| <= limit
    decreases limit
  {
    if limit == 1 then [s]
    else match Find(s, d)
      case None => [s]
      case Some(i) => [s[..i]] + ExplodeLimit(s[i + |d|..], d, limit - 1)
  }

  /** The first occurrence of a one-character delimiter. */
  lemma {:induction false} FindCharAt(s: string, c: char, p: nat)
    requires p < |s| && s[p] == c && c !in s[..p]
    ensures Find(s, [c]) == Some(p)
  {
    forall j | 0 <= j < p ensures !([c] <= s[j..]) {
      assert s[j] == s[..p][j];
    }
    FindAt(s, [c], p);
  }

  /** A token before a one-character delimiter is split off whole. */
  lemma {:induction false} ExplodeLimitToken(tok: string, c: char, rest: string, limit: nat)
    requires c !in tok && limit >= 2
    ensures ExplodeLimit(tok + [c] + rest, [c], limit) == [tok] + ExplodeLimit(rest, [c], limit - 1)
  {
    var s := tok + [c] + rest;
    assert s[..|tok|] == tok;
    FindCharAt(s, c, |tok|);
    assert s[|tok| + 1..] == rest;
  }

  /** The first piece of explode() never holds the delimiter. */
  lemma {:induction false} ExplodeLimitFirstFree(s: string, c: char, limit: nat)
    requires limit >= 2
    ensures c !in ExplodeLimit(s, [c], limit)[0]
  {
    match Find(s, [c])
    case None =>
      forall j | 0 <= j < |s| ensures s[j] != c {
        assert !([c] <= s[j..]);
      }
    case Some(i) =>
      forall j | 0 <= j < i ensures s[j] != c {
        assert !([c] <= s[j..]);
      }
  }

  /** implode($sep, $parts). */
  function Implode(sep: string, parts: seq<string>): string {
    if parts == [] then []
    else if |parts| == 1 then parts[0]
    else parts[0] + sep + Implode(sep, parts[1..])
  }

  lemma {:induction false} ImplodeCons(sep: string, a: string, rest: seq<string>)
    requires rest != []
    ensures Implode(sep, [a] + rest) == a + sep + Implode(sep, rest)
  {
    assert ([a] + rest)[1..] == rest;
  }

  /** The string around the first occurrence of the delimiter. */
  lemma {:induction false} SplitAtFind(s: string, d: string)
    requires |d| > 0 && Find(s, d).Some?
    ensures s == s[..Find(s, d).value] + d + s[Find(s, d).value + |d|..]
  {
    var i := Find(s, d).value;
    assert s[i..][..|d|] == d;
    assert s[i..i + |d|] == d;
    assert s == s[..i] + s[i..i + |d|] + s[i + |d|..];
  }

  /** Joining the pieces of explode() again gives back the string. */
  lemma {:induction false} ImplodeExplode(s: string, d: string)
    requires |d| > 0
    ensures Implode(d, Explode(s, d)) == s
    decreases |s|
  {
    match Find(s, d)
    case None =>
    case Some(i) =>
      var rest := s[i + |d|..];
      ImplodeExplode(rest, d);
      ImplodeCons(d, s[..i], Explode(rest, d));
      SplitAtFind(s, d);
  }

  lemma {:induction false} PrefixOfTruncated(s: string, d: string, i: nat, j: nat)
    requires j <= i <= |s|
    ensures d <= s[..i][j..] ==> d <= s[j..]
  {
    if d <= s[..i][j..] {
      assert s[..i][j..][..|d|] == s[j..][..|d|];
    }
  }

  lemma {:induction false} NothingBeforeFind(s: string, d: string)
    requires |d| > 0 && Find(s, d).Some?
    ensures !Contains(s[..Find(s, d).value], d)
  {
    var i := Find(s, d).value;
    forall j | 0 <= j <= i ensures !(d <= s[..i][j..]) {
      PrefixOfTruncated(s, d, i, j);
    }
  }

  /** No piece explode() returns contains the delimiter. */
  lemma {:induction false} ExplodePiecesFree(s: string, d: string)
    requires |d| > 0
    ensures forall k | 0 <= k < |Explode(s, d)| :: !Contains(Explode(s, d)[k], d)
    decreases |s|
  {
    match Find(s, d)
    case None =>
    case Some(i) =>
      ExplodePiecesFree(s[i + |d|..], d);
      var p := s[..i];
      NothingBeforeFind(s, d);
      assert !Contains(p, d);
      var parts := Explode(s, d);
      assert parts == [p] + Explode(s[i + |d|..], d);
  }

  // ---------------------------------------------------------------- arrays

  /** The keys of an ordered string-keyed array, in order. */
  function Keys<V>(a: seq<(string, V)>): (r: seq<string>)
    ensures |r| == |a|
    ensures forall i | 0 <= i < |a| :: r[i] == a[i].0
  {
    seq(|a|, i requires 0 <= i < |a| => a[i].0)
  }

  /** A PHP array never holds a key twice. */
  predicate UniqueKeys<V>(a: seq<(string, V)>) {
    forall i, j | 0 <= i < j < |a| :: a[i].0 != a[j].0
  }

  /** $a[$k] read: the value stored under `k`, None when it is absent. */
  function Lookup<V>(a: seq<(string, V)>, k: string): (r: Option<V>)
    ensures r.None? <==> k !in Keys(a)
    ensures r.Some? ==> (k, r.value) in a
  {
    if a == [] then None
    else if a[0].0 == k then Some(a[0].1)
    else Lookup(a[1..], k)
  }

  /** $a[$k] = $v: replaces the value in place when the key is present,
      appends the pair otherwise. */
  function Put<V>(a: seq<(string, V)>, k: string, v: V): (r: seq<(string, V)>)
    ensures k in Keys(a) ==> |r| == |a|
    ensures k !in Keys(a) ==> r == a + [(k, v)]
  {
    if a == [] then [(k, v)]
    else if a[0].0 == k then [(k, v)] + a[1..]
    else [a[0]] + Put(a[1..], k, v)
  }

  /** unset($a[$k]). */
  function Remove<V>(a: seq<(string, V)>, k: string): (r: seq<(string, V)>)
    ensures k !in Keys(r)
    ensures |r| <= |a|
  {
    if a == [] then []
    else if a[0].0 == k then Remove(a[1..], k)
    else [a[0]] + Remove(a[1..], k)
  }

  lemma {:induction false} LookupPut<V>(a: seq<(string, V)>, k: string, v: V, k': string)
    ensures Lookup(Put(a, k, v), k') == if k' == k then Some(v) else Lookup(a, k')
  {
    if a != [] && a[0].0 != k {
      LookupPut(a[1..], k, v, k');
    }
  }

  lemma {:induction false} PutKeepsKeyOrder<V>(a: seq<(string, V)>, k: string, v: V)
    ensures Keys(Put(a, k, v)) == if k in Keys(a) then Keys(a) else Keys(a) + [k]
  {
    if a == [] {
    } else if a[0].0 == k {
      assert Keys(Put(a, k, v)) == Keys(a);
    } else {
      var ka, kt := Keys(a), Keys(a[1..]);
      PutKeepsKeyOrder(a[1..], k, v);
      assert ka == [a[0].0] + kt;
      assert k in ka <==> k in kt;
      assert Keys(Put(a, k, v)) == [a[0].0] + Keys(Put(a[1..], k, v));
      if k !in kt {
        assert [a[0].0] + (kt + [k]) == ka + [k];
      }
    }
  }

  lemma {:induction false} PutKeepsUnique<V>(a: seq<(string, V)>, k: string, v: V)
    requires UniqueKeys(a)
    ensures UniqueKeys(Put(a, k, v))
  {
    PutKeepsKeyOrder(a, k, v);
    var r := Put(a, k, v);
    forall i, j | 0 <= i < j < |r| ensures r[i].0 != r[j].0 {
      assert Keys(r)[i] == r[i].0 && Keys(r)[j] == r[j].0;
    }
  }
}

=== FILE: request.dfy ===
/*
 * Inject\Stack\Request: an object around `$env` with the derived views a
 * handler asks for: the path, the host with its port, the base and request
 * URLs, the client address, content negotiation and URL construction.
 *
 * The object keeps three caches (host with port, base URL, accepted types)
 * that the first call fills; they are fields updated by the methods.
 * parseAccept() (q-values and their sort) is not modelled: the list of
 * types it yields for the Accept header is given to the constructor.
 */
module Request {
  import opened Php
  import opened Gateway

  // ------------------------------------------------------------------ explode

  /** `end(explode($c, $s))`: the text after the last `c`. */
  function LastPiece(s: string, c: char): string {
    var parts := Explode(s, [c]);
    parts[|parts| - 1]
  }

  /** `reset(explode($c, $s))`: the text before the first `c`. */
  function FirstPiece(s: string, c: char): string {
    Explode(s, [c])[0]
  }

  lemma {:induction false} NoCharBefore(s: string, c: char, p: nat)
    requires p <= |s| && forall j | 0 <= j < p :: !([c] <= s[j..])
    ensures c !in s[..p]
  {
    forall j | 0 <= j < p ensures s[..p][j] != c {
      assert s[..p][j] == s[j];
      assert [s[j]] <= s[j..];
    }
  }

  /** The last piece holds no `c`, ends the string, and is either all of it
      or comes right after a `c`. */
  lemma {:induction false} LastPieceIsTail(s: string, c: char)
    ensures var r := LastPiece(s, c);
            c !in r && |r| <= |s| && r == s[|s| - |r|..] && (|r| == |s| || s[|s| - |r| - 1] == c)
    decreases |s|
  {
    match Find(s, [c])
    case None =>
      LastPieceWhole(s, c);
    case Some(i) =>
      LastPieceIsTail(s[i + 1..], c);
      LastPieceStep(s, c, i);
      TailAfter(s, i + 1, s[i + 1..], LastPiece(s, c), c);
  }

  /** Without a `c`, the last piece is the whole string. */
  lemma {:induction false} LastPieceWhole(s: string, c: char)
    requires Find(s, [c]).None?
    ensures LastPiece(s, c) == s && c !in s
  {
    NoCharBefore(s, c, |s|);
    assert s[..|s|] == s;
  }

  /** After the first `c`, the last piece is the last piece of the rest. */
  lemma {:induction false} LastPieceStep(s: string, c: char, i: nat)
    requires Find(s, [c]) == Some(i)
    ensures i < |s| && s[i] == c && LastPiece(s, c) == LastPiece(s[i + 1..], c)
  {
    assert [c] <= s[i..];
    var tail := Explode(s[i + 1..], [c]);
    assert Explode(s, [c]) == [s[..i]] + tail;
  }

  /** A tail of the text after a `c` is a tail of the whole text. */
  lemma {:induction false} TailAfter(s: string, k: nat, t: string, r: string, c: char)
    requires 0 < k <= |s| && s[k - 1] == c && t == s[k..]
    requires |r| <= |t| && r == t[|t| - |r|..] && (|r| == |t| || t[|t| - |r| - 1] == c)
    ensures r == s[|s| - |r|..] && (|r| == |s| || s[|s| - |r| - 1] == c)
  {
    if |r| < |t| {
      assert t[|t| - |r| - 1] == s[|s| - |r| - 1];
    }
  }

  /** The first piece holds no `c`, starts the string, and is either all of
      it or stops right before a `c`. */
  lemma {:induction false} FirstPieceIsHead(s: string, c: char)
    ensures var r := FirstPiece(s, c);
            c !in r && r <= s && (|r| == |s| || s[|r|] == c)
  {
    match Find(s, [c])
    case None =>
      NoCharBefore(s, c, |s|);
      assert s[..|s|] == s;
    case Some(i) =>
      NoCharBefore(s, c, i);
      assert s[i] == c by {
        assert [c] <= s[i..];
      }
  }

  lemma {:induction false} TrimKeepsOut(s: string, cs: set<char>, c: char)
    requires c !in s
    ensures c !in Trim(s, cs)
  {
    var l := Ltrim(s, cs);
    SliceKeepsOut(s, |s| - |l|, |s|, c);
    var r := Rtrim(l, cs);
    assert r == l[..|r|];
    SliceKeepsOut(l, 0, |r|, c);
  }

  lemma {:induction false} SliceKeepsOut(s: string, i: nat, j: nat, c: char)
    requires c !in s && i <= j <= |s|
    ensures c !in s[i..j]
  {
  }

  // ------------------------------------------------------------------ getters

  /** getPath(): PATH_INFO, then '?' and the query string when it is not
      empty. */
  function Path(env: Env): string {
    ToStr(Get(env, "PATH_INFO"))
    + (if Empty(Get(env, "QUERY_STRING")) then "" else "?" + ToStr(Get(env, "QUERY_STRING")))
  }

  /** Splitting the path at its first '?', as a parse_url() of the request
      target does, gives PATH_INFO and QUERY_STRING back. */
  lemma {:induction false} PathSplitsBack(env: Env)
    requires '?' !in ToStr(Get(env, "PATH_INFO"))
    ensures var p := Path(env);
            var pathInfo := ToStr(Get(env, "PATH_INFO"));
            if Empty(Get(env, "QUERY_STRING")) then p == pathInfo && Find(p, "?").None?
            else Find(p, "?") == Some(|pathInfo|) && p[|pathInfo| + 1..] == ToStr(Get(env, "QUERY_STRING"))
  {
    var pathInfo := ToStr(Get(env, "PATH_INFO"));
    var p := Path(env);
    forall j | 0 <= j < |pathInfo| ensures !("?" <= p[j..]) {
      assert p[j] == pathInfo[j];
    }
    if Empty(Get(env, "QUERY_STRING")) {
      assert p == pathInfo;
      forall j | 0 <= j <= |p| ensures !("?" <= p[j..]) {
        if j == |p| {
          assert p[j..] == [];
        }
      }
    } else {
      assert p[|pathInfo|] == '?';
      FindAt(p, "?", |pathInfo|);
    }
  }

  /** The host with port as getHostWithPort() computes it: the last
      X-Forwarded-Host entry, trimmed; else HTTP_HOST; else the server name
      (or address) and SERVER_PORT. */
  function HostWithPort(env: Env): (r: Value)
    ensures !Empty(Get(env, "HTTP_X_FORWARDED_HOST")) ==>
              r.Str? && ',' !in r.s && (r.s == [] || (r.s[0] !in TrimDefault && r.s[|r.s| - 1] !in TrimDefault))
    ensures Empty(Get(env, "HTTP_X_FORWARDED_HOST")) && !Empty(Get(env, "HTTP_HOST")) ==> r == Get(env, "HTTP_HOST")
  {
    if !Empty(Get(env, "HTTP_X_FORWARDED_HOST")) then
      var last := LastPiece(ToStr(Get(env, "HTTP_X_FORWARDED_HOST")), ',');
      LastPieceIsTail(ToStr(Get(env, "HTTP_X_FORWARDED_HOST")), ',');
      TrimKeepsOut(last, TrimDefault, ',');
      Str(Trim(last, TrimDefault))
    else if !Empty(Get(env, "HTTP_HOST")) then Get(env, "HTTP_HOST")
    else
      var host := if Empty(Get(env, "SERVER_NAME")) then Get(env, "SERVER_ADDR") else Get(env, "SERVER_NAME");
      Str(ToStr(host) + ":" + ToStr(Get(env, "SERVER_PORT")))
  }

  /** getHost(): the host with port up to its first ':'. */
  function Host(hostWithPort: Value): (r: string)
    ensures ':' !in r && r <= ToStr(hostWithPort)
    ensures |r| == |ToStr(hostWithPort)| || ToStr(hostWithPort)[|r|] == ':'
  {
    FirstPieceIsHead(ToStr(hostWithPort), ':');
    FirstPiece(ToStr(hostWithPort), ':')
  }

  /** `strpos($haystack, $needle)` used as a condition: a position other
      than 0. An empty needle is found at 0. */
  predicate StrposTruthy(haystack: string, needle: string) {
    |needle| > 0 && Find(haystack, needle).Some? && Find(haystack, needle).value > 0
  }

  /** getPort() as written: `strpos(':', $host)` looks for the host inside
      ":" and so never yields a non-zero position. */
  function PortAsWritten(env: Env, hostWithPort: Value): Value {
    var host := ToStr(hostWithPort);
    if StrposTruthy(":", host) then Int(IntCast(LastPiece(host, ':'))) else Get(env, "SERVER_PORT")
  }

  /** getPort() as intended: the port after the host's last ':', else
      SERVER_PORT. */
  function Port(env: Env, hostWithPort: Value): Value {
    var host := ToStr(hostWithPort);
    if StrposTruthy(host, ":") then Int(IntCast(LastPiece(host, ':'))) else Get(env, "SERVER_PORT")
  }

  /** As written, getPort() answers SERVER_PORT whatever the host says. */
  lemma {:induction false} PortAsWrittenIgnoresHost(env: Env, hostWithPort: Value)
    ensures PortAsWritten(env, hostWithPort) == Get(env, "SERVER_PORT")
  {
    var host := ToStr(hostWithPort);
    if |host| > 0 && Find(":", host).Some? {
      assert Find(":", host).value + |host| <= 1;
    }
  }

  /** As intended, a host that names its port gives that port. */
  lemma {:induction false} PortFromHost(env: Env, name: string, port: nat)
    requires name != [] && ':' !in name && port <= PhpIntMax
    ensures Port(env, Str(name + ":" + NatToDec(port))) == Int(port)
  {
    var d := NatToDec(port);
    assert ':' !in d by {
      assert forall k | 0 <= k < |d| :: IsDigit(d[k]);
    }
    ExplodeHostPort(name, d);
    assert LastPiece(name + ":" + d, ':') == d;
    DigitsValueOfDec(port);
    IntCastOfDigits(d);
  }

  /** explode(':', ...) of a string without ':' is that string alone. */
  lemma {:induction false} ExplodeNoColon(s: string)
    requires ':' !in s
    ensures Explode(s, ":") == [s]
  {
    forall j | 0 <= j <= |s| ensures !(":" <= s[j..]) {
      if j < |s| {
        assert s[j..][0] == s[j];
      }
    }
  }

  /** explode(':', host:port) when neither part holds a ':'. */
  lemma {:induction false} ExplodeHostPort(host: string, port: string)
    requires ':' !in host && ':' !in port
    ensures Explode(host + ":" + port, ":") == [host, port]
    ensures Find(host + ":" + port, ":") == Some(|host|)
  {
    var s := host + ":" + port;
    NoColonBefore(s, |host|);
    assert s[|host|..|host| + 1] == ":";
    FindAt(s, ":", |host|);
    assert s[..|host|] == host;
    assert s[|host| + 1..] == port;
    ExplodeNoColon(port);
  }

  lemma {:induction false} NoColonBefore(host: string, p: nat)
    requires p <= |host| && ':' !in host[..p]
    ensures forall j | 0 <= j < p :: !(":" <= host[j..])
  {
    forall j | 0 <= j < p ensures !(":" <= host[j..]) {
      assert host[..p][j] == host[j];
    }
  }

  /** A host with an explicit port, where the server listens on 80. */
  lemma {:induction false} PortExample()
    ensures PortAsWritten(map["SERVER_PORT" := Int(80)], Str("example.com:8080")) == Int(80)
    ensures Port(map["SERVER_PORT" := Int(80)], Str("example.com:8080")) == Int(8080)
  {
    var env: Env := map["SERVER_PORT" := Int(80)];
    PortAsWrittenIgnoresHost(env, Str("example.com:8080"));
    ExampleHost();
    PortFromHost(env, "example.com", 8080);
  }

  lemma {:induction false} ExampleHost()
    ensures "example.com" + ":" + NatToDec(8080) == "example.com:8080"
  {
    assert NatToDec(8080) == "8080";
  }

  /** Whether `port` is the default port of the scheme (80 for http, 443 for
      https), by PHP's loose comparison. */
  predicate DefaultPort(port: Value, scheme: Value) {
    (EqualsInt(port, 80) && EqualsWord(scheme, "http")) || (EqualsInt(port, 443) && EqualsWord(scheme, "https"))
  }

  /** The port getBaseUrl() uses: the text after the host's first ':', or
      SERVER_PORT when that is missing or empty. */
  function BasePort(env: Env, hostWithPort: Value): Value {
    var parts := Explode(ToStr(hostWithPort), ":");
    if |parts| < 2 || EmptyStr(parts[1]) then Get(env, "SERVER_PORT") else Str(parts[1])
  }

  /** getBaseUrl(): scheme, "://", host, the port unless it is the scheme's
      default, and SCRIPT_NAME. */
  function BaseUrl(env: Env, hostWithPort: Value): string {
    var scheme := Get(env, "inject.url_scheme");
    var port := BasePort(env, hostWithPort);
    ToStr(scheme) + "://" + Host(hostWithPort)
    + (if DefaultPort(port, scheme) then "" else ":" + ToStr(port))
    + ToStr(Get(env, "SCRIPT_NAME"))
  }

  /** The base URL names the host with its port as given, unless the port is
      the default for the scheme, when it names the host alone. */
  lemma {:induction false} BaseUrlHostPort(env: Env, host: string, port: string)
    requires ':' !in host && ':' !in port && !EmptyStr(port)
    ensures var hp := Str(host + ":" + port);
            var scheme := Get(env, "inject.url_scheme");
            BaseUrl(env, hp) == ToStr(scheme) + "://"
              + (if DefaultPort(Str(port), scheme) then host else host + ":" + port)
              + ToStr(Get(env, "SCRIPT_NAME"))
  {
    HostPortPieces(env, host, port);
    BaseUrlOfPieces(env, Str(host + ":" + port), host, port);
  }

  lemma {:induction false} BaseUrlOfPieces(env: Env, hp: Value, host: string, port: string)
    requires Host(hp) == host && BasePort(env, hp) == Str(port)
    ensures var scheme := Get(env, "inject.url_scheme");
            BaseUrl(env, hp) == ToStr(scheme) + "://"
              + (if DefaultPort(Str(port), scheme) then host else host + ":" + port)
              + ToStr(Get(env, "SCRIPT_NAME"))
  {
    if !DefaultPort(Str(port), Get(env, "inject.url_scheme")) {
      Regroup(ToStr(Get(env, "inject.url_scheme")) + "://", host, ":", port, ToStr(Get(env, "SCRIPT_NAME")));
    }
  }

  lemma {:induction false} Regroup(a: string, b: string, c: string, d: string, e: string)
    ensures a + b + (c + d) + e == a + (b + c + d) + e
  {
  }

  /** `name:port` splits into the name and the port. */
  lemma {:induction false} HostPortPieces(env: Env, host: string, port: string)
    requires ':' !in host && ':' !in port && !EmptyStr(port)
    ensures Host(Str(host + ":" + port)) == host && BasePort(env, Str(host + ":" + port)) == Str(port)
  {
    ExplodeHostPort(host, port);
    assert [':'] == ":";
  }

  /** getClientIp(): the proxy-supplied address only when proxies are
      trusted, else REMOTE_ADDR. */
  function ClientIp(env: Env, allowProxied: bool): (r: Value)
    ensures !allowProxied ==> r == Get(env, "REMOTE_ADDR")
    ensures r == Get(env, "REMOTE_ADDR") || r == Get(env, "HTTP_CLIENT_IP") || r == Get(env, "HTTP_X_FORWARDED_FOR")
    ensures r != Get(env, "REMOTE_ADDR") ==> !Empty(r)
  {
    if allowProxied && !Empty(Get(env, "HTTP_CLIENT_IP")) then Get(env, "HTTP_CLIENT_IP")
    else if allowProxied && !Empty(Get(env, "HTTP_X_FORWARDED_FOR")) then Get(env, "HTTP_X_FORWARDED_FOR")
    else Get(env, "REMOTE_ADDR")
  }

  /** Unless proxies are trusted, a client cannot choose its address by
      sending Client-IP or X-Forwarded-For headers. */
  lemma {:induction false} ClientIpNotSpoofable(env: Env, clientIp: Value, forwarded: Value)
    ensures ClientIp(env["HTTP_CLIENT_IP" := clientIp]["HTTP_X_FORWARDED_FOR" := forwarded], false)
            == ClientIp(env, false)
  {
    var env' := env["HTTP_CLIENT_IP" := clientIp]["HTTP_X_FORWARDED_FOR" := forwarded];
    assert Get(env', "REMOTE_ADDR") == Get(env, "REMOTE_ADDR");
  }

  /** isXhr() as written: the test is inverted, so only an empty header is
      lower-cased and compared, and never matches. */
  predicate IsXhrAsWritten(env: Env) {
    var h := Get(env, "HTTP_X_REQUESTED_WITH");
    if Empty(h) then Lower(ToStr(h)) == "xmlhttprequest" else false
  }

  /** isXhr() as documented: X-Requested-With is XMLHttpRequest, in any
      case. */
  predicate IsXhr(env: Env) {
    var h := Get(env, "HTTP_X_REQUESTED_WITH");
    !Empty(h) && Lower(ToStr(h)) == "xmlhttprequest"
  }

  lemma {:induction false} IsXhrAsWrittenNever(env: Env)
    ensures !IsXhrAsWritten(env)
  {
    var h := Get(env, "HTTP_X_REQUESTED_WITH");
    if Empty(h) {
      assert |ToStr(h)| <= 5 by {
        match h
        case Str(s) =>
        case Int(i) => assert i == 0; assert IntToDec(0) == "0";
        case Bool(b) =>
        case Null =>
        case Arr(m) =>
      }
      assert |Lower(ToStr(h))| != |"xmlhttprequest"|;
    }
  }

  lemma {:induction false} XhrExample()
    ensures IsXhr(map["HTTP_X_REQUESTED_WITH" := Str("XMLHttpRequest")])
    ensures !IsXhrAsWritten(map["HTTP_X_REQUESTED_WITH" := Str("XMLHttpRequest")])
  {
    var env: Env := map["HTTP_X_REQUESTED_WITH" := Str("XMLHttpRequest")];
    assert Lower("XMLHttpRequest") == "xmlhttprequest";
    IsXhrAsWrittenNever(env);
  }

  // ------------------------------------------------------------------ negotiation

  /** `reset(array_intersect($formats, $accepts))`: the first format, in
      the order of `formats`, that is also accepted. */
  function FirstAccepted(formats: seq<string>, accepts: seq<string>): (r: Option<nat>)
    ensures r.None? <==> forall i | 0 <= i < |formats| :: formats[i] !in accepts
    ensures r.Some? ==> r.value < |formats| && formats[r.value] in accepts
                        && forall j | 0 <= j < r.value :: formats[j] !in accepts
  {
    if formats == [] then None
    else if formats[0] in accepts then Some(0)
    else match FirstAccepted(formats[1..], accepts)
      case None => None
      case Some(i) => Some(i + 1)
  }

  /** negotiateMime(): the first format when anything is accepted or nothing
      matches, else the first format that is accepted; false (None) when
      there are no formats. */
  function Negotiate(formats: seq<string>, accepts: seq<string>): (r: Option<string>)
    ensures r.None? <==> formats == []
    ensures r.Some? ==> r.value in formats
    ensures formats != [] && "*/*" in accepts ==> r == Some(formats[0])
    ensures formats != [] && "*/*" !in accepts && (exists i | 0 <= i < |formats| :: formats[i] in accepts) ==>
              exists i | 0 <= i < |formats| :: r == Some(formats[i]) && formats[i] in accepts
                && forall j | 0 <= j < i :: formats[j] !in accepts
    ensures formats != [] && (forall i | 0 <= i < |formats| :: formats[i] !in accepts) ==> r == Some(formats[0])
  {
    if formats == [] then None
    else if "*/*" in accepts then Some(formats[0])
    else match FirstAccepted(formats, accepts)
      case Some(i) => Some(formats[i])
      case None => Some(formats[0])
  }

  // ------------------------------------------------------------------ urlFor

  /** `preg_match('#^[A-Za-z]+://#', $path)`: the path is already an
      absolute URL. */
  predicate HasScheme(path: string) {
    exists n | 1 <= n <= |path| - 3 :: SchemeEndsAt(path, n)
  }

  /** `path` starts with n letters and "://". */
  predicate SchemeEndsAt(path: string, n: nat)
    requires n + 3 <= |path|
  {
    path[n..n + 3] == "://" && forall k | 0 <= k < n :: Letter(path[k])
  }

  predicate Letter(c: char) {
    'A' <= c <= 'Z' || 'a' <= c <= 'z'
  }

  /** isset($o[$k]) && $o[$k] */
  predicate Flag(options: Env, k: string) {
    IsSet(Get(options, k)) && !Empty(Get(options, k))
  }

  /** urlFor(): a URL from the options. `buildQuery` and `urlencode` stand for
      http_build_query() and urlencode(). Throws (Failure) when there is
      neither a host nor only_path. */
  function UrlFor(options: Env, buildQuery: Value -> string, urlencode: string -> string): (r: Result<string, string>)
    ensures r.Failure? <==> !IsSet(Get(options, "host")) && !Flag(options, "only_path")
    ensures r.Success? && HasScheme(ToStr(Get(options, "path"))) ==> r.value == ToStr(Get(options, "path"))
  {
    if !(IsSet(Get(options, "host")) || Flag(options, "only_path")) then
      Failure("No host to link to, please set $default_url_options['host'], $options['host'] or $options['only_path'].")
    else
      var path := ToStr(Get(options, "path"));
      if HasScheme(path) then Success(path)
      else
        var prefix :=
          if Flag(options, "only_path") then ""
          else
            var protocol := if IsSet(Get(options, "protocol")) then ToStr(Get(options, "protocol")) else "http";
            Trim(protocol, {':', '/'}) + "://" + ToStr(Get(options, "host"));
        var script := if IsSet(Get(options, "script_name")) then ToStr(Get(options, "script_name")) else "";
        var withPath := prefix + (if path != [] && path[0] == '/' then path else script + "/" + path);
        var withQuery := withPath + (if Empty(Get(options, "params")) then "" else "?" + buildQuery(Get(options, "params")));
        Success(withQuery + (if IsSet(Get(options, "anchor")) then "#" + urlencode(ToStr(Get(options, "anchor"))) else ""))
  }

  /** Without query parameters or an anchor, urlFor() puts the path after
      the origin as given when it starts with '/', and after the script name
      and a '/' otherwise. */
  lemma {:induction false} UrlForPath(options: Env, buildQuery: Value -> string, urlencode: string -> string)
    requires Flag(options, "only_path")
    requires Empty(Get(options, "params")) && !IsSet(Get(options, "anchor"))
    requires !HasScheme(ToStr(Get(options, "path")))
    ensures var path := ToStr(Get(options, "path"));
            var script := if IsSet(Get(options, "script_name")) then ToStr(Get(options, "script_name")) else "";
            UrlFor(options, buildQuery, urlencode)
              == Success(if path != [] && path[0] == '/' then path else script + "/" + path)
  {
    var path := ToStr(Get(options, "path"));
    var script := if IsSet(Get(options, "script_name")) then ToStr(Get(options, "script_name")) else "";
    var tail := if path != [] && path[0] == '/' then path else script + "/" + path;
    assert "" + tail + "" + "" == tail;
  }

  // ------------------------------------------------------------------ the object

  class RequestObject {
    /** The wrapped `$env`. */
    const env: Env
    /** array_keys(parseAccept($env['HTTP_ACCEPT'])), most preferred first. */
    const parsedAccept: seq<string>
    var acceptCache: seq<string>
    var baseUrlCache: Value
    var hostCache: Value

    constructor (env: Env, parsedAccept: seq<string>)
      ensures this.env == env && this.parsedAccept == parsedAccept
      ensures acceptCache == [] && baseUrlCache == Bool(false) && hostCache == Bool(false)
    {
      this.env := env;
      this.parsedAccept := parsedAccept;
      acceptCache := [];
      baseUrlCache := Bool(false);
      hostCache := Bool(false);
    }

    /** getHostWithPort(): computed once, then answered from the cache while
        the cached value is truthy. */
    method GetHostWithPort() returns (r: Value)
      modifies this
      ensures r == (if Empty(old(hostCache)) then HostWithPort(env) else old(hostCache))
      ensures hostCache == r
      ensures acceptCache == old(acceptCache) && baseUrlCache == old(baseUrlCache)
    {
      if Empty(hostCache) {
        hostCache := HostWithPort(env);
      }
      r := hostCache;
    }

    /** getHost() */
    method GetHost() returns (r: string)
      modifies this
      ensures r == Host(hostCache) && ':' !in r
      ensures hostCache == (if Empty(old(hostCache)) then HostWithPort(env) else old(hostCache))
      ensures acceptCache == old(acceptCache) && baseUrlCache == old(baseUrlCache)
    {
      var hp := GetHostWithPort();
      r := Host(hp);
    }

    /** getPort(), with the intended strpos() argument order. */
    method GetPort() returns (r: Value)
      modifies this
      ensures r == Port(env, hostCache)
      ensures hostCache == (if Empty(old(hostCache)) then HostWithPort(env) else old(hostCache))
      ensures acceptCache == old(acceptCache) && baseUrlCache == old(baseUrlCache)
    {
      var hp := GetHostWithPort();
      r := Port(env, hp);
    }

    /** getBaseUrl(): computed once from the host with port, then answered
        from the cache while it is truthy. */
    method GetBaseUrl() returns (r: Value)
      modifies this
      ensures !Empty(old(baseUrlCache)) ==> r == old(baseUrlCache) && hostCache == old(hostCache)
      ensures Empty(old(baseUrlCache)) ==>
                hostCache == (if Empty(old(hostCache)) then HostWithPort(env) else old(hostCache))
                && r == Str(BaseUrl(env, hostCache))
      ensures baseUrlCache == r && acceptCache == old(acceptCache)
    {
      if Empty(baseUrlCache) {
        var hp := GetHostWithPort();
        baseUrlCache := Str(BaseUrl(env, hp));
      }
      r := baseUrlCache;
    }

    /** getRequestUrl(): the base URL followed by the path. */
    method GetRequestUrl() returns (r: string)
      modifies this
      ensures r == ToStr(baseUrlCache) + Path(env)
      ensures !Empty(old(baseUrlCache)) ==> baseUrlCache == old(baseUrlCache) && hostCache == old(hostCache)
      ensures Empty(old(baseUrlCache)) ==> baseUrlCache == Str(BaseUrl(env, hostCache))
      ensures acceptCache == old(acceptCache)
    {
      var base := GetBaseUrl();
      r := ToStr(base) + Path(env);
    }

    /** getAccepts(): ['text/html'] without an Accept header, else the parsed
        types; computed while the cache is empty. */
    method GetAccepts() returns (r: seq<string>)
      modifies this
      ensures old(acceptCache) != [] ==> r == old(acceptCache)
      ensures old(acceptCache) == [] ==>
                r == (if Empty(Get(env, "HTTP_ACCEPT")) then ["text/html"] else parsedAccept)
      ensures acceptCache == r && hostCache == old(hostCache) && baseUrlCache == old(baseUrlCache)
    {
      if acceptCache == [] {
        acceptCache := if Empty(Get(env, "HTTP_ACCEPT")) then ["text/html"] else parsedAccept;
      }
      r := acceptCache;
    }

    /** negotiateMime() over the accepted types. */
    method NegotiateMime(formats: seq<string>) returns (r: Option<string>)
      modifies this
      ensures r == Negotiate(formats, acceptCache)
      ensures old(acceptCache) == [] && Empty(Get(env, "HTTP_ACCEPT")) ==> acceptCache == ["text/html"]
      ensures old(acceptCache) != [] ==> acceptCache == old(acceptCache)
      ensures hostCache == old(hostCache) && baseUrlCache == old(baseUrlCache)
    {
      var accepts := GetAccepts();
      r := Negotiate(formats, accepts);
    }
  }

  /** Without an Accept header, text/html is chosen when it is offered,
      and the first format otherwise. */
  lemma {:induction false} NegotiateDefault(formats: seq<string>)
    requires formats != []
    ensures "text/html" in formats ==> Negotiate(formats, ["text/html"]) == Some("text/html")
    ensures "text/html" !in formats ==> Negotiate(formats, ["text/html"]) == Some(formats[0])
  {
    if "text/html" in formats {
      var i :| 0 <= i < |formats| && formats[i] == "text/html";
      assert "*/*" != "text/html";
    }
  }
}

=== FILE: session.dfy ===
/*
 * The session middleware (Inject\Stack\Middleware\Session and the older
 * InjectStack\Middleware\Session) and its Bucket.
 *
 * On each request the middleware may garbage-collect the storage, reads the
 * session id with its id handler, loads the session data (or starts a new
 * session under a freshly generated id), puts a Bucket into the env under
 * its key, calls the next handler, saves the bucket, and for a new id lets
 * the id handler write it into the response.
 *
 * The next handler can call the bucket's methods while it runs; the model
 * has it return, with its reply, the list of bucket calls it made, which
 * are applied to the bucket in order once it returns. mt_rand() is an
 * oracle `rand` read through a counter of draws, except the draw of the
 * garbage-collection test, which is a parameter; time() is a parameter.
 */
module Session {
  import opened Php
  import opened Gateway
  import opened SessionStorage
  import SessionCookie

  // ---------------------------------------------------------------- session ids

  type Byte = b: int | 0 <= b < 256

  /** The base64 alphabet (section 4 of RFC 4648). */
  function Base64Char(i: nat): (c: char)
    requires i < 64
    ensures c != '=' && c != ';' && c != ' '
  {
    if i < 26 then (65 + i) as char
    else if i < 52 then (97 + i - 26) as char
    else if i < 62 then (48 + i - 52) as char
    else if i == 62 then '+'
    else '/'
  }

  /** base64_encode(): each three bytes become four characters, and a
      final one or two bytes are padded with '='. */
  function Base64(bs: seq<Byte>): (r: string)
    ensures |r| == 4 * ((|bs| + 2) / 3)
    ensures forall i | 0 <= i < |r| :: r[i] != ';' && r[i] != ' '
    decreases |bs|
  {
    if |bs| == 0 then []
    else if |bs| == 1 then
      [Base64Char(bs[0] / 4), Base64Char(bs[0] % 4 * 16), '=', '=']
    else if |bs| == 2 then
      [Base64Char(bs[0] / 4), Base64Char(bs[0] % 4 * 16 + bs[1] / 16), Base64Char(bs[1] % 16 * 4), '=']
    else
      [Base64Char(bs[0] / 4), Base64Char(bs[0] % 4 * 16 + bs[1] / 16),
       Base64Char(bs[1] % 16 * 4 + bs[2] / 64), Base64Char(bs[2] % 64)] + Base64(bs[3..])
  }

  /** A byte count that is not a multiple of three ends the encoding with
      padding. */
  lemma {:induction false} Base64Padded(bs: seq<Byte>)
    requires |bs| % 3 != 0
    ensures var r := Base64(bs); |r| > 0 && r[|r| - 1] == '='
    decreases |bs|
  {
    if |bs| > 2 {
      Base64Padded(bs[3..]);
    }
  }

  /** pack('i', $n): four bytes, least significant first, of `n` taken
      modulo 2^32. */
  function Pack32(n: int): (r: seq<Byte>)
    ensures |r| == 4
  {
    var m := n % 0x1_0000_0000;
    [m % 256, m / 0x100 % 256, m / 0x1_0000 % 256, m / 0x100_0000]
  }

  /** generateSessionId(): base64 of two packed draws of mt_rand(). */
  function SessionIdFrom(r1: int, r2: int): string {
    Base64(Pack32(r1) + Pack32(r2))
  }

  /** Every generated id is twelve characters ending in the padding '=',
      never falsy, and free of ';' and ' '. */
  lemma {:induction false} GeneratedIdShape(r1: int, r2: int)
    ensures var g := SessionIdFrom(r1, r2);
            |g| == 12 && g[11] == '=' && '=' in g && ';' !in g && ' ' !in g && Truthy(Id(g))
  {
    var g := SessionIdFrom(r1, r2);
    Base64Padded(Pack32(r1) + Pack32(r2));
    assert g[11] in g;
    assert !EmptyStr(g) by {
      assert |g| != 0 && |g| != 1;
    }
  }

  /** As written, the id handler can never hand back a generated id: the
      value it returns never holds '=' and every generated id does. */
  lemma {:induction false} GeneratedIdNeverFetchedAsWritten(name: string, env: Env, r1: int, r2: int)
    ensures SessionCookie.FetchedAsWritten(name, env) != Id(SessionIdFrom(r1, r2))
  {
    SessionCookie.AsWrittenValueHasNoEquals(name, env);
    GeneratedIdShape(r1, r2);
  }

  /** As intended, a generated id sent back as the only cookie is found. */
  lemma {:induction false} GeneratedIdFetched(name: string, env: Env, r1: int, r2: int)
    requires name != [] && '=' !in name && ';' !in name && name[0] != ' '
    requires Get(env, "HTTP_COOKIE") == Str(name + "=" + SessionIdFrom(r1, r2))
    ensures SessionCookie.Fetched(name, env) == Id(SessionIdFrom(r1, r2))
  {
    var g := SessionIdFrom(r1, r2);
    GeneratedIdShape(r1, r2);
    assert [] + [name + "=" + g] + [] == [name + "=" + g];
    assert SessionCookie.CookieHeader([name + "=" + g]) == name + "=" + g;
    SessionCookie.FetchFindsStoredId(name, g, [], [], env);
  }

  // ---------------------------------------------------------------- the model

  /** What the bucket holds: its id (false once destroyed), its contents,
      and whether the id still has to be sent to the client. */
  datatype BucketState = BucketState(id: SessionId, data: Data, isNew: bool)

  /** A call the next handler makes on the bucket. */
  datatype BucketOp =
    | Write(key: string, value: Value)   // $bucket[$key] = $value
    | Unset(key: string)                 // unset($bucket[$key])
    | Clear                              // clearSession()
    | Rename(newId: SessionId)           // setId()
    | Invalidate(keepData: bool)         // invalidateSession()
    | Destroy                            // destroySession()

  /** A call on the storage, in the order made. */
  datatype StorageCall = Collected | Loaded(id: SessionId) | Saved(id: SessionId) | Destroyed(id: SessionId)

  /** The storage's arrays, the number of mt_rand() draws so far, and the
      storage calls made. */
  datatype World = World(time: map<string, int>, data: map<string, Data>, drawn: nat, calls: seq<StorageCall>)

  /** Which of the two classes saves the bucket: the newer one skips a
      destroyed bucket, the older one saves unconditionally. */
  datatype SaveRule = SaveUnlessDestroyed | SaveAlways

  /** The next handler: given the env and the bucket, its reply and the
      bucket calls it made. */
  type Handler = (Env, BucketState) -> (Reply, seq<BucketOp>)

  /** Everything fixed at construction. */
  datatype Settings = Settings(
    rand: nat -> int,
    fetch: Env -> SessionId,
    store: (SessionId, Response) -> Response,
    sessKey: string,
    gcProbability: int,
    rule: SaveRule)

  /** The id generated from draws `k` and `k + 1`. */
  function GeneratedAt(rand: nat -> int, k: nat): SessionId {
    Id(SessionIdFrom(rand(k), rand(k + 1)))
  }

  /** storage->destroySession($id) */
  function DestroyIn(w: World, id: SessionId): (r: World)
    ensures Key(id) !in r.time && Key(id) !in r.data
    ensures r.drawn == w.drawn && r.calls == w.calls + [Destroyed(id)]
  {
    World(w.time - {Key(id)}, w.data - {Key(id)}, w.drawn, w.calls + [Destroyed(id)])
  }

  /** A fresh session: a generated id, no data, new. */
  function Fresh(rand: nat -> int, w: World): (BucketState, World) {
    (BucketState(GeneratedAt(rand, w.drawn), [], true), w.(drawn := w.drawn + 2))
  }

  /** One bucket call. invalidateSession() destroys the old id in the
      storage, then sets a generated one, then empties the data unless told
      to keep it; destroySession() destroys it and sets the id to false,
      then empties the data. Setting an id always marks the bucket new. */
  function Step(rand: nat -> int, s: (BucketState, World), op: BucketOp): (BucketState, World) {
    var (b, w) := s;
    match op
    case Write(k, v) => (b.(data := Put(b.data, k, v)), w)
    case Unset(k) => (b.(data := Remove(b.data, k)), w)
    case Clear => (b.(data := []), w)
    case Rename(id) => (b.(id := id, isNew := true), w)
    case Invalidate(keep) =>
      var w1 := DestroyIn(w, b.id);
      (BucketState(GeneratedAt(rand, w1.drawn), if keep then b.data else [], true), w1.(drawn := w1.drawn + 2))
    case Destroy => (BucketState(NoId, [], true), DestroyIn(w, b.id))
  }

  function Replay(rand: nat -> int, s: (BucketState, World), ops: seq<BucketOp>): (BucketState, World)
    decreases |ops|
  {
    if ops == [] then s else Step(rand, Replay(rand, s, ops[..|ops| - 1]), ops[|ops| - 1])
  }

  /** The garbage-collection test: mt_rand(1, gc_divisor) <= gc_probability. */
  predicate CollectsGarbage(s: Settings, gcDraw: int) {
    gcDraw <= s.gcProbability
  }

  function Collect(w: World, now: int, maxAge: int): (r: World)
    ensures r.time == Unexpired(w.time, now, maxAge) && r.drawn == w.drawn && r.calls == w.calls + [Collected]
  {
    var t := Unexpired(w.time, now, maxAge);
    World(t, Restrict(w.data, t.Keys), w.drawn, w.calls + [Collected])
  }

  /** The storage after the garbage-collection test. */
  function Swept(s: Settings, gcDraw: int, now: int, maxAge: int, w: World): World {
    if CollectsGarbage(s, gcDraw) then Collect(w, now, maxAge) else w
  }

  /** The id and the load: a falsy id, or one the storage does not know,
      starts a fresh session. */
  function Begin(s: Settings, env: Env, w: World): (BucketState, World) {
    var id := s.fetch(env);
    if !Truthy(id) then Fresh(s.rand, w)
    else
      var w1 := w.(calls := w.calls + [Loaded(id)]);
      if Key(id) in w.data then (BucketState(id, w.data[Key(id)], false), w1)
      else Fresh(s.rand, w1)
  }

  /** Everything before the next handler: garbage collection, the id, the
      load, the bucket. */
  function Open(s: Settings, env: Env, gcDraw: int, now: int, maxAge: int, w: World): (BucketState, World) {
    Begin(s, env, Swept(s, gcDraw, now, maxAge, w))
  }

  /** Whether the bucket is saved after the next handler. */
  predicate Saves(rule: SaveRule, b: BucketState) {
    rule == SaveAlways || b.id != NoId
  }

  /** Everything after the next handler: the save, then the id handler for a
      new id. */
  function Close(s: Settings, b: BucketState, w: World, reply: Reply, now: int): (Reply, World) {
    var w1 := if Saves(s.rule, b)
              then World(w.time[Key(b.id) := now], w.data[Key(b.id) := b.data], w.drawn, w.calls + [Saved(b.id)])
              else w;
    var r := if b.isNew && reply.Some? then Some(s.store(b.id, reply.value)) else reply;
    (r, w1)
  }

  /** The env the next handler sees: the bucket (an ArrayObject) under the
      session key. */
  function BucketEnv(s: Settings, env: Env): Env {
    env[s.sessKey := Obj(None, true)]
  }

  /** __invoke(): the reply and the storage afterwards. */
  function Handle(s: Settings, next: Handler, env: Env, gcDraw: int, now: int, maxAge: int, w: World): (Reply, World) {
    var start := Open(s, env, gcDraw, now, maxAge, w);
    var answer := next(BucketEnv(s, env), start.0);
    var after := Replay(s.rand, start, answer.1);
    Close(s, after.0, after.1, answer.0, now)
  }

  // ---------------------------------------------------------------- properties

  /** A falsy id starts a fresh session without asking the storage. */
  lemma {:induction false} FalsyIdStartsFresh(s: Settings, env: Env, gcDraw: int, now: int, maxAge: int, w: World)
    requires !Truthy(s.fetch(env)) && !CollectsGarbage(s, gcDraw)
    ensures Open(s, env, gcDraw, now, maxAge, w) ==
            (BucketState(GeneratedAt(s.rand, w.drawn), [], true), w.(drawn := w.drawn + 2))
  {
  }

  /** An id the storage does not know starts a fresh session after one
      load; a known id resumes its data, not new, and draws nothing. */
  lemma {:induction false} LoadDecides(s: Settings, env: Env, gcDraw: int, now: int, maxAge: int, w: World)
    requires Truthy(s.fetch(env)) && !CollectsGarbage(s, gcDraw)
    ensures var id := s.fetch(env);
            var (b, w1) := Open(s, env, gcDraw, now, maxAge, w);
            && w1.calls == w.calls + [Loaded(id)]
            && (Key(id) in w.data ==> b == BucketState(id, w.data[Key(id)], false) && w1.drawn == w.drawn)
            && (Key(id) !in w.data ==> b == BucketState(GeneratedAt(s.rand, w.drawn), [], true) && w1.drawn == w.drawn + 2)
  {
  }

  /** Only a new bucket's id reaches the id handler; otherwise the reply is
      the next handler's. The newer class saves every bucket but a
      destroyed one, the older class every bucket. */
  lemma {:induction false} CloseRules(s: Settings, b: BucketState, w: World, reply: Reply, now: int)
    ensures var (r, w1) := Close(s, b, w, reply, now);
            && (!b.isNew ==> r == reply)
            && (b.isNew && reply.Some? ==> r == Some(s.store(b.id, reply.value)))
            && (w1.calls == w.calls + [Saved(b.id)] <==> (s.rule == SaveAlways || b.id != NoId))
            && (Saves(s.rule, b) ==> Key(b.id) in w1.data && w1.data[Key(b.id)] == b.data)
  {
    var w1 := Close(s, b, w, reply, now).1;
    if !Saves(s.rule, b) {
      assert |w1.calls| == |w.calls|;
    }
  }

  /** invalidateSession() destroys the old id before the new one is drawn,
      and the bucket comes out new; destroySession() leaves id false. */
  lemma {:induction false} InvalidateOrder(rand: nat -> int, b: BucketState, w: World, keep: bool)
    ensures var (b1, w1) := Step(rand, (b, w), Invalidate(keep));
            && w1.calls == w.calls + [Destroyed(b.id)]
            && b1.id == GeneratedAt(rand, w.drawn) && b1.isNew && w1.drawn == w.drawn + 2
            && b1.data == (if keep then b.data else [])
            && Key(b.id) !in w1.data
    ensures var (b2, w2) := Step(rand, (b, w), Destroy);
            && w2.calls == w.calls + [Destroyed(b.id)]
            && b2 == BucketState(NoId, [], true) && w2.drawn == w.drawn
  {
  }

  /** The newer class never saves a bucket the handler destroyed last; the
      older one saves it under key "0", where false lands. */
  lemma {:induction false} DestroyedLast(s: Settings, next: Handler, env: Env, gcDraw: int, now: int, maxAge: int,
                                         w: World)
    requires var ops := next(BucketEnv(s, env), Open(s, env, gcDraw, now, maxAge, w).0).1;
             ops != [] && ops[|ops| - 1] == Destroy
    ensures var start := Open(s, env, gcDraw, now, maxAge, w);
            var answer := next(BucketEnv(s, env), start.0);
            var after := Replay(s.rand, start, answer.1);
            var (r, w1) := Handle(s, next, env, gcDraw, now, maxAge, w);
            && after.0 == BucketState(NoId, [], true)
            && (s.rule == SaveUnlessDestroyed ==> w1.data == after.1.data && w1.calls == after.1.calls)
            && (s.rule == SaveAlways ==> w1.data == after.1.data["0" := []])
            && (answer.0.Some? ==> r == Some(s.store(NoId, answer.0.value)))
  {
  }

  /** How many of the draws 1..n collect garbage. */
  function CollectingDraws(s: Settings, n: nat): (r: nat)
    ensures r <= n
  {
    if n == 0 then 0 else CollectingDraws(s, n - 1) + (if CollectsGarbage(s, n) then 1 else 0)
  }

  /** Of the gc_divisor equally likely draws of mt_rand(1, gc_divisor),
      exactly gc_probability collect (none when it is not positive, all
      when it reaches the divisor): the odds are gc_probability/gc_divisor. */
  lemma {:induction false} CollectionOdds(s: Settings, gcDivisor: nat)
    ensures CollectingDraws(s, gcDivisor) ==
              if s.gcProbability <= 0 then 0
              else if s.gcProbability >= gcDivisor then gcDivisor
              else s.gcProbability
  {
    if gcDivisor > 0 {
      CollectionOdds(s, gcDivisor - 1);
    }
  }

  /** The session round trip, as intended: a session started on one
      request, whose id the client sends back as its only cookie, is
      resumed with its saved data on the next. */
  lemma {:induction false} ResumesAsIntended(s: Settings, name: string, env: Env, gcDraw: int, now: int, maxAge: int,
                                             w: World, r1: int, r2: int)
    requires s.fetch == ((e: Env) => SessionCookie.Fetched(name, e))
    requires name != [] && '=' !in name && ';' !in name && name[0] != ' '
    requires Get(env, "HTTP_COOKIE") == Str(name + "=" + SessionIdFrom(r1, r2))
    requires Key(Id(SessionIdFrom(r1, r2))) in w.data && !CollectsGarbage(s, gcDraw)
    ensures Open(s, env, gcDraw, now, maxAge, w).0 ==
            BucketState(Id(SessionIdFrom(r1, r2)), w.data[SessionIdFrom(r1, r2)], false)
  {
    GeneratedIdFetched(name, env, r1, r2);
    GeneratedIdShape(r1, r2);
  }

  /** The same round trip as written: the id is never read back, so every
      request starts a new session and its saved data is never seen. */
  lemma {:induction false} NeverResumesAsWritten(s: Settings, name: string, env: Env, gcDraw: int, now: int,
                                                 maxAge: int, w: World)
    requires s.fetch == ((e: Env) => SessionCookie.FetchedAsWritten(name, e))
    requires forall k | k in w.data :: exists r1: int, r2: int :: k == SessionIdFrom(r1, r2)
    ensures Open(s, env, gcDraw, now, maxAge, w).0.isNew
  {
    var id := SessionCookie.FetchedAsWritten(name, env);
    if Truthy(id) && Key(id) in w.data {
      var w1 := if CollectsGarbage(s, gcDraw) then Collect(w, now, maxAge) else w;
      if Key(id) in w1.data {
        var r1: int, r2: int :| Key(id) == SessionIdFrom(r1, r2);
        GeneratedIdNeverFetchedAsWritten(name, env, r1, r2);
        assert false;
      }
    }
  }

  // ---------------------------------------------------------------- the objects

  /** Inject\Stack\Middleware\Session\Bucket: an ArrayObject with an id and
      a new flag, bound to the middleware that made it. */
  class Bucket {
    const session: SessionMiddleware
    /** $id */
    var id: SessionId
    /** the ArrayObject contents */
    var data: Data
    /** $new */
    var isNew: bool

    constructor (session: SessionMiddleware, id: SessionId, data: Data, isNew: bool)
      ensures this.session == session && this.id == id && this.data == data && this.isNew == isNew
    {
      this.session := session;
      this.id := id;
      this.data := data;
      this.isNew := isNew;
    }

    function State(): BucketState
      reads this
    {
      BucketState(id, data, isNew)
    }

    /** setId(): the id changes and the bucket becomes new. */
    method SetId(id: SessionId)
      modifies this
      ensures this.id == id && isNew && data == old(data)
    {
      this.id := id;
      isNew := true;
    }

    /** getId(): reads the id and changes nothing. */
    method GetId() returns (r: SessionId)
      ensures r == id
    {
      r := id;
    }

    /** isNew(): reads the flag and changes nothing. */
    method IsNew() returns (r: bool)
      ensures r == isNew
    {
      r := isNew;
    }

    /** clearSession(): exchangeArray(array()). */
    method ClearSession()
      modifies this
      ensures data == [] && id == old(id) && isNew == old(isNew)
    {
      data := [];
    }

    /** offsetSet() */
    method Assign(key: string, value: Value)
      modifies this
      ensures data == Put(old(data), key, value) && id == old(id) && isNew == old(isNew)
    {
      data := Put(data, key, value);
    }

    /** offsetUnset() */
    method Unassign(key: string)
      modifies this
      ensures data == Remove(old(data), key) && id == old(id) && isNew == old(isNew)
    {
      data := Remove(data, key);
    }

    /** invalidateSession(): the middleware replaces the id, then the data
        goes unless kept. */
    method InvalidateSession(keepData: bool)
      requires session.Valid()
      modifies this, session, session.storage
      ensures session.Valid() && session.next == old(session.next)
      ensures (State(), session.WorldOf()) == Step(session.rand, (old(State()), old(session.WorldOf())), Invalidate(keepData))
    {
      session.InvalidateSession(this);
      if !keepData {
        ClearSession();
      }
    }

    /** destroySession(): the middleware destroys the session, then the data
        goes. */
    method DestroySession()
      requires session.Valid()
      modifies this, session, session.storage
      ensures session.Valid() && session.next == old(session.next)
      ensures (State(), session.WorldOf()) == Step(session.rand, (old(State()), old(session.WorldOf())), Destroy)
    {
      session.DestroySession(this);
      ClearSession();
    }

    /** One call the next handler makes. */
    method Apply(op: BucketOp)
      requires session.Valid()
      modifies this, session, session.storage
      ensures session.Valid() && session.next == old(session.next)
      ensures (State(), session.WorldOf()) == Step(session.rand, (old(State()), old(session.WorldOf())), op)
    {
      match op
      case Write(k, v) => Assign(k, v);
      case Unset(k) => Unassign(k);
      case Clear => ClearSession();
      case Rename(newId) => SetId(newId);
      case Invalidate(keep) => InvalidateSession(keep);
      case Destroy => DestroySession();
    }
  }

  /** Inject\Stack\Middleware\Session, and with `SaveAlways` the older
      InjectStack\Middleware\Session. */
  class SessionMiddleware {
    const storage: ArrayStorage
    /** The id handler's fetchUserId() and storeUserId(). */
    const fetch: Env -> SessionId
    const store: (SessionId, Response) -> Response
    /** The successive values of mt_rand(). */
    const rand: nat -> int
    /** $sess_key */
    const sessKey: string
    /** $options['gc_probability'] and $options['gc_divisor'] */
    const gcProbability: int
    const gcDivisor: int
    const rule: SaveRule
    /** $next; None until setNext() is called. */
    var next: Option<Handler>
    /** How many values of mt_rand() have been used. */
    var drawn: nat
    /** The storage calls made so far. */
    var calls: seq<StorageCall>

    /** The options array merged over the defaults: an empty `key` option
        gives 'inject.session', and gc_probability and gc_divisor default to
        1 and 100. */
    constructor (storage: ArrayStorage, fetch: Env -> SessionId, store: (SessionId, Response) -> Response,
                 rand: nat -> int, options: seq<(string, Value)>, rule: SaveRule)
      ensures this.storage == storage && this.fetch == fetch && this.store == store && this.rand == rand
      ensures sessKey == SessionKey(options)
      ensures gcProbability == ToInt(OptionValue(ArrayMerge(SessionDefaults, options), "gc_probability"))
      ensures gcDivisor == ToInt(OptionValue(ArrayMerge(SessionDefaults, options), "gc_divisor"))
      ensures this.rule == rule && next == None && drawn == 0 && calls == []
    {
      this.storage := storage;
      this.fetch := fetch;
      this.store := store;
      this.rand := rand;
      sessKey := SessionKey(options);
      var merged := ArrayMerge(SessionDefaults, options);
      gcProbability := ToInt(OptionValue(merged, "gc_probability"));
      gcDivisor := ToInt(OptionValue(merged, "gc_divisor"));
      this.rule := rule;
      next := None;
      drawn := 0;
      calls := [];
    }

    predicate Valid()
      reads this, storage
    {
      storage.Valid()
    }

    function WorldOf(): World
      reads this, storage
    {
      World(storage.time, storage.data, drawn, calls)
    }

    function Config(): Settings {
      Settings(rand, fetch, store, sessKey, gcProbability, rule)
    }

    /** setNext() */
    method SetNext(next: Handler)
      modifies this
      ensures this.next == Some(next) && drawn == old(drawn) && calls == old(calls)
    {
      this.next := Some(next);
    }

    /** generateSessionId(): uses the next two draws. */
    method GenerateSessionId() returns (id: string)
      modifies this
      ensures id == SessionIdFrom(rand(old(drawn)), rand(old(drawn) + 1))
      ensures drawn == old(drawn) + 2 && calls == old(calls) && next == old(next)
    {
      id := SessionIdFrom(rand(drawn), rand(drawn + 1));
      drawn := drawn + 2;
    }

    /** invalidateSession(): destroys the old id, then gives the bucket a
        generated one. */
    method InvalidateSession(b: Bucket)
      requires Valid()
      modifies this, storage, b
      ensures Valid() && next == old(next)
      ensures (b.State(), WorldOf()) == Step(rand, (old(b.State()), old(WorldOf())), Invalidate(true))
    {
      storage.DestroySession(b.id);
      calls := calls + [Destroyed(b.id)];
      var id := GenerateSessionId();
      b.SetId(Id(id));
    }

    /** destroySession(): destroys the id, then sets it to false. */
    method DestroySession(b: Bucket)
      requires Valid()
      modifies this, storage, b
      ensures Valid() && next == old(next)
      ensures WorldOf() == DestroyIn(old(WorldOf()), old(b.id))
      ensures b.State() == BucketState(NoId, old(b.data), true)
    {
      storage.DestroySession(b.id);
      calls := calls + [Destroyed(b.id)];
      b.SetId(NoId);
    }

    /** The bucket calls of the next handler, in order. */
    method ReplayOps(b: Bucket, ops: seq<BucketOp>)
      requires b.session == this && Valid()
      modifies this, storage, b
      ensures Valid() && next == old(next)
      ensures (b.State(), WorldOf()) == Replay(rand, (old(b.State()), old(WorldOf())), ops)
    {
      var i := 0;
      while i < |ops|
        invariant 0 <= i <= |ops| && Valid() && next == old(next)
        invariant (b.State(), WorldOf()) == Replay(rand, (old(b.State()), old(WorldOf())), ops[..i])
      {
        b.Apply(ops[i]);
        assert ops[..i + 1][..i] == ops[..i];
        i := i + 1;
      }
      assert ops[..i] == ops;
    }

    /** The garbage-collection test and the collection. */
    method Sweep(gcDraw: int, now: int)
      requires Valid()
      modifies this, storage
      ensures Valid() && next == old(next) && storage.maxAge == old(storage.maxAge)
      ensures WorldOf() == Swept(Config(), gcDraw, now, old(storage.maxAge), old(WorldOf()))
    {
      if gcDraw <= gcProbability {
        storage.GarbageCollect(now);
        calls := calls + [Collected];
      }
    }

    /** The id and the load, then the bucket. */
    method BeginBucket(env: Env) returns (bucket: Bucket)
      requires Valid()
      modifies this, storage
      ensures Valid() && next == old(next) && storage.maxAge == old(storage.maxAge)
      ensures fresh(bucket) && bucket.session == this
      ensures (bucket.State(), WorldOf()) == Begin(Config(), env, old(WorldOf()))
    {
      var id := fetch(env);
      var data: Data := [];
      var isNew := false;
      if !Truthy(id) {
        isNew := true;
        var g := GenerateSessionId();
        id := Id(g);
      } else {
        var loaded := storage.LoadSession(env, id);
        calls := calls + [Loaded(id)];
        if loaded.None? {
          isNew := true;
          var g := GenerateSessionId();
          id := Id(g);
        } else {
          data := loaded.value;
        }
      }
      bucket := new Bucket(this, id, data, isNew);
    }

    /** The end of __invoke(): the save, then the id handler for a new id. */
    method CloseBucket(bucket: Bucket, reply: Reply, now: int) returns (r: Reply)
      requires Valid()
      modifies this, storage
      ensures Valid() && next == old(next)
      ensures (r, WorldOf()) == Close(Config(), bucket.State(), old(WorldOf()), reply, now)
    {
      if rule == SaveAlways || bucket.id != NoId {
        storage.SaveSession(bucket.id, bucket.data, now);
        calls := calls + [Saved(bucket.id)];
      }
      r := reply;
      if bucket.isNew && r.Some? {
        r := Some(store(bucket.id, r.value));
      }
    }

    /** __invoke(). `gcDraw` is the value of mt_rand(1, gc_divisor) and
        `now` the value of time(). */
    method Invoke(env: Env, gcDraw: int, now: int) returns (r: Reply)
      requires Valid() && next.Some? && 1 <= gcDraw <= gcDivisor
      modifies this, storage
      ensures Valid() && next == old(next)
      ensures (r, WorldOf()) == Handle(Config(), next.value, env, gcDraw, now, old(storage.maxAge), old(WorldOf()))
    {
      Sweep(gcDraw, now);
      var bucket := BeginBucket(env);
      var answer := next.value(BucketEnv(Config(), env), bucket.State());
      ReplayOps(bucket, answer.1);
      r := CloseBucket(bucket, answer.0, now);
    }
  }

  // ---------------------------------------------------------------- options

  /** array_merge() of two string-keyed arrays: a later value overwrites in
      place, a new key is appended. */
  function ArrayMerge<V>(a: seq<(string, V)>, b: seq<(string, V)>): seq<(string, V)>
    decreases |b|
  {
    if b == [] then a else ArrayMerge(Put(a, b[0].0, b[0].1), b[1..])
  }

  /** A merged option is the last given value for its key, else the
      default. */
  lemma {:induction false} LookupMerge<V>(a: seq<(string, V)>, b: seq<(string, V)>, k: string)
    requires UniqueKeys(b)
    ensures Lookup(ArrayMerge(a, b), k) == if k in Keys(b) then Lookup(b, k) else Lookup(a, k)
    decreases |b|
  {
    if b != [] {
      UniqueRest(b);
      LookupMerge(Put(a, b[0].0, b[0].1), b[1..], k);
      LookupPut(a, b[0].0, b[0].1, k);
      LookupFirst(b, k);
    }
  }

  /** The keys after the first of a unique-keyed array are unique and do
      not hold the first key; a key is among them or is the first. */
  lemma {:induction false} UniqueRest<V>(b: seq<(string, V)>)
    requires UniqueKeys(b) && b != []
    ensures UniqueKeys(b[1..]) && b[0].0 !in Keys(b[1..])
    ensures forall k :: k in Keys(b) <==> k == b[0].0 || k in Keys(b[1..])
  {
    assert Keys(b) == [b[0].0] + Keys(b[1..]);
    forall j | 0 <= j < |b[1..]| ensures b[1..][j].0 != b[0].0 {
      assert b[1..][j] == b[j + 1];
    }
    forall i, j | 0 <= i < j < |b[1..]| ensures b[1..][i].0 != b[1..][j].0 {
      assert b[1..][i] == b[i + 1] && b[1..][j] == b[j + 1];
    }
  }

  lemma {:induction false} LookupFirst<V>(b: seq<(string, V)>, k: string)
    requires b != []
    ensures Lookup(b, k) == if b[0].0 == k then Some(b[0].1) else Lookup(b[1..], k)
  {
  }

  /** `$options[$k]`, null when absent. */
  function OptionValue(options: seq<(string, Value)>, k: string): Value {
    Lookup(options, k).GetOr(Null)
  }

  const SessionDefaults: seq<(string, Value)> := [("gc_probability", Int(1)), ("gc_divisor", Int(100))]

  const DefaultSessionKey := "inject.session"

  /** empty($options['key']) ? 'inject.session' : $options['key'] */
  function SessionKey(options: seq<(string, Value)>): (k: string)
    ensures Empty(OptionValue(options, "key")) ==> k == DefaultSessionKey
    ensures !Empty(OptionValue(options, "key")) ==> k == ToStr(OptionValue(options, "key"))
  {
    var v := OptionValue(options, "key");
    if Empty(v) then DefaultSessionKey else ToStr(v)
  }
}

=== FILE: session_cookie.dfy ===
/*
 * Inject\Stack\Middleware\Session\Mongrel2CookieIdHandler: reads the session
 * id from the Cookie request header (HTTP_COOKIE in the env) and writes it
 * back in a Set-Cookie response header, followed by the cookie options the
 * constructor collected.
 *
 * The Cookie header a client sends back is the cookie pairs joined by "; "
 * (section 5.4 of RFC 6265). The handler splits it on ';' alone and keeps
 * the space in front of every later pair, and it splits each pair on every
 * '='; both are modelled as written (FetchedAsWritten) and corrected
 * (Fetched).
 */
module SessionCookie {
  import opened Php
  import opened Gateway
  import opened SessionStorage

  const DefaultCookieName := "InjectFw"

  /** An entry of `$cookie_options`: a string key with its value, or a
      value under an integer key, which is written bare. */
  datatype CookieOption = Attribute(name: string, value: string) | Flag(text: string)

  /** The position each option the constructor can add takes. */
  function Rank(o: CookieOption): nat {
    match o
    case Attribute(n, _) => if n == "Expires" then 0 else if n == "Domain" then 1 else 2
    case Flag(t) => if t == "Secure" then 3 else 4
  }

  predicate KnownOption(o: CookieOption) {
    o.Attribute? ==> o.name in {"Expires", "Domain", "Path"}
  }

  /** `empty($v) OR $options[] = $o`, one step of the constructor. */
  function AddUnlessEmpty(opts: seq<CookieOption>, v: Value, o: CookieOption): (r: seq<CookieOption>)
    ensures forall x :: x in r <==> x in opts || (!Empty(v) && x == o)
  {
    if Empty(v) then opts else opts + [o]
  }

  /** The options the constructor collects: one per argument that is not
      empty(), in the order Expires, Domain, Path, Secure, HttpOnly.
      `date` stands for date(DATE_RFC822, ...). */
  function OptionsFor(expires: Value, path: Value, domain: Value, secureOnly: Value, httpOnly: Value,
                      date: Value -> string): seq<CookieOption>
  {
    AddUnlessEmpty(AddUnlessEmpty(AddUnlessEmpty(AddUnlessEmpty(AddUnlessEmpty(
      [], expires, Attribute("Expires", date(expires))),
      domain, Attribute("Domain", ToStr(domain))),
      path, Attribute("Path", ToStr(path))),
      secureOnly, Flag("Secure")),
      httpOnly, Flag("HttpOnly"))
  }

  /** Options ordered by rank: each kind at most once, in constructor order. */
  predicate Ranked(opts: seq<CookieOption>) {
    forall i, j | 0 <= i < j < |opts| :: Rank(opts[i]) < Rank(opts[j])
  }

  lemma {:induction false} AddRanked(opts: seq<CookieOption>, v: Value, o: CookieOption)
    requires Ranked(opts) && forall x | x in opts :: Rank(x) < Rank(o)
    ensures Ranked(AddUnlessEmpty(opts, v, o))
    ensures forall x | x in AddUnlessEmpty(opts, v, o) :: Rank(x) <= Rank(o)
  {
  }

  /** Each option is present exactly when its argument is not empty(). */
  lemma {:induction false} OptionsForMembers(expires: Value, path: Value, domain: Value, secureOnly: Value, httpOnly: Value,
                                             date: Value -> string)
    ensures var r := OptionsFor(expires, path, domain, secureOnly, httpOnly, date);
      && (Attribute("Expires", date(expires)) in r <==> !Empty(expires))
      && (Attribute("Domain", ToStr(domain)) in r <==> !Empty(domain))
      && (Attribute("Path", ToStr(path)) in r <==> !Empty(path))
      && (Flag("Secure") in r <==> !Empty(secureOnly))
      && (Flag("HttpOnly") in r <==> !Empty(httpOnly))
  {
    OptionsDistinct(date(expires), ToStr(domain), ToStr(path));
    ChainMembers(OptionsFor(expires, path, domain, secureOnly, httpOnly, date),
                 Attribute("Expires", date(expires)), Attribute("Domain", ToStr(domain)), Attribute("Path", ToStr(path)),
                 Flag("Secure"), Flag("HttpOnly"), expires, domain, path, secureOnly, httpOnly);
  }

  lemma {:induction false} OptionsDistinct(x: string, y: string, z: string)
    ensures Attribute("Expires", x) != Attribute("Domain", y) && Attribute("Expires", x) != Attribute("Path", z)
            && Attribute("Domain", y) != Attribute("Path", z) && Flag("Secure") != Flag("HttpOnly")
  {
    assert "Expires"[0] != "Domain"[0] && "Expires"[0] != "Path"[0] && "Domain"[0] != "Path"[0];
    assert "Secure"[0] != "HttpOnly"[0];
  }

  /** Five distinct options added in turn: each is present exactly when its
      value is not empty(). */
  lemma {:induction false} ChainMembers(r: seq<CookieOption>, a: CookieOption, b: CookieOption, c: CookieOption, d: CookieOption,
                                        e: CookieOption, va: Value, vb: Value, vc: Value, vd: Value, ve: Value)
    requires a != b && a != c && a != d && a != e && b != c && b != d && b != e && c != d && c != e && d != e
    requires r == AddUnlessEmpty(AddUnlessEmpty(AddUnlessEmpty(AddUnlessEmpty(AddUnlessEmpty([], va, a), vb, b), vc, c), vd, d), ve, e)
    ensures (a in r <==> !Empty(va)) && (b in r <==> !Empty(vb)) && (c in r <==> !Empty(vc))
            && (d in r <==> !Empty(vd)) && (e in r <==> !Empty(ve))
  {
  }

  /** The options come in the order Expires, Domain, Path, Secure, HttpOnly,
      each at most once, and no other key occurs. */
  lemma {:induction false} OptionsForRanked(expires: Value, path: Value, domain: Value, secureOnly: Value, httpOnly: Value,
                                            date: Value -> string)
    ensures Ranked(OptionsFor(expires, path, domain, secureOnly, httpOnly, date))
    ensures forall o | o in OptionsFor(expires, path, domain, secureOnly, httpOnly, date) :: KnownOption(o)
  {
    var e := Attribute("Expires", date(expires));
    var d := Attribute("Domain", ToStr(domain));
    var p := Attribute("Path", ToStr(path));
    assert Rank(e) == 0 && Rank(d) == 1 by {
      assert "Domain"[0] != "Expires"[0];
    }
    assert Rank(p) == 2 by {
      assert "Path"[0] != "Expires"[0] && "Path"[0] != "Domain"[0];
    }
    assert Rank(Flag("Secure")) == 3 && Rank(Flag("HttpOnly")) == 4 by {
      assert "HttpOnly"[0] != "Secure"[0];
    }
    var o1 := AddUnlessEmpty([], expires, e);
    var o2 := AddUnlessEmpty(o1, domain, d);
    var o3 := AddUnlessEmpty(o2, path, p);
    var o4 := AddUnlessEmpty(o3, secureOnly, Flag("Secure"));
    AddRanked([], expires, e);
    AddRanked(o1, domain, d);
    AddRanked(o2, path, p);
    AddRanked(o3, secureOnly, Flag("Secure"));
    AddRanked(o4, httpOnly, Flag("HttpOnly"));
  }

  /** The first entry with string key `n`. */
  function IndexOfName(es: seq<CookieOption>, n: string): (r: Option<nat>)
    ensures r.Some? ==> r.value < |es| && es[r.value].Attribute? && es[r.value].name == n
    ensures r.None? ==> forall i | 0 <= i < |es| :: !(es[i].Attribute? && es[i].name == n)
  {
    if es == [] then None
    else if es[0].Attribute? && es[0].name == n then Some(0)
    else match IndexOfName(es[1..], n)
      case None => None
      case Some(i) => Some(i + 1)
  }

  /** array_merge() of the entries with one more: a string key already
      present is overwritten in place, anything else is appended. */
  function MergeOne(es: seq<CookieOption>, o: CookieOption): seq<CookieOption> {
    match o
    case Flag(_) => es + [o]
    case Attribute(n, _) =>
      match IndexOfName(es, n)
      case Some(i) => es[i := o]
      case None => es + [o]
  }

  function Merge(es: seq<CookieOption>, opts: seq<CookieOption>): seq<CookieOption>
    decreases |opts|
  {
    if opts == [] then es else Merge(MergeOne(es, opts[0]), opts[1..])
  }

  /** The id as a string: false concatenates as "". */
  function IdText(id: SessionId): string {
    match id
    case Id(s) => s
    case NoId => ""
  }

  /** One piece of the header: `k=v`, or `v` alone for a numeric key. */
  function Render(o: CookieOption): string {
    match o
    case Attribute(k, v) => if IsNumeric(k) then v else k + "=" + v
    case Flag(t) => t
  }

  function RenderAll(es: seq<CookieOption>): (r: seq<string>)
    ensures |r| == |es|
    ensures forall i | 0 <= i < |es| :: r[i] == Render(es[i])
  {
    seq(|es|, i requires 0 <= i < |es| => Render(es[i]))
  }

  /** The Set-Cookie value storeUserId() writes. */
  function SetCookie(name: string, opts: seq<CookieOption>, id: SessionId): string {
    Implode("; ", RenderAll(Merge([Attribute(name, IdText(id))], opts)))
  }

  /** storeUserId(): the response with its Set-Cookie header set. */
  function Stored(name: string, opts: seq<CookieOption>, id: SessionId, resp: Response): (r: Response)
    ensures r.status == resp.status && r.body == resp.body
    ensures Lookup(r.headers, "Set-Cookie") == Some(SetCookie(name, opts, id))
    ensures forall k | k != "Set-Cookie" :: Lookup(r.headers, k) == Lookup(resp.headers, k)
    ensures Keys(r.headers) == if "Set-Cookie" in Keys(resp.headers) then Keys(resp.headers)
                               else Keys(resp.headers) + ["Set-Cookie"]
  {
    var h := Put(resp.headers, "Set-Cookie", SetCookie(name, opts, id));
    LookupPut(resp.headers, "Set-Cookie", SetCookie(name, opts, id), "Set-Cookie");
    forall k | k != "Set-Cookie" ensures Lookup(h, k) == Lookup(resp.headers, k) {
      LookupPut(resp.headers, "Set-Cookie", SetCookie(name, opts, id), k);
    }
    PutKeepsKeyOrder(resp.headers, "Set-Cookie", SetCookie(name, opts, id));
    Response(resp.status, h, resp.body)
  }

  // ---------------------------------------------------------------- merging

  /** No option has the cookie name as its key, and no two share a key. */
  predicate NoClash(name: string, opts: seq<CookieOption>) {
    (forall i | 0 <= i < |opts| :: opts[i].Attribute? ==> opts[i].name != name) &&
    (forall i, j | 0 <= i < j < |opts| :: opts[i].Attribute? && opts[j].Attribute? ==> opts[i].name != opts[j].name)
  }

  lemma {:induction false} MergeAppends(es: seq<CookieOption>, opts: seq<CookieOption>)
    requires forall i, j | 0 <= i < |es| && 0 <= j < |opts| :: es[i].Attribute? && opts[j].Attribute? ==> es[i].name != opts[j].name
    requires forall i, j | 0 <= i < j < |opts| :: opts[i].Attribute? && opts[j].Attribute? ==> opts[i].name != opts[j].name
    ensures Merge(es, opts) == es + opts
    decreases |opts|
  {
    if opts != [] {
      var o := opts[0];
      if o.Attribute? {
        assert IndexOfName(es, o.name).None?;
      }
      var es' := MergeOne(es, o);
      assert es' == es + [o];
      forall i, j | 0 <= i < |es'| && 0 <= j < |opts[1..]| && es'[i].Attribute? && opts[1..][j].Attribute?
        ensures es'[i].name != opts[1..][j].name
      {
        if i == |es| {
          assert opts[1..][j] == opts[j + 1];
        }
      }
      MergeAppends(es', opts[1..]);
      assert es' + opts[1..] == es + opts;
    }
  }

  /** The constructor's options never clash with each other, so for a
      cookie name other than Expires, Domain and Path the cookie pair comes
      first, followed by the options in order. */
  lemma {:induction false} OptionsFollowCookie(name: string, id: SessionId, expires: Value, path: Value, domain: Value,
                                               secureOnly: Value, httpOnly: Value, date: Value -> string)
    requires name !in {"Expires", "Domain", "Path"}
    ensures var opts := OptionsFor(expires, path, domain, secureOnly, httpOnly, date);
            Merge([Attribute(name, IdText(id))], opts) == [Attribute(name, IdText(id))] + opts
  {
    OptionsForRanked(expires, path, domain, secureOnly, httpOnly, date);
    RankedFollow(name, id, OptionsFor(expires, path, domain, secureOnly, httpOnly, date));
  }

  /** Ranked options of known kinds follow a cookie pair of another name. */
  lemma {:induction false} RankedFollow(name: string, id: SessionId, opts: seq<CookieOption>)
    requires Ranked(opts) && forall o | o in opts :: KnownOption(o)
    requires name !in {"Expires", "Domain", "Path"}
    ensures Merge([Attribute(name, IdText(id))], opts) == [Attribute(name, IdText(id))] + opts
  {
    forall i, j | 0 <= i < j < |opts| && opts[i].Attribute? && opts[j].Attribute?
      ensures opts[i].name != opts[j].name
    {
      assert Rank(opts[i]) < Rank(opts[j]);
    }
    var es := [Attribute(name, IdText(id))];
    forall i, j | 0 <= i < |es| && 0 <= j < |opts| && es[i].Attribute? && opts[j].Attribute?
      ensures es[i].name != opts[j].name
    {
      assert KnownOption(opts[j]);
    }
    MergeAppends(es, opts);
  }

  /** With a non-numeric name and no clashing option, the header starts with
      the `name=id` pair, and whatever follows is another "; " piece. */
  lemma {:induction false} SetCookieStartsWithPair(name: string, opts: seq<CookieOption>, id: SessionId)
    requires NoClash(name, opts) && !IsNumeric(name)
    ensures var x := name + "=" + IdText(id);
            var h := SetCookie(name, opts, id);
            x <= h && (|h| == |x| || "; " <= h[|x|..])
  {
    var first := Attribute(name, IdText(id));
    MergeFirst(first, opts);
    RenderCons(first, opts);
    ImplodeStartsWith(name + "=" + IdText(id), RenderAll(opts));
  }

  lemma {:induction false} MergeFirst(first: CookieOption, opts: seq<CookieOption>)
    requires first.Attribute? && NoClash(first.name, opts)
    ensures Merge([first], opts) == [first] + opts
  {
    MergeAppends([first], opts);
  }

  lemma {:induction false} RenderCons(o: CookieOption, opts: seq<CookieOption>)
    ensures RenderAll([o] + opts) == [Render(o)] + RenderAll(opts)
  {
  }

  /** Imploded with "; ", the first piece starts the string and is followed
      by the separator, if anything. */
  lemma {:induction false} ImplodeStartsWith(x: string, rest: seq<string>)
    ensures var h := Implode("; ", [x] + rest);
            x <= h && (|h| == |x| || "; " <= h[|x|..])
  {
    if rest != [] {
      ImplodeCons("; ", x, rest);
    }
  }

  /** A name that starts with a letter is not numeric. */
  lemma {:induction false} LetterNotNumeric(s: string)
    requires s != [] && ('A' <= s[0] <= 'Z' || 'a' <= s[0] <= 'z')
    ensures !IsNumeric(s)
  {
    LtrimStops(s, CastWhitespace);
    var t := Rtrim(s, CastWhitespace);
    assert t != [] && t[0] == s[0];
    assert LeadingDigits(t) == [];
    assert NumberMantissaLength(t) == 0;
  }

  /** A cookie name that starts with a letter is written as `name=value`. */
  lemma {:induction false} RenderLetter(k: string, v: string)
    requires k != [] && ('A' <= k[0] <= 'Z' || 'a' <= k[0] <= 'z')
    ensures Render(Attribute(k, v)) == k + "=" + v
  {
    LetterNotNumeric(k);
  }

  /** The default handler, without options, writes `InjectFw=FoobarId` for
      the id FoobarId. */
  lemma {:induction false} DefaultOptionsExample(name: string, id: string)
    requires name == DefaultCookieName && id == "FoobarId"
    ensures SetCookie(name, [], Id(id)) == name + "=" + id
  {
    var first := Attribute(name, id);
    RenderLetter(name, id);
    assert Merge([first], []) == [first];
    assert RenderAll([first]) == [name + "=" + id];
  }

  // ---------------------------------------------------------------- fetching

  /** A piece of the cookie header split on '=' as written: on every '='. */
  function PairAsWritten(part: string): seq<string> {
    Explode(part, "=")
  }

  /** A piece split as intended: leading spaces dropped, then split on the
      first '=' only. */
  function Pair(part: string): seq<string> {
    ExplodeLimit(Ltrim(part, {' '}), "=", 2)
  }

  /** `count($pair) == 2 && $pair[0] === $name` */
  predicate Names(pair: seq<string>, name: string) {
    |pair| == 2 && pair[0] == name
  }

  /** The value of the first pair that names the cookie. */
  function FirstValue(pairs: seq<seq<string>>, name: string): (r: Option<string>)
    ensures r.None? <==> forall i | 0 <= i < |pairs| :: !Names(pairs[i], name)
    ensures r.Some? ==> exists i | 0 <= i < |pairs| :: Names(pairs[i], name) && pairs[i][1] == r.value &&
                          forall j | 0 <= j < i :: !Names(pairs[j], name)
  {
    if pairs == [] then None
    else if Names(pairs[0], name) then Some(pairs[0][1])
    else
      var r := FirstValue(pairs[1..], name);
      if r.Some? then
        var i :| 0 <= i < |pairs[1..]| && Names(pairs[1..][i], name) && pairs[1..][i][1] == r.value &&
                 forall j | 0 <= j < i :: !Names(pairs[1..][j], name);
        assert Names(pairs[i + 1], name) && pairs[i + 1][1] == r.value;
        r
      else r
  }

  function PairsAsWritten(parts: seq<string>): (r: seq<seq<string>>)
    ensures |r| == |parts| && forall i | 0 <= i < |parts| :: r[i] == PairAsWritten(parts[i])
  {
    seq(|parts|, i requires 0 <= i < |parts| => PairAsWritten(parts[i]))
  }

  /** The search moves on past a pair that does not name the cookie. */
  lemma {:induction false} FirstValueStep(pairs: seq<seq<string>>, i: nat, name: string)
    requires i < |pairs|
    ensures FirstValue(pairs[i..], name) ==
              if Names(pairs[i], name) then Some(pairs[i][1]) else FirstValue(pairs[i + 1..], name)
  {
    assert pairs[i..][0] == pairs[i] && pairs[i..][1..] == pairs[i + 1..];
  }

  lemma {:induction false} FirstValueNone(pairs: seq<seq<string>>, name: string)
    requires pairs == []
    ensures FirstValue(pairs, name) == None
  {
  }

  function Pairs(parts: seq<string>): (r: seq<seq<string>>)
    ensures |r| == |parts| && forall i | 0 <= i < |parts| :: r[i] == Pair(parts[i])
  {
    seq(|parts|, i requires 0 <= i < |parts| => Pair(parts[i]))
  }

  /** strpos($cookie, $name) !== false; the empty needle is found at 0. */
  predicate Mentions(cookie: string, name: string) {
    name == [] || Contains(cookie, name)
  }

  /** Whether the env carries a cookie header that mentions the name. */
  predicate HasCookie(env: Env, name: string) {
    !Empty(Get(env, "HTTP_COOKIE")) && Mentions(ToStr(Get(env, "HTTP_COOKIE")), name)
  }

  function CookieParts(env: Env): seq<string> {
    Explode(ToStr(Get(env, "HTTP_COOKIE")), ";")
  }

  /** fetchUserId() as written. */
  function FetchedAsWritten(name: string, env: Env): SessionId {
    if !HasCookie(env, name) then NoId
    else match FirstValue(PairsAsWritten(CookieParts(env)), name)
      case Some(v) => Id(v)
      case None => NoId
  }

  /** fetchUserId() as intended. */
  function Fetched(name: string, env: Env): SessionId {
    if !HasCookie(env, name) then NoId
    else match FirstValue(Pairs(CookieParts(env)), name)
      case Some(v) => Id(v)
      case None => NoId
  }

  // ---------------------------------------------------------------- string facts

  lemma {:induction false} CharNotFound(s: string, c: char)
    requires c !in s
    ensures Find(s, [c]).None?
  {
    forall i | 0 <= i <= |s| ensures !([c] <= s[i..]) {
      if i < |s| {
        assert s[i..][0] == s[i] && s[i] in s;
      }
    }
  }

  lemma {:induction false} CharFound(s: string, c: char, j: nat)
    requires j < |s| && s[j] == c
    ensures Contains(s, [c])
  {
    assert [c] <= s[j..];
  }

  lemma {:induction false} ContainsAt(s: string, d: string, p: nat)
    requires |d| > 0 && p <= |s| && d <= s[p..]
    ensures Contains(s, d)
  {
  }

  /** Splitting a string that is free of `c` on `c` gives it back whole. */
  lemma {:induction false} ExplodeFree(s: string, c: char)
    requires c !in s
    ensures Explode(s, [c]) == [s]
  {
    CharNotFound(s, c);
  }

  /** A token before a one-character delimiter is split off whole. */
  lemma {:induction false} ExplodeToken(tok: string, c: char, rest: string)
    requires c !in tok
    ensures Explode(tok + [c] + rest, [c]) == [tok] + Explode(rest, [c])
  {
    var s := tok + [c] + rest;
    assert s[..|tok|] == tok;
    FindCharAt(s, c, |tok|);
    assert s[|tok| + 1..] == rest;
  }

  /** The pieces of a header joined by "; " after a prefix: the first keeps
      the prefix, every later one starts with the space. */
  lemma {:induction false} ExplodeJoined(pre: string, cs: seq<string>)
    requires cs != [] && ';' !in pre && forall i | 0 <= i < |cs| :: ';' !in cs[i]
    ensures Explode(pre + Implode("; ", cs), ";") == [pre + cs[0]] + Spaced(cs[1..])
    decreases |cs|
  {
    if |cs| == 1 {
      ExplodeFree(pre + cs[0], ';');
      assert Spaced(cs[1..]) == [];
    } else {
      ImplodeCons("; ", cs[0], cs[1..]);
      assert [cs[0]] + cs[1..] == cs;
      JoinRegroup(pre, cs[0], Implode("; ", cs[1..]));
      CharNotInConcat(';', pre, cs[0]);
      ExplodeToken(pre + cs[0], ';', " " + Implode("; ", cs[1..]));
      NoSemicolonTail(cs);
      ExplodeJoined(" ", cs[1..]);
      SpacedCons(cs[1..]);
    }
  }

  lemma {:induction false} JoinRegroup(pre: string, a: string, rest: string)
    ensures pre + (a + "; " + rest) == (pre + a) + [';'] + (" " + rest)
  {
  }

  lemma {:induction false} CharNotInConcat(c: char, a: string, b: string)
    requires c !in a && c !in b
    ensures c !in a + b
  {
  }

  lemma {:induction false} NoSemicolonTail(cs: seq<string>)
    requires cs != [] && forall i | 0 <= i < |cs| :: ';' !in cs[i]
    ensures forall i | 0 <= i < |cs[1..]| :: ';' !in cs[1..][i]
  {
    forall i | 0 <= i < |cs[1..]| ensures ';' !in cs[1..][i] {
      assert cs[1..][i] == cs[i + 1];
    }
  }

  lemma {:induction false} SpacedCons(cs: seq<string>)
    requires cs != []
    ensures Spaced(cs) == [" " + cs[0]] + Spaced(cs[1..])
  {
  }

  /** Each string with a space in front. */
  function Spaced(cs: seq<string>): (r: seq<string>)
    ensures |r| == |cs| && forall i | 0 <= i < |cs| :: r[i] == " " + cs[i]
  {
    seq(|cs|, i requires 0 <= i < |cs| => " " + cs[i])
  }

  /** The client's Cookie header: the pairs joined by "; ". */
  function CookieHeader(cs: seq<string>): string {
    Implode("; ", cs)
  }

  lemma {:induction false} CookieHeaderParts(cs: seq<string>)
    requires cs != [] && forall i | 0 <= i < |cs| :: ';' !in cs[i]
    ensures Explode(CookieHeader(cs), ";") == [cs[0]] + Spaced(cs[1..])
  {
    ExplodeJoined("", cs);
    assert "" + Implode("; ", cs) == Implode("; ", cs);
    assert "" + cs[0] == cs[0];
  }

  lemma {:induction false} ImplodeAppend(sep: string, a: seq<string>, b: seq<string>)
    requires a != [] && b != []
    ensures Implode(sep, a + b) == Implode(sep, a) + sep + Implode(sep, b)
    decreases |a|
  {
    if |a| == 1 {
      assert a + b == [a[0]] + b;
      ImplodeCons(sep, a[0], b);
    } else {
      assert a + b == [a[0]] + (a[1..] + b);
      ImplodeCons(sep, a[0], a[1..] + b);
      ImplodeAppend(sep, a[1..], b);
      assert a == [a[0]] + a[1..];
      ImplodeCons(sep, a[0], a[1..]);
    }
  }

  /** Where one of the joined strings lies in the joined whole. */
  lemma {:induction false} ImplodeAround(sep: string, before: seq<string>, x: string, after: seq<string>) returns (p: nat)
    ensures var j := Implode(sep, before + [x] + after);
            p + |x| <= |j| && j[p..p + |x|] == x
  {
    var mid := [x] + after;
    ImplodeHead(sep, x, after);
    if before == [] {
      assert before + [x] + after == mid;
      p := 0;
    } else {
      ImplodeAppend(sep, before, mid);
      assert before + [x] + after == before + mid;
      p := |Implode(sep, before)| + |sep|;
      SliceAfter(Implode(sep, before), sep, Implode(sep, mid), x);
    }
  }

  /** An imploded list starts with its first member. */
  lemma {:induction false} ImplodeHead(sep: string, x: string, after: seq<string>)
    ensures |x| <= |Implode(sep, [x] + after)| && Implode(sep, [x] + after)[..|x|] == x
  {
    if after == [] {
      assert Implode(sep, [x] + after) == x;
    } else {
      ImplodeCons(sep, x, after);
    }
  }

  lemma {:induction false} SliceAfter(a: string, b: string, c: string, x: string)
    requires |x| <= |c| && c[..|x|] == x
    ensures (a + b + c)[|a| + |b|..|a| + |b| + |x|] == x
  {
    assert (a + b + c)[|a| + |b|..] == c;
  }

  // ---------------------------------------------------------------- round trip

  /** A cookie pair whose name holds no '=' and does not start with a space
      splits, as intended, into its name and its value. */
  lemma {:induction false} PairOfCookie(name: string, v: string)
    requires '=' !in name && (name == [] || name[0] != ' ')
    ensures Pair(name + "=" + v) == [name, v]
    ensures Pair(" " + name + "=" + v) == [name, v]
  {
    var s := name + "=" + v;
    LtrimStops(s, {' '});
    assert s == name + ['='] + v;
    ExplodeLimitToken(name, '=', v, 2);
    assert (" " + s)[1..] == s;
    assert " " + name + "=" + v == " " + s;
  }

  /** A leading space makes no difference to the intended split. */
  lemma {:induction false} PairSpaced(c: string)
    ensures Pair(" " + c) == Pair(c)
  {
    assert (" " + c)[1..] == c;
    assert Ltrim(" " + c, {' '}) == Ltrim(c, {' '});
  }

  /** The intended fetch reads every piece of a client header the same way,
      whether it came first or after a "; ". */
  lemma {:induction false} PairsOfHeader(cs: seq<string>)
    requires cs != [] && forall i | 0 <= i < |cs| :: ';' !in cs[i]
    ensures |Pairs(Explode(CookieHeader(cs), ";"))| == |cs|
    ensures forall i | 0 <= i < |cs| :: Pairs(Explode(CookieHeader(cs), ";"))[i] == Pair(cs[i])
  {
    CookieHeaderParts(cs);
    var parts := Explode(CookieHeader(cs), ";");
    forall i | 0 <= i < |cs| ensures Pair(parts[i]) == Pair(cs[i]) {
      if i > 0 {
        assert parts[i] == " " + cs[i];
        PairSpaced(cs[i]);
      }
    }
  }

  /** The first pair that names the cookie gives its value. */
  lemma {:induction false} FirstValueAt(pairs: seq<seq<string>>, name: string, k: nat)
    requires k < |pairs| && Names(pairs[k], name)
    requires forall j | 0 <= j < k :: !Names(pairs[j], name)
    ensures FirstValue(pairs, name) == Some(pairs[k][1])
  {
    var r := FirstValue(pairs, name);
    var i :| 0 <= i < |pairs| && Names(pairs[i], name) && pairs[i][1] == r.value &&
             forall j | 0 <= j < i :: !Names(pairs[j], name);
    assert i == k;
  }

  /** A header holding a `name=id` pair mentions the name and is not empty(). */
  lemma {:induction false} HeaderMentions(name: string, id: string, before: seq<string>, after: seq<string>)
    requires name != []
    ensures var cookie := CookieHeader(before + [name + "=" + id] + after);
            Mentions(cookie, name) && !EmptyStr(cookie)
  {
    var x := name + "=" + id;
    var cookie := CookieHeader(before + [x] + after);
    var a := ImplodeAround("; ", before, x, after);
    PrefixAt(cookie, a, x, |name|);
    PairStartsWithName(name, id);
    ContainsAt(cookie, name, a);
  }

  lemma {:induction false} PrefixAt(s: string, a: nat, x: string, p: nat)
    requires a + |x| <= |s| && s[a..a + |x|] == x && p < |x|
    ensures s[a..][..p] == x[..p] && s[a + p] == x[p]
  {
    assert s[a + p] == s[a..a + |x|][p];
  }

  lemma {:induction false} PairStartsWithName(name: string, id: string)
    ensures (name + "=" + id)[..|name|] == name && (name + "=" + id)[|name|] == '='
  {
  }

  /** The round trip the handler exists for: once the client sends the
      stored pair back in its Cookie header, after any cookies of other
      names and before any others, the intended fetch returns the id. */
  lemma {:induction false} FetchFindsStoredId(name: string, id: string, before: seq<string>, after: seq<string>, env: Env)
    requires name != [] && '=' !in name && ';' !in name && name[0] != ' ' && ';' !in id
    requires forall i | 0 <= i < |before| :: ';' !in before[i] && !Names(Pair(before[i]), name)
    requires forall i | 0 <= i < |after| :: ';' !in after[i]
    requires Get(env, "HTTP_COOKIE") == Str(CookieHeader(before + [name + "=" + id] + after))
    ensures Fetched(name, env) == Id(id)
  {
    var cs := before + [name + "=" + id] + after;
    var k := |before|;
    forall i | 0 <= i < |cs| ensures ';' !in cs[i] {
      if i < k { assert cs[i] == before[i]; }
      else if i > k { assert cs[i] == after[i - k - 1]; }
    }
    HeaderMentions(name, id, before, after);
    assert HasCookie(env, name);
    PairsOfHeader(cs);
    var pairs := Pairs(CookieParts(env));
    PairOfCookie(name, id);
    assert pairs[k] == [name, id];
    forall j | 0 <= j < k ensures !Names(pairs[j], name) {
      assert cs[j] == before[j];
    }
    FirstValueAt(pairs, name, k);
  }

  /** The first piece of explode() starts where the string does, unless the
      string starts with the delimiter. */
  lemma {:induction false} ExplodeFirstStarts(p: string, c: char)
    requires p != [] && p[0] != c
    ensures Explode(p, [c])[0] != [] && Explode(p, [c])[0][0] == p[0]
  {
    var f := Find(p, [c]);
    if f.Some? {
      var j := f.value;
      assert p[j..][0] == c;
      assert Explode(p, [c])[0] == p[..j];
    }
  }

  /** As written, a pair after the first is read with the space in front of
      it, so a cookie that is not first in the header is never found. */
  lemma {:induction false} AsWrittenReadsOnlyFirst(name: string, cs: seq<string>, env: Env)
    requires cs != [] && forall i | 0 <= i < |cs| :: ';' !in cs[i]
    requires name == [] || name[0] != ' '
    requires Get(env, "HTTP_COOKIE") == Str(CookieHeader(cs))
    ensures FetchedAsWritten(name, env) != NoId ==> Names(PairAsWritten(cs[0]), name)
  {
    CookieHeaderParts(cs);
    var parts := CookieParts(env);
    var pairs := PairsAsWritten(parts);
    forall i | 1 <= i < |pairs| ensures !Names(pairs[i], name) {
      SpacedPairUnnamed(cs, parts, i, name);
    }
    OnlyFirstCounts(pairs, name);
  }

  /** A pair read with a space in front does not name a cookie whose name
      does not start with one. */
  lemma {:induction false} SpacedPairUnnamed(cs: seq<string>, parts: seq<string>, i: nat, name: string)
    requires cs != [] && parts == [cs[0]] + Spaced(cs[1..]) && 1 <= i < |parts|
    requires name == [] || name[0] != ' '
    ensures !Names(PairAsWritten(parts[i]), name)
  {
    assert parts[i] == " " + cs[i];
    ExplodeFirstStarts(" " + cs[i], '=');
  }

  /** When no pair after the first names the cookie, a value found comes
      from the first. */
  lemma {:induction false} OnlyFirstCounts(pairs: seq<seq<string>>, name: string)
    requires forall i | 1 <= i < |pairs| :: !Names(pairs[i], name)
    ensures FirstValue(pairs, name).Some? ==> Names(pairs[0], name)
  {
  }

  /** As written, the value found never holds '=', since explode() split
      on every one of them. */
  lemma {:induction false} AsWrittenValueHasNoEquals(name: string, env: Env)
    ensures FetchedAsWritten(name, env).Id? ==> '=' !in FetchedAsWritten(name, env).text
  {
    if FetchedAsWritten(name, env).Id? {
      var pairs := PairsAsWritten(CookieParts(env));
      var v := FirstValue(pairs, name).value;
      var i :| 0 <= i < |pairs| && Names(pairs[i], name) && pairs[i][1] == v &&
               forall j | 0 <= j < i :: !Names(pairs[j], name);
      var part := CookieParts(env)[i];
      ExplodePiecesFree(part, "=");
      assert !Contains(Explode(part, "=")[1], "=");
      if '=' in v {
        var j :| 0 <= j < |v| && v[j] == '=';
        CharFound(v, '=', j);
      }
    }
  }

  /** Another cookie's pair, `k=v`, splits into its name and value on
      every '=' when neither holds one. */
  lemma {:induction false} OtherCookieAsWritten(k: string, v: string)
    requires '=' !in k && '=' !in v
    ensures PairAsWritten(k + "=" + v) == [k, v]
  {
    assert k + "=" + v == k + ['='] + v;
    ExplodeToken(k, '=', v);
    ExplodeFree(v, '=');
  }

  /** A browser that sends another cookie first (`k=v; name=id`): as
      written, the session cookie is not found. */
  lemma {:induction false} SecondCookieAsWritten(name: string, id: string, k: string, v: string, env: Env)
    requires name != [] && name[0] != ' '
    requires k != name && '=' !in k && ';' !in k && '=' !in v && ';' !in v && ';' !in (name + "=" + id)
    requires Get(env, "HTTP_COOKIE") == Str(CookieHeader([k + "=" + v, name + "=" + id]))
    ensures FetchedAsWritten(name, env) == NoId
  {
    OtherCookieAsWritten(k, v);
    AsWrittenReadsOnlyFirst(name, [k + "=" + v, name + "=" + id], env);
  }

  /** The same header read as intended gives the id. */
  lemma {:induction false} SecondCookieIntended(name: string, id: string, k: string, v: string, env: Env)
    requires name != [] && '=' !in name && ';' !in name && name[0] != ' ' && ';' !in id
    requires k != name && '=' !in k && (k == [] || k[0] != ' ') && ';' !in k + "=" + v
    requires Get(env, "HTTP_COOKIE") == Str(CookieHeader([k + "=" + v, name + "=" + id]))
    ensures Fetched(name, env) == Id(id)
  {
    PairOfCookie(k, v);
    assert [k + "=" + v] + [name + "=" + id] + [] == [k + "=" + v, name + "=" + id];
    FetchFindsStoredId(name, id, [k + "=" + v], [], env);
  }

  // ---------------------------------------------------------------- the class

  class Mongrel2CookieIdHandler {
    /** $cookie_options */
    var cookieOptions: seq<CookieOption>
    /** $cookie_name */
    var cookieName: string

    /** Collects the options one by one, skipping every empty() argument. */
    constructor (cookieName: string, expires: Value, path: Value, domain: Value, secureOnly: Value, httpOnly: Value,
                 date: Value -> string)
      ensures this.cookieName == cookieName
      ensures cookieOptions == OptionsFor(expires, path, domain, secureOnly, httpOnly, date)
    {
      this.cookieName := cookieName;
      cookieOptions := [];
      new;
      cookieOptions := AddUnlessEmpty(cookieOptions, expires, Attribute("Expires", date(expires)));
      cookieOptions := AddUnlessEmpty(cookieOptions, domain, Attribute("Domain", ToStr(domain)));
      cookieOptions := AddUnlessEmpty(cookieOptions, path, Attribute("Path", ToStr(path)));
      cookieOptions := AddUnlessEmpty(cookieOptions, secureOnly, Flag("Secure"));
      cookieOptions := AddUnlessEmpty(cookieOptions, httpOnly, Flag("HttpOnly"));
    }

    /** fetchUserId() as written: the foreach returns the value of the first
        part that splits into exactly the name and one value. */
    method FetchUserIdAsWritten(env: Env) returns (id: SessionId)
      ensures id == FetchedAsWritten(cookieName, env)
    {
      if !HasCookie(env, cookieName) {
        return NoId;
      }
      var v := FindValueAsWritten(CookieParts(env), cookieName);
      id := if v.Some? then Id(v.value) else NoId;
    }

    /** The foreach of fetchUserId() as written. */
    static method FindValueAsWritten(parts: seq<string>, name: string) returns (v: Option<string>)
      ensures v == FirstValue(PairsAsWritten(parts), name)
    {
      ghost var pairs := PairsAsWritten(parts);
      var i := 0;
      while i < |parts|
        invariant 0 <= i <= |parts|
        invariant FirstValue(pairs, name) == FirstValue(pairs[i..], name)
      {
        var pair := Explode(parts[i], "=");
        FirstValueStep(pairs, i, name);
        if |pair| == 2 && pair[0] == name {
          return Some(pair[1]);
        }
        i := i + 1;
      }
      FirstValueNone(pairs[i..], name);
      return None;
    }

    /** fetchUserId() as intended: each part is trimmed of leading spaces
        and split on its first '='. */
    method FetchUserId(env: Env) returns (id: SessionId)
      ensures id == Fetched(cookieName, env)
    {
      if !HasCookie(env, cookieName) {
        return NoId;
      }
      var v := FindValue(CookieParts(env), cookieName);
      id := if v.Some? then Id(v.value) else NoId;
    }

    /** The foreach of fetchUserId() as intended. */
    static method FindValue(parts: seq<string>, name: string) returns (v: Option<string>)
      ensures v == FirstValue(Pairs(parts), name)
    {
      ghost var pairs := Pairs(parts);
      var i := 0;
      while i < |parts|
        invariant 0 <= i <= |parts|
        invariant FirstValue(pairs, name) == FirstValue(pairs[i..], name)
      {
        var pair := Pair(parts[i]);
        FirstValueStep(pairs, i, name);
        if |pair| == 2 && pair[0] == name {
          return Some(pair[1]);
        }
        i := i + 1;
      }
      FirstValueNone(pairs[i..], name);
      return None;
    }

    /** storeUserId(): builds the pieces in a loop, then sets the header. */
    method StoreUserId(id: SessionId, ret: Response) returns (r: Response)
      ensures r == Stored(cookieName, cookieOptions, id, ret)
    {
      var entries := Merge([Attribute(cookieName, IdText(id))], cookieOptions);
      var str: seq<string> := [];
      var i := 0;
      while i < |entries|
        invariant 0 <= i <= |entries|
        invariant str == RenderAll(entries[..i])
      {
        str := str + [Render(entries[i])];
        i := i + 1;
      }
      assert entries[..i] == entries;
      r := Response(ret.status, Put(ret.headers, "Set-Cookie", Implode("; ", str)), ret.body);
    }
  }
}

=== FILE: session_invalidator.dfy ===
/*
 * Inject\Stack\Middleware\SessionInvalidator: checks the session bucket
 * the session middleware put into the env against the request, writes its
 * own fields into the bucket, invalidates the session when a check fails,
 * and calls the next handler. time() is a parameter.
 */
module SessionInvalidator {
  import opened Php
  import opened Gateway
  import opened SessionStorage
  import opened Session

  const UserAgentKey := "HTTP_USER_AGENT"
  const AddressKey := "REMOTE_ADDR"
  const LastAccessKey := "last_access_time"
  const StartKey := "session_start_time"

  /** The defaults the options are merged over. */
  const InvalidatorDefaults: seq<(string, Value)> :=
    [("check_user_agent", Bool(true)), ("check_ip", Bool(true)),
     ("limit_last_access_time", Int(600)), ("limit_session_time", Int(3600))]

  /** `if ($this->options[$k])`: a falsy option turns its check off. */
  predicate Enabled(options: seq<(string, Value)>, k: string) {
    !Empty(OptionValue(options, k))
  }

  /** A limit as used in `time() - $limit`. */
  function Limit(options: seq<(string, Value)>, k: string): int {
    ToInt(OptionValue(options, k))
  }

  /** strcmp($a, $b) < 0 */
  predicate StrLess(a: string, b: string)
    decreases |a|
  {
    if a == [] then b != []
    else if b == [] then false
    else if a[0] != b[0] then a[0] < b[0]
    else StrLess(a[1..], b[1..])
  }

  /** `$v < $n` for an integer `n` under PHP 8's comparison rules. A numeric
      string compares by its integer value, any other string compares with
      the decimal text of `n`; null and booleans compare as booleans; an
      array or object is never smaller. */
  predicate Before(v: Value, n: int) {
    match v
    case Str(s) => if IsNumeric(s) then IntCast(s) < n else StrLess(s, IntToDec(n))
    case Int(i) => i < n
    case Bool(b) => !b && n != 0
    case Null => n != 0
    case Arr(_) => false
    case Obj(_, _) => false
    case Resource(id) => id < n
  }

  /** The state __invoke() carries from check to check: the flag, the env it
      will pass on, and the bucket's contents. */
  datatype Check = Check(invalid: bool, env: Env, data: Data)

  /** `empty($env['HTTP_USER_AGENT']) AND $env['HTTP_USER_AGENT'] = ''` */
  function WithUserAgent(env: Env): (r: Env)
    ensures !Empty(Get(env, UserAgentKey)) ==> r == env
    ensures Empty(Get(env, UserAgentKey)) ==> r == env[UserAgentKey := Str("")]
  {
    if Empty(Get(env, UserAgentKey)) then env[UserAgentKey := Str("")] else env
  }

  /** The user-agent and address checks: a value the bucket already holds
      must equal the request's, strictly; otherwise the request's value is
      written into the bucket. */
  function Pinned(k: string, c: Check): (r: Check)
    ensures r.env == c.env
    ensures c.invalid ==> r.invalid
    ensures !Empty(OptionValue(c.data, k)) ==> r.data == c.data && (r.invalid <==> c.invalid || OptionValue(c.data, k) != Get(c.env, k))
    ensures Empty(OptionValue(c.data, k)) ==> r.invalid == c.invalid && r.data == Put(c.data, k, Get(c.env, k))
  {
    var stored := OptionValue(c.data, k);
    if !Empty(stored) then c.(invalid := c.invalid || stored != Get(c.env, k))
    else c.(data := Put(c.data, k, Get(c.env, k)))
  }

  /** The two time checks: a time the bucket already holds that lies before
      `now - limit` fails. The last-access time is then always rewritten
      (`refresh`), the start time only when none is held. */
  function Aged(k: string, limit: int, now: int, refresh: bool, c: Check): (r: Check)
    ensures r.env == c.env
    ensures c.invalid ==> r.invalid
    ensures r.invalid <==> c.invalid || (!Empty(OptionValue(c.data, k)) && Before(OptionValue(c.data, k), now - limit))
    ensures refresh || Empty(OptionValue(c.data, k)) ==> r.data == Put(c.data, k, Int(now))
    ensures !refresh && !Empty(OptionValue(c.data, k)) ==> r.data == c.data
  {
    var stored := OptionValue(c.data, k);
    var c1 := if !Empty(stored) then c.(invalid := c.invalid || Before(stored, now - limit)) else c;
    if refresh || Empty(stored) then c1.(data := Put(c1.data, k, Int(now))) else c1
  }

  /** The user-agent check, when on: the env gets its '' default first. */
  function AgentStage(options: seq<(string, Value)>, c: Check): Check {
    if Enabled(options, "check_user_agent") then Pinned(UserAgentKey, c.(env := WithUserAgent(c.env))) else c
  }

  function AddressStage(options: seq<(string, Value)>, c: Check): Check {
    if Enabled(options, "check_ip") then Pinned(AddressKey, c) else c
  }

  function LastAccessStage(options: seq<(string, Value)>, now: int, c: Check): Check {
    if Enabled(options, "limit_last_access_time")
    then Aged(LastAccessKey, Limit(options, "limit_last_access_time"), now, true, c) else c
  }

  function StartStage(options: seq<(string, Value)>, now: int, c: Check): Check {
    if Enabled(options, "limit_session_time")
    then Aged(StartKey, Limit(options, "limit_session_time"), now, false, c) else c
  }

  /** All four checks in order, starting valid. */
  function Checks(options: seq<(string, Value)>, env: Env, data: Data, now: int): Check {
    StartStage(options, now, LastAccessStage(options, now, AddressStage(options, AgentStage(options, Check(false, env, data)))))
  }

  // ---------------------------------------------------------------- properties

  lemma {:induction false} KeysDistinct()
    ensures UserAgentKey != AddressKey && UserAgentKey != LastAccessKey && UserAgentKey != StartKey
    ensures AddressKey != LastAccessKey && AddressKey != StartKey && LastAccessKey != StartKey
  {
    assert UserAgentKey[0] == 'H' && AddressKey[0] == 'R' && LastAccessKey[0] == 'l' && StartKey[0] == 's';
  }

  /** What a check leaves under its own key and under any other key. */
  lemma {:induction false} PinnedReads(k: string, c: Check, j: string)
    ensures var stored := OptionValue(c.data, k);
            var r := Pinned(k, c);
            && OptionValue(r.data, k) == (if Empty(stored) then Get(c.env, k) else stored)
            && (j != k ==> OptionValue(r.data, j) == OptionValue(c.data, j))
  {
    LookupPut(c.data, k, Get(c.env, k), j);
    LookupPut(c.data, k, Get(c.env, k), k);
  }

  lemma {:induction false} AgedReads(k: string, limit: int, now: int, refresh: bool, c: Check, j: string)
    ensures var stored := OptionValue(c.data, k);
            var r := Aged(k, limit, now, refresh, c);
            && OptionValue(r.data, k) == (if refresh || Empty(stored) then Int(now) else stored)
            && (j != k ==> OptionValue(r.data, j) == OptionValue(c.data, j))
  {
    LookupPut(c.data, k, Int(now), j);
    LookupPut(c.data, k, Int(now), k);
  }

  /** Without options every check is on, with limits of 600 and 3600
      seconds; a given option overrides its default. */
  lemma {:induction false} InvalidatorOptions(options: seq<(string, Value)>, k: string)
    requires UniqueKeys(options)
    ensures var merged := ArrayMerge(InvalidatorDefaults, options);
            OptionValue(merged, k) == if k in Keys(options) then OptionValue(options, k) else OptionValue(InvalidatorDefaults, k)
  {
    LookupMerge(InvalidatorDefaults, options, k);
  }

  lemma {:induction false} DefaultOptions()
    ensures var d := ArrayMerge(InvalidatorDefaults, []);
            && Enabled(d, "check_user_agent") && Enabled(d, "check_ip")
            && Limit(d, "limit_last_access_time") == 600 && Limit(d, "limit_session_time") == 3600
  {
  }

  /** What a bucket holds after the checks passed on a request: the
      request's user agent and address and the time of the request, for
      each check that is on. */
  predicate Recorded(options: seq<(string, Value)>, env: Env, data: Data, now: int) {
    && (Enabled(options, "check_user_agent") ==> OptionValue(data, UserAgentKey) == Get(env, UserAgentKey))
    && (Enabled(options, "check_ip") ==> OptionValue(data, AddressKey) == Get(env, AddressKey))
    && (Enabled(options, "limit_last_access_time") ==> OptionValue(data, LastAccessKey) == Int(now))
    && (Enabled(options, "limit_session_time") ==> OptionValue(data, StartKey) == Int(now))
  }

  /** A pin on a key the bucket does not hold keeps the verdict and records
      the request's value; the other three keys read as before. */
  lemma {:induction false} PinFresh(k: string, c: Check, a: string, b: string, d: string)
    requires Empty(OptionValue(c.data, k)) && k != a && k != b && k != d
    ensures var r := Pinned(k, c);
            && r.invalid == c.invalid && r.env == c.env && OptionValue(r.data, k) == Get(c.env, k)
            && OptionValue(r.data, a) == OptionValue(c.data, a) && OptionValue(r.data, b) == OptionValue(c.data, b)
            && OptionValue(r.data, d) == OptionValue(c.data, d)
  {
    PinnedReads(k, c, a);
    PinnedReads(k, c, b);
    PinnedReads(k, c, d);
  }

  /** A time check on a key the bucket does not hold keeps the verdict and
      records `now`; the other three keys read as before. */
  lemma {:induction false} AgeFresh(k: string, limit: int, now: int, refresh: bool, c: Check, a: string, b: string, d: string)
    requires Empty(OptionValue(c.data, k)) && k != a && k != b && k != d
    ensures var r := Aged(k, limit, now, refresh, c);
            && r.invalid == c.invalid && r.env == c.env && OptionValue(r.data, k) == Int(now)
            && OptionValue(r.data, a) == OptionValue(c.data, a) && OptionValue(r.data, b) == OptionValue(c.data, b)
            && OptionValue(r.data, d) == OptionValue(c.data, d)
  {
    AgedReads(k, limit, now, refresh, c, a);
    AgedReads(k, limit, now, refresh, c, b);
    AgedReads(k, limit, now, refresh, c, d);
  }

  /** A fresh session (nothing in the bucket) never fails the checks, and
      comes out holding what it was checked against. */
  lemma {:induction false} FreshSessionPasses(options: seq<(string, Value)>, env: Env, now: int)
    ensures var c := Checks(options, env, [], now);
            && !c.invalid
            && c.env == (if Enabled(options, "check_user_agent") then WithUserAgent(env) else env)
            && Recorded(options, c.env, c.data, now)
  {
    KeysDistinct();
    var ua, ip := Enabled(options, "check_user_agent"), Enabled(options, "check_ip");
    var la, st := Enabled(options, "limit_last_access_time"), Enabled(options, "limit_session_time");
    var c0 := Check(false, env, []);
    var c1 := AgentStage(options, c0);
    assert !c1.invalid && c1.env == (if ua then WithUserAgent(env) else env)
           && (ua ==> OptionValue(c1.data, UserAgentKey) == Get(c1.env, UserAgentKey))
           && Empty(OptionValue(c1.data, AddressKey)) && Empty(OptionValue(c1.data, LastAccessKey))
           && Empty(OptionValue(c1.data, StartKey)) by {
      if ua {
        PinFresh(UserAgentKey, c0.(env := WithUserAgent(env)), AddressKey, LastAccessKey, StartKey);
      }
    }
    var c2 := AddressStage(options, c1);
    assert !c2.invalid && c2.env == c1.env
           && (ua ==> OptionValue(c2.data, UserAgentKey) == Get(c2.env, UserAgentKey))
           && (ip ==> OptionValue(c2.data, AddressKey) == Get(c2.env, AddressKey))
           && Empty(OptionValue(c2.data, LastAccessKey)) && Empty(OptionValue(c2.data, StartKey)) by {
      if ip {
        PinFresh(AddressKey, c1, UserAgentKey, LastAccessKey, StartKey);
      }
    }
    var c3 := LastAccessStage(options, now, c2);
    assert !c3.invalid && c3.env == c1.env
           && (ua ==> OptionValue(c3.data, UserAgentKey) == Get(c3.env, UserAgentKey))
           && (ip ==> OptionValue(c3.data, AddressKey) == Get(c3.env, AddressKey))
           && (la ==> OptionValue(c3.data, LastAccessKey) == Int(now))
           && Empty(OptionValue(c3.data, StartKey)) by {
      if la {
        AgeFresh(LastAccessKey, Limit(options, "limit_last_access_time"), now, true, c2, UserAgentKey, AddressKey, StartKey);
      }
    }
    var c4 := StartStage(options, now, c3);
    assert !c4.invalid && c4.env == c1.env
           && (ua ==> OptionValue(c4.data, UserAgentKey) == Get(c4.env, UserAgentKey))
           && (ip ==> OptionValue(c4.data, AddressKey) == Get(c4.env, AddressKey))
           && (la ==> OptionValue(c4.data, LastAccessKey) == Int(now))
           && (st ==> OptionValue(c4.data, StartKey) == Int(now)) by {
      if st {
        AgeFresh(StartKey, Limit(options, "limit_session_time"), now, false, c3, UserAgentKey, AddressKey, LastAccessKey);
      }
    }
  }

  /** A user agent the bucket holds that differs from the request's (a
      missing one reads as '') fails the check; so does a different
      address. */
  lemma {:induction false} ChangedClientFails(options: seq<(string, Value)>, env: Env, data: Data, now: int)
    requires (Enabled(options, "check_user_agent") && !Empty(OptionValue(data, UserAgentKey))
              && OptionValue(data, UserAgentKey) != Get(WithUserAgent(env), UserAgentKey))
             || (Enabled(options, "check_ip") && !Empty(OptionValue(data, AddressKey))
                 && OptionValue(data, AddressKey) != Get(env, AddressKey))
    ensures Checks(options, env, data, now).invalid
  {
    KeysDistinct();
    var c0 := Check(false, env, data);
    var c1 := AgentStage(options, c0);
    if Enabled(options, "check_user_agent") {
      PinnedReads(UserAgentKey, c0.(env := WithUserAgent(env)), AddressKey);
      assert Get(WithUserAgent(env), AddressKey) == Get(env, AddressKey);
    }
    var c2 := AddressStage(options, c1);
    assert c2.invalid;
  }

  /** The same client coming back to a fresh session within both limits
      passes; coming back after the idle limit fails. */
  lemma {:induction false} Revisit(options: seq<(string, Value)>, env: Env, now: int, later: int)
    requires 0 < now <= later
    ensures var first := Checks(options, env, [], now);
            var second := Checks(options, first.env, first.data, later);
            && (later - now <= Limit(options, "limit_last_access_time") && later - now <= Limit(options, "limit_session_time")
                ==> !second.invalid)
            && (Enabled(options, "limit_last_access_time") && later - now > Limit(options, "limit_last_access_time")
                ==> second.invalid)
  {
    var first := Checks(options, env, [], now);
    FreshSessionPasses(options, env, now);
    RecordedPasses(options, first.env, first.data, now, later);
  }

  /** A bucket that recorded a request at `now` is checked again at
      `later` by the same client. */
  lemma {:induction false} RecordedPasses(options: seq<(string, Value)>, env: Env, data: Data, now: int, later: int)
    requires Recorded(options, env, data, now) && 0 < now <= later
    requires Enabled(options, "check_user_agent") ==> WithUserAgent(env) == env
    ensures var second := Checks(options, env, data, later);
            && (later - now <= Limit(options, "limit_last_access_time") && later - now <= Limit(options, "limit_session_time")
                ==> !second.invalid)
            && (Enabled(options, "limit_last_access_time") && later - now > Limit(options, "limit_last_access_time")
                ==> second.invalid)
  {
    KeysDistinct();
    var c0 := Check(false, env, data);
    var c1 := AgentStage(options, c0);
    if Enabled(options, "check_user_agent") {
      PinnedReads(UserAgentKey, c0, AddressKey);
      PinnedReads(UserAgentKey, c0, LastAccessKey);
      PinnedReads(UserAgentKey, c0, StartKey);
    }
    assert c1.env == env && !c1.invalid;
    var c2 := AddressStage(options, c1);
    if Enabled(options, "check_ip") {
      PinnedReads(AddressKey, c1, LastAccessKey);
      PinnedReads(AddressKey, c1, StartKey);
    }
    assert !c2.invalid;
    var c3 := LastAccessStage(options, later, c2);
    if Enabled(options, "limit_last_access_time") {
      AgedReads(LastAccessKey, Limit(options, "limit_last_access_time"), later, true, c2, StartKey);
    }
  }

  /** A failed check leaves a new, empty bucket under a newly drawn id, and
      the old id is gone from the storage. */
  lemma {:induction false} InvalidatedBucket(rand: nat -> int, b: BucketState, w: World)
    ensures var (b1, w1) := Step(rand, (b, w), Invalidate(false));
            b1.data == [] && b1.isNew && b1.id == GeneratedAt(rand, w.drawn) && Key(b.id) !in w1.data
  {
  }

  // ---------------------------------------------------------------- the object

  class SessionInvalidator {
    /** $sess_key: where the session middleware put the bucket. */
    const sessKey: string
    /** $options, merged over the defaults. */
    const options: seq<(string, Value)>
    /** $next; None until setNext() is called. */
    var next: Option<App>

    constructor (sessKey: string, options: seq<(string, Value)>)
      ensures this.sessKey == sessKey && this.options == ArrayMerge(InvalidatorDefaults, options) && next == None
    {
      this.sessKey := sessKey;
      this.options := ArrayMerge(InvalidatorDefaults, options);
      next := None;
    }

    /** setNext() */
    method SetNext(next: App)
      modifies this
      ensures this.next == Some(next)
    {
      this.next := Some(next);
    }

    /** One of the user-agent and address checks on the bucket. */
    method Pin(bucket: Bucket, k: string, env: Env, invalid: bool) returns (result: bool)
      modifies bucket
      ensures Check(result, env, bucket.data) == Pinned(k, Check(invalid, env, old(bucket.data)))
      ensures bucket.id == old(bucket.id) && bucket.isNew == old(bucket.isNew)
    {
      result := invalid;
      var stored := OptionValue(bucket.data, k);
      if !Empty(stored) {
        result := result || stored != Get(env, k);
      } else {
        bucket.Assign(k, Get(env, k));
      }
    }

    /** One of the two time checks on the bucket. */
    method Age(bucket: Bucket, k: string, limit: int, now: int, refresh: bool, env: Env, invalid: bool)
      returns (result: bool)
      modifies bucket
      ensures Check(result, env, bucket.data) == Aged(k, limit, now, refresh, Check(invalid, env, old(bucket.data)))
      ensures bucket.id == old(bucket.id) && bucket.isNew == old(bucket.isNew)
    {
      result := invalid;
      var stored := OptionValue(bucket.data, k);
      if !Empty(stored) {
        result := result || Before(stored, now - limit);
      }
      if refresh || Empty(stored) {
        bucket.Assign(k, Int(now));
      }
    }

    /** The user-agent check, when on: the env gets its '' default, then the
        user agent is pinned. */
    method CheckAgent(bucket: Bucket, env: Env, invalid: bool) returns (result: bool, e: Env)
      modifies bucket
      ensures Check(result, e, bucket.data) == AgentStage(options, Check(invalid, env, old(bucket.data)))
      ensures bucket.id == old(bucket.id) && bucket.isNew == old(bucket.isNew)
    {
      result, e := invalid, env;
      if !Empty(OptionValue(options, "check_user_agent")) {
        if Empty(Get(e, UserAgentKey)) {
          e := e[UserAgentKey := Str("")];
        }
        result := Pin(bucket, UserAgentKey, e, invalid);
      }
    }

    /** The address check, when on. */
    method CheckAddress(bucket: Bucket, env: Env, invalid: bool) returns (result: bool)
      modifies bucket
      ensures Check(result, env, bucket.data) == AddressStage(options, Check(invalid, env, old(bucket.data)))
      ensures bucket.id == old(bucket.id) && bucket.isNew == old(bucket.isNew)
    {
      result := invalid;
      if !Empty(OptionValue(options, "check_ip")) {
        result := Pin(bucket, AddressKey, env, invalid);
      }
    }

    /** The last-access check, when on. */
    method CheckLastAccess(bucket: Bucket, env: Env, now: int, invalid: bool) returns (result: bool)
      modifies bucket
      ensures Check(result, env, bucket.data) == LastAccessStage(options, now, Check(invalid, env, old(bucket.data)))
      ensures bucket.id == old(bucket.id) && bucket.isNew == old(bucket.isNew)
    {
      result := invalid;
      if !Empty(OptionValue(options, "limit_last_access_time")) {
        result := Age(bucket, LastAccessKey, Limit(options, "limit_last_access_time"), now, true, env, invalid);
      }
    }

    /** The session-time check, when on. */
    method CheckStart(bucket: Bucket, env: Env, now: int, invalid: bool) returns (result: bool)
      modifies bucket
      ensures Check(result, env, bucket.data) == StartStage(options, now, Check(invalid, env, old(bucket.data)))
      ensures bucket.id == old(bucket.id) && bucket.isNew == old(bucket.isNew)
    {
      result := invalid;
      if !Empty(OptionValue(options, "limit_session_time")) {
        result := Age(bucket, StartKey, Limit(options, "limit_session_time"), now, false, env, invalid);
      }
    }

    /** The four checks of __invoke(), in order, on the bucket: the flag
        and the env to pass on. */
    method RunChecks(env: Env, bucket: Bucket, now: int) returns (invalid: bool, e: Env)
      modifies bucket
      ensures Check(invalid, e, bucket.data) == Checks(options, env, old(bucket.data), now)
      ensures bucket.id == old(bucket.id) && bucket.isNew == old(bucket.isNew)
    {
      invalid, e := CheckAgent(bucket, env, false);
      invalid := CheckAddress(bucket, e, invalid);
      invalid := CheckLastAccess(bucket, e, now, invalid);
      invalid := CheckStart(bucket, e, now, invalid);
    }

    /** __invoke() on a request whose env holds `bucket` under the session
        key; `now` is time(). The checks write into the bucket as they go;
        a failed check invalidates the session once, which also empties
        what they wrote; the next handler's reply is returned as it is. */
    method Invoke(env: Env, bucket: Bucket, now: int) returns (r: Reply)
      requires next.Some? && bucket.session.Valid()
      modifies bucket, bucket.session, bucket.session.storage
      ensures bucket.session.Valid()
      ensures var c := Checks(options, env, old(bucket.data), now);
              && r == old(next).value(c.env)
              && (!c.invalid ==> bucket.State() == old(bucket.State()).(data := c.data)
                                 && bucket.session.WorldOf() == old(bucket.session.WorldOf()))
              && (c.invalid ==> (bucket.State(), bucket.session.WorldOf())
                                == Step(bucket.session.rand, (old(bucket.State()).(data := c.data), old(bucket.session.WorldOf())),
                                        Invalidate(false)))
    {
      var invalid, e := RunChecks(env, bucket, now);
      if invalid {
        bucket.InvalidateSession(false);
      }
      r := next.value(e);
    }
  }
}

=== FILE: session_storage.dfy ===
/*
 * Inject\Stack\Middleware\Session\ArrayStorage: session data kept in two
 * PHP arrays of the worker process, `$data` (id => session array) and
 * `$time` (id => time of the last save), plus a maximum age for garbage
 * collection. time() is a parameter.
 */
module SessionStorage {
  import opened Php
  import opened Gateway

  /** A session id as the middleware hands it around: a string, or false
      once the session is destroyed. */
  datatype SessionId = Id(text: string) | NoId

  /** `! $id`: false, "" and "0" are falsy. */
  predicate Truthy(id: SessionId) {
    id.Id? && !EmptyStr(id.text)
  }

  /** The array key an id becomes: false is key 0, the same key as "0". */
  function Key(id: SessionId): string {
    match id
    case Id(s) => s
    case NoId => "0"
  }

  /** The contents of a session bucket (an ArrayObject). */
  type Data = seq<(string, Value)>

  const DefaultMaxAge := 3600

  /** Whether an entry saved at `saved` is past the maximum age at `now`. */
  predicate Expired(saved: int, now: int, maxAge: int) {
    now - saved > maxAge
  }

  /** The entries garbage collection keeps, as intended: those not older
      than the maximum age. */
  function Unexpired(time: map<string, int>, now: int, maxAge: int): (r: map<string, int>)
    ensures r.Keys <= time.Keys
    ensures forall k | k in time :: k in r <==> !Expired(time[k], now, maxAge)
    ensures forall k | k in r :: r[k] == time[k]
  {
    map k | k in time && !Expired(time[k], now, maxAge) :: time[k]
  }

  /** The entries garbage collection keeps as written: the maximum age is
      read from the undefined `$that`, so it is null, and `$age > null`
      holds for every non-zero age. Only entries saved in this very second
      survive. */
  function UnexpiredAsWritten(time: map<string, int>, now: int): (r: map<string, int>)
    ensures forall k | k in time :: k in r <==> time[k] == now
    ensures forall k | k in r :: k in time && r[k] == time[k]
  {
    map k | k in time && !(now - time[k] != 0) :: time[k]
  }

  /** The data entries whose id still has a time entry. */
  function Restrict(data: map<string, Data>, keys: set<string>): (r: map<string, Data>)
    ensures r.Keys == data.Keys * keys
    ensures forall k | k in r :: r[k] == data[k]
  {
    map k | k in data && k in keys :: data[k]
  }

  /** A session saved a second ago is swept as written, and kept as
      intended. */
  lemma {:induction false} SweepExample()
    ensures UnexpiredAsWritten(map["abc" := 99], 100) == map[]
    ensures Unexpired(map["abc" := 99], 100, DefaultMaxAge) == map["abc" := 99]
  {
    var t := map["abc" := 99];
    assert "abc" !in UnexpiredAsWritten(t, 100);
    assert "abc" in Unexpired(t, 100, DefaultMaxAge);
  }

  class ArrayStorage {
    /** $max_age */
    var maxAge: int
    /** $time: when each session was last saved. */
    var time: map<string, int>
    /** $data: each session's contents. */
    var data: map<string, Data>

    /** Every session has both a time and data. */
    predicate Valid()
      reads this
    {
      time.Keys == data.Keys
    }

    /** The constructor as intended: the argument sets the maximum age. */
    constructor (maxAge: int)
      ensures this.maxAge == maxAge && time == map[] && data == map[]
      ensures Valid()
    {
      this.maxAge := maxAge;
      time := map[];
      data := map[];
    }

    /** The constructor as written: the argument is ignored and the maximum
        age is 3600 whatever it says. */
    constructor AsWritten(maxAge: int)
      ensures this.maxAge == DefaultMaxAge && time == map[] && data == map[]
      ensures Valid()
    {
      this.maxAge := 3600;
      time := map[];
      data := map[];
    }

    /** loadSession(): false (None) for an unknown id, the stored array
        otherwise. The env is not consulted. */
    method LoadSession(env: Env, id: SessionId) returns (r: Option<Data>)
      ensures r.None? <==> Key(id) !in data
      ensures r.Some? ==> r.value == data[Key(id)]
    {
      if Key(id) !in data {
        return None;
      }
      return Some(data[Key(id)]);
    }

    /** saveSession(): the bucket's contents and the current time under its
        id; every other session is untouched. */
    method SaveSession(id: SessionId, contents: Data, now: int)
      requires Valid()
      modifies this
      ensures Valid()
      ensures data == old(data)[Key(id) := contents] && time == old(time)[Key(id) := now]
      ensures maxAge == old(maxAge)
    {
      time := time[Key(id) := now];
      data := data[Key(id) := contents];
    }

    /** destroySession(): the id is gone from both arrays. */
    method DestroySession(id: SessionId)
      requires Valid()
      modifies this
      ensures Valid()
      ensures data == old(data) - {Key(id)} && time == old(time) - {Key(id)}
      ensures maxAge == old(maxAge)
    {
      time := time - {Key(id)};
      data := data - {Key(id)};
    }

    /** A session saved under one id is loaded back whole through any id
        with the same array key (false and "0" share one), and every other
        id loads what it loaded before. */
    method SaveThenLoad(env: Env, id: SessionId, contents: Data, now: int, other: SessionId) returns (r: Option<Data>)
      requires Valid()
      modifies this
      ensures Valid()
      ensures Key(other) == Key(id) ==> r == Some(contents)
      ensures Key(other) != Key(id) ==> r == if Key(other) in old(data) then Some(old(data)[Key(other)]) else None
    {
      SaveSession(id, contents, now);
      r := LoadSession(env, other);
    }

    /** A destroyed session loads as unknown through any id with its key;
        every other id loads what it loaded before. */
    method DestroyThenLoad(env: Env, id: SessionId, other: SessionId) returns (r: Option<Data>)
      requires Valid()
      modifies this
      ensures Valid()
      ensures Key(other) == Key(id) ==> r == None
      ensures Key(other) != Key(id) ==> r == if Key(other) in old(data) then Some(old(data)[Key(other)]) else None
    {
      DestroySession(id);
      r := LoadSession(env, other);
    }

    /** garbageCollect() as intended: the foreach over `$time` drops every
        expired session from both arrays. */
    method GarbageCollect(now: int)
      requires Valid()
      modifies this
      ensures Valid()
      ensures time == Unexpired(old(time), now, maxAge)
      ensures data == Restrict(old(data), time.Keys)
      ensures maxAge == old(maxAge)
    {
      var todo := time.Keys;
      ghost var t0 := time;
      ghost var d0 := data;
      while todo != {}
        invariant todo <= t0.Keys && maxAge == old(maxAge)
        invariant time.Keys <= t0.Keys && data.Keys == time.Keys
        invariant forall k | k in t0 :: k in time <==> (k in todo || !Expired(t0[k], now, maxAge))
        invariant forall k | k in time :: time[k] == t0[k] && data[k] == d0[k]
        decreases todo
      {
        var k :| k in todo;
        if Expired(time[k], now, maxAge) {
          time := time - {k};
          data := data - {k};
        }
        todo := todo - {k};
      }
      assert time == Unexpired(t0, now, maxAge);
      assert data == Restrict(d0, time.Keys);
    }

    /** garbageCollect() as written: the test against `$that->max_age`
        compares with null, so every session whose time differs from now
        is dropped, whatever the maximum age. */
    method GarbageCollectAsWritten(now: int)
      requires Valid()
      modifies this
      ensures Valid()
      ensures time == UnexpiredAsWritten(old(time), now)
      ensures data == Restrict(old(data), time.Keys)
      ensures maxAge == old(maxAge)
    {
      var todo := time.Keys;
      ghost var t0 := time;
      ghost var d0 := data;
      while todo != {}
        invariant todo <= t0.Keys && maxAge == old(maxAge)
        invariant time.Keys <= t0.Keys && data.Keys == time.Keys
        invariant forall k | k in t0 :: k in time <==> (k in todo || t0[k] == now)
        invariant forall k | k in time :: time[k] == t0[k] && data[k] == d0[k]
        decreases todo
      {
        var k :| k in todo;
        if now - time[k] != 0 {
          time := time - {k};
          data := data - {k};
        }
        todo := todo - {k};
      }
      assert time == UnexpiredAsWritten(t0, now);
      assert data == Restrict(d0, time.Keys);
    }
  }
}

=== FILE: urlmap.dfy ===
/*
 * InjectStack\UrlMapEndpoint: routes a request to the callback registered
 * under the longest URL prefix of its PATH_INFO, moving the matched prefix
 * from PATH_INFO to SCRIPT_NAME.
 *
 * The route table is an ordered PHP array of (pattern, callback) pairs.
 * `remap` normalises each pattern to '/' + trim(pattern, '/'), stores it
 * (a repeated pattern overwrites in place) and re-sorts the table by
 * pattern length, longest first; PHP's sort is stable, so patterns of the
 * same length keep their insertion order.
 */
module UrlMap {
  import opened Php
  import opened Gateway

  type Route = (string, App)

  /** array(404, array(), '') */
  const NotFound: Reply := Some(Response(404, [], Text("")))

  // ---------------------------------------------------------------- patterns

  /** A stored pattern: a single leading '/', and no trailing '/' unless the
      pattern is the root itself. */
  predicate Normal(k: string) {
    |k| >= 1 && k[0] == '/' && (|k| == 1 || (k[1] != '/' && k[|k| - 1] != '/'))
  }

  /** '/'.trim($url, '/') */
  function Normalise(url: string): (r: string)
    ensures Normal(r)
    ensures r[1..] == Trim(url, {'/'})
  {
    "/" + Trim(url, {'/'})
  }

  lemma {:induction false} NormaliseRoot()
    ensures Normalise("") == "/"
  {
    assert Ltrim("", {'/'}) == "" && Rtrim("", {'/'}) == "";
  }

  lemma {:induction false} NormaliseAddsSlash()
    ensures Normalise("without") == "/without"
  {
    LtrimStops("without", {'/'});
    RtrimStops("without", {'/'});
  }

  lemma {:induction false} NormaliseTrims()
    ensures Normalise("/am/big/") == "/am/big"
  {
    var s := "/am/big/";
    LtrimStops(s[1..], {'/'});
    assert Ltrim(s, {'/'}) == s[1..];
    var t := s[1..];
    assert t[..|t| - 1] == "am/big";
    RtrimStops("am/big", {'/'});
    assert Rtrim(t, {'/'}) == "am/big";
  }

  /** A normal pattern other than the root loses nothing to rtrim($p, '/');
      the root loses its only character. */
  lemma {:induction false} RtrimNormal(k: string)
    requires Normal(k)
    ensures Rtrim(k, {'/'}) == if k == "/" then "" else k
  {
    if k == "/" {
      assert Rtrim(k[..0], {'/'}) == "";
    } else {
      RtrimStops(k, {'/'});
    }
  }

  // ---------------------------------------------------------------- the table

  /** The foreach of remap(): each pair stored under its normalised pattern. */
  function PutAll(a: seq<Route>, m: seq<Route>): seq<Route>
    decreases |m|
  {
    if m == [] then a else PutAll(Put(a, Normalise(m[0].0), m[0].1), m[1..])
  }

  /** The destination a lookup of `k` finds after storing `m` over a table
      whose lookup of `k` gave `d`: the last pair of `m` whose pattern
      normalises to `k`, if any. */
  function LastFor(m: seq<Route>, k: string, d: Option<App>): Option<App>
    decreases |m|
  {
    if m == [] then d
    else LastFor(m[1..], k, if Normalise(m[0].0) == k then Some(m[0].1) else d)
  }

  lemma {:induction false} LookupPutAll(a: seq<Route>, m: seq<Route>, k: string)
    ensures Lookup(PutAll(a, m), k) == LastFor(m, k, Lookup(a, k))
    decreases |m|
  {
    if m != [] {
      var a' := Put(a, Normalise(m[0].0), m[0].1);
      LookupPut(a, Normalise(m[0].0), m[0].1, k);
      LookupPutAll(a', m[1..], k);
    }
  }

  /** Every stored pattern is normal and no pattern is stored twice. */
  predicate WellFormed(a: seq<Route>) {
    UniqueKeys(a) && forall i | 0 <= i < |a| :: Normal(a[i].0)
  }

  lemma {:induction false} PutAllWellFormed(a: seq<Route>, m: seq<Route>)
    requires WellFormed(a)
    ensures WellFormed(PutAll(a, m))
    decreases |m|
  {
    if m != [] {
      var k := Normalise(m[0].0);
      var a' := Put(a, k, m[0].1);
      PutKeepsUnique(a, k, m[0].1);
      PutKeepsKeyOrder(a, k, m[0].1);
      forall i | 0 <= i < |a'| ensures Normal(a'[i].0) {
        assert Keys(a')[i] == a'[i].0;
        if i < |a| {
          assert Keys(a)[i] == a[i].0;
        }
      }
      PutAllWellFormed(a', m[1..]);
    }
  }

  // ---------------------------------------------------------------- uksort

  predicate SortedByLength(a: seq<Route>) {
    forall i, j | 0 <= i < j < |a| :: |a[i].0| >= |a[j].0|
  }

  /** Places `e` after every entry whose pattern is at least as long. */
  function Insert(e: Route, t: seq<Route>): (r: seq<Route>)
    ensures |r| == |t| + 1
  {
    if t == [] then [e]
    else if |t[0].0| >= |e.0| then [t[0]] + Insert(e, t[1..])
    else [e] + t
  }

  /** uksort by strlen($two) - strlen($one), stable. */
  function SortByLength(a: seq<Route>): (r: seq<Route>)
    ensures |r| == |a|
  {
    if a == [] then [] else Insert(a[|a| - 1], SortByLength(a[..|a| - 1]))
  }

  lemma {:induction false} InsertMembers(e: Route, t: seq<Route>)
    ensures forall x :: x in Insert(e, t) <==> x == e || x in t
  {
    if t != [] && |t[0].0| >= |e.0| {
      InsertMembers(e, t[1..]);
      assert t == [t[0]] + t[1..];
    }
  }

  lemma {:induction false} InsertSorted(e: Route, t: seq<Route>)
    requires SortedByLength(t)
    ensures SortedByLength(Insert(e, t))
  {
    if t != [] && |t[0].0| >= |e.0| {
      InsertSorted(e, t[1..]);
      InsertMembers(e, t[1..]);
      var r := Insert(e, t);
      forall j | 0 < j < |r| ensures |r[0].0| >= |r[j].0| {
        assert r[j] in Insert(e, t[1..]);
      }
    }
  }

  lemma {:induction false} SortMembers(a: seq<Route>)
    ensures forall x :: x in SortByLength(a) <==> x in a
  {
    if a != [] {
      var p := a[..|a| - 1];
      SortMembers(p);
      InsertMembers(a[|a| - 1], SortByLength(p));
      assert a == p + [a[|a| - 1]];
    }
  }

  lemma {:induction false} SortSorted(a: seq<Route>)
    ensures SortedByLength(SortByLength(a))
  {
    if a != [] {
      SortSorted(a[..|a| - 1]);
      InsertSorted(a[|a| - 1], SortByLength(a[..|a| - 1]));
    }
  }

  lemma {:induction false} InsertUnique(e: Route, t: seq<Route>)
    requires UniqueKeys(t) && forall x | x in t :: x.0 != e.0
    ensures UniqueKeys(Insert(e, t))
  {
    if t != [] && |t[0].0| >= |e.0| {
      InsertUnique(e, t[1..]);
      InsertMembers(e, t[1..]);
      var r := Insert(e, t);
      forall j | 0 < j < |r| ensures r[0].0 != r[j].0 {
        assert r[j] in Insert(e, t[1..]);
        if r[j] != e {
          var k :| 0 <= k < |t[1..]| && t[1..][k] == r[j];
          assert t[k + 1] == r[j];
        }
      }
    }
  }

  lemma {:induction false} SortUnique(a: seq<Route>)
    requires UniqueKeys(a)
    ensures UniqueKeys(SortByLength(a))
  {
    if a != [] {
      var p := a[..|a| - 1];
      var e := a[|a| - 1];
      SortUnique(p);
      SortMembers(p);
      forall x | x in SortByLength(p) ensures x.0 != e.0 {
        var k :| 0 <= k < |p| && p[k] == x;
      }
      InsertUnique(e, SortByLength(p));
    }
  }

  /** The entries whose pattern has length `n`, in table order. */
  function OfLength(a: seq<Route>, n: nat): seq<Route> {
    if a == [] then []
    else (if |a[0].0| == n then [a[0]] else []) + OfLength(a[1..], n)
  }

  lemma {:induction false} OfLengthAppend(a: seq<Route>, b: seq<Route>, n: nat)
    ensures OfLength(a + b, n) == OfLength(a, n) + OfLength(b, n)
  {
    if a != [] {
      assert (a + b)[1..] == a[1..] + b;
      OfLengthAppend(a[1..], b, n);
    } else {
      assert a + b == b;
    }
  }

  lemma {:induction false} OfLengthShorter(t: seq<Route>, n: nat)
    requires forall i | 0 <= i < |t| :: |t[i].0| < n
    ensures OfLength(t, n) == []
  {
    if t != [] {
      OfLengthShorter(t[1..], n);
    }
  }

  lemma {:induction false} InsertStable(e: Route, t: seq<Route>, n: nat)
    requires SortedByLength(t)
    ensures OfLength(Insert(e, t), n) == OfLength(t, n) + if |e.0| == n then [e] else []
  {
    if t == [] {
    } else if |t[0].0| >= |e.0| {
      SortedTail(t);
      InsertStable(e, t[1..], n);
      OfLengthCons(t[0], Insert(e, t[1..]), n);
      OfLengthCons(t[0], t[1..], n);
      assert [t[0]] + t[1..] == t;
    } else {
      if |e.0| == n {
        SortedBelow(t, n);
        OfLengthShorter(t, n);
      }
      OfLengthCons(e, t, n);
    }
  }

  lemma {:induction false} OfLengthCons(x: Route, t: seq<Route>, n: nat)
    ensures OfLength([x] + t, n) == (if |x.0| == n then [x] else []) + OfLength(t, n)
  {
    assert ([x] + t)[1..] == t;
  }

  lemma {:induction false} SortedTail(t: seq<Route>)
    requires t != [] && SortedByLength(t)
    ensures SortedByLength(t[1..])
  {
    forall i, j | 0 <= i < j < |t[1..]| ensures |t[1..][i].0| >= |t[1..][j].0| {
      assert t[1..][i] == t[i + 1] && t[1..][j] == t[j + 1];
    }
  }

  lemma {:induction false} SortedBelow(t: seq<Route>, n: nat)
    requires t != [] && SortedByLength(t) && |t[0].0| < n
    ensures forall i | 0 <= i < |t| :: |t[i].0| < n
  {
    forall i | 0 < i < |t| ensures |t[i].0| < n {
      assert |t[0].0| >= |t[i].0|;
    }
  }

  /** The sort is stable: for every length, the entries of that length keep
      their relative order. */
  lemma {:induction false} SortStable(a: seq<Route>, n: nat)
    ensures OfLength(SortByLength(a), n) == OfLength(a, n)
  {
    if a != [] {
      var p := a[..|a| - 1];
      var e := a[|a| - 1];
      SortStable(p, n);
      SortSorted(p);
      InsertStable(e, SortByLength(p), n);
      assert a == p + [e];
      OfLengthAppend(p, [e], n);
    }
  }

  /** On a table without repeated patterns a lookup finds exactly the
      stored pairs. */
  lemma {:induction false} LookupUnique(a: seq<Route>, k: string, v: App)
    requires UniqueKeys(a)
    ensures Lookup(a, k) == Some(v) <==> (k, v) in a
  {
    if (k, v) in a {
      var i :| 0 <= i < |a| && a[i] == (k, v);
      assert Keys(a)[i] == k;
      var w := Lookup(a, k).value;
      var j :| 0 <= j < |a| && a[j] == (k, w);
      assert i == j;
    }
  }

  lemma {:induction false} SortLookup(a: seq<Route>, k: string)
    requires UniqueKeys(a)
    ensures Lookup(SortByLength(a), k) == Lookup(a, k)
  {
    var r := SortByLength(a);
    SortUnique(a);
    SortMembers(a);
    match Lookup(a, k)
    case Some(v) =>
      LookupUnique(a, k, v);
      LookupUnique(r, k, v);
    case None =>
      forall i | 0 <= i < |r| ensures Keys(r)[i] != k {
        assert r[i] in r;
        var j :| 0 <= j < |a| && a[j] == r[i];
        assert Keys(a)[j] == r[i].0;
      }
  }

  // ---------------------------------------------------------------- matching

  /** preg_replace('#(?<=/)/+#', '', $s): each run of '/' becomes one. */
  function Collapse(s: string): (r: string)
    ensures |r| <= |s|
    ensures s != [] ==> r != [] && r[0] == s[0]
    decreases |s|
  {
    if |s| >= 2 && s[0] == '/' && s[1] == '/' then Collapse(s[1..])
    else if s == [] then []
    else [s[0]] + Collapse(s[1..])
  }

  predicate NoDoubleSlash(s: string) {
    forall i | 0 <= i < |s| - 1 :: !(s[i] == '/' && s[i + 1] == '/')
  }

  lemma {:induction false} CollapseNoDoubleSlash(s: string)
    ensures NoDoubleSlash(Collapse(s))
    decreases |s|
  {
    if |s| >= 2 && s[0] == '/' && s[1] == '/' {
      CollapseNoDoubleSlash(s[1..]);
    } else if s != [] {
      CollapseNoDoubleSlash(s[1..]);
      var r := Collapse(s);
      forall i | 0 <= i < |r| - 1 ensures !(r[i] == '/' && r[i + 1] == '/') {
        if i > 0 {
          assert r[i] == Collapse(s[1..])[i - 1] && r[i + 1] == Collapse(s[1..])[i];
        }
      }
    }
  }

  /** A path without a double slash is left as it is, so collapsing twice is
      collapsing once. */
  lemma {:induction false} CollapseFixed(s: string)
    requires NoDoubleSlash(s)
    ensures Collapse(s) == s
  {
    if s != [] {
      assert |s| >= 2 ==> !(s[0] == '/' && s[1] == '/');
      assert NoDoubleSlash(s[1..]) by {
        forall i | 0 <= i < |s[1..]| - 1 ensures !(s[1..][i] == '/' && s[1..][i + 1] == '/') {
          assert s[1..][i] == s[i + 1] && s[1..][i + 1] == s[i + 2];
        }
      }
      CollapseFixed(s[1..]);
    }
  }

  lemma {:induction false} CollapseIdempotent(s: string)
    ensures Collapse(Collapse(s)) == Collapse(s)
  {
    CollapseNoDoubleSlash(s);
    CollapseFixed(Collapse(s));
  }

  /** The test of the foreach as written: stripos($path, $pattern) === 0,
      then `empty($rest) OR $rest[0] == '/'` on the rest after the whole
      pattern, where "0" counts as empty. */
  predicate MatchesAsWritten(path: string, pattern: string) {
    StartsWithIgnoreCase(path, pattern)
    && (EmptyStr(path[|pattern|..]) || path[|pattern|] == '/')
  }

  /** The test as intended: the pattern without its trailing '/' is a
      case-insensitive prefix that ends at a segment boundary. The root
      pattern then matches every rooted path, as the class documentation
      promises, and a rest of "0" is a rest like any other. */
  predicate Matches(path: string, pattern: string) {
    var p := Rtrim(pattern, {'/'});
    StartsWithIgnoreCase(path, p) && (|path| == |p| || path[|p|] == '/')
  }

  /** The rest of the path after a matched pattern. */
  function Rest(path: string, pattern: string): string
    requires Matches(path, pattern)
  {
    path[|Rtrim(pattern, {'/'})|..]
  }

  /** The first table entry whose pattern `Matches` the path. */
  function FirstMatch(a: seq<Route>, path: string): (r: Option<nat>)
    ensures r.Some? ==> r.value < |a| && Matches(path, a[r.value].0)
    ensures r.Some? ==> forall j | 0 <= j < r.value :: !Matches(path, a[j].0)
    ensures r.None? ==> forall j | 0 <= j < |a| :: !Matches(path, a[j].0)
  {
    if a == [] then None
    else if Matches(path, a[0].0) then Some(0)
    else match FirstMatch(a[1..], path)
      case None => None
      case Some(i) => Some(i + 1)
  }

  function FirstMatchAsWritten(a: seq<Route>, path: string): (r: Option<nat>)
    ensures r.Some? ==> r.value < |a| && MatchesAsWritten(path, a[r.value].0)
    ensures r.Some? ==> forall j | 0 <= j < r.value :: !MatchesAsWritten(path, a[j].0)
    ensures r.None? ==> forall j | 0 <= j < |a| :: !MatchesAsWritten(path, a[j].0)
  {
    if a == [] then None
    else if MatchesAsWritten(path, a[0].0) then Some(0)
    else match FirstMatchAsWritten(a[1..], path)
      case None => None
      case Some(i) => Some(i + 1)
  }

  /** The env the matched callback receives: the old SCRIPT_NAME saved, the
      matched text moved from PATH_INFO to SCRIPT_NAME. */
  function Rewrite(env: Env, path: string, pattern: string): (r: Env)
    requires Matches(path, pattern)
    ensures Get(r, "urlmap.orig.SCRIPT_NAME") == Get(env, "SCRIPT_NAME")
    ensures forall k | k in env && k !in {"PATH_INFO", "SCRIPT_NAME", "urlmap.orig.SCRIPT_NAME"} :: k in r && r[k] == env[k]
  {
    var p := Rtrim(pattern, {'/'});
    var rest := path[|p|..];
    env["urlmap.orig.SCRIPT_NAME" := Get(env, "SCRIPT_NAME")]
       ["SCRIPT_NAME" := Str(ToStr(Get(env, "SCRIPT_NAME")) + p)]
       ["PATH_INFO" := Str(if rest == "" then "/" else rest)]
  }

  function RewriteAsWritten(env: Env, path: string, pattern: string): Env
    requires MatchesAsWritten(path, pattern)
  {
    var rest := path[|pattern|..];
    env["urlmap.orig.SCRIPT_NAME" := Get(env, "SCRIPT_NAME")]
       ["SCRIPT_NAME" := Str(ToStr(Get(env, "SCRIPT_NAME")) + Rtrim(pattern, {'/'}))]
       ["PATH_INFO" := Str(if EmptyStr(rest) then "/" else rest)]
  }

  /** The collapsed PATH_INFO that __invoke matches against. */
  function PathOf(env: Env): string {
    Collapse(ToStr(Get(env, "PATH_INFO")))
  }

  /** __invoke as intended: the first matching callback is called with the
      rewritten env; without a match the answer is a bare 404. */
  function Dispatch(a: seq<Route>, env: Env): Reply {
    var path := PathOf(env);
    match FirstMatch(a, path)
    case None => NotFound
    case Some(i) => a[i].1(Rewrite(env, path, a[i].0))
  }

  function DispatchAsWritten(a: seq<Route>, env: Env): Reply {
    var path := PathOf(env);
    match FirstMatchAsWritten(a, path)
    case None => NotFound
    case Some(i) => a[i].1(RewriteAsWritten(env, path, a[i].0))
  }

  // ---------------------------------------------------------------- the class

  class UrlMapEndpoint {
    /** The $map field: the route table, normalised, without repeats, longest first. */
    var routes: seq<Route>

    predicate Valid()
      reads this
    {
      WellFormed(routes) && SortedByLength(routes)
    }

    constructor (m: seq<Route>)
      ensures routes == SortByLength(PutAll([], m))
      ensures Valid()
    {
      routes := [];
      new;
      Remap(m);
    }

    /** remap(): store every pair under its normalised pattern, then sort. */
    method Remap(m: seq<Route>)
      requires Valid()
      modifies this
      ensures routes == SortByLength(PutAll(old(routes), m))
      ensures Valid()
      ensures forall k :: Lookup(routes, k) == LastFor(m, k, Lookup(old(routes), k))
    {
      var i := 0;
      while i < |m|
        invariant 0 <= i <= |m|
        invariant PutAll(routes, m[i..]) == PutAll(old(routes), m)
        invariant WellFormed(routes)
      {
        assert m[i..][1..] == m[i + 1..];
        PutAllWellFormed(routes, [m[i]]);
        assert PutAll(routes, [m[i]]) == Put(routes, Normalise(m[i].0), m[i].1);
        routes := Put(routes, Normalise(m[i].0), m[i].1);
        i := i + 1;
      }
      ghost var stored := routes;
      routes := SortByLength(routes);
      SortSorted(stored);
      SortUnique(stored);
      SortMembers(stored);
      forall j | 0 <= j < |routes| ensures Normal(routes[j].0) {
        assert routes[j] in routes;
        var k :| 0 <= k < |stored| && stored[k] == routes[j];
      }
      forall k ensures Lookup(routes, k) == LastFor(m, k, Lookup(old(routes), k)) {
        SortLookup(stored, k);
        LookupPutAll(old(routes), m, k);
      }
    }

    /** __invoke(): the foreach over the table with an early return. */
    method Invoke(env: Env) returns (r: Reply)
      requires Valid()
      ensures r == Dispatch(routes, env)
    {
      var path := PathOf(env);
      var i := 0;
      while i < |routes|
        invariant 0 <= i <= |routes|
        invariant forall j | 0 <= j < i :: !Matches(path, routes[j].0)
      {
        var pattern := routes[i].0;
        var p := Rtrim(pattern, {'/'});
        if StartsWithIgnoreCase(path, p) && (|path| == |p| || path[|p|] == '/') {
          MatchesAt(routes, path, i);
          r := routes[i].1(Rewrite(env, path, pattern));
          return;
        }
        i := i + 1;
      }
      NoMatch(routes, path);
      r := NotFound;
    }
  }

  /** The loop's exit at the first matching pattern. */
  lemma {:induction false} MatchesAt(a: seq<Route>, path: string, k: nat)
    requires k < |a| && Matches(path, a[k].0)
    requires forall j | 0 <= j < k :: !Matches(path, a[j].0)
    ensures FirstMatch(a, path) == Some(k)
  {
    if k > 0 {
      MatchesAt(a[1..], path, k - 1);
    }
  }

  /** The loop's exit when no pattern matches. */
  lemma {:induction false} NoMatch(a: seq<Route>, path: string)
    requires forall j | 0 <= j < |a| :: !Matches(path, a[j].0)
    ensures FirstMatch(a, path) == None
  {
    if a != [] {
      NoMatch(a[1..], path);
    }
  }

  // ---------------------------------------------------------------- properties

  /** On a sorted table the callback called belongs to a longest matching
      pattern; with no matching pattern the answer is the bare 404. */
  lemma {:induction false} LongestMatchWins(a: seq<Route>, env: Env)
    requires SortedByLength(a)
    ensures FirstMatch(a, PathOf(env)).None? ==> Dispatch(a, env) == NotFound
    ensures forall i, j | FirstMatch(a, PathOf(env)) == Some(i) && 0 <= j < |a| && Matches(PathOf(env), a[j].0) ::
              |a[j].0| <= |a[i].0|
  {
  }

  /** The root pattern matches every empty or rooted PATH_INFO. */
  lemma {:induction false} RootAlwaysMatches(path: string)
    requires path == [] || path[0] == '/'
    ensures Matches(path, "/") && Rest(path, "/") == path
  {
    RtrimNormal("/");
  }

  /** Outside the root and a rest of "0", the intended test and the written
      one agree. */
  lemma {:induction false} MatchesAgree(path: string, pattern: string)
    requires Normal(pattern) && pattern != "/"
    requires !(StartsWithIgnoreCase(path, pattern) && path[|pattern|..] == "0")
    ensures Matches(path, pattern) <==> MatchesAsWritten(path, pattern)
  {
    RtrimNormal(pattern);
    if StartsWithIgnoreCase(path, pattern) && |path| > |pattern| {
      assert path[|pattern|..][0] == path[|pattern|];
    }
  }

  /** The rewrite only moves text: the new SCRIPT_NAME followed by the new
      PATH_INFO spells the old SCRIPT_NAME followed by the path, up to the
      letter case of the matched prefix, and a '/' when nothing is left. */
  lemma {:induction false} RewriteSplitsPath(env: Env, path: string, pattern: string)
    requires Matches(path, pattern)
    ensures var r := Rewrite(env, path, pattern);
            var old_name := ToStr(Get(env, "SCRIPT_NAME"));
            var name := ToStr(r["SCRIPT_NAME"]);
            var info := ToStr(r["PATH_INFO"]);
            |name| == |old_name| + |Rtrim(pattern, {'/'})|
            && old_name <= name
            && Lower(name[|old_name|..]) == Lower(path[..|name| - |old_name|])
            && info == (if Rest(path, pattern) == "" then "/" else Rest(path, pattern))
            && (Rest(path, pattern) != "" ==> |name| + |info| == |old_name| + |path| && info == path[|name| - |old_name|..])
  {
    var p := Rtrim(pattern, {'/'});
    var old_name := ToStr(Get(env, "SCRIPT_NAME"));
    RewriteFields(env, path, pattern);
    PrefixMoved(old_name, p, path);
  }

  lemma {:induction false} RewriteFields(env: Env, path: string, pattern: string)
    requires Matches(path, pattern)
    ensures var r := Rewrite(env, path, pattern);
            ToStr(r["SCRIPT_NAME"]) == ToStr(Get(env, "SCRIPT_NAME")) + Rtrim(pattern, {'/'})
            && ToStr(r["PATH_INFO"]) == (if Rest(path, pattern) == "" then "/" else Rest(path, pattern))
  {
  }

  /** Moving a matched prefix of the path onto the end of a name. */
  lemma {:induction false} PrefixMoved(old_name: string, p: string, path: string)
    requires StartsWithIgnoreCase(path, p)
    ensures var name := old_name + p;
            |name| == |old_name| + |p| && old_name <= name
            && Lower(name[|old_name|..]) == Lower(path[..|name| - |old_name|])
            && (path[|p|..] != "" ==> |name| + |path[|p|..]| == |old_name| + |path| && path[|p|..] == path[|name| - |old_name|..])
  {
    assert (old_name + p)[|old_name|..] == p;
  }

  /** As written, the root pattern matches a collapsed path only when
      what follows the '/' is PHP-empty, so "/foo" falls through to 404. */
  lemma {:induction false} RootAsWrittenExample(app: App, env: Env)
    requires Get(env, "PATH_INFO") == Str("/foo")
    ensures DispatchAsWritten([("/", app)], env) == NotFound
    ensures Dispatch([("/", app)], env) == app(Rewrite(env, "/foo", "/"))
  {
    var s := "/foo";
    assert Collapse(s[3..]) == "o";
    assert Collapse(s[2..]) == "oo";
    assert Collapse(s[1..]) == "foo";
    assert PathOf(env) == "/foo";
    assert !MatchesAsWritten("/foo", "/");
    RootAlwaysMatches("/foo");
  }

  /** As written, "/foo0" takes the "/foo" route with PATH_INFO '/',
      because the rest "0" is PHP-empty; as intended it is no match. */
  lemma {:induction false} ZeroRestExample(app: App, env: Env)
    requires Get(env, "PATH_INFO") == Str("/foo0")
    ensures DispatchAsWritten([("/foo", app)], env) == app(RewriteAsWritten(env, "/foo0", "/foo"))
    ensures RewriteAsWritten(env, "/foo0", "/foo")["PATH_INFO"] == Str("/")
    ensures Dispatch([("/foo", app)], env) == NotFound
  {
    var s := "/foo0";
    assert Collapse(s[4..]) == "0";
    assert Collapse(s[3..]) == "o0";
    assert Collapse(s[2..]) == "oo0";
    assert Collapse(s[1..]) == "foo0";
    assert PathOf(env) == "/foo0";
    assert Lower(s[..4]) == Lower("/foo");
    assert MatchesAsWritten("/foo0", "/foo");
    RtrimNormal("/foo");
    assert !Matches("/foo0", "/foo");
  }
}

=== FILE: util.dfy ===
/*
 * InjectStack\Util: the reason-phrase table and the request-method check.
 */
module Util {
  import opened Php

  /** The request methods HTTP/1.1 defines, in the order the class lists them. */
  const RequestMethods: seq<string> :=
    ["CONNECT", "DELETE", "GET", "HEAD", "OPTIONS", "POST", "PUT", "TRACE"]

  /** getHttpStatusText(): the reason phrase of a listed status code; an
      unlisted code has no entry (PHP yields null, which prints as ""). */
  function StatusText(code: int): Option<string> {
    match code
    case 100 => Some("Continue")
    case 101 => Some("Switching Protocols")
    case 200 => Some("OK")
    case 201 => Some("Created")
    case 202 => Some("Accepted")
    case 203 => Some("Non-Authoritative Information")
    case 204 => Some("No Content")
    case 205 => Some("Reset Content")
    case 206 => Some("Partial Content")
    case 300 => Some("Multiple Choices")
    case 301 => Some("Moved Permanently")
    case 302 => Some("Found")
    case 303 => Some("See Other")
    case 304 => Some("Not Modified")
    case 305 => Some("Use Proxy")
    case 307 => Some("Temporary Redirect")
    case 400 => Some("Bad Request")
    case 401 => Some("Unauthorized")
    case 402 => Some("Payment Required")
    case 403 => Some("Forbidden")
    case 404 => Some("Not Found")
    case 405 => Some("Method Not Allowed")
    case 406 => Some("Not Acceptable")
    case 407 => Some("Proxy Authentication Required")
    case 408 => Some("Request Timeout")
    case 409 => Some("Conflict")
    case 410 => Some("Gone")
    case 411 => Some("Length Required")
    case 412 => Some("Precondition Failed")
    case 413 => Some("Request Entity Too Large")
    case 414 => Some("Request-URI Too Long")
    case 415 => Some("Unsupported Media Type")
    case 416 => Some("Requested Range Not Satisfiable")
    case 417 => Some("Expectation Failed")
    case 418 => Some("I'm a teapot")
    case 444 => Some("No Response")
    case 500 => Some("Internal Server Error")
    case 501 => Some("Not Implemented")
    case 502 => Some("Bad Gateway")
    case 503 => Some("Service Unavailable")
    case 504 => Some("Gateway Timeout")
    case 505 => Some("HTTP Version Not Supported")
    case _ => None
  }

  /** The phrase as it is printed into a status line. */
  function StatusPhrase(code: int): string {
    StatusText(code).GetOr("")
  }

  /** A reason phrase as section 3.1.2 of RFC 7230 allows it: spaces, tabs
      and visible ASCII, in particular no CR or LF. */
  predicate ReasonPhrase(s: string) {
    forall i | 0 <= i < |s| :: s[i] == ' ' || s[i] == '\t' || ('!' <= s[i] <= '~')
  }

  /** The codes the adapters answer with on their own. */
  lemma {:induction false} AdapterErrorPhrases()
    ensures ReasonPhrase(StatusPhrase(400)) && ReasonPhrase(StatusPhrase(414))
    ensures ReasonPhrase(StatusPhrase(501)) && ReasonPhrase(StatusPhrase(505))
  {
    AdapterErrorPhrase(400);
    AdapterErrorPhrase(414);
    AdapterErrorPhrase(501);
    AdapterErrorPhrase(505);
  }

  lemma {:induction false} PhraseLiteral(s: string)
    requires forall i | 0 <= i < |s| :: ' ' <= s[i] <= '~'
    ensures ReasonPhrase(s)
  {
  }

  lemma {:induction false} AdapterErrorPhrase(code: int)
    requires code in {400, 414, 501, 505}
    ensures ReasonPhrase(StatusPhrase(code))
  {
    if code == 400 {
      assert StatusPhrase(code) == "Bad Request";
      PhraseLiteral("Bad Request");
    } else if code == 414 {
      assert StatusPhrase(code) == "Request-URI Too Long";
      PhraseLiteral("Request-URI Too Long");
    } else if code == 501 {
      assert StatusPhrase(code) == "Not Implemented";
      PhraseLiteral("Not Implemented");
    } else {
      assert StatusPhrase(code) == "HTTP Version Not Supported";
      PhraseLiteral("HTTP Version Not Supported");
    }
  }

  lemma {:induction false} AdapterErrorTexts()
    ensures StatusText(400) == Some("Bad Request")
    ensures StatusText(414) == Some("Request-URI Too Long")
    ensures StatusText(501) == Some("Not Implemented")
    ensures StatusText(505) == Some("HTTP Version Not Supported")
    ensures StatusText(200) == Some("OK") && StatusText(404) == Some("Not Found")
    ensures StatusText(306) == None && StatusText(0) == None
  {
  }

  /** The list of accepted methods as the error message spells it: all but
      the last joined by ", ", then " and " and the last one. */
  function AcceptedMethodsText(): string {
    Implode(", ", RequestMethods[..|RequestMethods| - 1]) + " and " + RequestMethods[|RequestMethods| - 1]
  }

  lemma {:induction false} AcceptedMethodsJoined()
    ensures Implode(", ", RequestMethods[..|RequestMethods| - 1]) ==
              "CONNECT" + ", " + ("DELETE" + ", " + ("GET" + ", " + ("HEAD" + ", " + ("OPTIONS" + ", " + ("POST" + ", " + "PUT")))))
  {
    assert RequestMethods[..|RequestMethods| - 1] == ["CONNECT", "DELETE", "GET", "HEAD", "OPTIONS", "POST", "PUT"];
    ImplodeCons(", ", "POST", ["PUT"]);
    ImplodeCons(", ", "OPTIONS", ["POST", "PUT"]);
    ImplodeCons(", ", "HEAD", ["OPTIONS", "POST", "PUT"]);
    ImplodeCons(", ", "GET", ["HEAD", "OPTIONS", "POST", "PUT"]);
    ImplodeCons(", ", "DELETE", ["GET", "HEAD", "OPTIONS", "POST", "PUT"]);
    ImplodeCons(", ", "CONNECT", ["DELETE", "GET", "HEAD", "OPTIONS", "POST", "PUT"]);
  }

  lemma {:induction false} AcceptedMethodsTextSpelled()
    ensures AcceptedMethodsText() ==
              "CONNECT" + ", " + ("DELETE" + ", " + ("GET" + ", " + ("HEAD" + ", " + ("OPTIONS" + ", " + ("POST" + ", " + "PUT")))))
              + " and " + "TRACE"
  {
    AcceptedMethodsJoined();
  }

  /** checkRequestMethod(): the upper-cased method when it is one of the
      listed ones, otherwise the message of the exception it throws. */
  function CheckRequestMethod(requestMethod: string, postOverride: bool): (r: Result<string, string>)
    ensures r.Success? <==> Upper(requestMethod) in RequestMethods
    ensures r.Success? ==> r.value == Upper(requestMethod) && r.value in RequestMethods
    ensures r.Failure? ==> r.error == MethodErrorMessage(Upper(requestMethod), postOverride)
  {
    var m := Upper(requestMethod);
    if m in RequestMethods then Success(m)
    else Failure(MethodErrorMessage(m, postOverride))
  }

  function MethodErrorMessage(m: string, postOverride: bool): string {
    if postOverride then
      "Unknown HTTP request method " + m + " specified by \"_method\" in POST data, accepted HTTP methods are: " + AcceptedMethodsText() + "."
    else
      "Unknown HTTP request method " + m + ", accepted HTTP methods are: " + AcceptedMethodsText() + "."
  }

  /** The check ignores the case of its input. */
  lemma {:induction false} CheckRequestMethodIgnoresCase(requestMethod: string, postOverride: bool)
    ensures CheckRequestMethod(Lower(requestMethod), postOverride) == CheckRequestMethod(requestMethod, postOverride)
  {
    assert Upper(Lower(requestMethod)) == Upper(requestMethod);
  }

  /** An accepted method is accepted again, unchanged. */
  lemma {:induction false} CheckRequestMethodIdempotent(requestMethod: string, a: bool, b: bool)
    requires CheckRequestMethod(requestMethod, a).Success?
    ensures CheckRequestMethod(CheckRequestMethod(requestMethod, a).value, b) == CheckRequestMethod(requestMethod, a)
  {
    UpperIdempotent(requestMethod);
  }

  /** post_override changes the wording of the error and nothing else. */
  lemma {:induction false} PostOverrideOnlyChangesMessage(requestMethod: string)
    ensures CheckRequestMethod(requestMethod, true).Success? == CheckRequestMethod(requestMethod, false).Success?
    ensures CheckRequestMethod(requestMethod, true).Success? ==> CheckRequestMethod(requestMethod, true) == CheckRequestMethod(requestMethod, false)
  {
  }
}
